=== FILE: README.md ===
# Spore tree and grandchild pairing, modelled in Dafny

The system grows a two-level "spore tree" of pendulum states:

- The root is the initial state `[theta, theta_dot]`.
- Four children step away from the root under the extreme controls, forward and backward in time.
- Eight grandchildren step away from their children under the negated control, one forward and one backward per child.

The rest of the system searches for pairs of grandchildren that can meet:

- closing-rate tables of the grandchildren;
- a threshold filter;
- a per-pair optimiser whose answer is accepted or rejected by fixed rules;
- distance and time tables;
- per-grandchild chronologies of meetings;
- greedy disjoint matching.

The chosen pairs' times are written back into a 12-entry dt vector. That vector then feeds the distance constraints and the triangle-area objective of the area optimiser.

This project models that discrete machinery as pure Dafny functions and methods over immutable datatypes, and proves what the code promises about it.

The numerical parts are parameters:

- The integrator `step(state, control, dt)`, the pendulum dynamics, the Euclidean norm and the `arctan2` sort key are fields of a `Pendulum` record or function arguments, with no properties assumed.
- The scipy solvers become functions from a pair to the candidate results they return (`x`, `fun`, `success`).
- NaN table cells are `None`, and `float('inf')` is a separate constructor.

## Modules

| file | module | models |
|---|---|---|
| common.dfy | Common | `Option`, `Result`, 2-vectors, `Pendulum`, NaN cells, signs |
| seqs.dfy | Seqs | sums, counts, `np.roll`, index permutations, Python slices, min/max/mean |
| sorting.dfy | Sorting | Python's stable `sorted` (ascending and `reverse=True`) by a real key |
| config.dfy | TreeConfig | `SporeTreeConfig` |
| spore_tree.dfy | SporeTree | `SporeTree`: children, grandchildren, candidate map, sort-and-pair, mean points, update |
| spawns.dfy | Spawns | the control/sign snapshot the area optimiser keeps of a tree |
| geometry.dfy | Geometry | the shoelace area and the triangle area |
| evaluator.dfy | TreeEvaluator | `TreeEvaluator`: build once, then update |
| topology.dfy | Topology | `create_tree_topology`, `calculate_grandchildren_positions`, `calculate_metrics` |
| convergence.dfy | Convergence | closing-rate tables |
| converging.dfy | Converging | the threshold filters and the pair names |
| optimize.dfy | Optimize | signed bounds, distance ceiling, candidate selection and the post-hoc checks |
| tables.dfy | Tables | filling the distance and time tables from records |
| build_tables.dfy | BuildTables | `build_grandchild_distance_tables`, `build_grandchild_parent_distance_tables` |
| meetings.dfy | Meetings | meeting records, chronology order, heads, patterns, recommendations |
| chronology.dfy | Chronology | `create_chronological_meetings`, `create_meeting_chronology`, `complete_meeting_analysis` |
| pairing.dfy | Pairing | both greedy extractors, their statistics, pair details |
| optimal_dt.dfy | OptimalDt | writing pair times back into the dt vector |
| pipeline.dfy | OldPipeline | `find_optimal_pairs` of the old pipeline: guards and stages |
| constraints.dfy | DistanceConstraints | `create_distance_constraints`, `test_constraints` |
| tree_area.dfy | TreeArea | the triangle-sum area kernel, `get_tree_area`, `TreeAreaEvaluator` |
| sqdist.dfy | SqDist | `pairwise_sqdist` |

All files form one program and are verified together, from this directory:

```
dafny verify --resource-limit 2000000 --verification-time-limit 0 --warn-contradictory-assumptions *.dfy
```

The proofs are written to stay within that resource limit on other solver seeds (`--boogie /randomSeed:N`) and without `--warn-contradictory-assumptions`.

## Model

| member | source | states |
|---|---|---|
| TreeConfig.MakeConfig | src/spore_tree_config.py:11-35 | A missing initial position becomes `[pi, 0]`; every other field is taken as given. |
| TreeConfig.Validate | src/spore_tree_config.py:49-74 | Validation passes exactly when dt_base > 0, factor > 0, the dt bounds are a non-empty interval, epsilon > 0 and the initial position has two entries; the first failing check in source order names the error. |
| TreeConfig.DefaultDtVector | src/spore_tree_config.py:37-47 | The default vector has 12 entries: four `dt_base`, then eight `dt_base * factor`. |
| TreeConfig.DefaultConfigValid | src/spore_tree_config.py:11-35 | The dataclass defaults start at `[pi, 0]` and pass validation. |
| TreeConfig.ValidDefaultDtVectorPositive | src/spore_tree_config.py:44-74 | Any configuration that validates has a strictly positive default dt vector. |
| TreeConfig.MakeConfigIdempotent | src/spore_tree_config.py:32-35 | Re-running the default rule on a constructed configuration changes nothing. |
| SporeTree.MakeChildren | src/spore_tree.py:148-178 | Four children, in the order (u_max, +), (u_max, -), (u_min, +), (u_min, -): child i keeps abs(dt_children[i]), its sign flips for the backward children, and its position is one step from the root. |
| SporeTree.CreateChildren | src/spore_tree.py:119-187 | Fails exactly when an explicit dt array does not have 4 entries; otherwise it defaults to four `dt_base`, sets the children flag and changes nothing but the children. A second call rebuilds them. |
| SporeTree.AutoGrandchildDts | src/spore_tree.py:217-224 | In auto mode, each grandchild's magnitude is its parent's abs(dt) times the factor, twice per parent. |
| SporeTree.MakeGrandchildren | src/spore_tree.py:228-281 | Eight grandchildren, two per parent in parent order, with global index 2*parent + local index; each has the negated parent control, local 0 steps forward (+dt) and local 1 backward (-dt). |
| SporeTree.OtherParents | src/spore_tree.py:314-317 | The candidate list of a grandchild holds exactly the grandchildren of the other parents. |
| SporeTree.CreateGrandchildren | src/spore_tree.py:189-292 | Fails when children are missing (RuntimeError) or an explicit array is not of length 8; otherwise it builds the grandchildren, rebuilds the candidate map and changes nothing else. On an already sorted tree the sorted list keeps pointing at the grandchildren it was built from, whatever later re-creations do. |
| SporeTree.RecreatedGrandchildrenFreezeMeans | src/spore_tree.py:599-622 | After re-creating the grandchildren of a sorted tree, both the mean points and an update's recomputed mean points are the midpoints of the old grandchildren's sorted pairs. |
| SporeTree.OtherParentsCount | src/spore_tree.py:310-319 | A candidate list has the grandchild count minus the two siblings of its parent. |
| SporeTree.OtherParentsAscending | src/spore_tree.py:319 | Candidate lists are strictly ascending. |
| SporeTree.CandidateListShape | src/spore_tree.py:310-319 | For eight laid-out grandchildren, each list has length 6, is ascending and holds exactly the indices of other parents: never the grandchild itself nor its sibling. |
| SporeTree.CandidateMapShape | src/spore_tree.py:295-319 | The candidate map's keys are exactly the grandchild indices 0..7, and every list has the shape above. |
| SporeTree.AngleKeys | src/spore_tree.py:372-376 | Each grandchild is keyed by the angle of its offset from the root. |
| SporeTree.FirstOfParentZero | src/spore_tree.py:388-394 | The roll offset is the first sorted position holding a grandchild of parent 0, or 0 when there is none. |
| SporeTree.PairOrder | src/spore_tree.py:388-404 | The rolled order is a permutation of the angle order. |
| SporeTree.CheckPairs | src/spore_tree.py:412-438 | The check passes exactly when all four pairs (0,1), (2,3), (4,5), (6,7) exist and join different parents; otherwise it names the first missing or same-parent pair. |
| SporeTree.SortAndPair | src/spore_tree.py:345-450 | Fails when grandchildren are missing; otherwise succeeds exactly when the rolled angle order pairs different parents, and then sets only the sorted list and flag. |
| SporeTree.CheckPairsAtStart | src/spore_tree.py:412-438 | Scanning all four pairs is the different-parents property, and a failure never reads as missing grandchildren. |
| SporeTree.PairOrderIsRotation | src/spore_tree.py:388-404 | Both rolls together are a single cyclic rotation. |
| SporeTree.SortedOrderCovers | src/spore_tree.py:379 | The sort is a permutation of the eight grandchildren. |
| SporeTree.SortAndPairRotatesAngleOrder | src/spore_tree.py:379-404 | The stored order is a cyclic rotation of the stable angle-descending sort. |
| SporeTree.PairOrderAnchorsParentZero | src/spore_tree.py:388-404 | After the rolls, a parent-0 grandchild is first; or, when the extra roll fired, positions 1 and 2 hold parent-0 grandchildren. |
| SporeTree.SortAndPairAnchorsParentZero | src/spore_tree.py:387-404 | The same anchoring holds for the order a successful sort stores. |
| SporeTree.PairMidpoints | src/spore_tree.py:485-498 | Mean point k is the midpoint of sorted grandchildren 2k and 2k+1. |
| SporeTree.CalculateMeanPoints | src/spore_tree.py:453-514 | Fails exactly when the sort has not run; otherwise it stores the four midpoints and changes nothing else. |
| SporeTree.KeepDirection | src/spore_tree.py:584-585 | The new dt is the new value times the old direction (`1 if dt > 0 else -1`), so its magnitude is that of the new value. A positive new value keeps the old time direction; a negative one flips it. |
| SporeTree.UpdatedChildren | src/spore_tree.py:582-589 | Each child keeps its control, takes dt_children[i] times its old direction as its dt, and is re-stepped from the root with that dt. |
| SporeTree.UpdatedGrandchildren | src/spore_tree.py:596-609 | Each grandchild keeps its control and parent, takes dt_grandchildren[global_idx] times its old direction as its dt, and is re-stepped from its parent's new position. Directions are kept only for positive new values (UpdateKeepsTimeDirection). |
| SporeTree.UpdatePositions | src/spore_tree.py:564-624 | Needs the sorted flag (assertion); updates children, then grandchildren, then optionally the midpoints of the fixed sorted pairs; nothing else changes. |
| SporeTree.UpdateKeepsTimeDirection | src/spore_tree.py:573-624 | With positive magnitudes, an update keeps every spore's sign, control, parent and list order, sets abs(dt) to the new magnitude and leaves the sorted order untouched. |
| SporeTree.UpdateMatchesRebuild | src/spore_tree.py:148-281 | Updating a freshly built tree gives the tree built directly from the new magnitudes. |
| SporeTree.Reset | src/spore_tree.py:333-340 | Clears the lists and the three flags, but keeps the candidate map and mean points. |
| SporeTree.EmptyTree | src/spore_tree.py:29-58 | Construction validates the configuration and starts from the configured root, with no spores. |
| SporeTree.NewTree | src/spore_tree.py:13-115 | A bad configuration raises; explicit arrays or auto mode build children and grandchildren; with explicit arrays construction succeeds exactly when their lengths are 4 and 8. |
| SporeTree.BuildWith | src/spore_tree.py:85-98 | Building from explicit arrays creates the children and then the grandchildren from them. |
| SporeTree.AutoModeMatchesDefaultVector | src/spore_tree.py:100-112 | Auto mode builds the same spores as the configuration's default dt vector. |
| Spawns.GcInfoMap | src/area_opt/create_distance_constraints.py:50-57 | The snapshot is keyed by global index; later entries win on a repeated key. |
| Spawns.LaidOutInfoMap | src/area_opt/create_distance_constraints.py:50-57 | For laid-out grandchildren the keyed snapshot is the list snapshot. |
| Spawns.BuildIsConsistent | src/spore_tree.py:148-281 | A freshly built tree's positions agree with its dts, controls and signs. |
| Spawns.UpdateIsConsistent | src/spore_tree.py:564-609 | An update keeps positions consistent with dts, controls and signs. |
| Spawns.TreeDtVector | src/area_opt/tree_area_evaluator.py:116-139 | The tree's 12-entry magnitude vector: abs(child dt) then abs(grandchild dt). |
| Geometry.ShoelaceArea | src/tree_evaluator.py:34-37 | The numpy shoelace expression over the mean points is never negative. |
| Geometry.CrossTerms | src/tree_evaluator.py:36-37 | The edge cross terms x_i*y_{i-1} - y_i*x_{i-1}, wrapping around at i = 0. |
| Geometry.DotDifference | src/tree_evaluator.py:36-37 | A difference of two dot products is the sum of the element-wise differences. |
| Geometry.RolledProductsAreCrossTerms | src/tree_evaluator.py:36-37 | `np.roll(., 1)` pairs each vertex with the one before it. |
| Geometry.ShoelaceIsCrossSum | src/tree_evaluator.py:32-37 | The numpy expression is half the absolute sum of the edge cross terms. |
| Geometry.CrossTermsRollLeft | src/tree_evaluator.py:36-37 | Relabelling the vertices cyclically rotates the cross terms. |
| Geometry.ShoelaceRotationInvariant | src/tree_topology.py:270-272 | The area is unchanged under a cyclic shift of the vertices. |
| Geometry.CollinearCrossTerms | src/tree_evaluator.py:36-37 | When every vertex is a + t_k d, edge k's cross term is (t_{k-1} - t_k) times the cross product of a and d. |
| Geometry.CollinearShoelaceZero | src/tree_evaluator.py:32-37 | Vertices on one line give shoelace area 0, so four collinear mean points score nothing. |
| Geometry.TriangleArea | src/area_opt/get_tree_area.py:22 | A triangle's area term is never negative. |
| Geometry.TriangleAreaSymmetric | src/area_opt/get_tree_area.py:22 | A triangle term is zero when two vertices coincide, and unchanged by rotating or swapping vertices. |
| TreeEvaluator.NewEvaluator | src/tree_evaluator.py:6-9 | A new evaluator is not initialised and has no previous dt. |
| TreeEvaluator.AllClose | src/tree_evaluator.py:22 | `np.allclose` on equal lengths compares entries; it broadcasts a length-1 side and fails on other shape mismatches. |
| TreeEvaluator.FirstBuild | src/tree_evaluator.py:15-21 | The first call builds from dt[:4] and dt[4:], sorts and computes the means; it fails unless the vector has 12 entries and the sorted pairs join different parents. |
| TreeEvaluator.BuildIfNeeded | src/tree_evaluator.py:12-29 | The first call builds; a later close vector leaves the tree unchanged; a later different vector only updates positions. After every call the stored dt is the latest input. |
| TreeEvaluator.LaterCallsKeepPairing | src/tree_evaluator.py:22-27 | After initialisation, no call changes the sorted order, the candidate map or any grandchild's parent, local index or control. |
| TreeEvaluator.Area | src/tree_evaluator.py:32-37 | `area` builds if needed and returns the non-negative shoelace area of the four mean points. |
| TreeEvaluator.SortedPairDistances | src/tree_evaluator.py:43-50 | Four distances; the k-th is between sorted grandchildren 2k and 2k+1. |
| TreeEvaluator.PairDistances | src/tree_evaluator.py:40-50 | `pair_distances` builds if needed and then measures the sorted pairs. |
| TreeEvaluator.DynamicLossMonotone | src/tree_evaluator.py:80-88 | The weighted loss is monotone in each component in the direction of its sign; with the default weights it is the distance component. |
| Topology.CreateTreeTopology | src/tree_topology.py:9-73 | Four child configurations with the fixed control/sign table. Eight grandchild configurations: entry j has parent j div 2, local index j mod 2, the negated parent control, and sign +1 for local 0 and -1 for local 1. |
| Topology.TopologyMatchesSporeTree | src/tree_topology.py:29-54 | With positive magnitudes, the topology tables give the same controls, parents and signed dts as the spore tree's own construction. |
| Topology.TopologyGrandchildren | src/tree_topology.py:96-175 | The children are stepped from the root and ordered by the stable ascending angle sort; grandchild j then comes from the child at sorted position j div 2, with that child's negated control, the magnitude dt[4 + j], forward for even j and backward for odd j, one step from that child's position. |
| Topology.TopologyOrder | src/tree_topology.py:178-205 | The grandchild order is a cyclic rotation of the stable angle-descending sort. When the first two entries of the sort share a parent it is that sort rolled right by one (the last entry first, every other entry one place later); otherwise it is the sort itself. |
| Topology.PositionsInOrder | src/tree_topology.py:214 | The output positions are the grandchildren's positions listed in the chosen order. |
| Topology.CalculateGrandchildrenPositions | src/tree_topology.py:79-229 | Needs 12 dt entries. Returns the 8 grandchild positions in the rotated angle order. |
| Topology.TopologyFirstPairDistinct | src/tree_topology.py:192-205 | After the roll, the first pair comes from different parents. Pairs 1-3 are not checked. |
| Topology.CalculateMetrics | src/tree_topology.py:232-280 | Pair k's distance and midpoint come from positions 2k and 2k+1. The area is the non-negative shoelace area of the midpoints. |
| Topology.MetricsMatchTree | src/tree_topology.py:250-272 | On a tree's sorted positions, the metrics give the same midpoints and area as the spore tree does. |
| Convergence.ClosingRate | src/pairs/compute_convergence_tables.py:59-74 | The rate of change of the distance, (r . v) / norm(r); it is 0 when the distance is below 1e-10. |
| Convergence.GrandchildVelocities | src/pairs/compute_convergence_tables.py:22-33 | Each grandchild's velocity is its dynamics times the sign of its dt. |
| Convergence.StaticVelocities | src/pairs/compute_convergence_tables.py:174-178 | The grandchild-parent table of this file treats every parent as motionless. |
| Convergence.ChildVelocities | src/pairs/complete_meeting_analysis.py:167-191 | The analysis moves each parent along its own dynamics, in its own time direction. |
| Convergence.Filled | src/pairs_3/build_distance_tables.py:45-49 | `np.full((rows, cols), v)`: every cell holds v. |
| Convergence.Put | src/pairs_3/build_distance_tables.py:73-86 | Writing one cell changes that cell only. |
| Convergence.GrandchildRateTable | src/pairs/compute_convergence_tables.py:1-116 | An n x n table with a zero diagonal. Each entry above the diagonal is the pair's closing rate, and it is mirrored below. |
| Convergence.GcRateSymmetric | src/pairs/compute_convergence_tables.py:59-78 | For a norm that ignores sign, the closing rate of (a, b) equals that of (b, a), so computing only j > i loses nothing. |
| Convergence.ParentRateTable | src/pairs/compute_convergence_tables.py:119-240 | A grandchild x parent table whose cell is NaN exactly in the grandchild's own-parent column. Every other cell is the closing rate against that parent. |
| Convergence.GcRateTableUnique | src/pairs/compute_convergence_tables.py:1-116 | Two tables that both meet the grandchild table's description are equal, so the description pins the table. |
| Convergence.ParentRateTableUnique | src/pairs/compute_convergence_tables.py:119-240 | Two tables that both meet the grandchild-parent table's description are equal. |
| Convergence.ParentRateCases | src/pairs/compute_convergence_tables.py:174-189 | With a motionless parent, the cell is the grandchild's own closing rate. A parent moving exactly with the grandchild closes at rate 0. |
| Converging.HasPairAppend | src/pairs_3/find_converging_pairs.py:22-28 | Appending a pair keeps every pair already found. |
| Converging.ScanOrderAppend | src/pairs_3/find_converging_pairs.py:18-28 | A pair found later in the scan extends the row-major scan order. |
| Converging.StableOrderKeepsPairs | src/pairs_3/find_converging_pairs.py:31 | Sorting loses no pair. |
| Converging.StableOrderTies | src/pairs_3/find_converging_pairs.py:31 | The stable sort ascends by velocity and keeps scan order among equal velocities. |
| Converging.SortByVelocity | src/pairs_3/find_converging_pairs.py:31 | `list.sort(key=velocity)` is a permutation that ascends by velocity. It is stable, so ties stay in scan order. |
| Converging.ScanTake | src/pairs_3/find_converging_pairs.py:20-28 | Visiting a cell below -1e-6 appends it and keeps the scan invariant. |
| Converging.ScanSkip | src/pairs_3/find_converging_pairs.py:20-22 | Visiting any other cell keeps the scan invariant. |
| Converging.RowDone | src/pairs_3/find_converging_pairs.py:18-19 | The end of row i continues at (i+1, i+2). |
| Converging.ScanUpperTriangle | src/pairs_3/find_converging_pairs.py:14-28 | Only cells with i < j are visited. The scan collects exactly the cells below -1e-6, in row-major order. |
| Converging.FindConvergingGcPairs | src/pairs_3/find_converging_pairs.py:1-38 | A pair (i, j) with i < j is listed exactly when its rate is below -1e-6, and at most once. The list ascends by velocity, ties in scan order. |
| Converging.ScanAllCells | src/pairs_3/find_converging_pairs.py:54-67 | Visits every cell, skips NaN, and collects exactly the cells below -1e-6 in row-major order. |
| Converging.FindConvergingParentPairs | src/pairs_3/find_converging_pairs.py:41-77 | (g, p) is listed exactly when the cell is a number below -1e-6, and at most once. The list ascends by velocity, ties in scan order. |
| Converging.GcPairListUnique | src/pairs_3/find_converging_pairs.py:1-38 | Two lists that both meet the grandchild filter's description for the same table are equal: the sort leaves no freedom. |
| Converging.ParentPairListUnique | src/pairs_3/find_converging_pairs.py:41-77 | Two lists that both meet the grandchild-parent filter's description for the same table are equal. |
| Converging.NatToString | src/pairs_3/find_converging_pairs.py:27 | `str(n)` is a non-empty string of decimal digits. |
| Converging.ParseNat | src/pairs/find_optimal_pairs_old.py:227-228 | `int(s)` on the digit strings found in pair names: succeeds exactly when the string is non-empty and all digits. |
| Converging.ParseNatToString | src/pairs/find_optimal_pairs_old.py:227-228 | `int(str(n)) == n`. |
| Converging.Split | src/pairs/find_optimal_pairs_old.py:226-227 | `str.split(c)` always returns at least one piece. |
| Converging.SplitNoSeparator | src/pairs/find_optimal_pairs_old.py:226-227 | Splitting a string without the separator gives the string itself. |
| Converging.SplitAtFirst | src/pairs/find_optimal_pairs_old.py:226-227 | Splitting `a + c + b`, where a has no c, gives a followed by the pieces of b. |
| Converging.IndexPartRoundTrip | src/pairs/find_optimal_pairs_old.py:227-228 | `int("{prefix}_{n}".split('_')[1]) == n` when the prefix has no '_'. |
| Converging.DigitsHaveNoDash | src/pairs_3/find_converging_pairs.py:27 | A decimal number contains neither '-' nor '_'. |
| Converging.PrefixedNameRoundTrip | src/pairs/find_optimal_pairs_old.py:226-228 | "{p1}_{i}-{p2}_{j}" parses back to (i, j) when neither prefix holds a separator. |
| Converging.PairNameRoundTrip | src/pairs/find_optimal_pairs_old.py:226-248 | The pipeline's parser inverts both name formats of the filters: "gc_{i}-gc_{j}" and "gc_{g}-parent_{p}". |
| Optimize.SignedBoundsKeepDirection | src/pairs_3/optimize_grandchild_pairs.py:46-58 | A forward spore searches in (lo, hi) and a backward one in (-hi, -lo). With lo > 0, any point of the signed interval keeps the spore's time direction, and its magnitude lies in the original bounds. |
| Optimize.StartPoint | src/pairs_3/optimize_grandchild_pairs.py:89-91 | The start point x0 is the interval midpoint, so it lies inside a non-empty interval. |
| Optimize.DistanceConstraint | src/pairs_3/optimize_grandchild_pairs.py:25-35 | Without a root there is no ceiling. With a root, the ceiling is the smallest root-child distance divided by 10; `min` of no children raises. |
| Optimize.AdaptiveBounds | src/pairs/optimize_grandchild_pair_distance.py:31-35 | Given bounds are kept. Missing bounds become (0.001, 2 * the largest abs(child dt)); `max` of no children raises. |
| Optimize.FirstMinimum | src/pairs_3/optimize_grandchild_pairs.py:99-140 | The running best over the accepted candidates, replaced only on a strictly smaller value. The result is the first candidate with the smallest value, and none exactly when no candidate is accepted. |
| Optimize.CheckWinner | src/pairs_3/optimize_grandchild_pairs.py:162-211 | The post-hoc checks pass exactly when both dts lie in their signed bounds and keep their directions. A failure is tagged with the first failed check, in the order dt_i, dt_j, direction i, direction j. On success, passes_constraint is "no ceiling, or the distance is at most the ceiling". |
| Optimize.StrictOk | src/pairs_3/optimize_grandchild_pairs.py:125-138 | A candidate is acceptable exactly when the solver reports success, both values lie in bounds, and the recomputed distance respects any ceiling. |
| Optimize.OptimizePairStrict | src/pairs_3/optimize_grandchild_pairs.py:1-225 | On success the result is the accepted candidate with the smallest `fun`, below 1e5, in bounds and direction-preserving. 'no valid solution' with min_distance = inf happens exactly when no candidate is accepted or the best one reaches 1e5. |
| Optimize.WinnerOutOfReach | src/pairs_3/optimize_grandchild_pairs.py:162 | The first-minimum winner is missing or reaches 1e5 exactly when nothing was accepted or some minimal accepted candidate reaches 1e5. |
| Optimize.StrictNeverViolatesBounds | src/pairs_3/optimize_grandchild_pairs.py:127-177 | Acceptance already checks bounds, so the 'dt_i violation' and 'dt_j violation' exits can never be taken. |
| Optimize.LenientOk | src/pairs/optimize_grandchild_pair_distance.py:155-182 | The enhanced variant ignores the solver's success flag. It accepts a candidate on bounds and the ceiling alone. |
| Optimize.TestDistances | src/pairs/optimize_grandchild_pair_distance.py:161-166 | With a ceiling, a candidate is compared by its recomputed distance; without one, by the solver's `fun`. |
| Optimize.LeastOutOfReach | src/pairs/optimize_grandchild_pair_distance.py:218 | The first-minimum winner over any scores is missing or reaches 1e5 exactly when nothing was accepted or some minimal accepted score reaches 1e5. |
| Optimize.OptimizePairLenient | src/pairs/optimize_grandchild_pair_distance.py:1-286 | On success the accepted candidate with the least test distance wins; its dts are in bounds and keep their directions, and with a ceiling its recomputed distance is the reported one and within the ceiling. The result is 'no_valid_solution' exactly when nothing is accepted or the least accepted test distance reaches 1e5. `bestRun` names the accepted method. |
| Optimize.LenientWinner | src/pairs/optimize_grandchild_pair_distance.py:106-218 | The winner is an accepted run with the least test distance. It is missing or at least 1e5 exactly when nothing is accepted or the least accepted test distance reaches 1e5. |
| Optimize.LenientAcceptsUnsuccessfulRun | src/pairs/optimize_grandchild_pair_distance.py:170-186 | A run with success=False whose point is in bounds and within the ceiling is rejected by the strict variant and wins under the lenient one. |
| Optimize.StrictSuccessCanFailCeiling | src/pairs_3/optimize_grandchild_pairs.py:133-203 | A concrete run shows that success does not imply passes_constraint: acceptance tests the recomputed distance, but the ceiling is then compared with the solver's `fun`. |
| Optimize.OptimizeParentTrusting | src/pairs_3/optimize_grandchild_pairs.py:228-341 | The grandchild-parent optimiser succeeds exactly when the solver does, using the signed bounds. Any failure has min_distance = inf. |
| Optimize.OptimizeParentChecked | src/pairs_3/optimize_grandchild_parent_distance.py:1-154 | It uses adaptive bounds when none are given. It succeeds exactly when the solver succeeds with x in the signed bounds. A successful x outside them is 'result_out_of_bounds'; every failure has min_distance = inf. |
| Optimize.CheckedSuccessKeepsDirection | src/pairs_3/optimize_grandchild_parent_distance.py:37-113 | With adaptive bounds, a successful optimal dt keeps the grandchild's time direction. |
| Tables.LastGcMeet | src/pairs_3/build_distance_tables.py:55-86 | Cell [a][b] holds the values of the last recorded meeting that writes it, in either orientation. |
| Tables.WriteGc | src/pairs_3/build_distance_tables.py:73-86 | Recording a pair keeps the tables n x n. |
| Tables.FillGc | src/pairs_3/build_distance_tables.py:44-86 | Recording the meetings in order into all-NaN tables: every cell holds its last writer's distance and crosswise times, or NaN when nothing wrote it. |
| Tables.WriteGcCells | src/pairs_3/build_distance_tables.py:73-86 | One recording step: the distance goes to [i][j] and [j][i]. time_i gets dt_i at [i][j] and dt_j at [j][i]; time_j gets the reverse. |
| Tables.CellsSymmetric | src/pairs_3/build_distance_tables.py:73-86 | Where both orientations hold their last writer, the distance table is symmetric and time_i is the transpose of time_j. |
| Tables.CellsConsistent | src/pairs_3/build_distance_tables.py:44-86 | Meetings of two different grandchildren give a symmetric distance table, time_i the transpose of time_j, and a NaN diagonal. |
| Tables.LastMeetSymmetric | src/pairs_3/build_distance_tables.py:73-74 | The last writer of [a][b] is the last writer of [b][a]. |
| Tables.LastParentMeet | src/pairs_3/build_distance_tables.py:206-208 | A grandchild-parent cell holds the values of its last writer. |
| Tables.FillParent | src/pairs_3/build_distance_tables.py:181-208 | The grandchild-parent tables after recording in order into all-NaN tables: each cell holds its last writer's distance and time, or NaN. |
| Tables.WriteParentCells | src/pairs_3/build_distance_tables.py:206-208 | One recording step writes one cell of each table. |
| Tables.GcMeetsOf | src/pairs_3/build_distance_tables.py:55-71 | The records of the converging pairs whose optimisation succeeded, in pair order. Each converging pair with a success contributes its record. |
| Tables.HasPairSnoc | src/pairs_3/build_distance_tables.py:55 | A pair occurs in a list extended by one pair when it occurs before or is the new one. |
| Tables.LastGcMeetOfPairs | src/pairs_3/build_distance_tables.py:55-86 | Cell (a, b) with a < b is written exactly when (a, b) is a converging pair whose optimisation succeeded. Its last writer is that pair's own result. |
| Tables.GcCellFromPairs | src/pairs_3/build_distance_tables.py:44-86 | Cell [a][b] with a < b is filled exactly for a successful converging pair, with its distance, dt_i and dt_j. |
| Tables.GcMeetsOfStep | src/pairs_3/build_distance_tables.py:55-71 | Each loop iteration appends the pair's record exactly when its optimisation succeeded. |
| Tables.ParentMeetsOf | src/pairs_3/build_distance_tables.py:190-208 | The records of the successful grandchild-parent pairs, in pair order. |
| Tables.ParentMeetsOfStep | src/pairs_3/build_distance_tables.py:190-208 | Each loop iteration appends the pair's record exactly when its optimisation succeeded. |
| Tables.LastParentMeetOfPairs | src/pairs_3/build_distance_tables.py:190-208 | Cell (g, p) is written exactly for a converging pair whose optimisation succeeded, and holds that pair's own result. |
| Tables.LastParentMeetSnoc | src/pairs_3/build_distance_tables.py:206-208 | A meeting appended last is the last writer of its own cell; other cells keep their writer. |
| Tables.ParentCellFromPairs | src/pairs_3/build_distance_tables.py:179-208 | A grandchild-parent cell is filled exactly for a successful converging pair, with its distance and time; otherwise it stays NaN. |
| Tables.GcFillFromPairs | src/pairs_3/build_distance_tables.py:44-86 | The grandchild tables over all cells above the diagonal: filled exactly for the successful converging pairs, with their results. |
| Tables.GcFillSymmetric | src/pairs_3/build_distance_tables.py:73-86 | Filling from pairs of distinct grandchildren gives a symmetric distance table, transposed time tables and a NaN diagonal. |
| Tables.ParentFillFromPairs | src/pairs_3/build_distance_tables.py:179-208 | Every grandchild-parent cell at once: filled exactly for the successful converging pairs. |
| BuildTables.SuccessMeet | src/pairs_3/build_distance_tables.py:71-86 | A pair result is recorded exactly when it reports success, with its distance and its two dts. |
| BuildTables.GcTablesFromRates | src/pairs_3/build_distance_tables.py:36-86 | Filling from the converging pairs of the rate table: cell (a, b) with a < b is filled exactly when the pair's rate is below -1e-6 and its optimisation succeeds. The tables are symmetric and transposed. |
| BuildTables.BuildGcDistanceTables | src/pairs_3/build_distance_tables.py:1-134 | Raises without grandchildren. Otherwise there is one optimisation result per converging pair, and cell (a, b) with a < b is filled exactly when the pair converges and its optimisation succeeds, with that result. The tables are symmetric and transposed, with a NaN diagonal. |
| BuildTables.ParentSuccessMeet | src/pairs_3/build_distance_tables.py:206-208 | A grandchild-parent result is recorded exactly when it reports success. |
| BuildTables.ParentTablesOf | src/pairs_3/build_distance_tables.py:179-208 | The grandchild-parent tables are n x (number of parents). |
| BuildTables.ParentTableCell | src/pairs_3/build_distance_tables.py:171-208 | Cell (g, q) is filled exactly when q is not g's parent, the rate is below -1e-6 and the solver succeeds. It then holds the solver's `fun` and x. |
| BuildTables.ParentTablesFromRates | src/pairs_3/build_distance_tables.py:171-208 | The same holds for every cell. |
| BuildTables.BuildParentDistanceTables | src/pairs_3/build_distance_tables.py:137-250 | Raises without grandchildren. Otherwise a cell is filled exactly when it is another parent's, the motionless-parent rate is below -1e-6 and the solver succeeds; it holds the solver's `fun` and x. |
| Meetings.MeetingTime | src/pairs_3/create_chronological_meetings.py:55 | The meeting time is the larger of the two absolute times for a grandchild pair, and the grandchild's absolute time for a parent. |
| Meetings.WhoWaits | src/pairs_3/create_chronological_meetings.py:65 | Nobody waits at a parent meeting. At a grandchild meeting the grandchild waits exactly when its absolute time is strictly larger, and the waiter's time is the meeting time. |
| Meetings.Quality | src/pairs_3/create_meeting_chronology.py:83 | The quality is the reciprocal of distance + 1e-8, and positive when that is positive. |
| Meetings.QualityReversesDistance | src/pairs_3/create_meeting_chronology.py:83 | For non-negative distances a higher quality means exactly a smaller distance, and equal quality means equal distance. |
| Meetings.GcScan | src/pairs_3/create_chronological_meetings.py:45-67 | The grandchild scan lists exactly the filled cells of row g other than the diagonal, with the crosswise times, in partner order. |
| Meetings.GcScanStep | src/pairs_3/create_chronological_meetings.py:45-67 | One more partner extends the scan by that cell's meeting, if it is filled. |
| Meetings.ParentScan | src/pairs_3/create_chronological_meetings.py:70-88 | The parent scan lists exactly the filled cells of row g other than its own parent's, with no partner time, in parent order. |
| Meetings.Candidates | src/pairs_3/create_chronological_meetings.py:36-88 | Before sorting, g's list holds exactly its meetings, grandchildren first and each part in index order. |
| Meetings.CandidateMembers | src/pairs_3/create_chronological_meetings.py:45-88 | The two scans together list exactly the meetings of g. |
| Meetings.GcCandidate | src/pairs_3/create_chronological_meetings.py:45-67 | A grandchild meeting comes from the grandchild scan only. |
| Meetings.ParentCandidate | src/pairs_3/create_chronological_meetings.py:70-88 | A parent meeting comes from the parent scan only. |
| Meetings.CandidatesOrdered | src/pairs_3/create_chronological_meetings.py:45-88 | The unsorted list is in scan order: grandchildren by index, then parents by index. |
| Meetings.ByTime | src/pairs_3/create_chronological_meetings.py:91 | The stable sort by meeting time keeps exactly the meetings of g and orders them by time, ties in scan order. |
| Meetings.ByQuality | src/pairs_3/create_meeting_chronology.py:110 | The stable sort by quality, best first, keeps exactly the meetings of g, ties in scan order. |
| Meetings.ChronologyByTime | src/pairs_3/create_chronological_meetings.py:34-93 | One list per grandchild, holding exactly its meetings, earliest first. |
| Meetings.ChronologyByQuality | src/pairs_3/create_meeting_chronology.py:55-112 | One list per grandchild, holding exactly its meetings, best quality first. |
| Meetings.QualityOrderIsDistanceOrder | src/pairs_3/create_meeting_chronology.py:83-110 | With non-negative distances the best-first order is nearest first, ties in scan order. |
| Meetings.HeadMeetings | src/pairs_3/create_chronological_meetings.py:181-209 | Exactly the grandchildren with a non-empty list get an entry, and it is the head of their list. |
| Meetings.EarliestMeetingIsEarliest | src/pairs_3/create_chronological_meetings.py:194-196 | A grandchild with any meeting has an earliest meeting, which is one of its meetings and no later than any of them. |
| Meetings.BestMeetingIsBest | src/pairs_3/create_meeting_chronology.py:142-150 | A grandchild with any meeting has a best meeting, which is one of its meetings and of quality no lower than any of them. |
| Meetings.MeetingKindsAddUp | src/pairs_3/create_chronological_meetings.py:249-254 | Grandchild meetings and parent meetings add up to all meetings. |
| Meetings.EarliestHead | src/pairs_3/create_chronological_meetings.py:227-245 | Infinite exactly when no list has a head; otherwise the smallest head time, reached by some head. |
| Meetings.LatestTail | src/pairs_3/create_chronological_meetings.py:228-246 | Non-negative and at least every tail time; it is 0 or some tail's time. |
| Meetings.Average | src/pairs_3/create_chronological_meetings.py:259 | Total over count for a positive count, and 0 for no grandchildren. |
| Meetings.AnalyzeMeetingPatterns | src/pairs_3/create_chronological_meetings.py:212-272 | Counts the grandchildren and those with meetings. The grandchild meeting count is halved by floor division. The two kinds add up to all meetings. The earliest time is infinite exactly when no grandchild has meetings. |
| Meetings.PatternsBoundEveryMeeting | src/pairs_3/create_chronological_meetings.py:236-246 | On lists sorted by time, every meeting lies between the reported earliest and latest meeting times. |
| Meetings.Summarize | src/pairs_3/create_meeting_chronology.py:131-150 | The summary halves the grandchild meeting count, counts parent meetings and grandchildren with meetings, and gives each grandchild with meetings the head of its list. |
| Meetings.PairKey | src/pairs_3/create_meeting_chronology.py:272 | The sorted pair: its two entries are a and b, smaller first. |
| Meetings.ListRecs | src/pairs_3/create_meeting_chronology.py:269-281 | The records of one list are exactly its grandchild meetings. |
| Meetings.AllRecs | src/pairs_3/create_meeting_chronology.py:268-281 | The records of all lists are exactly the grandchild meetings of the chronology. |
| Meetings.Dedup | src/pairs_3/create_meeting_chronology.py:272-281 | Keeps exactly the first record of each unordered pair, in order. |
| Meetings.DedupSnoc | src/pairs_3/create_meeting_chronology.py:273 | A new record is appended exactly when no kept record has its pair. |
| Meetings.PairRecords | src/pairs_3/create_meeting_chronology.py:267-281 | One record per unordered pair; every record comes from the chronology, and every grandchild meeting's pair is present. |
| Meetings.MeetingRecommendations | src/pairs_3/create_meeting_chronology.py:252-293 | Distinct pairs, best quality first, all from the chronology. For a non-negative limit there are min(limit, pairs) records, and none left out beats a kept one. |
| Meetings.TopRecords | src/pairs_3/create_meeting_chronology.py:284-285 | The best-first prefix of length min(k, n) for k >= 0 keeps pairs distinct, and every record left out is no better than every kept one. |
| Meetings.SortedPrefixIsTop | src/pairs_3/create_meeting_chronology.py:284-285 | A prefix of the best-first order holds the best records. |
| Chronology.FillRecords | src/pairs_3/build_distance_tables.py:44-86 | Recording the successful converging pairs into all-NaN tables records exactly the meetings of the converging pairs. |
| Chronology.MeetingsFromRecords | src/pairs_3/create_chronological_meetings.py:45-88 | Reading the tables back finds exactly the recorded meetings, skipping the diagonal and the own parent. |
| Chronology.ChronologyFromRecords | src/pairs_3/create_chronological_meetings.py:36-93 | The same holds for every grandchild's list. |
| Chronology.BuildBoth | src/pairs_3/create_chronological_meetings.py:16-31 | Raises exactly without grandchildren; otherwise both table builders' results. |
| Chronology.BuildGcRecorded | src/pairs_3/build_distance_tables.py:1-134 | The grandchild tables record exactly the successful runs of converging pairs. |
| Chronology.BuildParentRecorded | src/pairs_3/build_distance_tables.py:137-250 | The grandchild-parent tables record exactly the successful runs of converging pairs. |
| Chronology.CreateChronologicalMeetings | src/pairs_3/create_chronological_meetings.py:1-124 | Raises exactly without grandchildren. Otherwise one list per grandchild holding exactly its meetings with a converging, successfully optimised partner, earliest first. |
| Chronology.SummaryBest | src/pairs_3/create_meeting_chronology.py:142-150 | Exactly the grandchildren with a meeting have a best meeting, it is one of their meetings, and its quality is the highest. |
| Chronology.CreateMeetingChronology | src/pairs_3/create_meeting_chronology.py:1-170 | Raises exactly without grandchildren. Otherwise one list per grandchild holding exactly its meetings, best quality first. The returned grandchild and grandchild-parent tables record exactly the successful runs of the built pairs. The summary is that of the lists: its counts, and per grandchild with meetings the head of its list as best meeting. |
| Chronology.RunMeet | src/pairs/complete_meeting_analysis.py:140-153 | A run is recorded exactly when it returns with success, with its fun and x. |
| Chronology.ScalarRunMeet | src/pairs/complete_meeting_analysis.py:242-250 | A bounded scalar run is recorded exactly when it returns with success, with its fun and x. |
| Chronology.AnalysisGcTables | src/pairs/complete_meeting_analysis.py:101-155 | The inline grandchild tables record exactly the successful runs of pairs whose rate is below -1e-6. |
| Chronology.ParentPairsConverge | src/pairs/complete_meeting_analysis.py:177-208 | A grandchild-parent pair is listed exactly when the parent is not its own and the rate is below -1e-6. |
| Chronology.AnalysisParentTables | src/pairs/complete_meeting_analysis.py:216-252 | The inline grandchild-parent tables record exactly the successful runs of converging pairs. |
| Chronology.CountDistinctPairs | src/pairs/complete_meeting_analysis.py:352-353 | Counting successful results keyed by pair name counts the successful distinct pairs. |
| Chronology.CompleteMeetingAnalysis | src/pairs/complete_meeting_analysis.py:1-395 | Raises exactly without grandchildren. Otherwise the two convergence tables are the closing-rate tables of the tree, and the two pair lists are exactly their converging cells, sorted. Both distance tables hold exactly the successful converging runs, each list holds exactly its meetings best first, and the summary counts the filled cells and the grandchildren with meetings. |
| Chronology.AnalyseGcPairs | src/pairs/complete_meeting_analysis.py:52-155 | The rate table is the grandchild closing-rate table, and the pair list holds exactly its cells above the diagonal below -1e-6, ascending by rate. The grandchild tables record exactly the successful converging runs, and the success count equals the filled cells above the diagonal. |
| Chronology.AnalyseParentPairs | src/pairs/complete_meeting_analysis.py:166-252 | The rate table is the grandchild-parent closing-rate table, and the pair list holds exactly its numeric cells below -1e-6, ascending by rate. The grandchild-parent tables record exactly the successful converging runs, and the success count equals the filled cells. |
| Chronology.GcCountIsFilled | src/pairs/complete_meeting_analysis.py:352 | The number of successful grandchild runs is the number of filled cells above the diagonal. |
| Chronology.ParentCountIsFilled | src/pairs/complete_meeting_analysis.py:353 | The number of successful grandchild-parent runs is the number of filled cells. |
| Pairing.FirstAvailable | src/pairs_3/extract_pairs_from_chronology.py:33-40 | The selection is a grandchild meeting with an unused partner, and no earlier entry of the list is one. Parent meetings are passed over. |
| Pairing.UltraCloseSelect | src/pairs/extract_pairs_from_chronology.py:53-96 | The scan stops at the first available grandchild meeting closer than 1e-6 (taken) or parent meeting closer than 1e-6. Otherwise the selection is the first available meeting of strictly smallest distance before the stop. |
| Pairing.Select | src/pairs/extract_pairs_from_chronology.py:53-96 | Either rule selects only a grandchild meeting whose partner is unused. |
| Pairing.SelectFn | src/pairs_3/extract_pairs_from_chronology.py:33-40 | The selector of a rule picks only available meetings and agrees with the rule on every list. |
| Pairing.GreedySkip | src/pairs_3/extract_pairs_from_chronology.py:25-42 | A used key, or one whose selection finds nothing, adds no pair. |
| Pairing.GreedyTake | src/pairs_3/extract_pairs_from_chronology.py:42-51 | A free key whose selection finds a partner adds that pair. |
| Pairing.TakeStep | src/pairs_3/extract_pairs_from_chronology.py:42-51 | Taking a pair marks exactly its two members used. |
| Pairing.SkipStep | src/pairs_3/extract_pairs_from_chronology.py:25-42 | Skipping a key leaves the used set unchanged. |
| Pairing.ExtractPairs | src/pairs_3/extract_pairs_from_chronology.py:1-73 | Visiting keys in ascending order, every pair is the one the rule selects for its key given the grandchildren used before it. Every key without a pair was used or found nothing. The same method models the rule of src/pairs/extract_pairs_from_chronology.py:1-135. |
| Pairing.GreedyStep | src/pairs_3/extract_pairs_from_chronology.py:23-51 | One key of the loop: a used key or one whose rule finds nothing adds no pair; otherwise the chosen pair is appended and both members join the used set. The trace stays the greedy trace up to the next key, and the used set stays the members of the pairs so far. |
| Pairing.GreedyMatchingUnique | src/pairs_3/extract_pairs_from_chronology.py:25-51 | The greedy loop is deterministic: a chronology and a rule give exactly one list of pairs. |
| Pairing.PairsAreDisjoint | src/pairs_3/extract_pairs_from_chronology.py:42-51 | Pairs share no grandchild. Each pair's meeting is in its key's list and names its partner. If no meeting names its own key, no pair joins a grandchild to itself. |
| Pairing.FirstRuleIsMaximal | src/pairs_3/extract_pairs_from_chronology.py:33-64 | Under the first-available rule, any grandchild meeting in an unpaired key's list names a paired grandchild. |
| Pairing.UltraRuleIsMaximal | src/pairs/extract_pairs_from_chronology.py:53-96 | Under the ultra-close rule, an unpaired key's grandchild meeting that comes before any close parent meeting names a paired grandchild. |
| Pairing.AnalyzePairingQuality | src/pairs/extract_pairs_from_chronology.py:138-190 | No pairs give the zero report. Otherwise the 1e-6, 1e-5 and 1e-4 tallies count the pairs below each threshold and are nested; the averages are the means of the distances and meeting times, and the minima and maxima are reached by some pair and bound every pair. |
| Pairing.MinParentDistance | src/pairs_3/extract_pairs_from_chronology.py:76-111 | Infinite exactly with fewer than two children; otherwise the least distance between two children, reached by some pair. |
| Pairing.DirectionOf | src/pairs_3/extract_pairs_from_chronology.py:137-138 | Forward exactly when dt > 0. |
| Pairing.Threshold | src/pairs_3/extract_pairs_from_chronology.py:130 | A tenth of the least parent distance, infinite when that is. |
| Pairing.DetailsFor | src/pairs_3/extract_pairs_from_chronology.py:132-159 | One detail per pair with its indices and directions. same_parent holds iff the parent indices are equal, and the distance check passes iff the distance is below a tenth of the least parent distance. An out-of-range index gives no details. |
| Pairing.GetPairDetails | src/pairs_3/extract_pairs_from_chronology.py:114-177 | The distance check passes iff there are fewer than two children or the distance is below a tenth of every parent distance. |
| Pairing.AnalyzePairStatistics | src/pairs_3/extract_pairs_from_chronology.py:180-262 | No details give the zero report. Otherwise the parent buckets and the direction buckets each add up to the total; the averages are the means of the meeting times and distances, and the minima and maxima are reached by some pair and bound every pair. |
| OptimalDt.WriteBack | src/pairs_3/extract_optimal_dt_from_pairs.py:30-66 | Out-of-range indices give nothing. Otherwise unpaired entries keep their dt. A paired entry holds the time from the last pair naming it, and its mapping entry is that pair's. The mapping keys are the paired grandchildren. |
| OptimalDt.WriteStep | src/pairs_3/extract_optimal_dt_from_pairs.py:41-48 | One more pair adds its two members and becomes their last naming pair. |
| OptimalDt.DisjointPairsWriteOwnTimes | src/pairs_3/extract_optimal_dt_from_pairs.py:41-66 | With disjoint pairs, gc_i gets time_gc and gc_j gets time_partner. The mapping is symmetric with the pair's index. |
| OptimalDt.ChildDts | src/pairs_3/extract_optimal_dt_from_pairs.py:26 | The children's signed dts, unchanged. |
| OptimalDt.ExtractOptimalDt | src/pairs_3/extract_optimal_dt_from_pairs.py:1-100 | A pair index past the grandchildren gives None. Otherwise child dts are unchanged. Grandchild dts are overwritten by the last pair naming them and are otherwise original. pair_mapping has exactly the paired grandchildren as keys, each holding the last naming pair's index, partner, optimal and original dt, distance and time. Unpaired indices are the ascending complement. pairs_count is the number of pairs and paired + unpaired is the total. |
| OptimalDt.ComplementSize | src/pairs_3/extract_optimal_dt_from_pairs.py:79 | The unpaired list and the paired set together count every grandchild. |
| OptimalDt.UntouchedCountsNothing | src/pairs/extract_optimal_times_from_pairs.py:117-139 | Unchanged dts count no change, no direction violation and no ratio. |
| OptimalDt.ExtractOptimalTimes | src/pairs/extract_optimal_times_from_pairs.py:4-208 | No pairs, or an out-of-range index, give None. Otherwise the write-back and pair_mapping hold as for extract_optimal_dt, and the unpaired list is the ascending complement. The statistics are those of ChangeStats for the written times, and paired + unpaired is the total. |
| OptimalDt.CountChangedIsSize | src/pairs/extract_optimal_times_from_pairs.py:117-118 | The loop's count equals the number of indices whose time moved by more than 1e-10. |
| OptimalDt.CountViolationsIsSize | src/pairs/extract_optimal_times_from_pairs.py:121-128 | The loop's count equals the number of indices whose sign flipped or became zero. |
| OptimalDt.ChangeStats | src/pairs/extract_optimal_times_from_pairs.py:117-151 | changed_count is the number of indices whose time moved by more than 1e-10. direction_violations is the number whose sign flipped or became zero. change_ratios is, in index order, abs(optimal)/abs(original) of each changed entry whose original exceeds 1e-10 in magnitude. Without ratios the summary is 1.0 three times; otherwise avg is their mean, and min and max are ratios of the list bounding every ratio. |
| OptimalDt.ChangeRatios | src/pairs/extract_optimal_times_from_pairs.py:132-139 | There are at most as many ratios as changed entries, and every ratio is non-negative. |
| OptimalDt.RatioSource | src/pairs/extract_optimal_times_from_pairs.py:134-139 | Every ratio comes from a changed entry with an original above 1e-10 in magnitude, and equals abs(optimal)/abs(original) there. |
| OldPipeline.StageLimits | src/pairs/find_optimal_pairs_old.py:131-139 | No children give nothing. The constraint is a tenth of the least root-child distance, and the dt bounds run from 0.001 to twice the largest absolute child dt. |
| OldPipeline.RecordGcResults | src/pairs/find_optimal_pairs_old.py:223-252 | Recording the results in order records exactly those with success and passes_constraint, with their distance and dts, and counts them. |
| OldPipeline.RecordParentResults | src/pairs/find_optimal_pairs_old.py:241-252 | Recording the grandchild-parent results records exactly the successful ones, and counts them. |
| OldPipeline.GcResult | src/pairs/find_optimal_pairs_old.py:159-165 | The grandchild pair optimiser of this pipeline is the multi-method one that ignores `success`; with the ceiling always given, a result passes exactly when it succeeds, and its distance is the recomputed distance at the optimal dts, within the ceiling. |
| OldPipeline.GcRecordsAtPairs | src/pairs/find_optimal_pairs_old.py:145-193 | A converging grandchild pair is recorded exactly when its multi-method optimisation succeeds within the constraint. |
| OldPipeline.ParentRecordsAtPairs | src/pairs/find_optimal_pairs_old.py:145-193 | A converging grandchild-parent pair is recorded exactly when its optimisation succeeds. |
| OldPipeline.OldGcTables | src/pairs/find_optimal_pairs_old.py:207-252 | The stage 4 grandchild tables record exactly the passing results. |
| OldPipeline.OldParentTables | src/pairs/find_optimal_pairs_old.py:207-276 | The stage 4 grandchild-parent tables record exactly the successful results. |
| OldPipeline.ConvergingPairs | src/pairs/find_optimal_pairs_old.py:72-113 | The closing-rate tables and converging pairs of both kinds, with motionless parents. |
| OldPipeline.MeetingHasRecord | src/pairs/find_optimal_pairs_old.py:343-352 | A non-empty chronology means something was recorded. |
| OldPipeline.TimeChronologyUnique | src/pairs/find_optimal_pairs_old.py:289-340 | The records have exactly one time-ordered chronology: same meetings per list and the stable time order decide it. |
| OldPipeline.MatchingDetermined | src/pairs/find_optimal_pairs_old.py:338-376 | The greedy matching of any chronology of the records is non-empty exactly when the records admit a non-empty matching. |
| OldPipeline.MatchingNeedsTwoGcMeetings | src/pairs/find_optimal_pairs_old.py:343-352 | A non-empty matching implies at least two grandchild meetings, so the stage 5 emptiness guard never discards a matching. |
| OldPipeline.ChronologyAndPairs | src/pairs/find_optimal_pairs_old.py:282-384 | An answer is returned exactly when the records admit a non-empty greedy ultra-close matching, and it is that matching over the time-ordered chronology. Nothing recorded gives None. |
| OldPipeline.FillGcTables | src/pairs/find_optimal_pairs_old.py:207-252 | The grandchild tables record exactly the passing results, and the filled count is their number. |
| OldPipeline.FillParentTables | src/pairs/find_optimal_pairs_old.py:241-252 | The grandchild-parent tables record exactly the successful results, and the filled count is their number. |
| OldPipeline.GcPassedIffRecorded | src/pairs/find_optimal_pairs_old.py:190-252 | Some grandchild optimisation passes exactly when some grandchild pair is recorded. |
| OldPipeline.ParentSucceededIffRecorded | src/pairs/find_optimal_pairs_old.py:190-252 | Some grandchild-parent optimisation succeeds exactly when some such pair is recorded. |
| OldPipeline.OptimiseAndFill | src/pairs/find_optimal_pairs_old.py:145-276 | Tables are returned exactly when something is recorded, and then they record exactly the passing and the successful results. |
| OldPipeline.FindOptimalPairsOld | src/pairs/find_optimal_pairs_old.py:12-438 | Missing children or grandchildren, or none at all, give None. Otherwise an answer is returned exactly when the records admit a non-empty greedy matching, and it is that matching over the time-ordered chronology of the records. |
| DistanceConstraints.ConstraintValue | src/area_opt/create_distance_constraints.py:82-133 | Evaluable: the value is the target minus the distance, so it is non-negative iff the distance is within the target. Otherwise -1e6. |
| DistanceConstraints.ConstraintsFor | src/area_opt/create_distance_constraints.py:69-150 | One constraint per pair, in order, with the tree's signs, controls and parents snapshotted. |
| DistanceConstraints.InfosFor | src/area_opt/create_distance_constraints.py:142-150 | Info is keyed by pair index and holds the pair, its parents, its original distance and its meeting time. |
| DistanceConstraints.CreateDistanceConstraints | src/area_opt/create_distance_constraints.py:4-173 | No pairs, or an unknown grandchild, give empty results. Otherwise one constraint and one info entry per pair, in order. |
| DistanceConstraints.ConstraintMeasuresTree | src/area_opt/create_distance_constraints.py:95-129 | On the tree's own dt vector a constraint measures the target minus the stored distance of its pair. |
| DistanceConstraints.PlacesStoredPosition | src/area_opt/create_distance_constraints.py:95-129 | Recomputing root to parent to grandchild with the tree's own dts gives the stored position. |
| DistanceConstraints.TestConstraints | src/area_opt/create_distance_constraints.py:176-240 | A missing info entry gives nothing. Otherwise each result is satisfied iff its value is non-negative and reports target minus value. all_satisfied holds iff all are satisfied iff the satisfied count is the total. |
| DistanceConstraints.ReportedDistanceIsActual | src/area_opt/create_distance_constraints.py:201-211 | For an evaluable constraint the reported distance is the actual distance, and it is satisfied iff within target. An error value is never satisfied. |
| TreeArea.Triangles | src/area_opt/get_tree_area.py:9-25 | One triangle per grandchild: root, its parent, itself. |
| TreeArea.TotalArea | src/area_opt/get_tree_area.py:9-25 | The sum of triangle areas is non-negative, and zero exactly when every triangle is degenerate. |
| TreeArea.TotalAreaKernel | src/area_opt/tree_area_evaluator.py:5-35 | The loop computes the triangle sum. |
| TreeArea.RepeatTwice | src/area_opt/get_tree_area.py:44-48 | The parent indices are 0, 0, 1, 1, 2, 2, 3, 3. |
| TreeArea.GetTreeArea | src/area_opt/get_tree_area.py:28-58 | 0 without children or grandchildren. Otherwise it is non-negative, and zero exactly when every grandchild's triangle with its pair-parent is degenerate. |
| TreeArea.NewAreaEvaluator | src/area_opt/tree_area_evaluator.py:48-96 | Raises without children or grandchildren; otherwise it snapshots signs, controls and parent indices. |
| TreeArea.ChildPositions | src/area_opt/tree_area_evaluator.py:116-130 | Children are stepped from the root with abs(dt) times the stored sign. |
| TreeArea.GrandchildPositions | src/area_opt/tree_area_evaluator.py:117-140 | Grandchildren are stepped from their parent's new position with abs(dt) times the stored sign. |
| TreeArea.Area | src/area_opt/tree_area_evaluator.py:98-158 | Non-negative, and 0 for a vector whose length is not 12. |
| TreeArea.AreaIgnoresSigns | src/area_opt/tree_area_evaluator.py:116-139 | The area of a vector equals the area of its absolute values. |
| TreeArea.EvaluatorMatchesTreeArea | src/area_opt/tree_area_evaluator.py:98-158 | On the tree's own dts the evaluator gives the tree's area. |
| TreeArea.TestAreaCalculation | src/area_opt/tree_area_evaluator.py:160-216 | Success iff the absolute difference from the reference is below 1e-10; the relative error is infinite exactly for a zero reference. |
| TreeArea.ConsistentTreePassesAreaTest | src/area_opt/tree_area_evaluator.py:187-191 | An evaluator built from a consistent tree passes with zero difference. |
| TreeArea.SnapshotSurvivesUpdate | src/area_opt/tree_area_evaluator.py:70-87 | Updating a tree with positive magnitudes leaves the snapshot unchanged. |
| SqDist.PairwiseSqDist | src/matching/soft_assignment.py:11-15 | N x N with non-negative entries. |
| SqDist.GramExpansion | src/matching/soft_assignment.py:13-14 | The Gram expression equals the sum of squared differences. |
| SqDist.SquaredDistanceZeroIff | src/matching/soft_assignment.py:13-15 | A squared distance is non-negative and zero exactly for equal rows. |
| SqDist.EntryIsSquaredDistance | src/matching/soft_assignment.py:11-15 | Entry (i, j) is the squared distance of rows i and j, zero exactly when they are equal. |
| SqDist.SymmetricZeroDiagonal | src/matching/soft_assignment.py:13-15 | The result is symmetric with a zero diagonal. |
| Sorting.StableSort | src/pairs_3/create_chronological_meetings.py:91 | `sorted` by a key: an order of all indices, ascending by key, equal keys in input order. |
| Sorting.StableSortDesc | src/pairs_3/create_meeting_chronology.py:110 | `sorted(..., reverse=True)`: an order of all indices, descending by key, equal keys in input order. |
| Sorting.StableOrderUnique | src/pairs_3/create_chronological_meetings.py:91 | A stable sort has exactly one result. |
| Sorting.SortByMembers | src/pairs_3/create_meeting_chronology.py:110 | Both sorts keep exactly the records of the input. |
| Sorting.SortByTieOrder | src/pairs_3/create_chronological_meetings.py:91 | Ascending by key; records with equal keys keep their input order. |
| Sorting.SortByDescTieOrder | src/pairs_3/create_meeting_chronology.py:284 | Descending by key; records with equal keys keep their input order. |

## Left out

- Pendulum numerics: `step`, `pendulum_dynamics`, the norm and `arctan2` are uninterpreted parameters. Nothing is assumed about them beyond what a lemma states as a hypothesis.
- Solver internals: `scipy.optimize.minimize` and `minimize_scalar` are replaced by the candidate results they return. The starting point and bounds are computed but only passed along.
- Floating point: all arithmetic is on exact reals. Rounding, overflow, NaN propagation through arithmetic and the Gram-matrix cancellation in `pairwise_sqdist` are not modelled. A NaN table cell is `None`.
- Meetings.Quality: the reciprocal is stated for distance + 1e-8 != 0. A distance of exactly -1e-8 would divide by zero in the source, and the model returns 0 there.
- Converging.ParseNat: accepts only non-empty digit strings. Python's `int` also accepts a sign, surrounding whitespace and underscores between digits. The strings it parses are cut from pair names the pipeline builds from indices, so those forms never reach it.
- Meeting records keep no `convergence_velocity` (src/pairs_3/create_meeting_chronology.py:84, src/pairs/complete_meeting_analysis.py:283). It is copied into the records but read only by the CSV export (src/pairs_3/create_meeting_chronology.py:206-227), which is left out.
- Python dictionaries keyed by consecutive indices (chronologies, results by index) are sequences. Dictionaries keyed by pair name become lists of records, with the name format modelled by the pair-name round trip.
- Printing, `show` branches, CSV export (`export_chronology_to_csv`, `export_pairs_to_csv`) and the final statistics block of the old pipeline (src/pairs/find_optimal_pairs_old.py:390-436) only report and are left out.
- Stage 1 of the old pipeline prints NaN statistics of the rate tables; only the tables themselves are modelled.
- `distance_ratio` in `get_pair_details` divides by the least parent distance and is left out; it is infinite or undefined in the degenerate cases.
- `get_pair_details` in src/pairs/extract_pairs_from_chronology.py calls `_calculate_min_parent_distance`, which that file does not define (line 207). It always raises, so only the src/pairs_3 version is modelled.
- `create_optimized_tree_from_pairs` uses `SporeTree` without importing it (src/pairs_3/extract_optimal_dt_from_pairs.py:124). `compare_trees_distances` only reports. Both are left out.
- `hasattr` checks are modelled as the tree's creation flags. Pair indices past the grandchildren raise `IndexError` in the source; the model returns None.
- Exceptions raised part-way through a mutation leave the Python object partly updated. The model returns the error and leaves the input unchanged.
- `mean_points` is both an attribute (src/spore_tree.py:58) and a method (src/spore_tree.py:630-645). The attribute shadows the method on every instance, so the method cannot be called and is left out. The midpoints it would compute are those of SporeTree.CalculateMeanPoints.
- `reset` (src/spore_tree.py:333-340) clears the spores and flags but not the candidate map or the mean points; this is modelled as written. `reset_for_optimization` (src/spore_tree.py:649-655) is left out.
- Any exception inside a constraint closure gives -1e6. The model gives that value when the dt vector is too short to read or a parent index is out of range. Exceptions raised by `pendulum.step` itself are not modelled.
- `test_area_calculation` imports `get_tree_area` and reports an error when the import fails; only the comparison is modelled.
- The numba kernel reads `children_pos[parent_indices[i]]` without a bounds check. The model requires in-range parent indices.
- The loss side of `TreeEvaluator` (`_softmin`, `sinkhorn`, the loss components) and the rest of src/matching/soft_assignment.py are not part of this model. Only the weighting in `dynamic_loss` is.
- src/pairs/find_converging_pairs.py and src/pairs/optimize_grandchild_parent_distance.py are not part of this model. The src/pairs_3 versions are used.
- Concurrency, timing and profiling (src/pairs/find_optimal_pairs_profiled.py, src/pairs/time_profiler.py) are not part of this model.


=== FILE: build_tables.dfy ===
/** `build_grandchild_distance_tables` and
    `build_grandchild_parent_distance_tables`: closing rates, the converging
    pairs, one optimisation per pair, and the NaN tables filled from the
    successful ones. The solver answers are parameters: `solver(i, j)` is what
    the optimiser's runs return for pair (i, j), `dist(i, j)` the distance
    function it minimises. */
module BuildTables {
  import opened Common
  import opened SporeTree
  import opened Convergence
  import opened Converging
  import opened Optimize
  import opened Tables

  datatype BuildError = GrandchildrenNotCreated   // RuntimeError

  datatype GcBuild = GcBuild(tables: GcTables, rates: seq<seq<real>>,
                             pairs: seq<ConvergingPair>, results: seq<PairResult>)

  datatype ParentBuild = ParentBuild(tables: ParentTables, rates: seq<seq<Cell>>,
                                     pairs: seq<ConvergingPair>, results: seq<ParentResult>)

  /** The optimisation of grandchild pair (i, j), without a root position and
      hence without a ceiling. */
  function GcPairResult(gcs: seq<Grandchild>, dtBounds: Interval, solver: (nat, nat) -> seq<Outcome>,
                        dist: (nat, nat) -> (real, real) -> real, i: nat, j: nat): PairResult
  {
    if i < |gcs| && j < |gcs|
    then OptimizePairStrict(gcs[i].dt, gcs[j].dt, dtBounds, None, solver(i, j), dist(i, j))
    else PairFailed(NoValidSolution, None)
  }

  /** `if result['success']`: what a pair result writes into the tables. */
  function SuccessMeet(r: PairResult, i: nat, j: nat): (m: Option<GcMeet>)
    ensures m.Some? <==> r.PairSuccess?
    ensures m.Some? ==> m.value == GcMeet(i, j, r.minDistance, r.dtI, r.dtJ)
  {
    if r.PairSuccess? then Some(GcMeet(i, j, r.minDistance, r.dtI, r.dtJ)) else None
  }

  function GcMeetFn(gcs: seq<Grandchild>, dtBounds: Interval, solver: (nat, nat) -> seq<Outcome>,
                    dist: (nat, nat) -> (real, real) -> real): (nat, nat) -> Option<GcMeet>
  {
    (x: nat, y: nat) => SuccessMeet(GcPairResult(gcs, dtBounds, solver, dist, x, y), x, y)
  }

  /** The grandchild tables `t` for `gcs`: a cell above the diagonal is
      filled exactly when its pair closes faster than 1e-6 and its
      optimisation succeeds, with that optimisation's distance and times; and
      the tables are consistent (symmetric distances, transposed times, NaN
      diagonal). */
  predicate GcTablesFor(p: Pendulum, norm: Norm, gcs: seq<Grandchild>, dtBounds: Interval,
                        solver: (nat, nat) -> seq<Outcome>, dist: (nat, nat) -> (real, real) -> real,
                        t: GcTables)
    requires GcShaped(t, |gcs|)
  {
    && (forall a, c :: 0 <= a < c < |gcs| ==>
          (t.distance[a][c].Some? <==>
             GcRate(p, norm, gcs, a, c) < ConvergingRate
             && GcPairResult(gcs, dtBounds, solver, dist, a, c).PairSuccess?))
    && (forall a, c :: 0 <= a < c < |gcs| && t.distance[a][c].Some? ==>
          var res := GcPairResult(gcs, dtBounds, solver, dist, a, c);
          && t.distance[a][c] == Some(res.minDistance)
          && t.timeI[a][c] == Some(res.dtI)
          && t.timeJ[a][c] == Some(res.dtJ))
    && GcTablesConsistent(t, |gcs|)
  }

  /** The grandchild tables filled from the converging pairs of a rate table. */
  lemma GcTablesFromRates(p: Pendulum, norm: Norm, gcs: seq<Grandchild>, dtBounds: Interval,
                          solver: (nat, nat) -> seq<Outcome>, dist: (nat, nat) -> (real, real) -> real,
                          rates: seq<seq<real>>, pairs: seq<ConvergingPair>)
    requires IsTable(rates, |gcs|, |gcs|)
    requires forall a, c :: 0 <= a < c < |gcs| ==> rates[a][c] == GcRate(p, norm, gcs, a, c)
    requires forall k :: 0 <= k < |pairs| ==> pairs[k].a < pairs[k].b < |gcs|
    requires forall a, c :: 0 <= a < c < |gcs| ==> (HasPair(pairs, a, c) <==> rates[a][c] < ConvergingRate)
    ensures GcTablesFor(p, norm, gcs, dtBounds, solver, dist,
                        FillGc(|gcs|, GcMeetsOf(|gcs|, pairs, GcMeetFn(gcs, dtBounds, solver, dist))))
  {
    var meet := GcMeetFn(gcs, dtBounds, solver, dist);
    var ms := GcMeetsOf(|gcs|, pairs, meet);
    GcFillFromPairs(|gcs|, pairs, meet);
    GcFillSymmetric(|gcs|, ms);
  }

  /** The grandchild tables: RuntimeError without grandchildren; otherwise a
      cell above the diagonal is filled exactly when its pair closes faster
      than 1e-6 and its optimisation succeeds, with that optimisation's
      distance and times; and the tables are consistent (symmetric
      distances, transposed times, NaN diagonal). */
  method BuildGcDistanceTables(p: Pendulum, norm: Norm, t: Tree, dtBounds: Interval,
                               solver: (nat, nat) -> seq<Outcome>,
                               dist: (nat, nat) -> (real, real) -> real)
    returns (r: Result<GcBuild, BuildError>)
    ensures r.Err? <==> !t.grandchildrenCreated
    ensures r.Ok? ==>
      var gcs, b := t.grandchildren, r.value;
      && GcShaped(b.tables, |gcs|)
      && |b.results| == |b.pairs|
      && (forall k :: 0 <= k < |b.pairs| ==>
            b.results[k] == GcPairResult(gcs, dtBounds, solver, dist, b.pairs[k].a, b.pairs[k].b))
      && GcTablesFor(p, norm, gcs, dtBounds, solver, dist, b.tables)
  {
    if !t.grandchildrenCreated {
      return Err(GrandchildrenNotCreated);
    }
    var gcs := t.grandchildren;
    var rates := GrandchildRateTable(p, norm, gcs);
    var pairs := FindConvergingGcPairs(rates);
    var results := seq(|pairs|, k requires 0 <= k < |pairs| =>
      GcPairResult(gcs, dtBounds, solver, dist, pairs[k].a, pairs[k].b));
    var tables := FillGc(|gcs|, GcMeetsOf(|gcs|, pairs, GcMeetFn(gcs, dtBounds, solver, dist)));
    GcTablesFromRates(p, norm, gcs, dtBounds, solver, dist, rates, pairs);
    r := Ok(GcBuild(tables, rates, pairs, results));
  }

  // ----- grandchild-parent tables -----

  /** The optimisation of grandchild g towards parent q with the given bounds. */
  function ParentPairResult(gcs: seq<Grandchild>, dtBounds: Interval, solver: (nat, nat) -> ScalarOutcome,
                            g: nat, q: nat): ParentResult
  {
    if g < |gcs| then OptimizeParentTrusting(gcs[g].dt, dtBounds, solver(g, q))
    else ParentFailed(SolverFailed, dtBounds)
  }

  function ParentSuccessMeet(r: ParentResult, g: nat, q: nat): (m: Option<ParentMeet>)
    ensures m.Some? <==> r.ParentSuccess?
    ensures m.Some? ==> m.value == ParentMeet(g, q, r.minDistance, r.dt)
  {
    if r.ParentSuccess? then Some(ParentMeet(g, q, r.minDistance, r.dt)) else None
  }

  function ParentMeetFn(gcs: seq<Grandchild>, dtBounds: Interval, solver: (nat, nat) -> ScalarOutcome)
    : (nat, nat) -> Option<ParentMeet>
  {
    (x: nat, y: nat) => ParentSuccessMeet(ParentPairResult(gcs, dtBounds, solver, x, y), x, y)
  }

  /** The grandchild-parent tables after recording the successful
      optimisations of `pairs`. */
  function ParentTablesOf(n: nat, cols: nat, pairs: seq<ConvergingPair>, gcs: seq<Grandchild>,
                          dtBounds: Interval, solver: (nat, nat) -> ScalarOutcome): (t: ParentTables)
    requires forall k :: 0 <= k < |pairs| ==> pairs[k].a < n && pairs[k].b < cols
    ensures ParentShaped(t, n, cols)
  {
    FillParent(n, cols, ParentMeetsOf(n, cols, pairs, ParentMeetFn(gcs, dtBounds, solver)))
  }

  /** Assumptions on a grandchild-parent rate table computed against parents
      at `cs` moving with `vel`, and on the pairs found in it. */
  ghost predicate ParentRatesAndPairs(p: Pendulum, norm: Norm, gcs: seq<Grandchild>, cs: seq<Child>,
                                      vel: seq<Vec2>, rates: seq<seq<Cell>>, pairs: seq<ConvergingPair>)
  {
    && |vel| == |cs|
    && IsTable(rates, |gcs|, |cs|)
    && (forall g, q :: 0 <= g < |gcs| && 0 <= q < |cs| ==>
          (rates[g][q].None? <==> q == gcs[g].parentIdx))
    && (forall g, q :: 0 <= g < |gcs| && 0 <= q < |cs| && q != gcs[g].parentIdx ==>
          rates[g][q] == Some(ParentRate(p, norm, gcs[g], cs[q].position, vel[q])))
    && (forall k :: 0 <= k < |pairs| ==> pairs[k].a < |gcs| && pairs[k].b < |cs|)
    && (forall g, q :: 0 <= g < |gcs| && 0 <= q < |cs| ==>
          (HasPair(pairs, g, q) <==> rates[g][q].Some? && rates[g][q].value < ConvergingRate))
  }

  /** One cell of the filled grandchild-parent tables. */
  lemma ParentTableCell(p: Pendulum, norm: Norm, gcs: seq<Grandchild>, cs: seq<Child>,
                        vel: seq<Vec2>, dtBounds: Interval, solver: (nat, nat) -> ScalarOutcome,
                        rates: seq<seq<Cell>>, pairs: seq<ConvergingPair>, g: nat, q: nat)
    requires ParentRatesAndPairs(p, norm, gcs, cs, vel, rates, pairs)
    requires g < |gcs| && q < |cs|
    ensures var t := ParentTablesOf(|gcs|, |cs|, pairs, gcs, dtBounds, solver);
      && (t.distance[g][q].Some? <==>
            q != gcs[g].parentIdx
            && ParentRate(p, norm, gcs[g], cs[q].position, vel[q]) < ConvergingRate
            && solver(g, q).ScalarReturned? && solver(g, q).success)
      && (t.distance[g][q].Some? ==>
            t.distance[g][q] == Some(solver(g, q).fun) && t.time[g][q] == Some(solver(g, q).x))
  {
    var meet := ParentMeetFn(gcs, dtBounds, solver);
    ParentCellFromPairs(|gcs|, |cs|, pairs, meet, g, q);
    assert meet(g, q) == ParentSuccessMeet(OptimizeParentTrusting(gcs[g].dt, dtBounds, solver(g, q)), g, q);
  }

  /** Every cell of the filled grandchild-parent tables. */
  lemma ParentTablesFromRates(p: Pendulum, norm: Norm, gcs: seq<Grandchild>, cs: seq<Child>,
                              vel: seq<Vec2>, dtBounds: Interval, solver: (nat, nat) -> ScalarOutcome,
                              rates: seq<seq<Cell>>, pairs: seq<ConvergingPair>)
    requires ParentRatesAndPairs(p, norm, gcs, cs, vel, rates, pairs)
    ensures var t := ParentTablesOf(|gcs|, |cs|, pairs, gcs, dtBounds, solver);
      && (forall g, q :: 0 <= g < |gcs| && 0 <= q < |cs| ==>
            (t.distance[g][q].Some? <==>
               q != gcs[g].parentIdx
               && ParentRate(p, norm, gcs[g], cs[q].position, vel[q]) < ConvergingRate
               && solver(g, q).ScalarReturned? && solver(g, q).success))
      && (forall g, q :: 0 <= g < |gcs| && 0 <= q < |cs| && t.distance[g][q].Some? ==>
            t.distance[g][q] == Some(solver(g, q).fun) && t.time[g][q] == Some(solver(g, q).x))
  {
    forall g, q | 0 <= g < |gcs| && 0 <= q < |cs|
      ensures var t := ParentTablesOf(|gcs|, |cs|, pairs, gcs, dtBounds, solver);
        && (t.distance[g][q].Some? <==>
              q != gcs[g].parentIdx
              && ParentRate(p, norm, gcs[g], cs[q].position, vel[q]) < ConvergingRate
              && solver(g, q).ScalarReturned? && solver(g, q).success)
        && (t.distance[g][q].Some? ==>
              t.distance[g][q] == Some(solver(g, q).fun) && t.time[g][q] == Some(solver(g, q).x))
    {
      ParentTableCell(p, norm, gcs, cs, vel, dtBounds, solver, rates, pairs, g, q);
    }
  }

  /** The grandchild-parent tables, with the parents taken as static: a cell
      is filled exactly when the parent is not the grandchild's own, the pair
      closes faster than 1e-6 and the solver reports success. */
  method BuildParentDistanceTables(p: Pendulum, norm: Norm, t: Tree, dtBounds: Interval,
                                   solver: (nat, nat) -> ScalarOutcome)
    returns (r: Result<ParentBuild, BuildError>)
    ensures r.Err? <==> !t.grandchildrenCreated
    ensures r.Ok? ==>
      var gcs, cs, b := t.grandchildren, t.children, r.value;
      && ParentShaped(b.tables, |gcs|, |cs|)
      && |b.results| == |b.pairs|
      && (forall k :: 0 <= k < |b.pairs| ==>
            b.results[k] == ParentPairResult(gcs, dtBounds, solver, b.pairs[k].a, b.pairs[k].b))
      && (forall g, q :: 0 <= g < |gcs| && 0 <= q < |cs| ==>
            (b.tables.distance[g][q].Some? <==>
               q != gcs[g].parentIdx
               && ParentRate(p, norm, gcs[g], cs[q].position, Vec2(0.0, 0.0)) < ConvergingRate
               && solver(g, q).ScalarReturned? && solver(g, q).success))
      && (forall g, q :: 0 <= g < |gcs| && 0 <= q < |cs| && b.tables.distance[g][q].Some? ==>
            b.tables.distance[g][q] == Some(solver(g, q).fun) && b.tables.time[g][q] == Some(solver(g, q).x))
  {
    if !t.grandchildrenCreated {
      return Err(GrandchildrenNotCreated);
    }
    var gcs, cs := t.grandchildren, t.children;
    var n, m := |gcs|, |cs|;
    var rates := ParentRateTable(p, norm, gcs, ChildPositionsOf(cs), StaticVelocities(m));
    var pairs := FindConvergingParentPairs(rates, m);
    var results := seq(|pairs|, k requires 0 <= k < |pairs| =>
      ParentPairResult(gcs, dtBounds, solver, pairs[k].a, pairs[k].b));
    var tables := ParentTablesOf(n, m, pairs, gcs, dtBounds, solver);
    ParentTablesFromRates(p, norm, gcs, cs, StaticVelocities(m), dtBounds, solver, rates, pairs);
    r := Ok(ParentBuild(tables, rates, pairs, results));
  }
}

=== FILE: chronology.dfy ===
/** The chronology pipelines end to end: `create_chronological_meetings`,
    `create_meeting_chronology` and `complete_meeting_analysis` build the
    distance and time tables and read every grandchild's meetings off them.
    Their contracts say which partners a grandchild meets, with which
    distance and times, in terms of the closing rates and the optimiser's
    answers, independently of the tables in between. */
module Chronology {
  import opened Common
  import opened Seqs
  import opened SporeTree
  import opened Convergence
  import opened Converging
  import opened Optimize
  import opened Tables
  import opened BuildTables
  import opened Meetings

  /** The grandchild tables hold, above the diagonal, exactly the records
      `meet(a, c)` names, and are consistent. */
  ghost predicate GcTablesRecord(t: GcTables, n: nat, meet: (nat, nat) -> Option<GcMeet>)
  {
    && GcShaped(t, n) && GcTablesConsistent(t, n)
    && (forall a, c :: 0 <= a < c < n ==> (t.distance[a][c].Some? <==> meet(a, c).Some?))
    && (forall a, c :: 0 <= a < c < n && meet(a, c).Some? ==>
          && t.distance[a][c] == Some(meet(a, c).value.distance)
          && t.timeI[a][c] == Some(meet(a, c).value.dtI)
          && t.timeJ[a][c] == Some(meet(a, c).value.dtJ))
  }

  /** The grandchild-parent tables hold exactly the records `meet(g, q)` names. */
  ghost predicate ParentTablesRecord(t: ParentTables, n: nat, cols: nat, meet: (nat, nat) -> Option<ParentMeet>)
  {
    && ParentShaped(t, n, cols)
    && (forall g, q :: 0 <= g < n && 0 <= q < cols ==> (t.distance[g][q].Some? <==> meet(g, q).Some?))
    && (forall g, q :: 0 <= g < n && 0 <= q < cols && meet(g, q).Some? ==>
          t.distance[g][q] == Some(meet(g, q).value.distance) && t.time[g][q] == Some(meet(g, q).value.dt))
  }

  /** m is a meeting grandchild g has according to the records: another
      grandchild whose pair was recorded, seen from g's side (g's own time
      first), or a foreign parent whose pair was recorded. */
  ghost predicate Expected(n: nat, cols: nat, gcs: seq<Grandchild>, gm: (nat, nat) -> Option<GcMeet>,
                           pm: (nat, nat) -> Option<ParentMeet>, g: nat, m: Meeting)
    requires g < |gcs|
  {
    match m.partner
    case GcPartner(o) =>
      && o < n && o != g
      && var k := PairKey(g, o);
      && gm(k.0, k.1).Some?
      && var rec := gm(k.0, k.1).value;
      && m.distance == rec.distance
      && (if g < o then m.timeGc == rec.dtI && m.timePartner == Some(rec.dtJ)
          else m.timeGc == rec.dtJ && m.timePartner == Some(rec.dtI))
    case ParentPartner(q) =>
      && q < cols && q != gcs[g].parentIdx && pm(g, q).Some?
      && m.distance == pm(g, q).value.distance && m.timeGc == pm(g, q).value.dt && m.timePartner.None?
  }

  /** Tables filled from the converging pairs record `gm` when `gm` is
      `meet` on the converging pairs and nothing elsewhere. */
  lemma FillRecords(n: nat, pairs: seq<ConvergingPair>, meet: (nat, nat) -> Option<GcMeet>,
                    gm: (nat, nat) -> Option<GcMeet>)
    requires forall k :: 0 <= k < |pairs| ==> pairs[k].a < pairs[k].b < n
    requires MeetsItsPair(meet)
    requires forall a, c :: 0 <= a < c < n ==> gm(a, c) == (if HasPair(pairs, a, c) then meet(a, c) else None)
    ensures GcTablesRecord(FillGc(n, GcMeetsOf(n, pairs, meet)), n, gm)
  {
    var ms := GcMeetsOf(n, pairs, meet);
    GcFillFromPairs(n, pairs, meet);
    GcFillSymmetric(n, ms);
  }

  lemma RecordsReadable(gt: GcTables, pt: ParentTables, n: nat, cols: nat,
                        gm: (nat, nat) -> Option<GcMeet>, pm: (nat, nat) -> Option<ParentMeet>)
    requires GcTablesRecord(gt, n, gm) && ParentTablesRecord(pt, n, cols, pm)
    ensures Readable(gt, pt, n, cols)
  {
    forall a, b | 0 <= a < n && 0 <= b < n && gt.distance[a][b].Some?
      ensures gt.timeI[a][b].Some? && gt.timeJ[a][b].Some?
    {
      if b < a {
        assert gt.distance[b][a].Some?;
        assert gt.timeI[a][b] == gt.timeJ[b][a] && gt.timeI[b][a] == gt.timeJ[a][b];
      }
    }
  }

  /** Reading the tables gives exactly the recorded meetings. */
  lemma MeetingsFromRecords(gt: GcTables, pt: ParentTables, n: nat, cols: nat, gcs: seq<Grandchild>,
                            gm: (nat, nat) -> Option<GcMeet>, pm: (nat, nat) -> Option<ParentMeet>,
                            g: nat, m: Meeting)
    requires GcTablesRecord(gt, n, gm) && ParentTablesRecord(pt, n, cols, pm)
    requires g < n == |gcs|
    ensures Readable(gt, pt, n, cols)
    ensures IsMeetingOf(gt, pt, n, cols, gcs, g, m) <==> Expected(n, cols, gcs, gm, pm, g, m)
  {
    RecordsReadable(gt, pt, n, cols, gm, pm);
    if m.partner.GcPartner? {
      var o := m.partner.idx;
      if o < n && o != g && o < g {
        assert gt.distance[g][o] == gt.distance[o][g];
        assert gt.timeI[o][g] == gt.timeJ[g][o] && gt.timeI[g][o] == gt.timeJ[o][g];
      }
    }
  }

  /** Every grandchild's list is exactly its recorded meetings. */
  lemma ChronologyFromRecords(gt: GcTables, pt: ParentTables, n: nat, cols: nat, gcs: seq<Grandchild>,
                              gm: (nat, nat) -> Option<GcMeet>, pm: (nat, nat) -> Option<ParentMeet>)
    requires GcTablesRecord(gt, n, gm) && ParentTablesRecord(pt, n, cols, pm)
    requires n == |gcs|
    ensures Readable(gt, pt, n, cols)
    ensures forall g, m :: 0 <= g < n ==>
      (IsMeetingOf(gt, pt, n, cols, gcs, g, m) <==> Expected(n, cols, gcs, gm, pm, g, m))
  {
    RecordsReadable(gt, pt, n, cols, gm, pm);
    forall g, m | 0 <= g < n
      ensures IsMeetingOf(gt, pt, n, cols, gcs, g, m) <==> Expected(n, cols, gcs, gm, pm, g, m)
    {
      MeetingsFromRecords(gt, pt, n, cols, gcs, gm, pm, g, m);
    }
  }

  // ----- the records of build_distance_tables -----

  /** Pair (a, c), a < c, is recorded by `build_grandchild_distance_tables`
      when it closes faster than 1e-6 and its optimisation succeeds. */
  function BuiltGcMeet(p: Pendulum, norm: Norm, gcs: seq<Grandchild>, dtBounds: Interval,
                       solver: (nat, nat) -> seq<Outcome>, dist: (nat, nat) -> (real, real) -> real)
    : (nat, nat) -> Option<GcMeet>
  {
    (a: nat, c: nat) =>
      if a < c < |gcs| && GcRate(p, norm, gcs, a, c) < ConvergingRate
      then SuccessMeet(GcPairResult(gcs, dtBounds, solver, dist, a, c), a, c)
      else None
  }

  /** Pair (g, q) is recorded by `build_grandchild_parent_distance_tables`
      when q is not g's parent, g closes on the static parent q faster than
      1e-6 and the scalar solver reports success. */
  function BuiltParentMeet(p: Pendulum, norm: Norm, gcs: seq<Grandchild>, cs: seq<Child>,
                           solver: (nat, nat) -> ScalarOutcome): (nat, nat) -> Option<ParentMeet>
  {
    (g: nat, q: nat) =>
      if g < |gcs| && q < |cs| && q != gcs[g].parentIdx
         && ParentRate(p, norm, gcs[g], cs[q].position, Vec2(0.0, 0.0)) < ConvergingRate
         && solver(g, q).ScalarReturned? && solver(g, q).success
      then Some(ParentMeet(g, q, solver(g, q).fun, solver(g, q).x))
      else None
  }

  /** Both tables built for the same tree, as the pipelines receive them. */
  ghost predicate BuiltFor(p: Pendulum, norm: Norm, t: Tree, dtBounds: Interval,
                           gcSolver: (nat, nat) -> seq<Outcome>, dist: (nat, nat) -> (real, real) -> real,
                           parentSolver: (nat, nat) -> ScalarOutcome, gb: GcBuild, pb: ParentBuild)
  {
    && GcTablesRecord(gb.tables, |t.grandchildren|, BuiltGcMeet(p, norm, t.grandchildren, dtBounds, gcSolver, dist))
    && ParentTablesRecord(pb.tables, |t.grandchildren|, |t.children|,
                          BuiltParentMeet(p, norm, t.grandchildren, t.children, parentSolver))
  }

  /** Both table builders, RuntimeError first. */
  method BuildBoth(p: Pendulum, norm: Norm, t: Tree, dtBounds: Interval,
                   gcSolver: (nat, nat) -> seq<Outcome>, dist: (nat, nat) -> (real, real) -> real,
                   parentSolver: (nat, nat) -> ScalarOutcome)
    returns (r: Result<(GcBuild, ParentBuild), BuildError>)
    ensures r.Err? <==> !t.grandchildrenCreated
    ensures r.Ok? ==> BuiltFor(p, norm, t, dtBounds, gcSolver, dist, parentSolver, r.value.0, r.value.1)
  {
    if !t.grandchildrenCreated {
      return Err(GrandchildrenNotCreated);
    }
    var gr := BuildGcRecorded(p, norm, t, dtBounds, gcSolver, dist);
    var pr := BuildParentRecorded(p, norm, t, dtBounds, parentSolver);
    r := Ok((gr.value, pr.value));
  }

  /** `build_grandchild_distance_tables` records exactly `BuiltGcMeet`. */
  method BuildGcRecorded(p: Pendulum, norm: Norm, t: Tree, dtBounds: Interval,
                         solver: (nat, nat) -> seq<Outcome>, dist: (nat, nat) -> (real, real) -> real)
    returns (r: Result<GcBuild, BuildError>)
    ensures r.Err? <==> !t.grandchildrenCreated
    ensures r.Ok? ==> GcTablesRecord(r.value.tables, |t.grandchildren|, BuiltGcMeet(p, norm, t.grandchildren, dtBounds, solver, dist))
  {
    r := BuildGcDistanceTables(p, norm, t, dtBounds, solver, dist);
    if r.Ok? {
      var gcs := t.grandchildren;
      var gm := BuiltGcMeet(p, norm, gcs, dtBounds, solver, dist);
      assert forall a, c :: 0 <= a < c < |gcs| ==>
        gm(a, c) == (if GcRate(p, norm, gcs, a, c) < ConvergingRate
                     then SuccessMeet(GcPairResult(gcs, dtBounds, solver, dist, a, c), a, c) else None);
      assert GcTablesRecord(r.value.tables, |gcs|, gm);
    }
  }

  /** `build_grandchild_parent_distance_tables` records exactly `BuiltParentMeet`. */
  method BuildParentRecorded(p: Pendulum, norm: Norm, t: Tree, dtBounds: Interval,
                             solver: (nat, nat) -> ScalarOutcome)
    returns (r: Result<ParentBuild, BuildError>)
    ensures r.Err? <==> !t.grandchildrenCreated
    ensures r.Ok? ==>
      ParentTablesRecord(r.value.tables, |t.grandchildren|, |t.children|,
                         BuiltParentMeet(p, norm, t.grandchildren, t.children, solver))
  {
    r := BuildParentDistanceTables(p, norm, t, dtBounds, solver);
    if r.Ok? {
      var gcs, cs := t.grandchildren, t.children;
      assert ParentTablesRecord(r.value.tables, |gcs|, |cs|, BuiltParentMeet(p, norm, gcs, cs, solver));
    }
  }

  /** `create_chronological_meetings`: RuntimeError without grandchildren;
      otherwise grandchild g's list holds exactly its recorded meetings,
      earliest meeting time first, ties in scan order. */
  method CreateChronologicalMeetings(p: Pendulum, norm: Norm, t: Tree, dtBounds: Interval,
                                     gcSolver: (nat, nat) -> seq<Outcome>,
                                     dist: (nat, nat) -> (real, real) -> real,
                                     parentSolver: (nat, nat) -> ScalarOutcome)
    returns (r: Result<seq<seq<Meeting>>, BuildError>)
    ensures r.Err? <==> !t.grandchildrenCreated
    ensures r.Ok? ==>
      var gcs, n, cols := t.grandchildren, |t.grandchildren|, |t.children|;
      var gm := BuiltGcMeet(p, norm, gcs, dtBounds, gcSolver, dist);
      var pm := BuiltParentMeet(p, norm, gcs, t.children, parentSolver);
      && |r.value| == n
      && (forall g, m :: 0 <= g < n ==> (m in r.value[g] <==> Expected(n, cols, gcs, gm, pm, g, m)))
      && (forall g, i, j :: 0 <= g < n && 0 <= i < j < |r.value[g]| ==> TimeFirst(n, r.value[g][i], r.value[g][j]))
  {
    var built := BuildBoth(p, norm, t, dtBounds, gcSolver, dist, parentSolver);
    if built.Err? {
      return Err(built.error);
    }
    var gcs, n, cols := t.grandchildren, |t.grandchildren|, |t.children|;
    var gb, pb := built.value.0, built.value.1;
    ChronologyFromRecords(gb.tables, pb.tables, n, cols, gcs,
                          BuiltGcMeet(p, norm, gcs, dtBounds, gcSolver, dist),
                          BuiltParentMeet(p, norm, gcs, t.children, parentSolver));
    r := Ok(ChronologyByTime(gb.tables, pb.tables, n, cols, gcs));
  }

  /** The result of `create_meeting_chronology`. */
  datatype MeetingChronology = MeetingChronology(
    chronology: seq<seq<Meeting>>, gcTables: GcBuild, parentTables: ParentBuild, summary: ChronologySummary)

  /** The summary of a quality-ordered chronology whose lists are exactly
      the recorded meetings: a grandchild has a best meeting exactly when it
      has a meeting, and the best one is a recorded meeting no other recorded
      meeting of it beats. */
  lemma SummaryBest(n: nat, cols: nat, gcs: seq<Grandchild>, gm: (nat, nat) -> Option<GcMeet>,
                    pm: (nat, nat) -> Option<ParentMeet>, c: seq<seq<Meeting>>)
    requires n == |gcs| == |c|
    requires forall g, m :: 0 <= g < n ==> (m in c[g] <==> Expected(n, cols, gcs, gm, pm, g, m))
    requires forall g, i, j :: 0 <= g < n && 0 <= i < j < |c[g]| ==> QualityFirst(n, c[g][i], c[g][j])
    ensures var best := Summarize(c).bestMeetingsPerGc;
      && (forall g: nat :: g in best <==> g < n && exists m :: Expected(n, cols, gcs, gm, pm, g, m))
      && (forall g: nat :: g in best ==>
            exists m :: Expected(n, cols, gcs, gm, pm, g, m) && best[g] == BestOf(m))
      && (forall g: nat, m :: g in best && Expected(n, cols, gcs, gm, pm, g, m) ==>
            best[g].quality >= MeetingQuality(m))
  {
    var best := Summarize(c).bestMeetingsPerGc;
    forall g: nat | g < n && exists m :: Expected(n, cols, gcs, gm, pm, g, m)
      ensures g in best
    {
      var m :| Expected(n, cols, gcs, gm, pm, g, m);
      assert m in c[g];
    }
    forall g: nat | g in best
      ensures exists m :: Expected(n, cols, gcs, gm, pm, g, m) && best[g] == BestOf(m)
    {
      assert c[g][0] in c[g];
    }
    forall g: nat, m | g in best && Expected(n, cols, gcs, gm, pm, g, m)
      ensures best[g].quality >= MeetingQuality(m)
    {
      assert m in c[g];
      var k :| 0 <= k < |c[g]| && c[g][k] == m;
      if k > 0 {
        assert QualityFirst(n, c[g][0], c[g][k]);
      }
    }
  }

  /** `create_meeting_chronology`: RuntimeError without grandchildren;
      otherwise every list holds exactly the grandchild's recorded meetings,
      best quality first, the returned tables are the ones built, and the
      summary is that of the chronology: its counts, and the head of every
      non-empty list as the grandchild's best meeting. */
  method CreateMeetingChronology(p: Pendulum, norm: Norm, t: Tree, dtBounds: Interval,
                                 gcSolver: (nat, nat) -> seq<Outcome>,
                                 dist: (nat, nat) -> (real, real) -> real,
                                 parentSolver: (nat, nat) -> ScalarOutcome)
    returns (r: Result<MeetingChronology, BuildError>)
    ensures r.Err? <==> !t.grandchildrenCreated
    ensures r.Ok? ==>
      var gcs, n, cols := t.grandchildren, |t.grandchildren|, |t.children|;
      var gm := BuiltGcMeet(p, norm, gcs, dtBounds, gcSolver, dist);
      var pm := BuiltParentMeet(p, norm, gcs, t.children, parentSolver);
      var c, best := r.value.chronology, r.value.summary.bestMeetingsPerGc;
      && |c| == n && r.value.summary.totalGrandchildren == n
      && (forall g, m :: 0 <= g < n ==> (m in c[g] <==> Expected(n, cols, gcs, gm, pm, g, m)))
      && (forall g, i, j :: 0 <= g < n && 0 <= i < j < |c[g]| ==> QualityFirst(n, c[g][i], c[g][j]))
      && (forall g: nat :: g in best <==> g < n && exists m :: Expected(n, cols, gcs, gm, pm, g, m))
      && (forall g: nat, m :: g in best && Expected(n, cols, gcs, gm, pm, g, m) ==>
            best[g].quality >= MeetingQuality(m))
    ensures r.Ok? ==> BuiltFor(p, norm, t, dtBounds, gcSolver, dist, parentSolver,
                               r.value.gcTables, r.value.parentTables)
    ensures r.Ok? ==> r.value.summary == Summarize(r.value.chronology)
  {
    var built := BuildBoth(p, norm, t, dtBounds, gcSolver, dist, parentSolver);
    if built.Err? {
      return Err(built.error);
    }
    var gcs, n, cols := t.grandchildren, |t.grandchildren|, |t.children|;
    var gb, pb := built.value.0, built.value.1;
    var gm := BuiltGcMeet(p, norm, gcs, dtBounds, gcSolver, dist);
    var pm := BuiltParentMeet(p, norm, gcs, t.children, parentSolver);
    ChronologyFromRecords(gb.tables, pb.tables, n, cols, gcs, gm, pm);
    var c := ChronologyByQuality(gb.tables, pb.tables, n, cols, gcs);
    SummaryBest(n, cols, gcs, gm, pm, c);
    r := Ok(MeetingChronology(c, gb, pb, Summarize(c)));
  }

  // ----- complete_meeting_analysis -----

  /** What one L-BFGS-B run leaves in the tables: its answer when it
      returned with success, nothing when it raised or failed. */
  function RunMeet(o: Outcome, i: nat, j: nat): (m: Option<GcMeet>)
    ensures m.Some? <==> o.Returned? && o.success
    ensures m.Some? ==> m.value == GcMeet(i, j, o.fun, o.xi, o.xj)
  {
    if o.Returned? && o.success then Some(GcMeet(i, j, o.fun, o.xi, o.xj)) else None
  }

  /** What one bounded scalar run leaves in the tables. */
  function ScalarRunMeet(o: ScalarOutcome, g: nat, q: nat): (m: Option<ParentMeet>)
    ensures m.Some? <==> o.ScalarReturned? && o.success
    ensures m.Some? ==> m.value == ParentMeet(g, q, o.fun, o.x)
  {
    if o.ScalarReturned? && o.success then Some(ParentMeet(g, q, o.fun, o.x)) else None
  }

  /** Pair (a, c), a < c, is recorded by `complete_meeting_analysis` when it
      closes faster than 1e-6 and its single run returns with success. */
  function AnalysisGcMeet(p: Pendulum, norm: Norm, gcs: seq<Grandchild>, solver: (nat, nat) -> Outcome)
    : (nat, nat) -> Option<GcMeet>
  {
    (a: nat, c: nat) =>
      if a < c < |gcs| && GcRate(p, norm, gcs, a, c) < ConvergingRate then RunMeet(solver(a, c), a, c)
      else None
  }

  /** Pair (g, q) is recorded when q is not g's parent, g closes faster than
      1e-6 on parent q moving along its own dynamics, and the scalar run
      returns with success. */
  function AnalysisParentMeet(p: Pendulum, norm: Norm, gcs: seq<Grandchild>, cs: seq<Child>,
                              solver: (nat, nat) -> ScalarOutcome): (nat, nat) -> Option<ParentMeet>
  {
    (g: nat, q: nat) =>
      if g < |gcs| && q < |cs| && q != gcs[g].parentIdx
         && ParentRate(p, norm, gcs[g], cs[q].position,
                       SpreadVelocity(p, cs[q].position, cs[q].control, cs[q].dt)) < ConvergingRate
      then ScalarRunMeet(solver(g, q), g, q)
      else None
  }

  function RunMeetFn(solver: (nat, nat) -> Outcome): (nat, nat) -> Option<GcMeet>
  {
    (x: nat, y: nat) => RunMeet(solver(x, y), x, y)
  }

  lemma RunMeetsItsPair(solver: (nat, nat) -> Outcome)
    ensures MeetsItsPair(RunMeetFn(solver))
  {
    forall x: nat, y: nat | RunMeetFn(solver)(x, y).Some?
      ensures RunMeetFn(solver)(x, y).value.i == x && RunMeetFn(solver)(x, y).value.j == y
    {
      assert RunMeetFn(solver)(x, y) == RunMeet(solver(x, y), x, y);
    }
  }

  lemma AnalysisParentMeetsItsPair(p: Pendulum, norm: Norm, gcs: seq<Grandchild>, cs: seq<Child>,
                                   solver: (nat, nat) -> ScalarOutcome)
    ensures ParentMeetsItsPair(AnalysisParentMeet(p, norm, gcs, cs, solver))
  {
    var am := AnalysisParentMeet(p, norm, gcs, cs, solver);
    forall x: nat, y: nat | am(x, y).Some?
      ensures am(x, y).value.gc == x && am(x, y).value.parent == y
    {
      assert am(x, y) == ScalarRunMeet(solver(x, y), x, y);
    }
  }

  /** One cell: a converging pair is recorded when its run succeeds. */
  lemma AnalysisGcCell(p: Pendulum, norm: Norm, gcs: seq<Grandchild>, solver: (nat, nat) -> Outcome,
                       converges: bool, a: nat, c: nat)
    requires a < c < |gcs|
    requires converges <==> GcRate(p, norm, gcs, a, c) < ConvergingRate
    ensures AnalysisGcMeet(p, norm, gcs, solver)(a, c) == (if converges then RunMeetFn(solver)(a, c) else None)
  {
  }

  /** The grandchild tables of `complete_meeting_analysis` hold exactly its records. */
  lemma AnalysisGcTables(p: Pendulum, norm: Norm, gcs: seq<Grandchild>, solver: (nat, nat) -> Outcome,
                         rates: seq<seq<real>>, pairs: seq<ConvergingPair>)
    requires IsTable(rates, |gcs|, |gcs|)
    requires forall a, c :: 0 <= a < c < |gcs| ==> rates[a][c] == GcRate(p, norm, gcs, a, c)
    requires forall k :: 0 <= k < |pairs| ==> pairs[k].a < pairs[k].b < |gcs|
    requires forall a, c :: 0 <= a < c < |gcs| ==> (HasPair(pairs, a, c) <==> rates[a][c] < ConvergingRate)
    requires MeetsItsPair(RunMeetFn(solver))
    ensures GcTablesRecord(FillGc(|gcs|, GcMeetsOf(|gcs|, pairs, RunMeetFn(solver))), |gcs|,
                           AnalysisGcMeet(p, norm, gcs, solver))
  {
    var n := |gcs|;
    var meet := RunMeetFn(solver);
    var am := AnalysisGcMeet(p, norm, gcs, solver);
    forall a: nat, c: nat | a < c < n
      ensures am(a, c) == (if HasPair(pairs, a, c) then meet(a, c) else None)
    {
      AnalysisGcCell(p, norm, gcs, solver, HasPair(pairs, a, c), a, c);
    }
    FillRecords(n, pairs, meet, am);
  }

  /** The converging grandchild-parent pairs, read back through the rate table. */
  lemma ParentPairsConverge(p: Pendulum, norm: Norm, gcs: seq<Grandchild>, cs: seq<Child>,
                            vel: seq<Vec2>, rates: seq<seq<Cell>>, pairs: seq<ConvergingPair>)
    requires ParentRatesAndPairs(p, norm, gcs, cs, vel, rates, pairs)
    ensures forall g, q :: 0 <= g < |gcs| && 0 <= q < |cs| ==>
      (HasPair(pairs, g, q) <==>
         q != gcs[g].parentIdx && ParentRate(p, norm, gcs[g], cs[q].position, vel[q]) < ConvergingRate)
  {
  }

  /** The grandchild-parent tables of `complete_meeting_analysis` hold exactly its records. */
  lemma AnalysisParentTables(p: Pendulum, norm: Norm, gcs: seq<Grandchild>, cs: seq<Child>,
                             solver: (nat, nat) -> ScalarOutcome, pairs: seq<ConvergingPair>)
    requires forall k :: 0 <= k < |pairs| ==> pairs[k].a < |gcs| && pairs[k].b < |cs|
    requires forall g, q :: 0 <= g < |gcs| && 0 <= q < |cs| ==>
      (HasPair(pairs, g, q) <==>
         q != gcs[g].parentIdx && ParentRate(p, norm, gcs[g], cs[q].position, ChildVelocities(p, cs)[q]) < ConvergingRate)
    requires ParentMeetsItsPair(AnalysisParentMeet(p, norm, gcs, cs, solver))
    ensures var am := AnalysisParentMeet(p, norm, gcs, cs, solver);
      ParentTablesRecord(FillParent(|gcs|, |cs|, ParentMeetsOf(|gcs|, |cs|, pairs, am)), |gcs|, |cs|, am)
  {
    var am := AnalysisParentMeet(p, norm, gcs, cs, solver);
    ParentFillFromPairs(|gcs|, |cs|, pairs, am);
  }

  /** The index pairs of `ps` that satisfy `ok`. */
  function PairKeys(ps: seq<ConvergingPair>, ok: ConvergingPair -> bool): set<(nat, nat)>
  {
    set x | x in ps && ok(x) :: (x.a, x.b)
  }

  /** Counting the pairs that satisfy `ok` counts their distinct index pairs. */
  lemma {:induction false} CountDistinctPairs(ps: seq<ConvergingPair>, ok: ConvergingPair -> bool)
    requires forall k, l :: 0 <= k < l < |ps| ==> (ps[k].a, ps[k].b) != (ps[l].a, ps[l].b)
    ensures |PairKeys(ps, ok)| == CountIf(ps, ok)
  {
    if |ps| > 0 {
      var rest := ps[1..];
      assert forall k, l :: 0 <= k < l < |rest| ==> rest[k] == ps[k + 1] && rest[l] == ps[l + 1];
      CountDistinctPairs(rest, ok);
      var key := (ps[0].a, ps[0].b);
      PairKeysMissing(rest, ok, key);
      PairKeysCons(ps, ok);
    }
  }

  lemma PairKeysCons(ps: seq<ConvergingPair>, ok: ConvergingPair -> bool)
    requires |ps| > 0
    ensures PairKeys(ps, ok) == PairKeys(ps[1..], ok) + (if ok(ps[0]) then {(ps[0].a, ps[0].b)} else {})
  {
    assert forall x :: x in ps <==> x == ps[0] || x in ps[1..];
  }

  lemma PairKeysMissing(ps: seq<ConvergingPair>, ok: ConvergingPair -> bool, key: (nat, nat))
    requires forall k :: 0 <= k < |ps| ==> (ps[k].a, ps[k].b) != key
    ensures key !in PairKeys(ps, ok)
  {
    forall x | x in ps
      ensures (x.a, x.b) != key
    {
      var k :| 0 <= k < |ps| && ps[k] == x;
    }
  }

  /** The filled cells above the diagonal of the grandchild tables. */
  function FilledGcCells(t: GcTables, n: nat): set<(nat, nat)>
    requires GcShaped(t, n)
  {
    set a: nat, c: nat | a < c < n && t.distance[a][c].Some? :: (a, c)
  }

  /** The filled cells of the grandchild-parent tables. */
  function FilledParentCells(t: ParentTables, n: nat, cols: nat): set<(nat, nat)>
    requires ParentShaped(t, n, cols)
  {
    set g: nat, q: nat | g < n && q < cols && t.distance[g][q].Some? :: (g, q)
  }

  /** The `summary` of `complete_meeting_analysis`. */
  datatype AnalysisSummary = AnalysisSummary(
    totalGrandchildren: nat, totalGcGcMeetings: nat, totalGcParentMeetings: nat,
    grandchildrenWithMeetings: nat)

  /** The result of `complete_meeting_analysis`. */
  datatype MeetingAnalysis = MeetingAnalysis(
    gcTables: GcTables, gcRates: seq<seq<real>>, gcPairs: seq<ConvergingPair>,
    parentTables: ParentTables, parentRates: seq<seq<Cell>>, parentPairs: seq<ConvergingPair>,
    chronology: seq<seq<Meeting>>, summary: AnalysisSummary)

  predicate GcRunSucceeded(solver: (nat, nat) -> Outcome, x: ConvergingPair)
  {
    solver(x.a, x.b).Returned? && solver(x.a, x.b).success
  }

  predicate ParentRunSucceeded(solver: (nat, nat) -> ScalarOutcome, x: ConvergingPair)
  {
    solver(x.a, x.b).ScalarReturned? && solver(x.a, x.b).success
  }

  /** `complete_meeting_analysis`: RuntimeError without grandchildren;
      otherwise the returned convergence tables and pair lists are those of
      the tree, the tables hold exactly the successful runs of the pairs
      that close faster than 1e-6 (parents moving along their own dynamics),
      every grandchild's list holds exactly its recorded meetings, best
      quality first, and the summary's meeting counts, which count
      successful runs, equal the numbers of filled cells. */
  method CompleteMeetingAnalysis(p: Pendulum, norm: Norm, t: Tree,
                                 gcSolver: (nat, nat) -> Outcome, parentSolver: (nat, nat) -> ScalarOutcome)
    returns (r: Result<MeetingAnalysis, BuildError>)
    ensures r.Err? <==> !t.grandchildrenCreated
    ensures r.Ok? ==>
      var gcs, n, cols, a := t.grandchildren, |t.grandchildren|, |t.children|, r.value;
      var gm := AnalysisGcMeet(p, norm, gcs, gcSolver);
      var pm := AnalysisParentMeet(p, norm, gcs, t.children, parentSolver);
      var c := a.chronology;
      && IsGcRateTable(p, norm, gcs, a.gcRates)
      && IsGcPairList(a.gcRates, a.gcPairs)
      && IsParentRateTable(p, norm, gcs, ChildPositionsOf(t.children), ChildVelocities(p, t.children), a.parentRates)
      && IsParentPairList(a.parentRates, cols, a.parentPairs)
      && GcTablesRecord(a.gcTables, n, gm)
      && ParentTablesRecord(a.parentTables, n, cols, pm)
      && |c| == n
      && (forall g, m :: 0 <= g < n ==> (m in c[g] <==> Expected(n, cols, gcs, gm, pm, g, m)))
      && (forall g, i, j :: 0 <= g < n && 0 <= i < j < |c[g]| ==> QualityFirst(n, c[g][i], c[g][j]))
      && a.summary.totalGrandchildren == n
      && a.summary.totalGcGcMeetings == |FilledGcCells(a.gcTables, n)|
      && a.summary.totalGcParentMeetings == |FilledParentCells(a.parentTables, n, cols)|
      && a.summary.grandchildrenWithMeetings == CountIf(c, NonEmpty)
  {
    if !t.grandchildrenCreated {
      return Err(GrandchildrenNotCreated);
    }
    var gcs, cs := t.grandchildren, t.children;
    var n, cols := |gcs|, |cs|;
    var gm := AnalysisGcMeet(p, norm, gcs, gcSolver);
    var pm := AnalysisParentMeet(p, norm, gcs, cs, parentSolver);
    var gcRates, gcPairs, gt, gcCount := AnalyseGcPairs(p, norm, gcs, gcSolver);
    var parentRates, parentPairs, pt, parentCount := AnalyseParentPairs(p, norm, gcs, cs, parentSolver);
    ChronologyFromRecords(gt, pt, n, cols, gcs, gm, pm);
    var c := ChronologyByQuality(gt, pt, n, cols, gcs);
    var summary := AnalysisSummary(n, gcCount, parentCount, CountIf(c, NonEmpty));
    r := Ok(MeetingAnalysis(gt, gcRates, gcPairs, pt, parentRates, parentPairs, c, summary));
  }

  /** The grandchild half of `complete_meeting_analysis`: the closing-rate
      table, its converging pairs as the filter lists them, the tables of their successful runs, and
      the number of successful runs, which is the number of filled cells. */
  method AnalyseGcPairs(p: Pendulum, norm: Norm, gcs: seq<Grandchild>, solver: (nat, nat) -> Outcome)
    returns (rates: seq<seq<real>>, pairs: seq<ConvergingPair>, gt: GcTables, count: nat)
    ensures IsGcRateTable(p, norm, gcs, rates)
    ensures IsGcPairList(rates, pairs)
    ensures GcTablesRecord(gt, |gcs|, AnalysisGcMeet(p, norm, gcs, solver))
    ensures count == |FilledGcCells(gt, |gcs|)|
  {
    var n := |gcs|;
    rates := GrandchildRateTable(p, norm, gcs);
    pairs := FindConvergingGcPairs(rates);
    var meet := RunMeetFn(solver);
    RunMeetsItsPair(solver);
    AnalysisGcTables(p, norm, gcs, solver, rates, pairs);
    gt := FillGc(n, GcMeetsOf(n, pairs, meet));
    GcCountIsFilled(gcs, AnalysisGcMeet(p, norm, gcs, solver), solver, pairs, gt);
    count := CountIf(pairs, (x: ConvergingPair) => GcRunSucceeded(solver, x));
  }

  /** The grandchild-parent half of `complete_meeting_analysis`, with the
      parents moving along their own dynamics. */
  method AnalyseParentPairs(p: Pendulum, norm: Norm, gcs: seq<Grandchild>, cs: seq<Child>,
                            solver: (nat, nat) -> ScalarOutcome)
    returns (rates: seq<seq<Cell>>, pairs: seq<ConvergingPair>, pt: ParentTables, count: nat)
    ensures IsParentRateTable(p, norm, gcs, ChildPositionsOf(cs), ChildVelocities(p, cs), rates)
    ensures IsParentPairList(rates, |cs|, pairs)
    ensures ParentTablesRecord(pt, |gcs|, |cs|, AnalysisParentMeet(p, norm, gcs, cs, solver))
    ensures count == |FilledParentCells(pt, |gcs|, |cs|)|
  {
    var n, cols := |gcs|, |cs|;
    var pm := AnalysisParentMeet(p, norm, gcs, cs, solver);
    var vel := ChildVelocities(p, cs);
    rates := ParentRateTable(p, norm, gcs, ChildPositionsOf(cs), vel);
    pairs := FindConvergingParentPairs(rates, cols);
    AnalysisParentMeetsItsPair(p, norm, gcs, cs, solver);
    assert ParentRatesAndPairs(p, norm, gcs, cs, vel, rates, pairs);
    ParentPairsConverge(p, norm, gcs, cs, vel, rates, pairs);
    AnalysisParentTables(p, norm, gcs, cs, solver, pairs);
    pt := FillParent(n, cols, ParentMeetsOf(n, cols, pairs, pm));
    ParentCountIsFilled(gcs, cols, pm, solver, pairs, pt);
    count := CountIf(pairs, (x: ConvergingPair) => ParentRunSucceeded(solver, x));
  }

  /** The successful grandchild runs are the filled cells above the diagonal. */
  lemma GcCountIsFilled(gcs: seq<Grandchild>, gm: (nat, nat) -> Option<GcMeet>, solver: (nat, nat) -> Outcome,
                        pairs: seq<ConvergingPair>, t: GcTables)
    requires GcTablesRecord(t, |gcs|, gm)
    requires forall k :: 0 <= k < |pairs| ==> pairs[k].a < pairs[k].b < |gcs|
    requires forall k, l :: 0 <= k < l < |pairs| ==> (pairs[k].a, pairs[k].b) != (pairs[l].a, pairs[l].b)
    requires forall a, c :: 0 <= a < c < |gcs| ==>
      (gm(a, c).Some? <==> HasPair(pairs, a, c) && solver(a, c).Returned? && solver(a, c).success)
    ensures CountIf(pairs, (x: ConvergingPair) => GcRunSucceeded(solver, x)) == |FilledGcCells(t, |gcs|)|
  {
    var ok := (x: ConvergingPair) => GcRunSucceeded(solver, x);
    CountDistinctPairs(pairs, ok);
    assert PairKeys(pairs, ok) == FilledGcCells(t, |gcs|) by {
      forall key | key in FilledGcCells(t, |gcs|) ensures key in PairKeys(pairs, ok) {
        var k :| 0 <= k < |pairs| && pairs[k].a == key.0 && pairs[k].b == key.1;
        assert pairs[k] in pairs;
      }
    }
  }

  /** The successful grandchild-parent runs are the filled cells. */
  lemma ParentCountIsFilled(gcs: seq<Grandchild>, cols: nat, pm: (nat, nat) -> Option<ParentMeet>,
                            solver: (nat, nat) -> ScalarOutcome, pairs: seq<ConvergingPair>, t: ParentTables)
    requires ParentTablesRecord(t, |gcs|, cols, pm)
    requires forall k :: 0 <= k < |pairs| ==> pairs[k].a < |gcs| && pairs[k].b < cols
    requires forall k, l :: 0 <= k < l < |pairs| ==> (pairs[k].a, pairs[k].b) != (pairs[l].a, pairs[l].b)
    requires forall g, q :: 0 <= g < |gcs| && 0 <= q < cols ==>
      (pm(g, q).Some? <==> HasPair(pairs, g, q) && solver(g, q).ScalarReturned? && solver(g, q).success)
    ensures CountIf(pairs, (x: ConvergingPair) => ParentRunSucceeded(solver, x))
            == |FilledParentCells(t, |gcs|, cols)|
  {
    var ok := (x: ConvergingPair) => ParentRunSucceeded(solver, x);
    CountDistinctPairs(pairs, ok);
    assert PairKeys(pairs, ok) == FilledParentCells(t, |gcs|, cols) by {
      forall key | key in FilledParentCells(t, |gcs|, cols) ensures key in PairKeys(pairs, ok) {
        var k :| 0 <= k < |pairs| && pairs[k].a == key.0 && pairs[k].b == key.1;
        assert pairs[k] in pairs;
      }
    }
  }
}

=== FILE: common.dfy ===
/** Shared vocabulary of the spore-tree model: optional values, phase-plane
    states, float('inf')-extended distances, NaN-able table cells, and the
    pendulum whose numerics stay outside the model. */
module Common {

  /** `None` plays Python's None (and, for table cells, NaN). */
  datatype Option<T> = None | Some(value: T)

  /** The outcome of an operation that may raise: `Err` names the exception. */
  datatype Result<T, E> = Ok(value: T) | Err(error: E)

  /** A pendulum state [theta, theta_dot], read as a point (x, y) of the phase plane. */
  datatype Vec2 = Vec2(x: real, y: real)

  function Add(a: Vec2, b: Vec2): Vec2 { Vec2(a.x + b.x, a.y + b.y) }

  function Sub(a: Vec2, b: Vec2): Vec2 { Vec2(a.x - b.x, a.y - b.y) }

  function Scale(c: real, a: Vec2): Vec2 { Vec2(c * a.x, c * a.y) }

  function Dot(a: Vec2, b: Vec2): real { a.x * b.x + a.y * b.y }

  /** (p1 + p2) / 2, which the source also writes as (p1 + p2) * 0.5. */
  function Midpoint(a: Vec2, b: Vec2): Vec2 { Vec2((a.x + b.x) / 2.0, (a.y + b.y) / 2.0) }

  /** A table cell of a NaN-initialised float table: `None` is NaN. */
  type Cell = Option<real>

  /** A float that may be float('inf'). */
  datatype Ext = Finite(r: real) | Infinity

  /** a < b on floats extended with +inf. */
  predicate Below(a: Ext, b: Ext)
  {
    match (a, b)
    case (Finite(u), Finite(v)) => u < v
    case (Finite(_), Infinity) => true
    case (Infinity, _) => false
  }

  /** a <= b on floats extended with +inf. */
  predicate AtMost(a: Ext, b: Ext)
  {
    a == b || Below(a, b)
  }

  /** np.sign: -1, 0 or 1. */
  function Sign(x: real): int
  {
    if x > 0.0 then 1 else if x < 0.0 then -1 else 0
  }

  function Abs(x: real): real
  {
    if x < 0.0 then -x else x
  }

  function MaxR(a: real, b: real): real
  {
    if a < b then b else a
  }

  /** The time direction of a spore as recorded by `np.sign(dt)`. */
  function SignR(x: real): real
  {
    Sign(x) as real
  }

  /** The integrator `step(state, control, dt)`, the vector field
      `pendulum_dynamics(state, control)` and `get_control_bounds()`.
      Their numerics (RK45, matrix exponentials) are not modelled. */
  datatype Pendulum = Pendulum(
    step: (Vec2, real, real) -> Vec2,
    dynamics: (Vec2, real) -> Vec2,
    uMin: real,
    uMax: real)

  /** `np.linalg.norm` on a state difference; uninterpreted. */
  type Norm = Vec2 -> real

  /** What any Euclidean norm satisfies and the model relies on. */
  ghost predicate NormNonNegative(norm: Norm)
  {
    forall v :: norm(v) >= 0.0
  }

  lemma SignTimesAbs(x: real)
    ensures Abs(x) * SignR(x) == x
    ensures Abs(x) >= 0.0
  {
  }
}

=== FILE: config.dfy ===
/** `SporeTreeConfig`: the tree and optimisation parameters, the default
    root state and the checks a tree runs on its configuration. */
module TreeConfig {
  import opened Common

  /** `np.pi` as a float64 literal. */
  const Pi: real := 3.141592653589793

  /** The fields the tree logic reads. `initialPosition` is the root state
      [theta, theta_dot] after `__post_init__` has filled in the default. */
  datatype Config = Config(
    initialPosition: seq<real>,
    dtBase: real,
    dtGrandchildrenFactor: real,
    dtBoundLow: real,
    dtBoundHigh: real,
    epsilon: real)

  /** The `ValueError`s of `validate`, one per check. */
  datatype ConfigError =
    | NonPositiveDtBase
    | NonPositiveFactor
    | EmptyDtBounds
    | NonPositiveEpsilon
    | BadInitialPosition

  /** Dataclass construction: a missing initial position becomes [pi, 0]. */
  function MakeConfig(initialPosition: Option<seq<real>>, dtBase: real, factor: real,
                      low: real, high: real, epsilon: real): (c: Config)
    ensures initialPosition.Some? ==> c.initialPosition == initialPosition.value
    ensures initialPosition.None? ==> c.initialPosition == [Pi, 0.0]
    ensures c.dtBase == dtBase && c.dtGrandchildrenFactor == factor
    ensures c.dtBoundLow == low && c.dtBoundHigh == high && c.epsilon == epsilon
  {
    Config(if initialPosition.None? then [Pi, 0.0] else initialPosition.value,
           dtBase, factor, low, high, epsilon)
  }

  /** The dataclass defaults: dt_base 0.001, factor 0.05, bounds (0.001, 0.2),
      epsilon 1e-3 and no initial position. */
  function DefaultConfig(): Config
  {
    MakeConfig(None, 0.001, 0.05, 0.001, 0.2, 0.001)
  }

  /** `validate`: the checks run in source order and the first failing one
      raises; `None` is the `return True`. */
  function Validate(c: Config): (r: Option<ConfigError>)
    ensures r.None? <==>
      c.dtBase > 0.0 && c.dtGrandchildrenFactor > 0.0 && c.dtBoundLow < c.dtBoundHigh
      && c.epsilon > 0.0 && |c.initialPosition| == 2
    ensures r == Some(NonPositiveDtBase) <==> c.dtBase <= 0.0
    ensures r == Some(NonPositiveFactor) <==> c.dtBase > 0.0 && c.dtGrandchildrenFactor <= 0.0
    ensures r == Some(EmptyDtBounds) <==>
      c.dtBase > 0.0 && c.dtGrandchildrenFactor > 0.0 && c.dtBoundLow >= c.dtBoundHigh
    ensures r == Some(NonPositiveEpsilon) <==>
      c.dtBase > 0.0 && c.dtGrandchildrenFactor > 0.0 && c.dtBoundLow < c.dtBoundHigh && c.epsilon <= 0.0
    ensures r == Some(BadInitialPosition) <==>
      c.dtBase > 0.0 && c.dtGrandchildrenFactor > 0.0 && c.dtBoundLow < c.dtBoundHigh && c.epsilon > 0.0
      && |c.initialPosition| != 2
  {
    if c.dtBase <= 0.0 then Some(NonPositiveDtBase)
    else if c.dtGrandchildrenFactor <= 0.0 then Some(NonPositiveFactor)
    else if c.dtBoundLow >= c.dtBoundHigh then Some(EmptyDtBounds)
    else if c.epsilon <= 0.0 then Some(NonPositiveEpsilon)
    else if |c.initialPosition| != 2 then Some(BadInitialPosition)
    else None
  }

  /** `get_default_dt_vector`: four child steps of dt_base, then eight
      grandchild steps of dt_base * factor. */
  function DefaultDtVector(c: Config): (v: seq<real>)
    ensures |v| == 12
    ensures forall i :: 0 <= i < 4 ==> v[i] == c.dtBase
    ensures forall i :: 4 <= i < 12 ==> v[i] == c.dtBase * c.dtGrandchildrenFactor
  {
    seq(12, i requires 0 <= i < 12 => if i < 4 then c.dtBase else c.dtBase * c.dtGrandchildrenFactor)
  }

  /** The dataclass defaults pass validation, with the [pi, 0] root. */
  lemma DefaultConfigValid()
    ensures DefaultConfig().initialPosition == [Pi, 0.0]
    ensures Validate(DefaultConfig()).None?
  {
  }

  /** A configuration that validates yields a strictly positive default dt vector. */
  lemma ValidDefaultDtVectorPositive(c: Config)
    requires Validate(c).None?
    ensures forall i :: 0 <= i < 12 ==> DefaultDtVector(c)[i] > 0.0
  {
    var v := DefaultDtVector(c);
    forall i | 4 <= i < 12
      ensures v[i] > 0.0
    {
      assert v[i] == c.dtBase * c.dtGrandchildrenFactor;
    }
  }

  /** `__post_init__` only fills a missing position: supplying the filled
      position again gives the same configuration. */
  lemma MakeConfigIdempotent(initialPosition: Option<seq<real>>, dtBase: real, factor: real,
                             low: real, high: real, epsilon: real)
    ensures var c := MakeConfig(initialPosition, dtBase, factor, low, high, epsilon);
      MakeConfig(Some(c.initialPosition), dtBase, factor, low, high, epsilon) == c
  {
  }
}

=== FILE: constraints.dfy ===
/** The pair-distance constraints of the area optimiser
    (`create_distance_constraints`, `test_constraints`): for every extracted
    pair one function of the dt vector that re-steps both grandchildren from
    a snapshot of the tree and is non-negative when they lie within the
    target distance. */
module DistanceConstraints {
  import opened Common
  import opened Seqs
  import opened SporeTree
  import opened Meetings
  import opened Pairing
  import opened Spawns

  /** The default `constraint_distance`. */
  const DefaultConstraintDistance: real := 0.00001

  /** What a constraint answers when its evaluation raises. */
  const ErrorValue: real := -1000000.0

  /** One constraint closure and what it captured: the pendulum and norm, the
      root, the children snapshot, both grandchildren's indices and snapshot
      entries, and the target distance. */
  datatype Constraint = Constraint(
    pendulum: Pendulum, norm: Norm, root: Vec2, children: seq<ChildInfo>,
    gcI: nat, gcJ: nat, dataI: GcInfo, dataJ: GcInfo, target: real)

  /** One `constraint_info` entry. */
  datatype ConstraintInfo = ConstraintInfo(
    gcI: nat, gcJ: nat, gcIParent: nat, gcJParent: nat,
    targetDistance: real, originalDistance: real, meetingTime: real)

  /** Grandchild `g` with snapshot `d` can be placed from vector `v`: its
      parent is a known child, and both `dt_vector[0:4][parent]` and
      `dt_vector[4:12][g]` exist. */
  predicate Placeable(c: Constraint, v: seq<real>, g: nat, d: GcInfo)
  {
    d.parentIdx < |c.children| && d.parentIdx < 4 && d.parentIdx < |v| && g < 8 && 4 + g < |v|
  }

  /** The evaluation raises nothing. */
  predicate Evaluable(c: Constraint, v: seq<real>)
  {
    Placeable(c, v, c.gcI, c.dataI) && Placeable(c, v, c.gcJ, c.dataJ)
  }

  /** root -> parent -> grandchild, each step with the vector entry times the
      recorded sign. */
  function PositionOf(c: Constraint, v: seq<real>, g: nat, d: GcInfo): Vec2
    requires Placeable(c, v, g, d)
  {
    var parent := ChildAt(c.pendulum, c.root, c.children[d.parentIdx], v[d.parentIdx]);
    GrandchildAt(c.pendulum, parent, d, v[4 + g])
  }

  /** The distance between the pair at vector `v`. */
  function Distance(c: Constraint, v: seq<real>): real
    requires Evaluable(c, v)
  {
    c.norm(Sub(PositionOf(c, v, c.gcI, c.dataI), PositionOf(c, v, c.gcJ, c.dataJ)))
  }

  /** `constraint_function(dt_vector)`: the target minus the pair's distance,
      and -1e6 when evaluation raises. */
  function ConstraintValue(c: Constraint, v: seq<real>): (r: real)
    ensures !Evaluable(c, v) ==> r == ErrorValue
    ensures Evaluable(c, v) ==> (r >= 0.0 <==> Distance(c, v) <= c.target)
    ensures Evaluable(c, v) ==> c.target - r == Distance(c, v)
  {
    if Evaluable(c, v) then c.target - Distance(c, v) else ErrorValue
  }

  /** Both grandchildren of every pair have a `grandchildren_info` entry. */
  predicate AllKnown(ps: seq<Pair>, m: map<nat, GcInfo>)
  {
    forall k :: 0 <= k < |ps| ==> ps[k].i in m && ps[k].j in m
  }

  /** The constraint functions and their information for pairs 0..n-1. */
  function ConstraintsFor(p: Pendulum, norm: Norm, t: Tree, ps: seq<Pair>, target: real): (cs: seq<Constraint>)
    requires AllKnown(ps, GcInfoMap(t.grandchildren))
    ensures |cs| == |ps|
    ensures forall k :: 0 <= k < |ps| ==>
      var c := cs[k];
      c.pendulum == p && c.norm == norm && c.gcI == ps[k].i && c.gcJ == ps[k].j && c.root == t.root
      && c.target == target && c.children == ChildInfos(t.children)
      && c.dataI == GcInfoMap(t.grandchildren)[ps[k].i] && c.dataJ == GcInfoMap(t.grandchildren)[ps[k].j]
  {
    var m := GcInfoMap(t.grandchildren);
    var children := ChildInfos(t.children);
    seq(|ps|, k requires 0 <= k < |ps| =>
      Constraint(p, norm, t.root, children, ps[k].i, ps[k].j, m[ps[k].i], m[ps[k].j], target))
  }

  function InfosFor(t: Tree, ps: seq<Pair>, target: real): (info: map<nat, ConstraintInfo>)
    requires AllKnown(ps, GcInfoMap(t.grandchildren))
    ensures forall k: nat :: k in info <==> k < |ps|
    ensures forall k :: 0 <= k < |ps| ==>
      var x := info[k];
      x.gcI == ps[k].i && x.gcJ == ps[k].j && x.targetDistance == target
      && x.gcIParent == GcInfoMap(t.grandchildren)[ps[k].i].parentIdx
      && x.gcJParent == GcInfoMap(t.grandchildren)[ps[k].j].parentIdx
      && x.originalDistance == ps[k].meeting.distance && x.meetingTime == MeetingTime(ps[k].meeting)
  {
    var m := GcInfoMap(t.grandchildren);
    map k | 0 <= k < |ps| ::
      ConstraintInfo(ps[k].i, ps[k].j, m[ps[k].i].parentIdx, m[ps[k].j].parentIdx, target,
                     ps[k].meeting.distance, MeetingTime(ps[k].meeting))
  }

  /** Every constraint has an information entry under its own index, with
      its own target. */
  predicate Described(cs: seq<Constraint>, info: map<nat, ConstraintInfo>)
  {
    forall k :: 0 <= k < |cs| ==> k in info && info[k].targetDistance == cs[k].target
  }

  /** `create_distance_constraints`. No pairs, or a pair index that is not a
      grandchild's `global_idx` (a KeyError, caught), gives ([], {}).
      Otherwise one constraint per pair, in pair order, each holding the
      snapshot taken now, and the information keyed by pair index. */
  function CreateDistanceConstraints(p: Pendulum, norm: Norm, t: Tree, ps: seq<Pair>, target: real)
    : (r: (seq<Constraint>, map<nat, ConstraintInfo>))
    ensures r.0 == [] <==> |ps| == 0 || !AllKnown(ps, GcInfoMap(t.grandchildren))
    ensures r.0 == [] ==> r.1 == map[]
    ensures r.0 != [] ==>
      |r.0| == |ps|
      && (forall k: nat :: k in r.1 <==> k < |ps|)
      && Described(r.0, r.1)
      && forall k :: 0 <= k < |ps| ==>
           var c, x := r.0[k], r.1[k];
           c.gcI == ps[k].i && c.gcJ == ps[k].j && c.root == t.root && c.target == target
           && c.children == ChildInfos(t.children)
           && c.dataI == GcInfoMap(t.grandchildren)[ps[k].i] && c.dataJ == GcInfoMap(t.grandchildren)[ps[k].j]
           && x.gcI == ps[k].i && x.gcJ == ps[k].j
           && x.gcIParent == c.dataI.parentIdx && x.gcJParent == c.dataJ.parentIdx
           && x.originalDistance == ps[k].meeting.distance && x.meetingTime == MeetingTime(ps[k].meeting)
  {
    if |ps| == 0 || !AllKnown(ps, GcInfoMap(t.grandchildren)) then ([], map[])
    else
      var cs, info := ConstraintsFor(p, norm, t, ps, target), InfosFor(t, ps, target);
      assert |cs| == |ps| > 0;
      assert Described(cs, info);
      (cs, info)
  }

  /** On a consistent tree, at the tree's own magnitudes, each constraint
      measures the distance between the stored positions of its pair. */
  lemma ConstraintMeasuresTree(p: Pendulum, norm: Norm, t: Tree, ps: seq<Pair>, target: real, k: nat)
    requires Consistent(p, t) && 0 < |ps| && AllKnown(ps, GcInfoMap(t.grandchildren)) && k < |ps|
    ensures var c := CreateDistanceConstraints(p, norm, t, ps, target).0[k];
      Evaluable(c, TreeDtVector(t))
      && ConstraintValue(c, TreeDtVector(t)) ==
           target - norm(Sub(t.grandchildren[ps[k].i].position, t.grandchildren[ps[k].j].position))
  {
    var c := CreateDistanceConstraints(p, norm, t, ps, target).0[k];
    var v := TreeDtVector(t);
    LaidOutInfoMap(t.grandchildren);
    var a, b := ps[k].i, ps[k].j;
    assert a < 8 && b < 8;
    PlacesStoredPosition(p, t, c, a);
    PlacesStoredPosition(p, t, c, b);
  }

  lemma PlacesStoredPosition(p: Pendulum, t: Tree, c: Constraint, g: nat)
    requires Consistent(p, t) && g < 8
    requires c.pendulum == p && c.root == t.root && c.children == ChildInfos(t.children)
    ensures Placeable(c, TreeDtVector(t), g, GcInfoOf(t.grandchildren[g]))
    ensures PositionOf(c, TreeDtVector(t), g, GcInfoOf(t.grandchildren[g])) == t.grandchildren[g].position
  {
    var v := TreeDtVector(t);
    var q := g / 2;
    assert t.grandchildren[g].parentIdx == q;
    MagnitudeTimesSign(t.children[q].dt);
    MagnitudeTimesSign(t.grandchildren[g].dt);
    assert ChildAt(p, t.root, c.children[q], v[q]) == t.children[q].position;
  }

  // ------------------------------------------------------- test_constraints

  datatype ConstraintResult = ConstraintResult(value: real, satisfied: bool, distance: real)

  /** `results` without the summary, and the summary's three counts. */
  datatype ConstraintTest = ConstraintTest(
    results: seq<ConstraintResult>, totalConstraints: nat, satisfiedCount: nat, allSatisfied: bool)

  function IsSatisfied(x: ConstraintResult): bool { x.satisfied }

  /** Result k is constraint k's value at `v`, satisfied iff non-negative,
      with the distance reported as the target minus the value. */
  predicate Reports(cs: seq<Constraint>, v: seq<real>, info: map<nat, ConstraintInfo>, rs: seq<ConstraintResult>)
  {
    |rs| == |cs|
    && forall k :: 0 <= k < |cs| ==>
         k in info
         && rs[k].value == ConstraintValue(cs[k], v)
         && (rs[k].satisfied <==> rs[k].value >= 0.0)
         && rs[k].distance == info[k].targetDistance - rs[k].value
  }

  lemma ReportsAppend(cs: seq<Constraint>, v: seq<real>, info: map<nat, ConstraintInfo>,
                      rs: seq<ConstraintResult>, k: nat, x: ConstraintResult)
    requires k < |cs| && Reports(cs[..k], v, info, rs) && k in info
    requires x.value == ConstraintValue(cs[k], v) && (x.satisfied <==> x.value >= 0.0)
    requires x.distance == info[k].targetDistance - x.value
    ensures Reports(cs[..k + 1], v, info, rs + [x])
  {
    assert cs[..k + 1][k] == cs[k];
    assert forall l :: 0 <= l < k ==> cs[..k + 1][l] == cs[..k][l];
  }

  /** `test_constraints`: evaluates every constraint at `v`. A constraint
      without an information entry raises a KeyError, caught as `{}`.
      `all_satisfied` holds iff every constraint is satisfied, which is iff
      the satisfied count reaches the total. */
  method TestConstraints(cs: seq<Constraint>, v: seq<real>, info: map<nat, ConstraintInfo>)
    returns (r: Option<ConstraintTest>)
    ensures r.None? <==> exists k: nat :: k < |cs| && k !in info
    ensures r.Some? ==> Reports(cs, v, info, r.value.results) && r.value.totalConstraints == |cs|
    ensures r.Some? ==> (r.value.allSatisfied <==> forall k :: 0 <= k < |cs| ==> r.value.results[k].satisfied)
    ensures r.Some? ==> r.value.satisfiedCount == CountIf(r.value.results, IsSatisfied)
    ensures r.Some? ==> (r.value.allSatisfied <==> r.value.satisfiedCount == r.value.totalConstraints)
  {
    var results: seq<ConstraintResult> := [];
    var allSatisfied := true;
    for k := 0 to |cs|
      invariant Reports(cs[..k], v, info, results)
      invariant allSatisfied <==> forall l :: 0 <= l < k ==> results[l].satisfied
    {
      var value := ConstraintValue(cs[k], v);
      var satisfied := value >= 0.0;
      if !satisfied {
        allSatisfied := false;
      }
      if k !in info {
        return None;
      }
      var x := ConstraintResult(value, satisfied, info[k].targetDistance - value);
      ReportsAppend(cs, v, info, results, k, x);
      results := results + [x];
    }
    assert cs[..|cs|] == cs;
    CountIfAll(results, IsSatisfied);
    r := Some(ConstraintTest(results, |cs|, CountIf(results, IsSatisfied), allSatisfied));
  }

  /** For constraints built together with their information the reported
      distance is the pair's actual distance, and satisfaction means the pair
      lies within the target; a constraint whose evaluation raises is never
      satisfied. */
  lemma ReportedDistanceIsActual(cs: seq<Constraint>, v: seq<real>, info: map<nat, ConstraintInfo>,
                                 rs: seq<ConstraintResult>, k: nat)
    requires Reports(cs, v, info, rs) && Described(cs, info) && k < |cs|
    ensures Evaluable(cs[k], v) ==>
      rs[k].distance == Distance(cs[k], v) && (rs[k].satisfied <==> Distance(cs[k], v) <= cs[k].target)
    ensures !Evaluable(cs[k], v) ==> !rs[k].satisfied
  {
  }
}

=== FILE: convergence.dfy ===
/** Closing-rate ("distance derivative") tables: how fast the distance between
    two grandchildren, or between a grandchild and a foreign parent, changes
    at the current positions. Positive rates mean the spores move apart. */
module Convergence {
  import opened Common
  import opened SporeTree

  /** Below this separation the rate is taken as 0.0 instead of dividing. */
  const ContactDistance: real := 0.0000000001

  /** d/dt |r| = (r . v) / |r| for a separation r changing with velocity v. */
  function ClosingRate(norm: Norm, r: Vec2, v: Vec2): (rate: real)
    ensures norm(r) < ContactDistance ==> rate == 0.0
    ensures norm(r) >= ContactDistance ==> rate * norm(r) == Dot(r, v)
  {
    if norm(r) < ContactDistance then 0.0 else Dot(r, v) / norm(r)
  }

  /** The velocity a spore moves with in its own time direction:
      `np.sign(dt) * pendulum_dynamics(position, control)`. */
  function SpreadVelocity(p: Pendulum, position: Vec2, control: real, dt: real): Vec2
  {
    Scale(SignR(dt), p.dynamics(position, control))
  }

  function GrandchildVelocities(p: Pendulum, gcs: seq<Grandchild>): (v: seq<Vec2>)
    ensures |v| == |gcs|
    ensures forall i :: 0 <= i < |gcs| ==>
      v[i] == SpreadVelocity(p, gcs[i].position, gcs[i].control, gcs[i].dt)
  {
    seq(|gcs|, i requires 0 <= i < |gcs| =>
      SpreadVelocity(p, gcs[i].position, gcs[i].control, gcs[i].dt))
  }

  /** Parents that do not evolve: every parent velocity is zero. */
  function StaticVelocities(n: nat): (v: seq<Vec2>)
    ensures |v| == n && forall i :: 0 <= i < n ==> v[i] == Vec2(0.0, 0.0)
  {
    seq(n, i => Vec2(0.0, 0.0))
  }

  /** Parents moving along their own dynamics in their own time direction. */
  function ChildVelocities(p: Pendulum, cs: seq<Child>): (v: seq<Vec2>)
    ensures |v| == |cs|
    ensures forall i :: 0 <= i < |cs| ==>
      v[i] == SpreadVelocity(p, cs[i].position, cs[i].control, cs[i].dt)
  {
    seq(|cs|, i requires 0 <= i < |cs| =>
      SpreadVelocity(p, cs[i].position, cs[i].control, cs[i].dt))
  }

  /** The closing rate of grandchildren a and b: separation r_a - r_b,
      relative velocity s_a v_a - s_b v_b. */
  function GcRate(p: Pendulum, norm: Norm, gcs: seq<Grandchild>, a: nat, b: nat): real
    requires a < |gcs| && b < |gcs|
  {
    ClosingRate(norm,
      Sub(gcs[a].position, gcs[b].position),
      Sub(SpreadVelocity(p, gcs[a].position, gcs[a].control, gcs[a].dt),
          SpreadVelocity(p, gcs[b].position, gcs[b].control, gcs[b].dt)))
  }

  predicate IsTable<T>(t: seq<seq<T>>, rows: nat, cols: nat)
  {
    |t| == rows && forall i :: 0 <= i < rows ==> |t[i]| == cols
  }

  function Filled<T>(rows: nat, cols: nat, v: T): (t: seq<seq<T>>)
    ensures IsTable(t, rows, cols)
    ensures forall i, j :: 0 <= i < rows && 0 <= j < cols ==> t[i][j] == v
  {
    seq(rows, i => seq(cols, j => v))
  }

  /** `table[i, j] = v` */
  function Put<T>(t: seq<seq<T>>, i: nat, j: nat, v: T): (r: seq<seq<T>>)
    requires i < |t| && j < |t[i]|
    ensures |r| == |t| && forall a :: 0 <= a < |t| ==> |r[a]| == |t[a]|
    ensures r[i][j] == v
    ensures forall a, b :: 0 <= a < |t| && 0 <= b < |t[a]| && (a != i || b != j) ==> r[a][b] == t[a][b]
  {
    t[i := t[i][j := v]]
  }

  /** The upper-triangle pair (a, b), a < b, has been handled by the time the
      double loop reaches row i, column j. */
  predicate Visited(a: nat, b: nat, i: nat, j: nat)
  {
    a < i || (a == i && b < j)
  }

  /** `compute_distance_derivative_table`: an n x n table of zeros whose upper
      triangle is computed pair by pair and mirrored into the lower one. */
  method GrandchildRateTable(p: Pendulum, norm: Norm, gcs: seq<Grandchild>)
    returns (t: seq<seq<real>>)
    ensures IsTable(t, |gcs|, |gcs|)
    ensures forall i :: 0 <= i < |gcs| ==> t[i][i] == 0.0
    ensures forall i, j :: 0 <= i < |gcs| && 0 <= j < |gcs| ==> t[i][j] == t[j][i]
    ensures forall i, j :: 0 <= i < j < |gcs| ==> t[i][j] == GcRate(p, norm, gcs, i, j)
  {
    var n := |gcs|;
    t := Filled(n, n, 0.0);
    for i := 0 to n
      invariant IsTable(t, n, n)
      invariant forall a, b :: 0 <= a < n && 0 <= b < n ==>
        t[a][b] == (if a < b && a < i then GcRate(p, norm, gcs, a, b)
                    else if b < a && b < i then GcRate(p, norm, gcs, b, a)
                    else 0.0)
    {
      for j := i + 1 to n
        invariant IsTable(t, n, n)
        invariant forall a, b :: 0 <= a < n && 0 <= b < n ==>
          t[a][b] == (if a < b && Visited(a, b, i, j) then GcRate(p, norm, gcs, a, b)
                      else if b < a && Visited(b, a, i, j) then GcRate(p, norm, gcs, b, a)
                      else 0.0)
      {
        var rate := GcRate(p, norm, gcs, i, j);
        t := Put(t, i, j, rate);
        t := Put(t, j, i, rate);
      }
    }
  }

  /** Negation of a separation. */
  function Neg(v: Vec2): Vec2 { Vec2(-v.x, -v.y) }

  /** What the Euclidean norm satisfies: |-v| = |v|. */
  ghost predicate NormEven(norm: Norm)
  {
    forall v {:trigger norm(Neg(v))} :: norm(Neg(v)) == norm(v)
  }

  /** Measured from either side, a pair closes at the same rate: with an even
      norm, entry [j][i] of the table is the rate with r_j - r_i and
      s_j v_j - s_i v_i, so the mirrored lower triangle is the true rate too. */
  lemma GcRateSymmetric(p: Pendulum, norm: Norm, gcs: seq<Grandchild>, a: nat, b: nat)
    requires NormEven(norm)
    requires a < |gcs| && b < |gcs|
    ensures GcRate(p, norm, gcs, a, b) == GcRate(p, norm, gcs, b, a)
  {
    var ra, rb := gcs[a].position, gcs[b].position;
    var va := SpreadVelocity(p, ra, gcs[a].control, gcs[a].dt);
    var vb := SpreadVelocity(p, rb, gcs[b].control, gcs[b].dt);
    assert Sub(rb, ra) == Neg(Sub(ra, rb));
    assert norm(Sub(rb, ra)) == norm(Sub(ra, rb));
    assert Dot(Sub(rb, ra), Sub(vb, va)) == Dot(Sub(ra, rb), Sub(va, vb));
  }

  /** The rate of grandchild g towards the parent at `parentPos`, which moves
      with `parentVel`. */
  function ParentRate(p: Pendulum, norm: Norm, gc: Grandchild, parentPos: Vec2, parentVel: Vec2): real
  {
    ClosingRate(norm, Sub(gc.position, parentPos),
      Sub(SpreadVelocity(p, gc.position, gc.control, gc.dt), parentVel))
  }

  /** Cell [a][b] of the grandchild-parent table once it has been visited
      (`done`), and NaN before. */
  function ParentCell(p: Pendulum, norm: Norm, gcs: seq<Grandchild>, parentPos: seq<Vec2>,
                      parentVel: seq<Vec2>, a: nat, b: nat, done: bool): Cell
    requires a < |gcs| && b < |parentPos| == |parentVel|
  {
    if done && b != gcs[a].parentIdx
    then Some(ParentRate(p, norm, gcs[a], parentPos[b], parentVel[b])) else None
  }

  /** The table `compute_distance_derivative_table` returns for `gcs`: zero
      on the diagonal, the closing rate of every pair above it, mirrored
      below it. */
  predicate IsGcRateTable(p: Pendulum, norm: Norm, gcs: seq<Grandchild>, t: seq<seq<real>>)
  {
    && IsTable(t, |gcs|, |gcs|)
    && (forall i :: 0 <= i < |gcs| ==> t[i][i] == 0.0)
    && (forall i, j :: 0 <= i < |gcs| && 0 <= j < |gcs| ==> t[i][j] == t[j][i])
    && (forall i, j :: 0 <= i < j < |gcs| ==> t[i][j] == GcRate(p, norm, gcs, i, j))
  }

  /** The description fixes the grandchild table cell by cell. */
  lemma GcRateTableUnique(p: Pendulum, norm: Norm, gcs: seq<Grandchild>, t1: seq<seq<real>>, t2: seq<seq<real>>)
    requires IsGcRateTable(p, norm, gcs, t1) && IsGcRateTable(p, norm, gcs, t2)
    ensures t1 == t2
  {
    forall i | 0 <= i < |gcs|
      ensures t1[i] == t2[i]
    {
      forall j | 0 <= j < |gcs|
        ensures t1[i][j] == t2[i][j]
      {
        if j < i {
          assert t1[i][j] == t1[j][i] && t2[i][j] == t2[j][i];
        }
      }
    }
  }

  /** The grandchild-parent table for the given parent positions and
      velocities: NaN exactly in each grandchild's own parent's column, the
      closing rate everywhere else. */
  predicate IsParentRateTable(p: Pendulum, norm: Norm, gcs: seq<Grandchild>,
                              parentPos: seq<Vec2>, parentVel: seq<Vec2>, t: seq<seq<Cell>>)
    requires |parentVel| == |parentPos|
  {
    && IsTable(t, |gcs|, |parentPos|)
    && (forall g, q :: 0 <= g < |gcs| && 0 <= q < |parentPos| ==>
          (t[g][q].None? <==> q == gcs[g].parentIdx))
    && (forall g, q :: 0 <= g < |gcs| && 0 <= q < |parentPos| && q != gcs[g].parentIdx ==>
          t[g][q] == Some(ParentRate(p, norm, gcs[g], parentPos[q], parentVel[q])))
  }

  /** The description fixes the grandchild-parent table cell by cell. */
  lemma ParentRateTableUnique(p: Pendulum, norm: Norm, gcs: seq<Grandchild>,
                              parentPos: seq<Vec2>, parentVel: seq<Vec2>, t1: seq<seq<Cell>>, t2: seq<seq<Cell>>)
    requires |parentVel| == |parentPos|
    requires IsParentRateTable(p, norm, gcs, parentPos, parentVel, t1)
    requires IsParentRateTable(p, norm, gcs, parentPos, parentVel, t2)
    ensures t1 == t2
  {
    forall g | 0 <= g < |gcs|
      ensures t1[g] == t2[g]
    {
      forall q | 0 <= q < |parentPos|
        ensures t1[g][q] == t2[g][q]
      {
        var rate := Some(ParentRate(p, norm, gcs[g], parentPos[q], parentVel[q]));
        if q == gcs[g].parentIdx {
          assert t1[g][q].None? && t2[g][q].None?;
        } else {
          assert t1[g][q] == rate && t2[g][q] == rate;
        }
      }
    }
  }

  /** The grandchild-parent table: NaN-filled, and every cell except the
      grandchild's own parent's column is computed. Which parent velocities
      to use is the caller's: `StaticVelocities` for
      `compute_grandchild_parent_convergence_table`, `ChildVelocities` for
      the meeting analysis. */
  method ParentRateTable(p: Pendulum, norm: Norm, gcs: seq<Grandchild>,
                         parentPos: seq<Vec2>, parentVel: seq<Vec2>)
    returns (t: seq<seq<Cell>>)
    requires |parentVel| == |parentPos|
    ensures IsTable(t, |gcs|, |parentPos|)
    ensures forall g, q :: 0 <= g < |gcs| && 0 <= q < |parentPos| ==>
      (t[g][q].None? <==> q == gcs[g].parentIdx)
    ensures forall g, q :: 0 <= g < |gcs| && 0 <= q < |parentPos| && q != gcs[g].parentIdx ==>
      t[g][q] == Some(ParentRate(p, norm, gcs[g], parentPos[q], parentVel[q]))
  {
    var n, m := |gcs|, |parentPos|;
    t := Filled(n, m, None);
    for g := 0 to n
      invariant IsTable(t, n, m)
      invariant forall a, b :: 0 <= a < n && 0 <= b < m ==>
        t[a][b] == ParentCell(p, norm, gcs, parentPos, parentVel, a, b, a < g)
    {
      for q := 0 to m
        invariant IsTable(t, n, m)
        invariant forall a, b :: 0 <= a < n && 0 <= b < m ==>
          t[a][b] == ParentCell(p, norm, gcs, parentPos, parentVel, a, b, a < g || (a == g && b < q))
      {
        if q == gcs[g].parentIdx {
          continue;
        }
        t := Put(t, g, q, Some(ParentRate(p, norm, gcs[g], parentPos[q], parentVel[q])));
      }
    }
  }

  /** With static parents the relative velocity is the grandchild's own
      signed velocity s_gc v_gc; parents that move with the same signed
      velocity as the grandchild make the rate zero. */
  lemma ParentRateCases(p: Pendulum, norm: Norm, gc: Grandchild, parentPos: Vec2)
    ensures ParentRate(p, norm, gc, parentPos, Vec2(0.0, 0.0))
         == ClosingRate(norm, Sub(gc.position, parentPos),
                        SpreadVelocity(p, gc.position, gc.control, gc.dt))
    ensures ParentRate(p, norm, gc, parentPos,
                       SpreadVelocity(p, gc.position, gc.control, gc.dt)) == 0.0
  {
    var v := SpreadVelocity(p, gc.position, gc.control, gc.dt);
    assert Sub(v, Vec2(0.0, 0.0)) == v;
    assert Dot(Sub(gc.position, parentPos), Sub(v, v)) == 0.0;
  }
}

=== FILE: converging.dfy ===
/** The converging-pair filters over the closing-rate tables, and the pair
    names "gc_{i}-gc_{j}" / "gc_{g}-parent_{p}" with the parser that the
    pipeline uses to recover the indices. */
module Converging {
  import opened Common
  import opened Seqs
  import opened Sorting
  import opened Convergence

  /** A rate below -1e-6 counts as converging. */
  const ConvergingRate: real := -0.000001

  /** A converging pair: grandchildren (a, b) with a < b, or grandchild a and
      parent b, closing at `velocity`. */
  datatype ConvergingPair = ConvergingPair(a: nat, b: nat, velocity: real)

  /** (a, b) comes strictly before (c, d) in row-major scan order. */
  predicate ScanBefore(x: ConvergingPair, y: ConvergingPair)
  {
    x.a < y.a || (x.a == y.a && x.b < y.b)
  }

  predicate InScanOrder(ps: seq<ConvergingPair>)
  {
    forall k, l :: 0 <= k < l < |ps| ==> ScanBefore(ps[k], ps[l])
  }

  predicate HasPair(ps: seq<ConvergingPair>, a: nat, b: nat)
  {
    exists k :: 0 <= k < |ps| && ps[k].a == a && ps[k].b == b
  }

  function Velocities(ps: seq<ConvergingPair>): (v: seq<real>)
    ensures |v| == |ps| && forall k :: 0 <= k < |ps| ==> v[k] == ps[k].velocity
  {
    seq(|ps|, k requires 0 <= k < |ps| => ps[k].velocity)
  }

  /** Appending keeps every pair already found and adds the new one. */
  lemma HasPairAppend(ps: seq<ConvergingPair>, x: ConvergingPair)
    ensures HasPair(ps + [x], x.a, x.b)
    ensures forall a, b :: HasPair(ps, a, b) ==> HasPair(ps + [x], a, b)
  {
    assert (ps + [x])[|ps|] == x;
    forall a, b | HasPair(ps, a, b)
      ensures HasPair(ps + [x], a, b)
    {
      var k :| 0 <= k < |ps| && ps[k].a == a && ps[k].b == b;
      assert (ps + [x])[k] == ps[k];
    }
  }

  /** A pair after everything found so far extends the scan order. */
  lemma ScanOrderAppend(ps: seq<ConvergingPair>, x: ConvergingPair)
    requires InScanOrder(ps)
    requires forall k :: 0 <= k < |ps| ==> ScanBefore(ps[k], x)
    ensures InScanOrder(ps + [x])
  {
  }

  /** Reordering by a stable order of the velocities loses no pair. */
  lemma StableOrderKeepsPairs(found: seq<ConvergingPair>, o: seq<nat>)
    requires IsStableOrder(Velocities(found), o)
    ensures forall k :: 0 <= k < |found| ==> found[k] in Permute(found, o)
  {
    var r := Permute(found, o);
    forall k | 0 <= k < |found|
      ensures found[k] in r
    {
      assert k in o;
      var p :| 0 <= p < |o| && o[p] == k;
      assert r[p] == found[k];
    }
  }

  /** Along a stable order the velocities ascend, and pairs found in scan
      order keep that order among equal velocities. */
  lemma StableOrderTies(found: seq<ConvergingPair>, o: seq<nat>)
    requires IsStableOrder(Velocities(found), o)
    ensures forall p, q :: 0 <= p < q < |o| ==> found[o[p]].velocity <= found[o[q]].velocity
    ensures InScanOrder(found) ==>
      forall p, q :: 0 <= p < q < |o| ==>
        found[o[p]] != found[o[q]]
        && (found[o[p]].velocity == found[o[q]].velocity ==> ScanBefore(found[o[p]], found[o[q]]))
  {
    var keys := Velocities(found);
    StableOrderSorted(keys, o);
    StableOrderDistinct(keys, o);
    if InScanOrder(found) {
      forall p, q | 0 <= p < q < |o|
        ensures found[o[p]] != found[o[q]]
          && (found[o[p]].velocity == found[o[q]].velocity ==> ScanBefore(found[o[p]], found[o[q]]))
      {
        assert Before(keys, o[p], o[q]);
        if o[p] < o[q] {
          assert ScanBefore(found[o[p]], found[o[q]]);
        } else {
          assert ScanBefore(found[o[q]], found[o[p]]);
        }
      }
    }
  }

  /** `pairs.sort(key=lambda x: x['velocity'])`: a stable ascending sort, so
      pairs with equal velocity keep their scan order. */
  function SortByVelocity(found: seq<ConvergingPair>): (r: seq<ConvergingPair>)
    ensures |r| == |found|
    ensures forall p :: 0 <= p < |r| ==> r[p] in found
    ensures forall k :: 0 <= k < |found| ==> found[k] in r
    ensures forall p, q :: 0 <= p < q < |r| ==> r[p].velocity <= r[q].velocity
    ensures InScanOrder(found) ==>
      forall p, q :: 0 <= p < q < |r| ==>
        r[p] != r[q] && (r[p].velocity == r[q].velocity ==> ScanBefore(r[p], r[q]))
  {
    var o := StableSort(Velocities(found));
    StableOrderKeepsPairs(found, o);
    StableOrderTies(found, o);
    Permute(found, o)
  }

  /** `found` holds, in scan order, exactly the converging pairs the double
      loop has visited before row i, column j. */
  predicate ScannedUpTo(t: seq<seq<real>>, found: seq<ConvergingPair>, i: nat, j: nat)
    requires forall a :: 0 <= a < |t| ==> |t[a]| >= |t|
  {
    && (forall k :: 0 <= k < |found| ==>
          found[k].a < found[k].b < |t| && Visited(found[k].a, found[k].b, i, j)
          && found[k].velocity == t[found[k].a][found[k].b] < ConvergingRate)
    && InScanOrder(found)
    && (forall a, b :: 0 <= a < b < |t| && Visited(a, b, i, j) && t[a][b] < ConvergingRate ==>
          HasPair(found, a, b))
  }

  /** Visiting a converging cell (i, j) appends it and keeps the scan invariant. */
  lemma ScanTake(t: seq<seq<real>>, found: seq<ConvergingPair>, i: nat, j: nat)
    requires forall a :: 0 <= a < |t| ==> |t[a]| >= |t|
    requires i < j < |t| && ScannedUpTo(t, found, i, j) && t[i][j] < ConvergingRate
    ensures ScannedUpTo(t, found + [ConvergingPair(i, j, t[i][j])], i, j + 1)
  {
    var x := ConvergingPair(i, j, t[i][j]);
    var next := found + [x];
    HasPairAppend(found, x);
    assert forall k :: 0 <= k < |found| ==> ScanBefore(found[k], x);
    ScanOrderAppend(found, x);
    assert forall k :: 0 <= k < |found| ==> next[k] == found[k];
    assert next[|found|] == x;
    forall a, b | 0 <= a < b < |t| && Visited(a, b, i, j + 1) && t[a][b] < ConvergingRate
      ensures HasPair(next, a, b)
    {
      if !(a == i && b == j) {
        assert HasPair(found, a, b);
      }
    }
  }

  /** Visiting a cell that does not converge keeps the scan invariant. */
  lemma ScanSkip(t: seq<seq<real>>, found: seq<ConvergingPair>, i: nat, j: nat)
    requires forall a :: 0 <= a < |t| ==> |t[a]| >= |t|
    requires i < j < |t| && ScannedUpTo(t, found, i, j) && t[i][j] >= ConvergingRate
    ensures ScannedUpTo(t, found, i, j + 1)
  {
    forall a, b | 0 <= a < b < |t| && Visited(a, b, i, j + 1) && t[a][b] < ConvergingRate
      ensures HasPair(found, a, b)
    {
      assert Visited(a, b, i, j);
    }
  }

  /** The end of row i is the start of row i + 1. */
  lemma RowDone(t: seq<seq<real>>, found: seq<ConvergingPair>, i: nat)
    requires forall a :: 0 <= a < |t| ==> |t[a]| >= |t|
    requires ScannedUpTo(t, found, i, |t|)
    ensures ScannedUpTo(t, found, i + 1, i + 2)
  {
  }

  /** The upper-triangle loop of `find_converging_grandchild_pairs`. */
  method ScanUpperTriangle(t: seq<seq<real>>) returns (found: seq<ConvergingPair>)
    requires forall a :: 0 <= a < |t| ==> |t[a]| >= |t|
    ensures InScanOrder(found)
    ensures forall k :: 0 <= k < |found| ==>
      found[k].a < found[k].b < |t|
      && found[k].velocity == t[found[k].a][found[k].b] < ConvergingRate
    ensures forall a, b :: 0 <= a < b < |t| && t[a][b] < ConvergingRate ==> HasPair(found, a, b)
  {
    var n := |t|;
    found := [];
    for i := 0 to n
      invariant ScannedUpTo(t, found, i, i + 1)
    {
      for j := i + 1 to n
        invariant ScannedUpTo(t, found, i, j)
      {
        if t[i][j] < ConvergingRate {
          ScanTake(t, found, i, j);
          found := found + [ConvergingPair(i, j, t[i][j])];
        } else {
          ScanSkip(t, found, i, j);
        }
      }
      RowDone(t, found, i);
    }
  }

  /** `find_converging_grandchild_pairs`: scan the upper triangle of an n x n
      closing-rate table, keep the pairs below -1e-6, sort by velocity. */
  method FindConvergingGcPairs(t: seq<seq<real>>) returns (r: seq<ConvergingPair>)
    requires forall a :: 0 <= a < |t| ==> |t[a]| >= |t|
    ensures forall k :: 0 <= k < |r| ==>
      r[k].a < r[k].b < |t| && r[k].velocity == t[r[k].a][r[k].b]
    ensures forall a, b :: 0 <= a < b < |t| ==> (HasPair(r, a, b) <==> t[a][b] < ConvergingRate)
    ensures forall k, l :: 0 <= k < l < |r| ==> (r[k].a, r[k].b) != (r[l].a, r[l].b)
    ensures forall k, l :: 0 <= k < l < |r| ==> r[k].velocity <= r[l].velocity
    ensures forall k, l :: 0 <= k < l < |r| && r[k].velocity == r[l].velocity ==> ScanBefore(r[k], r[l])
  {
    var found := ScanUpperTriangle(t);
    r := SortByVelocity(found);
    SortedGcPairs(t, found, r);
  }

  /** Sorting the triangle scan keeps its pairs, and no pair twice. */
  lemma SortedGcPairs(t: seq<seq<real>>, found: seq<ConvergingPair>, r: seq<ConvergingPair>)
    requires forall a :: 0 <= a < |t| ==> |t[a]| >= |t|
    requires InScanOrder(found)
    requires forall k :: 0 <= k < |found| ==>
      found[k].a < found[k].b < |t|
      && found[k].velocity == t[found[k].a][found[k].b] < ConvergingRate
    requires forall a, b :: 0 <= a < b < |t| && t[a][b] < ConvergingRate ==> HasPair(found, a, b)
    requires r == SortByVelocity(found)
    ensures forall k :: 0 <= k < |r| ==>
      r[k].a < r[k].b < |t| && r[k].velocity == t[r[k].a][r[k].b]
    ensures forall a, b :: 0 <= a < b < |t| ==> (HasPair(r, a, b) <==> t[a][b] < ConvergingRate)
    ensures forall k, l :: 0 <= k < l < |r| ==> (r[k].a, r[k].b) != (r[l].a, r[l].b)
  {
    forall a, b | 0 <= a < b < |t| && HasPair(found, a, b)
      ensures HasPair(r, a, b)
    {
      var k :| 0 <= k < |found| && found[k].a == a && found[k].b == b;
      assert found[k] in r;
    }
    forall k, l | 0 <= k < l < |r|
      ensures (r[k].a, r[k].b) != (r[l].a, r[l].b)
    {
      assert r[k] != r[l] && r[k] in found && r[l] in found;
    }
  }

  /** The row-by-row loop of `find_converging_grandchild_parent_pairs`. */
  method ScanAllCells(t: seq<seq<Cell>>, cols: nat) returns (found: seq<ConvergingPair>)
    requires IsTable(t, |t|, cols)
    ensures InScanOrder(found)
    ensures forall k :: 0 <= k < |found| ==>
      found[k].a < |t| && found[k].b < cols
      && t[found[k].a][found[k].b] == Some(found[k].velocity) && found[k].velocity < ConvergingRate
    ensures forall a, b ::
      (0 <= a < |t| && 0 <= b < cols && t[a][b].Some? && t[a][b].value < ConvergingRate) ==>
      HasPair(found, a, b)
  {
    var n := |t|;
    found := [];
    for g := 0 to n
      invariant forall k :: 0 <= k < |found| ==>
        found[k].a < g && found[k].b < cols
        && t[found[k].a][found[k].b] == Some(found[k].velocity) && found[k].velocity < ConvergingRate
      invariant InScanOrder(found)
      invariant forall a, b ::
        (0 <= a < g && 0 <= b < cols && t[a][b].Some? && t[a][b].value < ConvergingRate) ==>
        HasPair(found, a, b)
    {
      for q := 0 to cols
        invariant forall k :: 0 <= k < |found| ==>
          Visited(found[k].a, found[k].b, g, q) && found[k].a <= g && found[k].b < cols
          && t[found[k].a][found[k].b] == Some(found[k].velocity) && found[k].velocity < ConvergingRate
        invariant InScanOrder(found)
        invariant forall a, b ::
          (0 <= a < n && 0 <= b < cols && Visited(a, b, g, q)
           && t[a][b].Some? && t[a][b].value < ConvergingRate) ==> HasPair(found, a, b)
      {
        if t[g][q].Some? && t[g][q].value < ConvergingRate {
          HasPairAppend(found, ConvergingPair(g, q, t[g][q].value));
          ScanOrderAppend(found, ConvergingPair(g, q, t[g][q].value));
          found := found + [ConvergingPair(g, q, t[g][q].value)];
        }
      }
    }
  }

  /** `find_converging_grandchild_parent_pairs`: scan every cell of the
      grandchild-parent table, skip NaN, keep values below -1e-6, sort. */
  method FindConvergingParentPairs(t: seq<seq<Cell>>, cols: nat) returns (r: seq<ConvergingPair>)
    requires IsTable(t, |t|, cols)
    ensures forall k :: 0 <= k < |r| ==>
      r[k].a < |t| && r[k].b < cols && t[r[k].a][r[k].b] == Some(r[k].velocity)
    ensures forall a, b :: 0 <= a < |t| && 0 <= b < cols ==>
      (HasPair(r, a, b) <==> t[a][b].Some? && t[a][b].value < ConvergingRate)
    ensures forall k, l :: 0 <= k < l < |r| ==> (r[k].a, r[k].b) != (r[l].a, r[l].b)
    ensures forall k, l :: 0 <= k < l < |r| ==> r[k].velocity <= r[l].velocity
    ensures forall k, l :: 0 <= k < l < |r| && r[k].velocity == r[l].velocity ==> ScanBefore(r[k], r[l])
  {
    var found := ScanAllCells(t, cols);
    r := SortByVelocity(found);
    forall a, b | 0 <= a < |t| && 0 <= b < cols && HasPair(found, a, b)
      ensures HasPair(r, a, b)
    {
      var k :| 0 <= k < |found| && found[k].a == a && found[k].b == b;
      assert found[k] in r;
    }
    forall k, l | 0 <= k < l < |r|
      ensures (r[k].a, r[k].b) != (r[l].a, r[l].b)
    {
      assert r[k] != r[l] && r[k] in found && r[l] in found;
    }
  }

  /** The sort order of both filters: ascending velocity, ties in scan order. */
  predicate RateBefore(x: ConvergingPair, y: ConvergingPair)
  {
    x.velocity < y.velocity || (x.velocity == y.velocity && ScanBefore(x, y))
  }

  /** Each index pair once, ascending velocity, ties in scan order. */
  predicate SortedOnce(r: seq<ConvergingPair>)
  {
    && (forall k, l :: 0 <= k < l < |r| ==> (r[k].a, r[k].b) != (r[l].a, r[l].b))
    && (forall k, l :: 0 <= k < l < |r| ==> r[k].velocity <= r[l].velocity)
    && (forall k, l :: 0 <= k < l < |r| && r[k].velocity == r[l].velocity ==> ScanBefore(r[k], r[l]))
  }

  /** The list `find_converging_grandchild_pairs` returns for table t:
      every pair above the diagonal closing faster than 1e-6, with its rate. */
  predicate IsGcPairList(t: seq<seq<real>>, r: seq<ConvergingPair>)
    requires forall a :: 0 <= a < |t| ==> |t[a]| >= |t|
  {
    && (forall k :: 0 <= k < |r| ==> r[k].a < r[k].b < |t| && r[k].velocity == t[r[k].a][r[k].b])
    && (forall a, b :: 0 <= a < b < |t| ==> (HasPair(r, a, b) <==> t[a][b] < ConvergingRate))
    && SortedOnce(r)
  }

  /** The list `find_converging_grandchild_parent_pairs` returns for table
      t: every numeric cell below -1e-6, with its rate. */
  predicate IsParentPairList(t: seq<seq<Cell>>, cols: nat, r: seq<ConvergingPair>)
    requires IsTable(t, |t|, cols)
  {
    && (forall k :: 0 <= k < |r| ==> r[k].a < |t| && r[k].b < cols && t[r[k].a][r[k].b] == Some(r[k].velocity))
    && (forall a, b :: 0 <= a < |t| && 0 <= b < cols ==>
          (HasPair(r, a, b) <==> t[a][b].Some? && t[a][b].value < ConvergingRate))
    && SortedOnce(r)
  }

  /** A list sorted once is strictly increasing in `RateBefore`. */
  lemma SortedOnceIncreasing(r: seq<ConvergingPair>)
    requires SortedOnce(r)
    ensures forall i, j :: 0 <= i < j < |r| ==> RateBefore(r[i], r[j])
  {
    forall i, j | 0 <= i < j < |r|
      ensures RateBefore(r[i], r[j])
    {
      assert r[i].velocity <= r[j].velocity;
    }
  }

  /** A grandchild pair listed in r1 is listed, with the same rate, in r2. */
  lemma GcPairListMember(t: seq<seq<real>>, r1: seq<ConvergingPair>, r2: seq<ConvergingPair>, x: ConvergingPair)
    requires forall a :: 0 <= a < |t| ==> |t[a]| >= |t|
    requires IsGcPairList(t, r1) && IsGcPairList(t, r2)
    requires x in r1
    ensures x in r2
  {
    var k :| 0 <= k < |r1| && r1[k] == x;
    assert HasPair(r1, x.a, x.b);
    var l :| 0 <= l < |r2| && r2[l].a == x.a && r2[l].b == x.b;
    assert r2[l] == x;
  }

  /** The filter's description fixes its grandchild list. */
  lemma GcPairListUnique(t: seq<seq<real>>, r1: seq<ConvergingPair>, r2: seq<ConvergingPair>)
    requires forall a :: 0 <= a < |t| ==> |t[a]| >= |t|
    requires IsGcPairList(t, r1) && IsGcPairList(t, r2)
    ensures r1 == r2
  {
    forall x
      ensures x in r1 <==> x in r2
    {
      if x in r1 { GcPairListMember(t, r1, r2, x); }
      if x in r2 { GcPairListMember(t, r2, r1, x); }
    }
    SortedOnceIncreasing(r1);
    SortedOnceIncreasing(r2);
    StrictlySortedUnique(r1, r2, RateBefore);
  }

  /** A grandchild-parent pair listed in r1 is listed, with the same rate, in r2. */
  lemma ParentPairListMember(t: seq<seq<Cell>>, cols: nat, r1: seq<ConvergingPair>, r2: seq<ConvergingPair>,
                             x: ConvergingPair)
    requires IsTable(t, |t|, cols)
    requires IsParentPairList(t, cols, r1) && IsParentPairList(t, cols, r2)
    requires x in r1
    ensures x in r2
  {
    var k :| 0 <= k < |r1| && r1[k] == x;
    assert HasPair(r1, x.a, x.b);
    var l :| 0 <= l < |r2| && r2[l].a == x.a && r2[l].b == x.b;
    assert r2[l] == x;
  }

  /** The filter's description fixes its grandchild-parent list. */
  lemma ParentPairListUnique(t: seq<seq<Cell>>, cols: nat, r1: seq<ConvergingPair>, r2: seq<ConvergingPair>)
    requires IsTable(t, |t|, cols)
    requires IsParentPairList(t, cols, r1) && IsParentPairList(t, cols, r2)
    ensures r1 == r2
  {
    forall x
      ensures x in r1 <==> x in r2
    {
      if x in r1 { ParentPairListMember(t, cols, r1, r2, x); }
      if x in r2 { ParentPairListMember(t, cols, r2, r1, x); }
    }
    SortedOnceIncreasing(r1);
    SortedOnceIncreasing(r2);
    StrictlySortedUnique(r1, r2, RateBefore);
  }

  // ----- pair names -----

  function DigitChar(d: nat): char
    requires d < 10
  {
    "0123456789"[d]
  }

  predicate IsDigit(c: char)
  {
    '0' <= c <= '9'
  }

  /** `str(n)` for a natural number. */
  function NatToString(n: nat): (s: string)
    ensures |s| > 0 && forall i :: 0 <= i < |s| ==> IsDigit(s[i])
  {
    if n < 10 then [DigitChar(n)] else NatToString(n / 10) + [DigitChar(n % 10)]
  }

  /** `int(s)` on a non-empty string of decimal digits; anything else raises. */
  function ParseNat(s: string): (r: Option<nat>)
    ensures r.Some? <==> |s| > 0 && forall i :: 0 <= i < |s| ==> IsDigit(s[i])
  {
    if |s| == 0 || !IsDigit(s[|s| - 1]) then None
    else if |s| == 1 then Some((s[0] as int - '0' as int) as nat)
    else match ParseNat(s[..|s| - 1])
      case None => None
      case Some(m) => Some(m * 10 + (s[|s| - 1] as int - '0' as int))
  }

  lemma {:induction false} ParseNatToString(n: nat)
    ensures ParseNat(NatToString(n)) == Some(n)
  {
    if n >= 10 {
      var s := NatToString(n);
      assert s[..|s| - 1] == NatToString(n / 10);
      ParseNatToString(n / 10);
    }
  }

  /** Python's `s.split(c)`: the maximal pieces between occurrences of c. */
  function Split(s: string, c: char): (r: seq<string>)
    ensures |r| > 0
    decreases |s|
  {
    if |s| == 0 then [""]
    else
      var rest := Split(s[1..], c);
      if s[0] == c then [""] + rest else [[s[0]] + rest[0]] + rest[1..]
  }

  lemma {:induction false} SplitNoSeparator(s: string, c: char)
    requires c !in s
    ensures Split(s, c) == [s]
  {
    if |s| > 0 {
      assert c !in s[1..];
      SplitNoSeparator(s[1..], c);
      assert [s[0]] + s[1..] == s;
    }
  }

  lemma {:induction false} SplitAtFirst(a: string, c: char, b: string)
    requires c !in a
    ensures Split(a + [c] + b, c) == [a] + Split(b, c)
  {
    if |a| == 0 {
      assert a + [c] + b == [c] + b;
      assert ([c] + b)[1..] == b;
    } else {
      var s := a + [c] + b;
      assert s[1..] == a[1..] + [c] + b;
      assert c !in a[1..];
      SplitAtFirst(a[1..], c, b);
      assert [a[0]] + a[1..] == a;
    }
  }

  /** "{p1}_{i}-{p2}_{j}", the shape of every pair name. */
  function PrefixedName(p1: string, p2: string, i: nat, j: nat): string
  {
    p1 + "_" + NatToString(i) + "-" + p2 + "_" + NatToString(j)
  }

  /** "gc_{i}-gc_{j}" */
  function GcPairName(i: nat, j: nat): string
  {
    PrefixedName("gc", "gc", i, j)
  }

  /** "gc_{g}-parent_{p}" */
  function ParentPairName(g: nat, p: nat): string
  {
    PrefixedName("gc", "parent", g, p)
  }

  /** `int(part.split('_')[1])` */
  function ParseIndexPart(part: string): Option<nat>
  {
    var pieces := Split(part, '_');
    if |pieces| < 2 then None else ParseNat(pieces[1])
  }

  /** `parts = name.split('-')`, then the index after '_' in each of the first
      two parts; any IndexError or ValueError is `None`. */
  function ParsePairName(name: string): Option<(nat, nat)>
  {
    var parts := Split(name, '-');
    if |parts| < 2 then None
    else match (ParseIndexPart(parts[0]), ParseIndexPart(parts[1]))
      case (Some(i), Some(j)) => Some((i, j))
      case _ => None
  }

  lemma IndexPartRoundTrip(prefix: string, n: nat)
    requires '_' !in prefix
    ensures ParseIndexPart(prefix + "_" + NatToString(n)) == Some(n)
  {
    var digits := NatToString(n);
    assert forall i :: 0 <= i < |digits| ==> digits[i] != '_';
    SplitAtFirst(prefix, '_', digits);
    SplitNoSeparator(digits, '_');
    ParseNatToString(n);
  }

  lemma DigitsHaveNoDash(n: nat)
    ensures '-' !in NatToString(n) && '_' !in NatToString(n)
  {
    var digits := NatToString(n);
    assert forall i :: 0 <= i < |digits| ==> digits[i] != '-' && digits[i] != '_';
  }

  /** "{p1}_{i}-{p2}_{j}" parses back to (i, j) when neither prefix holds a
      separator. */
  lemma PrefixedNameRoundTrip(p1: string, p2: string, i: nat, j: nat)
    requires '_' !in p1 && '-' !in p1 && '_' !in p2 && '-' !in p2
    ensures ParsePairName(PrefixedName(p1, p2, i, j)) == Some((i, j))
  {
    DigitsHaveNoDash(i);
    DigitsHaveNoDash(j);
    var first, second := p1 + "_" + NatToString(i), p2 + "_" + NatToString(j);
    assert '-' !in first && '-' !in second;
    assert PrefixedName(p1, p2, i, j) == first + ['-'] + second;
    SplitAtFirst(first, '-', second);
    SplitNoSeparator(second, '-');
    IndexPartRoundTrip(p1, i);
    IndexPartRoundTrip(p2, j);
  }

  /** Parsing a name built by the filters gives back its two indices, for the
      grandchild-grandchild and the grandchild-parent form alike. */
  lemma PairNameRoundTrip(i: nat, j: nat)
    ensures ParsePairName(GcPairName(i, j)) == Some((i, j))
    ensures ParsePairName(ParentPairName(i, j)) == Some((i, j))
  {
    PrefixedNameRoundTrip("gc", "gc", i, j);
    PrefixedNameRoundTrip("gc", "parent", i, j);
  }
}

=== FILE: evaluator.dfy ===
/** `TreeEvaluator`: the objective side of the dt optimisation. The first call
    builds and sorts the tree; later calls only move the spores, so the pairing
    found at the first call stays fixed. */
module TreeEvaluator {
  import opened Common
  import opened Seqs
  import opened Sorting
  import opened SporeTree
  import opened Geometry

  datatype Evaluator = Evaluator(tree: Tree, lastDt: Option<seq<real>>, initialised: bool)

  datatype EvalError =
    | TreeFailed(reason: TreeError)   // an exception raised by the tree
    | ShapeMismatch                   // np.allclose on shapes that do not broadcast

  /** `TreeEvaluator(tree)`. */
  function NewEvaluator(t: Tree): (e: Evaluator)
    ensures !e.initialised && e.lastDt.None? && e.tree == t
  {
    Evaluator(t, None, false)
  }

  /** Once initialised the evaluator has a sorted tree with mean points and a
      previous input. */
  predicate EvalValid(e: Evaluator)
  {
    Valid(e.tree)
    && (e.initialised ==> e.lastDt.Some? && e.tree.grandchildrenSorted && e.tree.meanPoints.Some?)
  }

  /** `np.isclose` with its defaults rtol = 1e-05, atol = 1e-08. */
  predicate IsClose(a: real, b: real)
  {
    Abs(a - b) <= 0.00000001 + 0.00001 * Abs(b)
  }

  /** `np.allclose` on two vectors: equal lengths compare element-wise, a
      length-1 side is broadcast, and other shapes raise (`None`). */
  function AllClose(a: seq<real>, b: seq<real>): (r: Option<bool>)
    ensures r.None? <==> |a| != |b| && |a| != 1 && |b| != 1
    ensures |a| == |b| ==> r == Some(forall i :: 0 <= i < |a| ==> IsClose(a[i], b[i]))
  {
    if |a| == |b| then Some(forall i :: 0 <= i < |a| ==> IsClose(a[i], b[i]))
    else if |a| == 1 then Some(forall i :: 0 <= i < |b| ==> IsClose(a[0], b[i]))
    else if |b| == 1 then Some(forall i :: 0 <= i < |a| ==> IsClose(a[i], b[0]))
    else None
  }

  /** What the first build promises: it succeeds exactly on a 12-entry vector
      whose angle-sorted grandchildren pair across different parents, and then
      holds the children and grandchildren made from `dt[:4]` and `dt[4:]`,
      sorted, with the mean point of every pair. */
  predicate FirstBuildResult(p: Pendulum, t: Tree, angle: Vec2 -> real, dt: seq<real>, r: Result<Tree, TreeError>)
    requires Valid(t)
  {
    && (r.Ok? <==>
         |dt| == 12
         && PairsFromDifferentParents(MakeGrandchildren(p, MakeChildren(p, t.root, dt[..4]), dt[4..]),
                                      SortedOrder(BuildWith(p, t, dt[..4], dt[4..]).value, angle)))
    && (r.Ok? ==>
         var b := BuildWith(p, t, dt[..4], dt[4..]).value;
         Valid(r.value) && r.value.grandchildrenSorted
         && r.value.children == MakeChildren(p, t.root, dt[..4])
         && r.value.grandchildren == MakeGrandchildren(p, r.value.children, dt[4..])
         && r.value.sorted == SortedOrder(b, angle)
         && r.value.meanPoints == Some(PairMidpoints(r.value.grandchildren, r.value.sorted)))
  }

  /** The first call: create children from dt[:4], grandchildren from dt[4:],
      sort and pair, compute the mean points. */
  function FirstBuild(p: Pendulum, t: Tree, angle: Vec2 -> real, dt: seq<real>): (r: Result<Tree, TreeError>)
    requires Valid(t)
    ensures FirstBuildResult(p, t, angle, dt, r)
  {
    match CreateChildren(p, t, Some(PySliceTo(dt, 4)))
    case Err(e) => ChildStepFails(p, t, dt); Err(e)
    case Ok(t1) =>
      match CreateGrandchildren(p, t1, Some(PySliceFrom(dt, 4)))
      case Err(e) => GrandchildStepFails(p, t, dt, t1); Err(e)
      case Ok(t2) =>
        FirstBuildIsBuildWith(p, t, dt, t1, t2);
        FirstBuildFinishes(p, t, angle, dt, t2);
        SortThenMeans(t2, angle)
  }

  /** A 12-entry vector splits into four child and eight grandchild entries;
      any other length leaves `dt[4:]` without eight entries. */
  lemma SlicesTooShort(dt: seq<real>)
    ensures |dt| >= 4 ==> PySliceTo(dt, 4) == dt[..4]
    ensures |dt| >= 4 ==> PySliceFrom(dt, 4) == dt[4..]
    ensures |PySliceFrom(dt, 4)| == 8 <==> |dt| == 12
  {
  }

  /** The children step of the first build fails only on a vector of the wrong length. */
  lemma ChildStepFails(p: Pendulum, t: Tree, dt: seq<real>)
    requires Valid(t) && CreateChildren(p, t, Some(PySliceTo(dt, 4))).Err?
    ensures |dt| != 12
  {
    SlicesTooShort(dt);
  }

  /** After the children step, the grandchildren step fails only on a vector of the wrong length. */
  lemma GrandchildStepFails(p: Pendulum, t: Tree, dt: seq<real>, t1: Tree)
    requires Valid(t) && CreateChildren(p, t, Some(PySliceTo(dt, 4))) == Ok(t1)
    requires CreateGrandchildren(p, t1, Some(PySliceFrom(dt, 4))).Err?
    ensures |dt| != 12
  {
    SlicesTooShort(dt);
  }

  /** The two creation steps of the first build are `BuildWith` on the split vector. */
  lemma FirstBuildIsBuildWith(p: Pendulum, t: Tree, dt: seq<real>, t1: Tree, t2: Tree)
    requires Valid(t)
    requires CreateChildren(p, t, Some(PySliceTo(dt, 4))) == Ok(t1)
    requires CreateGrandchildren(p, t1, Some(PySliceFrom(dt, 4))) == Ok(t2)
    ensures |dt| == 12 && t2 == BuildWith(p, t, dt[..4], dt[4..]).value
    ensures t2.children == MakeChildren(p, t.root, dt[..4])
    ensures t2.grandchildren == MakeGrandchildren(p, t2.children, dt[4..])
  {
    SlicesTooShort(dt);
  }

  /** Once both creation steps succeed, the rest of the first build is
      sorting and the mean points over the tree `BuildWith` makes. */
  lemma FirstBuildFinishes(p: Pendulum, t: Tree, angle: Vec2 -> real, dt: seq<real>, t2: Tree)
    requires Valid(t) && |dt| == 12 && t2 == BuildWith(p, t, dt[..4], dt[4..]).value
    ensures Valid(t2) && FirstBuildResult(p, t, angle, dt, SortThenMeans(t2, angle))
  {
    assert t2.grandchildren == MakeGrandchildren(p, MakeChildren(p, t.root, dt[..4]), dt[4..]);
  }

  /** The last two steps of the first build: sort and pair the
      grandchildren, then compute the mean points over the sorted order. */
  function SortThenMeans(t: Tree, angle: Vec2 -> real): (r: Result<Tree, TreeError>)
    requires Valid(t)
    ensures r.Ok? <==> t.grandchildrenCreated && PairsFromDifferentParents(t.grandchildren, SortedOrder(t, angle))
    ensures r.Ok? ==>
      && Valid(r.value) && r.value.grandchildrenSorted
      && r.value.children == t.children && r.value.grandchildren == t.grandchildren
      && r.value.sorted == SortedOrder(t, angle)
      && r.value.meanPoints == Some(PairMidpoints(r.value.grandchildren, r.value.sorted))
  {
    match SortAndPair(t, angle)
    case Err(e) => Err(e)
    case Ok(t3) =>
      assert SortedSource(t3) == t3.grandchildren;
      CalculateMeanPoints(t3)
  }

  /** `_build_if_needed`: build on the first call; afterwards update positions
      only when the input is not allclose to the previous one. The input is
      recorded in every successful case. */
  function BuildIfNeeded(p: Pendulum, e: Evaluator, angle: Vec2 -> real, dt: seq<real>): (r: Result<Evaluator, EvalError>)
    requires EvalValid(e)
    ensures r.Ok? ==> EvalValid(r.value) && r.value.initialised && r.value.lastDt == Some(dt)
    ensures !e.initialised ==>
      (r.Ok? <==> FirstBuild(p, e.tree, angle, dt).Ok?)
      && (r.Ok? ==> r.value.tree == FirstBuild(p, e.tree, angle, dt).value)
    ensures e.initialised ==> (r == Err(ShapeMismatch) <==> AllClose(dt, e.lastDt.value).None?)
    ensures e.initialised && AllClose(dt, e.lastDt.value) == Some(true) ==> r.Ok? && r.value.tree == e.tree
    ensures e.initialised && AllClose(dt, e.lastDt.value) == Some(false) ==>
      (r.Ok? <==> |dt| >= 12)
      && (r.Ok? ==> r.value.tree == UpdatePositions(p, e.tree, dt[..4], dt[4..], true).value)
  {
    if !e.initialised then
      match FirstBuild(p, e.tree, angle, dt)
      case Err(err) => Err(TreeFailed(err))
      case Ok(t) => Ok(Evaluator(t, Some(dt), true))
    else
      match AllClose(dt, e.lastDt.value)
      case None => Err(ShapeMismatch)
      case Some(close) =>
        if close then Ok(e.(lastDt := Some(dt)))
        else
          match UpdatePositions(p, e.tree, PySliceTo(dt, 4), PySliceFrom(dt, 4), true)
          case Err(err) => Err(TreeFailed(err))
          case Ok(t) => Ok(Evaluator(t, Some(dt), true))
  }

  /** After the first build, no call rebuilds the topology: the sorted order,
      the candidate map and every grandchild's parent and local index stay
      what the first build made them. */
  lemma LaterCallsKeepPairing(p: Pendulum, e: Evaluator, angle: Vec2 -> real, dt: seq<real>)
    requires EvalValid(e) && e.initialised
    requires BuildIfNeeded(p, e, angle, dt).Ok?
    ensures var t := BuildIfNeeded(p, e, angle, dt).value.tree;
      t.sorted == e.tree.sorted && t.candidateMap == e.tree.candidateMap
      && t.grandchildrenSorted && |t.grandchildren| == |e.tree.grandchildren|
      && (forall j :: 0 <= j < |t.grandchildren| ==>
            t.grandchildren[j].parentIdx == e.tree.grandchildren[j].parentIdx
            && t.grandchildren[j].localIdx == e.tree.grandchildren[j].localIdx
            && t.grandchildren[j].control == e.tree.grandchildren[j].control)
  {
  }

  /** The mean points the evaluator works on after a successful call. */
  function MeanPointsOf(e: Evaluator): seq<Vec2>
    requires EvalValid(e) && e.initialised
  {
    e.tree.meanPoints.value
  }

  /** `area`: the shoelace area of the four pair midpoints after building. */
  function Area(p: Pendulum, e: Evaluator, angle: Vec2 -> real, dt: seq<real>): (r: Result<(Evaluator, real), EvalError>)
    requires EvalValid(e)
    ensures r.Ok? <==> BuildIfNeeded(p, e, angle, dt).Ok?
    ensures r.Ok? ==>
      r.value.0 == BuildIfNeeded(p, e, angle, dt).value && r.value.1 >= 0.0
      && r.value.1 == 0.5 * Abs(Sum(CrossTerms(MeanPointsOf(r.value.0))))
  {
    var b := BuildIfNeeded(p, e, angle, dt);
    if b.Err? then Err(b.error)
    else
      var pts := MeanPointsOf(b.value);
      ShoelaceIsCrossSum(pts);
      Ok((b.value, ShoelaceArea(pts)))
  }

  /** The distance of each sorted pair (2k, 2k+1). */
  function SortedPairDistances(t: Tree, norm: Norm): (d: seq<real>)
    requires Valid(t) && t.grandchildrenSorted
    ensures |d| == 4
    ensures forall k :: 0 <= k < 4 ==>
      d[k] == norm(Sub(t.grandchildren[t.sorted[2 * k]].position, t.grandchildren[t.sorted[2 * k + 1]].position))
  {
    assert InRange(t.sorted, |t.grandchildren|);
    seq(4, k requires 0 <= k < 4 =>
      norm(Sub(t.grandchildren[t.sorted[2 * k]].position, t.grandchildren[t.sorted[2 * k + 1]].position)))
  }

  /** `pair_distances`: the k-th value is the distance between sorted
      grandchildren 2k and 2k+1, read through the current positions. */
  function PairDistances(p: Pendulum, e: Evaluator, angle: Vec2 -> real, norm: Norm, dt: seq<real>): (r: Result<(Evaluator, seq<real>), EvalError>)
    requires EvalValid(e)
    ensures r.Ok? <==> BuildIfNeeded(p, e, angle, dt).Ok?
    ensures r.Ok? ==>
      r.value.0 == BuildIfNeeded(p, e, angle, dt).value
      && r.value.1 == SortedPairDistances(r.value.0.tree, norm)
  {
    match BuildIfNeeded(p, e, angle, dt)
    case Err(err) => Err(err)
    case Ok(e1) => Ok((e1, SortedPairDistances(e1.tree, norm)))
  }

  /** The raw loss components; their float numerics are not modelled. */
  datatype LossComponents = LossComponents(distance: real, velocity: real, repulsion: real, timeBonus: real)

  datatype LossWeights = LossWeights(wDistance: real, wVelocity: real, wRepulsion: real, wTime: real)

  /** The defaults of `dynamic_loss`: only the distance term is on. */
  const DefaultWeights := LossWeights(1.0, 0.0, 0.0, 0.0)

  /** `dynamic_loss` from its components: a weighted sum with the time bonus subtracted. */
  function DynamicLoss(c: LossComponents, w: LossWeights): real
  {
    w.wDistance * c.distance + w.wVelocity * c.velocity + w.wRepulsion * c.repulsion - w.wTime * c.timeBonus
  }

  /** With non-negative weights the loss grows with each penalty and falls as
      the time bonus grows; with the default weights it is the distance term. */
  lemma DynamicLossMonotone(c: LossComponents, d: LossComponents, w: LossWeights)
    requires w.wDistance >= 0.0 && w.wVelocity >= 0.0 && w.wRepulsion >= 0.0 && w.wTime >= 0.0
    requires c.distance <= d.distance && c.velocity <= d.velocity && c.repulsion <= d.repulsion
    requires c.timeBonus >= d.timeBonus
    ensures DynamicLoss(c, w) <= DynamicLoss(d, w)
    ensures DynamicLoss(c, DefaultWeights) == c.distance
  {
    ScaleMonotone(w.wDistance, c.distance, d.distance);
    ScaleMonotone(w.wVelocity, c.velocity, d.velocity);
    ScaleMonotone(w.wRepulsion, c.repulsion, d.repulsion);
    ScaleMonotone(w.wTime, d.timeBonus, c.timeBonus);
  }

  /** A non-negative weight keeps the order of what it scales. */
  lemma ScaleMonotone(w: real, a: real, b: real)
    requires w >= 0.0 && a <= b
    ensures w * a <= w * b
  {
    assert w * b - w * a == w * (b - a);
    assert w * (b - a) >= 0.0;
  }
}

=== FILE: geometry.dfy ===
/** Polygon and triangle areas in the phase plane: the shoelace formula the
    evaluator and the topology use on the four pair midpoints, and the triangle
    area the area-optimisation evaluators sum over root/child/grandchild. */
module Geometry {
  import opened Common
  import opened Seqs

  function Xs(ps: seq<Vec2>): (r: seq<real>)
    ensures |r| == |ps| && forall i :: 0 <= i < |ps| ==> r[i] == ps[i].x
  {
    seq(|ps|, i requires 0 <= i < |ps| => ps[i].x)
  }

  function Ys(ps: seq<Vec2>): (r: seq<real>)
    ensures |r| == |ps| && forall i :: 0 <= i < |ps| ==> r[i] == ps[i].y
  {
    seq(|ps|, i requires 0 <= i < |ps| => ps[i].y)
  }

  /** `np.dot` of two vectors of equal length. */
  function DotSeq(a: seq<real>, b: seq<real>): real
    requires |a| == |b|
  {
    if |a| == 0 then 0.0 else a[0] * b[0] + DotSeq(a[1..], b[1..])
  }

  /** `0.5 * |dot(x, roll(y, 1)) - dot(y, roll(x, 1))|`. */
  function ShoelaceArea(ps: seq<Vec2>): (a: real)
    ensures a >= 0.0
  {
    if |ps| == 0 then 0.0
    else 0.5 * Abs(DotSeq(Xs(ps), RollRight1(Ys(ps))) - DotSeq(Ys(ps), RollRight1(Xs(ps))))
  }

  /** Index of the vertex before i on the closed polygon. */
  function Prev(n: nat, i: nat): nat
    requires i < n
  {
    if i == 0 then n - 1 else i - 1
  }

  /** a * b - c * d, kept as one term so that equal arguments give equal values
      without arithmetic. */
  function ProdDiff(a: real, b: real, c: real, d: real): real
  {
    a * b - c * d
  }

  /** The cross term x_i * y_{i-1} - y_i * x_{i-1} of each edge. */
  function CrossTerms(ps: seq<Vec2>): (t: seq<real>)
    ensures |t| == |ps|
    ensures forall i :: 0 <= i < |ps| ==>
      t[i] == ProdDiff(ps[i].x, ps[Prev(|ps|, i)].y, ps[i].y, ps[Prev(|ps|, i)].x)
  {
    seq(|ps|, i requires 0 <= i < |ps| =>
      ProdDiff(ps[i].x, ps[Prev(|ps|, i)].y, ps[i].y, ps[Prev(|ps|, i)].x))
  }

  /** Element-wise a[i]*b[i] - c[i]*d[i]. */
  function DiffOfProducts(a: seq<real>, b: seq<real>, c: seq<real>, d: seq<real>): (r: seq<real>)
    requires |a| == |b| == |c| == |d|
    ensures |r| == |a|
    ensures forall i :: 0 <= i < |a| ==> r[i] == ProdDiff(a[i], b[i], c[i], d[i])
  {
    seq(|a|, i requires 0 <= i < |a| => ProdDiff(a[i], b[i], c[i], d[i]))
  }

  lemma {:induction false} DotDifference(a: seq<real>, b: seq<real>, c: seq<real>, d: seq<real>)
    requires |a| == |b| == |c| == |d|
    ensures DotSeq(a, b) - DotSeq(c, d) == Sum(DiffOfProducts(a, b, c, d))
  {
    if |a| > 0 {
      DotDifference(a[1..], b[1..], c[1..], d[1..]);
      var whole, tail := DiffOfProducts(a, b, c, d), DiffOfProducts(a[1..], b[1..], c[1..], d[1..]);
      forall i | 0 <= i < |tail|
        ensures whole[1..][i] == tail[i]
      {
        assert a[1..][i] == a[i + 1] && b[1..][i] == b[i + 1];
        assert c[1..][i] == c[i + 1] && d[1..][i] == d[i + 1];
      }
      assert whole[1..] == tail;
    }
  }

  /** Rolling the coordinate columns by one pairs each vertex with the one before it. */
  lemma RolledProductsAreCrossTerms(ps: seq<Vec2>)
    requires |ps| > 0
    ensures DiffOfProducts(Xs(ps), RollRight1(Ys(ps)), Ys(ps), RollRight1(Xs(ps))) == CrossTerms(ps)
  {
    var x, y := Xs(ps), Ys(ps);
    var rx, ry := RollRight1(x), RollRight1(y);
    var d, t := DiffOfProducts(x, ry, y, rx), CrossTerms(ps);
    forall i | 0 <= i < |ps|
      ensures d[i] == t[i]
    {
      var j := Prev(|ps|, i);
      var a, b, pa, pb := ps[i].x, ps[i].y, ps[j].x, ps[j].y;
      if i == 0 {
        assert rx[i] == pa && ry[i] == pb;
      } else {
        assert rx[i] == x[i - 1] == pa;
        assert ry[i] == y[i - 1] == pb;
      }
      assert d[i] == ProdDiff(a, pb, b, pa);
    }
    assert d == t;
  }

  /** The numpy expression is half the absolute sum of the edge cross terms. */
  lemma ShoelaceIsCrossSum(ps: seq<Vec2>)
    ensures ShoelaceArea(ps) == 0.5 * Abs(Sum(CrossTerms(ps)))
  {
    if |ps| > 0 {
      var x, y := Xs(ps), Ys(ps);
      DotDifference(x, RollRight1(y), y, RollRight1(x));
      RolledProductsAreCrossTerms(ps);
    }
  }

  lemma SumSwap(a: seq<real>, b: seq<real>)
    ensures Sum(b + a) == Sum(a + b)
  {
    SumConcat(b, a);
    SumConcat(a, b);
  }

  /** Sum is unchanged by a cyclic rotation. */
  lemma SumRollLeft(t: seq<real>, k: nat)
    requires k <= |t|
    ensures Sum(RollLeft(t, k)) == Sum(t)
  {
    var a, b := t[..k], t[k..];
    assert RollLeft(t, k) == b + a;
    assert a + b == t;
    SumSwap(a, b);
  }

  /** Relabelling the vertices cyclically rotates the cross terms. */
  lemma CrossTermsRollLeft(ps: seq<Vec2>, k: nat)
    requires k < |ps|
    ensures CrossTerms(RollLeft(ps, k)) == RollLeft(CrossTerms(ps), k)
  {
    var n := |ps|;
    var q := RollLeft(ps, k);
    forall i | 0 <= i < n
      ensures CrossTerms(q)[i] == RollLeft(CrossTerms(ps), k)[i]
    {
      var j := if i + k < n then i + k else i + k - n;
      assert q[i] == ps[j];
      assert q[Prev(n, i)] == ps[Prev(n, j)];
    }
  }

  /** The shoelace area does not depend on which vertex the polygon starts at. */
  lemma ShoelaceRotationInvariant(ps: seq<Vec2>, k: nat)
    requires k <= |ps|
    ensures ShoelaceArea(RollLeft(ps, k)) == ShoelaceArea(ps)
  {
    if k == |ps| {
      assert RollLeft(ps, k) == ps;
    } else {
      ShoelaceIsCrossSum(ps);
      ShoelaceIsCrossSum(RollLeft(ps, k));
      CrossTermsRollLeft(ps, k);
      SumRollLeft(CrossTerms(ps), k);
    }
  }

  /** The constant sequence of length n. */
  function Constant(n: nat, c: real): (r: seq<real>)
    ensures |r| == n && forall i :: 0 <= i < n ==> r[i] == c
  {
    seq(n, _ => c)
  }

  lemma {:induction false} DotConstant(u: seq<real>, c: real)
    ensures DotSeq(u, Constant(|u|, c)) == c * Sum(u)
  {
    if |u| > 0 {
      assert Constant(|u|, c)[1..] == Constant(|u| - 1, c);
      DotConstant(u[1..], c);
    }
  }

  /** The point a + t d. */
  function Along(a: Vec2, d: Vec2, t: real): Vec2
  {
    Vec2(a.x + t * d.x, a.y + t * d.y)
  }

  /** The 2-D cross product a x d. */
  function Cross(a: Vec2, d: Vec2): real
  {
    a.x * d.y - a.y * d.x
  }

  /** The cross term of two points on the line through a with direction d is
      the difference of their parameters times a x d. */
  lemma CollinearEdge(a: Vec2, d: Vec2, s: real, u: real)
    ensures ProdDiff(Along(a, d, s).x, Along(a, d, u).y, Along(a, d, s).y, Along(a, d, u).x)
         == ProdDiff(u, Cross(a, d), s, Cross(a, d))
  {
    calc {
      ProdDiff(Along(a, d, s).x, Along(a, d, u).y, Along(a, d, s).y, Along(a, d, u).x);
      (a.x + s * d.x) * (a.y + u * d.y) - (a.y + s * d.y) * (a.x + u * d.x);
      a.x * a.y + u * (a.x * d.y) + s * (d.x * a.y) + s * u * (d.x * d.y)
        - (a.y * a.x + u * (a.y * d.x) + s * (d.y * a.x) + s * u * (d.y * d.x));
      u * (a.x * d.y - a.y * d.x) - s * (a.x * d.y - a.y * d.x);
    }
  }

  /** Every vertex k is a + t_k d. */
  predicate OnLine(ps: seq<Vec2>, a: Vec2, d: Vec2, ts: seq<real>)
  {
    |ts| == |ps| && forall k :: 0 <= k < |ps| ==> ps[k] == Along(a, d, ts[k])
  }

  /** On a line, edge i's cross term is (t_{i-1} - t_i) times a x d. */
  lemma CollinearCrossTerms(ps: seq<Vec2>, a: Vec2, d: Vec2, ts: seq<real>)
    requires OnLine(ps, a, d, ts) && |ps| > 0
    ensures var cs := Constant(|ps|, Cross(a, d));
      CrossTerms(ps) == DiffOfProducts(RollRight1(ts), cs, ts, cs)
  {
    var n := |ps|;
    var c := Cross(a, d);
    var cs := Constant(n, c);
    var rt := RollRight1(ts);
    var ct, dp := CrossTerms(ps), DiffOfProducts(rt, cs, ts, cs);
    forall i | 0 <= i < n
      ensures ct[i] == dp[i]
    {
      var j := Prev(n, i);
      assert rt[i] == ts[j] && cs[i] == c;
      assert ps[i] == Along(a, d, ts[i]) && ps[j] == Along(a, d, ts[j]);
      CollinearEdge(a, d, ts[i], ts[j]);
    }
    assert ct == dp;
  }

  /** Rolling right by one is rolling left by n - 1, so the sum is unchanged. */
  lemma SumRollRight1(ts: seq<real>)
    requires |ts| > 0
    ensures Sum(RollRight1(ts)) == Sum(ts)
  {
    assert RollRight1(ts) == RollLeft(ts, |ts| - 1);
    SumRollLeft(ts, |ts| - 1);
  }

  /** The telescoping sum of the scaled parameter differences around the polygon. */
  lemma ScaledDifferencesSumZero(ts: seq<real>, c: real)
    requires |ts| > 0
    ensures var cs := Constant(|ts|, c);
      Sum(DiffOfProducts(RollRight1(ts), cs, ts, cs)) == 0.0
  {
    var cs := Constant(|ts|, c);
    var rt := RollRight1(ts);
    DotDifference(rt, cs, ts, cs);
    DotConstant(rt, c);
    DotConstant(ts, c);
    SumRollRight1(ts);
  }

  /** Points on one line enclose no area: when every vertex is a + t_k d, the
      shoelace expression is zero, so four collinear pair midpoints score 0. */
  lemma CollinearShoelaceZero(ps: seq<Vec2>, a: Vec2, d: Vec2, ts: seq<real>)
    requires OnLine(ps, a, d, ts)
    ensures ShoelaceArea(ps) == 0.0
  {
    if |ps| > 0 {
      ShoelaceIsCrossSum(ps);
      CollinearCrossTerms(ps, a, d, ts);
      ScaledDifferencesSumZero(ts, Cross(a, d));
    }
  }

  /** `0.5 * |x1 (y2 - y3) + x2 (y3 - y1) + x3 (y1 - y2)|`. */
  function TriangleArea(p1: Vec2, p2: Vec2, p3: Vec2): (a: real)
    ensures a >= 0.0
  {
    0.5 * Abs(p1.x * (p2.y - p3.y) + p2.x * (p3.y - p1.y) + p3.x * (p1.y - p2.y))
  }

  /** A triangle with two equal vertices has no area, and the area does not
      depend on the order of the vertices. */
  lemma TriangleAreaSymmetric(p1: Vec2, p2: Vec2, p3: Vec2)
    ensures TriangleArea(p1, p1, p3) == 0.0 && TriangleArea(p1, p2, p2) == 0.0
      && TriangleArea(p1, p2, p1) == 0.0
    ensures TriangleArea(p1, p2, p3) == TriangleArea(p2, p3, p1)
    ensures TriangleArea(p1, p2, p3) == TriangleArea(p2, p1, p3)
  {
    var s := p1.x * (p2.y - p3.y) + p2.x * (p3.y - p1.y) + p3.x * (p1.y - p2.y);
    assert p2.x * (p1.y - p3.y) + p1.x * (p3.y - p2.y) + p3.x * (p2.y - p1.y) == -s;
  }
}

=== FILE: meetings.dfy ===
/** Meeting chronologies: for every grandchild, the recorded meetings with
    the other grandchildren and with the foreign parents, read off the
    filled distance and time tables and ordered either by meeting time
    (`create_chronological_meetings`) or by meeting quality, best first
    (`create_meeting_chronology` and the complete meeting analysis). */
module Meetings {
  import opened Common
  import opened Seqs
  import opened Sorting
  import opened SporeTree
  import opened Convergence
  import opened Tables

  /** `partner_idx` together with the meeting `type`. */
  datatype Partner = GcPartner(idx: nat) | ParentPartner(idx: nat)

  /** One meeting of a grandchild. `timePartner` is `None` for a parent,
      which does not move. The derived fields `meeting_time`, `who_waits`
      and `meeting_quality` are the functions below. */
  datatype Meeting = Meeting(partner: Partner, distance: real, timeGc: real, timePartner: Option<real>)

  datatype Waiter = GcWaits | PartnerWaits

  /** `max(|time_i|, |time_j|)` for a grandchild partner (the earlier spore
      waits for the other), `|time_gc|` for a parent. */
  function MeetingTime(m: Meeting): (t: real)
    ensures t >= Abs(m.timeGc) >= 0.0
    ensures m.timePartner.None? ==> t == Abs(m.timeGc)
    ensures m.timePartner.Some? ==>
      t >= Abs(m.timePartner.value) && (t == Abs(m.timeGc) || t == Abs(m.timePartner.value))
  {
    match m.timePartner
    case None => Abs(m.timeGc)
    case Some(tp) => MaxR(Abs(m.timeGc), Abs(tp))
  }

  /** `'gc'` when the grandchild's own flight is the longer one, `'partner'`
      otherwise; nobody for a parent. The meeting happens at the end of the
      named spore's flight. */
  function WhoWaits(m: Meeting): (w: Option<Waiter>)
    ensures w.None? <==> m.timePartner.None?
    ensures w == Some(GcWaits) <==> m.timePartner.Some? && Abs(m.timeGc) > Abs(m.timePartner.value)
    ensures w == Some(GcWaits) ==> MeetingTime(m) == Abs(m.timeGc)
    ensures w == Some(PartnerWaits) ==> MeetingTime(m) == Abs(m.timePartner.value)
  {
    match m.timePartner
    case None => None
    case Some(tp) => if Abs(m.timeGc) > Abs(tp) then Some(GcWaits) else Some(PartnerWaits)
  }

  /** The regulariser of `1.0 / (distance + 1e-8)`. */
  const QualityEpsilon: real := 0.00000001

  /** `meeting_quality`: the reciprocal of the regularised distance. */
  function Quality(d: real): (q: real)
    ensures d + QualityEpsilon != 0.0 ==> q * (d + QualityEpsilon) == 1.0
    ensures d + QualityEpsilon > 0.0 ==> q > 0.0
  {
    if d + QualityEpsilon == 0.0 then 0.0 else 1.0 / (d + QualityEpsilon)
  }

  function MeetingQuality(m: Meeting): real
  {
    Quality(m.distance)
  }

  /** For distances (which are norms, never negative) a higher quality is
      exactly a smaller distance, and equal qualities are equal distances. */
  lemma QualityReversesDistance(d1: real, d2: real)
    requires d1 >= 0.0 && d2 >= 0.0
    ensures Quality(d1) > Quality(d2) <==> d1 < d2
    ensures Quality(d1) == Quality(d2) <==> d1 == d2
  {
    if d1 < d2 {
      ReciprocalDecreasing(d1 + QualityEpsilon, d2 + QualityEpsilon, Quality(d1), Quality(d2));
    } else if d2 < d1 {
      ReciprocalDecreasing(d2 + QualityEpsilon, d1 + QualityEpsilon, Quality(d2), Quality(d1));
    }
  }

  /** 0 < x < y and q x = r y = 1 give q > r. */
  lemma ReciprocalDecreasing(x: real, y: real, q: real, r: real)
    requires 0.0 < x < y && q * x == 1.0 && r * y == 1.0
    ensures q > r
  {
    assert r > 0.0;
    assert r * x < r * y;
    assert (q - r) * x > 0.0;
  }

  // ----- the candidates of one grandchild -----

  /** A grandchild cell with a distance also has both of its times, as the
      fill leaves it: the three tables are written together. */
  predicate GcAligned(t: GcTables, n: nat)
    requires GcShaped(t, n)
  {
    forall a, b :: 0 <= a < n && 0 <= b < n && t.distance[a][b].Some? ==>
      t.timeI[a][b].Some? && t.timeJ[a][b].Some?
  }

  predicate ParentAligned(t: ParentTables, n: nat, cols: nat)
    requires ParentShaped(t, n, cols)
  {
    forall g, q :: 0 <= g < n && 0 <= q < cols && t.distance[g][q].Some? ==> t.time[g][q].Some?
  }

  /** The tables a chronology is read from: n grandchildren, `cols` parents. */
  predicate Readable(gt: GcTables, pt: ParentTables, n: nat, cols: nat)
  {
    GcShaped(gt, n) && GcAligned(gt, n) && ParentShaped(pt, n, cols) && ParentAligned(pt, n, cols)
  }

  /** m is a meeting of grandchild g recorded in the tables: another
      grandchild with a non-NaN distance, or a foreign parent with one. */
  predicate IsMeetingOf(gt: GcTables, pt: ParentTables, n: nat, cols: nat, gcs: seq<Grandchild>, g: nat, m: Meeting)
    requires Readable(gt, pt, n, cols) && g < n == |gcs|
  {
    match m.partner
    case GcPartner(o) =>
      o < n && o != g && gt.distance[g][o] == Some(m.distance)
      && gt.timeI[g][o] == Some(m.timeGc) && m.timePartner.Some? && gt.timeJ[g][o] == m.timePartner
    case ParentPartner(q) =>
      q < cols && q != gcs[g].parentIdx && pt.distance[g][q] == Some(m.distance)
      && pt.time[g][q] == Some(m.timeGc) && m.timePartner.None?
  }

  /** Position in the scan: grandchildren 0..n-1 first, then parents. */
  function ScanRank(n: nat, m: Meeting): nat
  {
    match m.partner
    case GcPartner(o) => o
    case ParentPartner(q) => n + q
  }

  /** The grandchild meetings of g among partners 0..k-1, in scan order. */
  function GcScan(gt: GcTables, n: nat, g: nat, k: nat): (r: seq<Meeting>)
    requires GcShaped(gt, n) && GcAligned(gt, n) && g < n && k <= n
    ensures GcScanned(gt, n, g, k, r)
  {
    if k == 0 then []
    else
      var prev := GcScan(gt, n, g, k - 1);
      GcScanStep(gt, n, g, k, prev);
      prev + GcCellMeeting(gt, n, g, k - 1)
  }

  /** The meeting cell [g][o] holds, if any: `o != g` and the distance is not NaN. */
  function GcCellMeeting(gt: GcTables, n: nat, g: nat, o: nat): seq<Meeting>
    requires GcShaped(gt, n) && GcAligned(gt, n) && g < n && o < n
  {
    if o != g && gt.distance[g][o].Some?
    then [Meeting(GcPartner(o), gt.distance[g][o].value, gt.timeI[g][o].value, gt.timeJ[g][o])]
    else []
  }

  /** r lists, in ascending partner order, exactly the grandchild meetings
      of g with partners 0..k-1 that the tables record. */
  ghost predicate GcScanned(gt: GcTables, n: nat, g: nat, k: nat, r: seq<Meeting>)
    requires GcShaped(gt, n) && g < n && k <= n
  {
    && (forall p :: 0 <= p < |r| ==> r[p].partner.GcPartner? && r[p].partner.idx < k)
    && (forall p, q :: 0 <= p < q < |r| ==> r[p].partner.idx < r[q].partner.idx)
    && (forall o: nat, m: Meeting :: o < k && m.partner == GcPartner(o) ==>
          (m in r <==> o != g && gt.distance[g][o] == Some(m.distance)
                       && gt.timeI[g][o] == Some(m.timeGc) && m.timePartner.Some? && gt.timeJ[g][o] == m.timePartner))
  }

  /** Scanning partner k - 1 extends the scan by cell [g][k - 1]'s meeting. */
  lemma GcScanStep(gt: GcTables, n: nat, g: nat, k: nat, prev: seq<Meeting>)
    requires GcShaped(gt, n) && GcAligned(gt, n) && g < n && 0 < k <= n
    requires GcScanned(gt, n, g, k - 1, prev)
    ensures GcScanned(gt, n, g, k, prev + GcCellMeeting(gt, n, g, k - 1))
  {
    var o := k - 1;
    var r := prev + GcCellMeeting(gt, n, g, o);
    assert forall p :: 0 <= p < |prev| ==> r[p] == prev[p] && prev[p].partner.idx < o;
    assert forall m: Meeting :: m in prev ==> m.partner.idx < o;
  }

  /** The parent meetings of g among parents 0..k-1, skipping its own parent. */
  function ParentScan(pt: ParentTables, n: nat, cols: nat, g: nat, own: nat, k: nat): (r: seq<Meeting>)
    requires ParentShaped(pt, n, cols) && ParentAligned(pt, n, cols) && g < n && k <= cols
    ensures forall p :: 0 <= p < |r| ==> r[p].partner.ParentPartner? && r[p].partner.idx < k
    ensures forall p, q :: 0 <= p < q < |r| ==> r[p].partner.idx < r[q].partner.idx
    ensures forall q: nat, m: Meeting :: q < k && m.partner == ParentPartner(q) ==>
      (m in r <==> q != own && pt.distance[g][q] == Some(m.distance)
                   && pt.time[g][q] == Some(m.timeGc) && m.timePartner.None?)
  {
    if k == 0 then []
    else
      var q := k - 1;
      ParentScan(pt, n, cols, g, own, q)
        + (if q != own && pt.distance[g][q].Some?
           then [Meeting(ParentPartner(q), pt.distance[g][q].value, pt.time[g][q].value, None)]
           else [])
  }

  /** The meetings of g in the order the two loops append them. */
  function Candidates(gt: GcTables, pt: ParentTables, n: nat, cols: nat, gcs: seq<Grandchild>, g: nat)
    : (r: seq<Meeting>)
    requires Readable(gt, pt, n, cols) && g < n == |gcs|
    ensures forall m :: m in r <==> IsMeetingOf(gt, pt, n, cols, gcs, g, m)
    ensures forall p, q :: 0 <= p < q < |r| ==> ScanRank(n, r[p]) < ScanRank(n, r[q])
  {
    CandidateMembers(gt, pt, n, cols, gcs, g);
    CandidatesOrdered(gt, pt, n, cols, gcs, g);
    GcScan(gt, n, g, n) + ParentScan(pt, n, cols, g, gcs[g].parentIdx, cols)
  }

  /** The two scans together list exactly the meetings of g. */
  lemma CandidateMembers(gt: GcTables, pt: ParentTables, n: nat, cols: nat, gcs: seq<Grandchild>, g: nat)
    requires Readable(gt, pt, n, cols) && g < n == |gcs|
    ensures var r := GcScan(gt, n, g, n) + ParentScan(pt, n, cols, g, gcs[g].parentIdx, cols);
      forall m :: m in r <==> IsMeetingOf(gt, pt, n, cols, gcs, g, m)
  {
    forall m
      ensures m in GcScan(gt, n, g, n) + ParentScan(pt, n, cols, g, gcs[g].parentIdx, cols)
              <==> IsMeetingOf(gt, pt, n, cols, gcs, g, m)
    {
      CandidateMember(gt, pt, n, cols, gcs, g, m);
    }
  }

  lemma CandidateMember(gt: GcTables, pt: ParentTables, n: nat, cols: nat, gcs: seq<Grandchild>, g: nat,
                        m: Meeting)
    requires Readable(gt, pt, n, cols) && g < n == |gcs|
    ensures m in GcScan(gt, n, g, n) + ParentScan(pt, n, cols, g, gcs[g].parentIdx, cols)
            <==> IsMeetingOf(gt, pt, n, cols, gcs, g, m)
  {
    var a := GcScan(gt, n, g, n);
    var b := ParentScan(pt, n, cols, g, gcs[g].parentIdx, cols);
    assert m in a + b <==> m in a || m in b;
    if m.partner.GcPartner? {
      GcCandidate(gt, pt, n, cols, gcs, g, m);
    } else {
      ParentCandidate(gt, pt, n, cols, gcs, g, m);
    }
  }

  /** A meeting with a grandchild is listed by the grandchild scan only. */
  lemma GcCandidate(gt: GcTables, pt: ParentTables, n: nat, cols: nat, gcs: seq<Grandchild>, g: nat, m: Meeting)
    requires Readable(gt, pt, n, cols) && g < n == |gcs| && m.partner.GcPartner?
    ensures m !in ParentScan(pt, n, cols, g, gcs[g].parentIdx, cols)
    ensures m in GcScan(gt, n, g, n) <==> IsMeetingOf(gt, pt, n, cols, gcs, g, m)
  {
    ParentScanHasNoGc(pt, n, cols, g, gcs[g].parentIdx, m);
    GcScanMember(gt, n, g, m);
  }

  /** A meeting with a parent is listed by the parent scan only. */
  lemma ParentCandidate(gt: GcTables, pt: ParentTables, n: nat, cols: nat, gcs: seq<Grandchild>, g: nat, m: Meeting)
    requires Readable(gt, pt, n, cols) && g < n == |gcs| && m.partner.ParentPartner?
    ensures m !in GcScan(gt, n, g, n)
    ensures m in ParentScan(pt, n, cols, g, gcs[g].parentIdx, cols) <==> IsMeetingOf(gt, pt, n, cols, gcs, g, m)
  {
    GcScanHasNoParent(gt, n, g, m);
    ParentScanMember(pt, n, cols, g, gcs[g].parentIdx, m);
  }

  /** The grandchild scan lists a grandchild meeting exactly when its cell holds it. */
  lemma GcScanMember(gt: GcTables, n: nat, g: nat, m: Meeting)
    requires GcShaped(gt, n) && GcAligned(gt, n) && g < n && m.partner.GcPartner?
    ensures var o := m.partner.idx;
      m in GcScan(gt, n, g, n) <==>
        o < n && o != g && gt.distance[g][o] == Some(m.distance)
        && gt.timeI[g][o] == Some(m.timeGc) && m.timePartner.Some? && gt.timeJ[g][o] == m.timePartner
  {
    var a := GcScan(gt, n, g, n);
    var o := m.partner.idx;
    assert GcScanned(gt, n, g, n, a);
    if o >= n {
      assert forall p :: 0 <= p < |a| ==> a[p] != m;
    }
  }

  /** The grandchild scan lists no parent meeting. */
  lemma GcScanHasNoParent(gt: GcTables, n: nat, g: nat, m: Meeting)
    requires GcShaped(gt, n) && GcAligned(gt, n) && g < n && m.partner.ParentPartner?
    ensures m !in GcScan(gt, n, g, n)
  {
    var a := GcScan(gt, n, g, n);
    assert GcScanned(gt, n, g, n, a);
    assert forall p :: 0 <= p < |a| ==> a[p] != m;
  }

  /** The parent scan lists a parent meeting exactly when its cell holds it
      and the parent is not the grandchild's own. */
  lemma ParentScanMember(pt: ParentTables, n: nat, cols: nat, g: nat, own: nat, m: Meeting)
    requires ParentShaped(pt, n, cols) && ParentAligned(pt, n, cols) && g < n && m.partner.ParentPartner?
    ensures var q := m.partner.idx;
      m in ParentScan(pt, n, cols, g, own, cols) <==>
        q < cols && q != own && pt.distance[g][q] == Some(m.distance)
        && pt.time[g][q] == Some(m.timeGc) && m.timePartner.None?
  {
    var b := ParentScan(pt, n, cols, g, own, cols);
    var q := m.partner.idx;
    if q < cols {
      assert m.partner == ParentPartner(q);
    } else {
      assert forall p :: 0 <= p < |b| ==> b[p] != m;
    }
  }

  /** The parent scan lists no grandchild meeting. */
  lemma ParentScanHasNoGc(pt: ParentTables, n: nat, cols: nat, g: nat, own: nat, m: Meeting)
    requires ParentShaped(pt, n, cols) && ParentAligned(pt, n, cols) && g < n && m.partner.GcPartner?
    ensures m !in ParentScan(pt, n, cols, g, own, cols)
  {
    var b := ParentScan(pt, n, cols, g, own, cols);
    assert forall p :: 0 <= p < |b| ==> b[p] != m;
  }

  /** The two scans together are in scan order. */
  lemma CandidatesOrdered(gt: GcTables, pt: ParentTables, n: nat, cols: nat, gcs: seq<Grandchild>, g: nat)
    requires Readable(gt, pt, n, cols) && g < n == |gcs|
    ensures var r := GcScan(gt, n, g, n) + ParentScan(pt, n, cols, g, gcs[g].parentIdx, cols);
      forall p, q :: 0 <= p < q < |r| ==> ScanRank(n, r[p]) < ScanRank(n, r[q])
  {
    var a := GcScan(gt, n, g, n);
    var b := ParentScan(pt, n, cols, g, gcs[g].parentIdx, cols);
    var r := a + b;
    forall p, q | 0 <= p < q < |r|
      ensures ScanRank(n, r[p]) < ScanRank(n, r[q])
    {
      if q < |a| {
        assert r[p] == a[p] && r[q] == a[q];
      } else if p < |a| {
        assert r[p] == a[p] && r[q] == b[q - |a|];
      } else {
        assert r[p] == b[p - |a|] && r[q] == b[q - |a|];
      }
    }
  }

  // ----- ordering -----

  /** a comes before b by ascending meeting time, ties in scan order. */
  predicate TimeFirst(n: nat, a: Meeting, b: Meeting)
  {
    MeetingTime(a) < MeetingTime(b) || (MeetingTime(a) == MeetingTime(b) && ScanRank(n, a) < ScanRank(n, b))
  }

  /** a comes before b by descending quality, ties in scan order. */
  predicate QualityFirst(n: nat, a: Meeting, b: Meeting)
  {
    MeetingQuality(a) > MeetingQuality(b)
    || (MeetingQuality(a) == MeetingQuality(b) && ScanRank(n, a) < ScanRank(n, b))
  }

  /** The meetings of g sorted by meeting time: `meetings.sort(key=meeting_time)`. */
  function ByTime(gt: GcTables, pt: ParentTables, n: nat, cols: nat, gcs: seq<Grandchild>, g: nat)
    : (r: seq<Meeting>)
    requires Readable(gt, pt, n, cols) && g < n == |gcs|
    ensures forall m :: m in r <==> IsMeetingOf(gt, pt, n, cols, gcs, g, m)
    ensures forall p, q :: 0 <= p < q < |r| ==> TimeFirst(n, r[p], r[q])
  {
    var xs := Candidates(gt, pt, n, cols, gcs, g);
    SortByMembers(xs, MeetingTime);
    SortByTieOrder(xs, MeetingTime, m => ScanRank(n, m));
    SortBy(xs, MeetingTime)
  }

  /** The meetings of g sorted best first:
      `meetings.sort(key=meeting_quality, reverse=True)`. */
  function ByQuality(gt: GcTables, pt: ParentTables, n: nat, cols: nat, gcs: seq<Grandchild>, g: nat)
    : (r: seq<Meeting>)
    requires Readable(gt, pt, n, cols) && g < n == |gcs|
    ensures forall m :: m in r <==> IsMeetingOf(gt, pt, n, cols, gcs, g, m)
    ensures forall p, q :: 0 <= p < q < |r| ==> QualityFirst(n, r[p], r[q])
  {
    var xs := Candidates(gt, pt, n, cols, gcs, g);
    SortByMembers(xs, MeetingQuality);
    SortByDescTieOrder(xs, MeetingQuality, m => ScanRank(n, m));
    SortByDesc(xs, MeetingQuality)
  }

  /** `chronology[gc_idx]` for every grandchild, ordered by meeting time. */
  function ChronologyByTime(gt: GcTables, pt: ParentTables, n: nat, cols: nat, gcs: seq<Grandchild>)
    : (c: seq<seq<Meeting>>)
    requires Readable(gt, pt, n, cols) && n == |gcs|
    ensures |c| == n
    ensures forall g, m :: 0 <= g < n ==> (m in c[g] <==> IsMeetingOf(gt, pt, n, cols, gcs, g, m))
    ensures forall g, p, q :: 0 <= g < n && 0 <= p < q < |c[g]| ==> TimeFirst(n, c[g][p], c[g][q])
  {
    seq(n, g requires 0 <= g < n => ByTime(gt, pt, n, cols, gcs, g))
  }

  /** `chronology[gc_idx]` for every grandchild, best quality first. */
  function ChronologyByQuality(gt: GcTables, pt: ParentTables, n: nat, cols: nat, gcs: seq<Grandchild>)
    : (c: seq<seq<Meeting>>)
    requires Readable(gt, pt, n, cols) && n == |gcs|
    ensures |c| == n
    ensures forall g, m :: 0 <= g < n ==> (m in c[g] <==> IsMeetingOf(gt, pt, n, cols, gcs, g, m))
    ensures forall g, p, q :: 0 <= g < n && 0 <= p < q < |c[g]| ==> QualityFirst(n, c[g][p], c[g][q])
  {
    seq(n, g requires 0 <= g < n => ByQuality(gt, pt, n, cols, gcs, g))
  }

  /** With non-negative distances, best quality first is nearest first. */
  lemma QualityOrderIsDistanceOrder(n: nat, a: Meeting, b: Meeting)
    requires a.distance >= 0.0 && b.distance >= 0.0
    ensures QualityFirst(n, a, b) <==>
      a.distance < b.distance || (a.distance == b.distance && ScanRank(n, a) < ScanRank(n, b))
  {
    QualityReversesDistance(a.distance, b.distance);
  }

  // ----- heads of the chronology -----

  /** `get_earliest_meetings`: the head of every non-empty list. */
  function HeadMeetings(c: seq<seq<Meeting>>): (e: map<nat, Meeting>)
    ensures forall g: nat :: g in e <==> g < |c| && |c[g]| > 0
    ensures forall g: nat :: g in e ==> e[g] == c[g][0]
  {
    map g: nat | g < |c| && |c[g]| > 0 :: c[g][0]
  }

  /** On the time-ordered chronology the head of g is its earliest meeting:
      no recorded meeting of g happens sooner, and g has a head exactly when
      it has a meeting at all. */
  lemma EarliestMeetingIsEarliest(gt: GcTables, pt: ParentTables, n: nat, cols: nat,
                                  gcs: seq<Grandchild>, g: nat, m: Meeting)
    requires Readable(gt, pt, n, cols) && g < n == |gcs|
    requires IsMeetingOf(gt, pt, n, cols, gcs, g, m)
    ensures var e := HeadMeetings(ChronologyByTime(gt, pt, n, cols, gcs));
      g in e && IsMeetingOf(gt, pt, n, cols, gcs, g, e[g]) && MeetingTime(e[g]) <= MeetingTime(m)
  {
    var c := ChronologyByTime(gt, pt, n, cols, gcs);
    assert m in c[g];
    var k :| 0 <= k < |c[g]| && c[g][k] == m;
    if k > 0 {
      assert TimeFirst(n, c[g][0], c[g][k]);
    }
    assert c[g][0] in c[g];
  }

  /** On the quality-ordered chronology the head of g is its best meeting. */
  lemma BestMeetingIsBest(gt: GcTables, pt: ParentTables, n: nat, cols: nat,
                          gcs: seq<Grandchild>, g: nat, m: Meeting)
    requires Readable(gt, pt, n, cols) && g < n == |gcs|
    requires IsMeetingOf(gt, pt, n, cols, gcs, g, m)
    ensures var e := HeadMeetings(ChronologyByQuality(gt, pt, n, cols, gcs));
      g in e && IsMeetingOf(gt, pt, n, cols, gcs, g, e[g]) && MeetingQuality(e[g]) >= MeetingQuality(m)
  {
    var c := ChronologyByQuality(gt, pt, n, cols, gcs);
    assert m in c[g];
    var k :| 0 <= k < |c[g]| && c[g][k] == m;
    if k > 0 {
      assert QualityFirst(n, c[g][0], c[g][k]);
    }
    assert c[g][0] in c[g];
  }

  // ----- counting -----

  predicate IsGcMeeting(m: Meeting) { m.partner.GcPartner? }

  predicate IsParentMeeting(m: Meeting) { m.partner.ParentPartner? }

  predicate NonEmpty(l: seq<Meeting>) { |l| > 0 }

  /** Number of meetings over all lists satisfying `p`. */
  function CountMeetings(c: seq<seq<Meeting>>, p: Meeting -> bool): nat
  {
    if |c| == 0 then 0 else CountIf(c[0], p) + CountMeetings(c[1..], p)
  }

  function TotalMeetings(c: seq<seq<Meeting>>): nat
  {
    if |c| == 0 then 0 else |c[0]| + TotalMeetings(c[1..])
  }

  /** Every meeting is with a grandchild or with a parent. */
  lemma {:induction false} MeetingKindsAddUp(c: seq<seq<Meeting>>)
    ensures CountMeetings(c, IsGcMeeting) + CountMeetings(c, IsParentMeeting) == TotalMeetings(c)
  {
    if |c| > 0 {
      CountIfSplit(c[0], IsGcMeeting, IsParentMeeting);
      MeetingKindsAddUp(c[1..]);
    }
  }

  /** One list's count is part of the total. */
  lemma {:induction false} CountMeetingsAtLeast(c: seq<seq<Meeting>>, p: Meeting -> bool, a: nat)
    requires a < |c|
    ensures CountIf(c[a], p) <= CountMeetings(c, p)
  {
    if a > 0 {
      CountMeetingsAtLeast(c[1..], p, a - 1);
    }
  }

  /** Two different lists' counts are both part of the total. */
  lemma {:induction false} CountMeetingsTwoLists(c: seq<seq<Meeting>>, p: Meeting -> bool, a: nat, b: nat)
    requires a < |c| && b < |c| && a != b
    ensures CountIf(c[a], p) + CountIf(c[b], p) <= CountMeetings(c, p)
  {
    if a == 0 {
      CountMeetingsAtLeast(c[1..], p, b - 1);
    } else if b == 0 {
      CountMeetingsAtLeast(c[1..], p, a - 1);
    } else {
      CountMeetingsTwoLists(c[1..], p, a - 1, b - 1);
    }
  }

  /** `min(inf, heads...)`: the smallest head meeting time, +inf without heads. */
  function EarliestHead(c: seq<seq<Meeting>>): (r: Ext)
    ensures r.Infinity? <==> forall g :: 0 <= g < |c| ==> |c[g]| == 0
    ensures forall g :: 0 <= g < |c| && |c[g]| > 0 ==> AtMost(r, Finite(MeetingTime(c[g][0])))
    ensures r.Finite? ==> exists g :: 0 <= g < |c| && |c[g]| > 0 && r.r == MeetingTime(c[g][0])
  {
    if |c| == 0 then Infinity
    else
      var rest := EarliestHead(c[1..]);
      assert forall g :: 1 <= g < |c| ==> c[g] == c[1..][g - 1];
      if |c[0]| == 0 then rest
      else
        var h := MeetingTime(c[0][0]);
        if rest.Finite? && rest.r < h then rest else Finite(h)
  }

  /** `max(0, tails...)`: the largest tail meeting time, 0 without tails. */
  function LatestTail(c: seq<seq<Meeting>>): (r: real)
    ensures r >= 0.0
    ensures forall g :: 0 <= g < |c| && |c[g]| > 0 ==> r >= MeetingTime(c[g][|c[g]| - 1])
    ensures r == 0.0 || exists g :: 0 <= g < |c| && |c[g]| > 0 && r == MeetingTime(c[g][|c[g]| - 1])
  {
    if |c| == 0 then 0.0
    else
      var rest := LatestTail(c[1..]);
      assert forall g :: 1 <= g < |c| ==> c[g] == c[1..][g - 1];
      if |c[0]| == 0 then rest
      else MaxR(rest, MeetingTime(c[0][|c[0]| - 1]))
  }

  /** `total / n if n > 0 else 0` */
  function Average(total: nat, n: nat): (a: real)
    ensures n > 0 ==> a * (n as real) == total as real
    ensures n == 0 ==> a == 0.0
  {
    if n > 0 then total as real / n as real else 0.0
  }

  /** The statistics of `analyze_meeting_patterns`. */
  datatype PatternStats = PatternStats(
    totalGrandchildren: nat,
    gcWithMeetings: nat,
    avgMeetingsPerGc: real,
    earliestMeetingTime: Ext,
    latestMeetingTime: real,
    gcGcMeetings: nat,
    gcParentMeetings: nat)

  /** `analyze_meeting_patterns`: grandchild-grandchild meetings appear once
      in each partner's list and are halved (floor division); the average is
      0 for an empty chronology. */
  function AnalyzeMeetingPatterns(c: seq<seq<Meeting>>): (s: PatternStats)
    ensures s.totalGrandchildren == |c|
    ensures s.gcWithMeetings == CountIf(c, NonEmpty) <= |c|
    ensures 2 * s.gcGcMeetings <= CountMeetings(c, IsGcMeeting) <= 2 * s.gcGcMeetings + 1
    ensures s.gcGcMeetings * 2 <= TotalMeetings(c)
    ensures CountMeetings(c, IsGcMeeting) + s.gcParentMeetings == TotalMeetings(c)
    ensures s.avgMeetingsPerGc == Average(TotalMeetings(c), |c|)
    ensures s.earliestMeetingTime.Infinity? <==> s.gcWithMeetings == 0
    ensures s.latestMeetingTime >= 0.0
  {
    CountIfBound(c, NonEmpty);
    MeetingKindsAddUp(c);
    NoHeadsWithoutMeetings(c);
    var avg := Average(TotalMeetings(c), |c|);
    PatternStats(
      |c|,
      CountIf(c, NonEmpty),
      avg,
      EarliestHead(c),
      LatestTail(c),
      CountMeetings(c, IsGcMeeting) / 2,
      CountMeetings(c, IsParentMeeting))
  }

  lemma {:induction false} NoHeadsWithoutMeetings(c: seq<seq<Meeting>>)
    ensures CountIf(c, NonEmpty) == 0 <==> forall g :: 0 <= g < |c| ==> |c[g]| == 0
  {
    if |c| > 0 {
      NoHeadsWithoutMeetings(c[1..]);
      assert forall g :: 1 <= g < |c| ==> c[g] == c[1..][g - 1];
    }
  }

  /** On a time-ordered chronology (every list non-decreasing in meeting
      time, as `ChronologyByTime` leaves it) the earliest and latest times
      bound every meeting, not only the heads and tails. */
  lemma PatternsBoundEveryMeeting(c: seq<seq<Meeting>>, n: nat, g: nat, k: nat)
    requires forall h, p, q :: 0 <= h < |c| && 0 <= p < q < |c[h]| ==> TimeFirst(n, c[h][p], c[h][q])
    requires g < |c| && k < |c[g]|
    ensures AtMost(AnalyzeMeetingPatterns(c).earliestMeetingTime, Finite(MeetingTime(c[g][k])))
    ensures AnalyzeMeetingPatterns(c).latestMeetingTime >= MeetingTime(c[g][k])
  {
    var last := |c[g]| - 1;
    if 0 < k {
      assert TimeFirst(n, c[g][0], c[g][k]);
    }
    if k < last {
      assert TimeFirst(n, c[g][k], c[g][last]);
    }
  }

  // ----- the summary of create_meeting_chronology -----

  /** An entry of `best_meetings_per_gc`. */
  datatype BestMeeting = BestMeeting(partner: Partner, distance: real, time: real, quality: real)

  datatype ChronologySummary = ChronologySummary(
    totalGrandchildren: nat,
    totalGcGcMeetings: nat,
    totalGcParentMeetings: nat,
    grandchildrenWithMeetings: nat,
    bestMeetingsPerGc: map<nat, BestMeeting>)

  function BestOf(m: Meeting): BestMeeting
  {
    BestMeeting(m.partner, m.distance, m.timeGc, MeetingQuality(m))
  }

  /** The summary built from a quality-ordered chronology: counts as in the
      pattern analysis and the head of every non-empty list. */
  function Summarize(c: seq<seq<Meeting>>): (s: ChronologySummary)
    ensures s.totalGrandchildren == |c|
    ensures 2 * s.totalGcGcMeetings <= CountMeetings(c, IsGcMeeting) <= 2 * s.totalGcGcMeetings + 1
    ensures CountMeetings(c, IsGcMeeting) + s.totalGcParentMeetings == TotalMeetings(c)
    ensures s.grandchildrenWithMeetings == CountIf(c, NonEmpty) <= |c|
    ensures forall g: nat :: g in s.bestMeetingsPerGc <==> g < |c| && |c[g]| > 0
    ensures forall g: nat :: g in s.bestMeetingsPerGc ==> s.bestMeetingsPerGc[g] == BestOf(c[g][0])
  {
    CountIfBound(c, NonEmpty);
    MeetingKindsAddUp(c);
    ChronologySummary(
      |c|,
      CountMeetings(c, IsGcMeeting) / 2,
      CountMeetings(c, IsParentMeeting),
      CountIf(c, NonEmpty),
      map g: nat | g < |c| && |c[g]| > 0 :: BestOf(c[g][0]))
  }

  // ----- get_meeting_recommendations -----

  datatype Recommendation = Recommendation(
    gcI: nat, gcJ: nat, distance: real, timeI: real, timeJ: Option<real>, quality: real)

  /** `tuple(sorted([a, b]))` */
  function PairKey(a: nat, b: nat): (k: (nat, nat))
    ensures k.0 <= k.1
    ensures (k.0 == a && k.1 == b) || (k.0 == b && k.1 == a)
  {
    if a <= b then (a, b) else (b, a)
  }

  function RecKey(r: Recommendation): (nat, nat)
  {
    PairKey(r.gcI, r.gcJ)
  }

  function RecQuality(r: Recommendation): real
  {
    r.quality
  }

  /** The recommendation for grandchild g's meeting m. */
  function RecOf(g: nat, m: Meeting): Recommendation
  {
    Recommendation(g, m.partner.idx, m.distance, m.timeGc, m.timePartner, MeetingQuality(m))
  }

  /** The grandchild meetings of list l of grandchild g, in list order. */
  function ListRecs(g: nat, l: seq<Meeting>): (r: seq<Recommendation>)
    ensures forall x :: x in r ==> exists m :: m in l && IsGcMeeting(m) && x == RecOf(g, m)
    ensures forall m :: m in l && IsGcMeeting(m) ==> RecOf(g, m) in r
  {
    if |l| == 0 then []
    else
      var rest := ListRecs(g, l[1..]);
      assert forall m :: m in l[1..] ==> m in l;
      assert forall m :: m in l ==> m == l[0] || m in l[1..];
      (if IsGcMeeting(l[0]) then [RecOf(g, l[0])] else []) + rest
  }

  /** All grandchild meetings of grandchildren 0..k-1, in dictionary order. */
  function AllRecs(c: seq<seq<Meeting>>, k: nat): (r: seq<Recommendation>)
    requires k <= |c|
    ensures forall x :: x in r ==>
      exists g, m :: 0 <= g < k && m in c[g] && IsGcMeeting(m) && x == RecOf(g, m)
    ensures forall g, m :: 0 <= g < k && m in c[g] && IsGcMeeting(m) ==> RecOf(g, m) in r
  {
    if k == 0 then [] else AllRecs(c, k - 1) + ListRecs(k - 1, c[k - 1])
  }

  /** x records a grandchild meeting listed in the chronology. */
  ghost predicate FromChronology(c: seq<seq<Meeting>>, x: Recommendation)
  {
    exists g, m :: 0 <= g < |c| && m in c[g] && IsGcMeeting(m) && x == RecOf(g, m)
  }

  predicate HasKey(d: seq<Recommendation>, key: (nat, nat))
  {
    exists p :: 0 <= p < |d| && RecKey(d[p]) == key
  }

  /** The first record of every unordered pair, in order of first appearance:
      a record is appended only when no earlier one has the same pair key. */
  function Dedup(xs: seq<Recommendation>): (r: seq<Recommendation>)
    ensures DedupOf(xs, r)
  {
    if |xs| == 0 then []
    else
      var init := xs[..|xs| - 1];
      var d := Dedup(init);
      DedupSnoc(init, xs[|xs| - 1], xs, d);
      if HasKey(d, RecKey(xs[|xs| - 1])) then d else d + [xs[|xs| - 1]]
  }

  /** No record before position i has the key of record i. */
  predicate FirstOfKey(xs: seq<Recommendation>, i: int)
    requires 0 <= i < |xs|
  {
    forall j :: 0 <= j < i ==> RecKey(xs[j]) != RecKey(xs[i])
  }

  /** r keeps the first record of every pair key of xs, in order: its keys
      are distinct, each comes from xs, every key of xs is in it, and each
      of its records is the first of its key in xs. */
  predicate DedupOf(xs: seq<Recommendation>, r: seq<Recommendation>)
  {
    && (forall p, q :: 0 <= p < q < |r| ==> RecKey(r[p]) != RecKey(r[q]))
    && (forall x :: x in r ==> x in xs)
    && (forall i :: 0 <= i < |xs| ==> HasKey(r, RecKey(xs[i])))
    && (forall p :: 0 <= p < |r| ==> IsFirstOfKey(xs, r[p]))
  }

  /** y occurs in xs before any other record with its key. */
  predicate IsFirstOfKey(xs: seq<Recommendation>, y: Recommendation)
  {
    exists i :: 0 <= i < |xs| && xs[i] == y && FirstOfKey(xs, i)
  }

  /** The earlier records keep their first-of-key status in the longer list. */
  lemma DedupKeepsEarlier(init: seq<Recommendation>, x: Recommendation, xs: seq<Recommendation>,
                          d: seq<Recommendation>)
    requires xs == init + [x] && DedupOf(init, d)
    ensures forall p :: 0 <= p < |d| ==> IsFirstOfKey(xs, d[p])
  {
    forall p | 0 <= p < |d|
      ensures IsFirstOfKey(xs, d[p])
    {
      var i :| 0 <= i < |init| && init[i] == d[p] && FirstOfKey(init, i);
      FirstOfKeySnoc(init, x, xs, i);
    }
  }

  lemma FirstOfKeySnoc(init: seq<Recommendation>, x: Recommendation, xs: seq<Recommendation>, i: int)
    requires xs == init + [x] && 0 <= i < |init| && FirstOfKey(init, i)
    ensures xs[i] == init[i] && FirstOfKey(xs, i)
  {
    assert forall j :: 0 <= j <= i ==> xs[j] == init[j];
  }

  /** One more record: appended exactly when its key is new. */
  lemma DedupSnoc(init: seq<Recommendation>, x: Recommendation, xs: seq<Recommendation>,
                  d: seq<Recommendation>)
    requires xs == init + [x] && DedupOf(init, d)
    ensures DedupOf(xs, if HasKey(d, RecKey(x)) then d else d + [x])
  {
    DedupKeepsEarlier(init, x, xs, d);
    if HasKey(d, RecKey(x)) {
      forall i | 0 <= i < |xs|
        ensures HasKey(d, RecKey(xs[i]))
      {
        if i < |init| {
          assert xs[i] == init[i];
        }
      }
    } else {
      DedupAppendNew(init, x, xs, d);
    }
  }

  /** A record with a new key is appended and is the first of its key. */
  lemma DedupAppendNew(init: seq<Recommendation>, x: Recommendation, xs: seq<Recommendation>,
                       d: seq<Recommendation>)
    requires xs == init + [x] && DedupOf(init, d) && !HasKey(d, RecKey(x))
    requires forall p :: 0 <= p < |d| ==> IsFirstOfKey(xs, d[p])
    ensures DedupOf(xs, d + [x])
  {
    var r := d + [x];
    assert xs[|init|] == x;
    forall i | 0 <= i < |xs|
      ensures HasKey(r, RecKey(xs[i]))
    {
      if i < |init| {
        assert xs[i] == init[i];
        var p :| 0 <= p < |d| && RecKey(d[p]) == RecKey(init[i]);
        assert r[p] == d[p];
      } else {
        assert r[|d|] == x;
      }
    }
    assert FirstOfKey(xs, |init|) by {
      forall j | 0 <= j < |init|
        ensures RecKey(xs[j]) != RecKey(x)
      {
        assert xs[j] == init[j];
        assert HasKey(d, RecKey(init[j]));
      }
    }
    forall p | 0 <= p < |r|
      ensures IsFirstOfKey(xs, r[p])
    {
      if p == |d| {
        assert xs[|init|] == r[p];
      } else {
        assert r[p] == d[p];
      }
    }
    forall p, q | 0 <= p < q < |r|
      ensures RecKey(r[p]) != RecKey(r[q])
    {
      if q == |d| {
        assert HasKey(d, RecKey(r[p]));
      } else {
        assert r[p] == d[p] && r[q] == d[q];
      }
    }
  }

  /** The deduplicated grandchild meetings of the chronology: one record per
      unordered pair that meets in it, and every such pair represented. */
  function PairRecords(c: seq<seq<Meeting>>): (d: seq<Recommendation>)
    ensures forall p, q :: 0 <= p < q < |d| ==> RecKey(d[p]) != RecKey(d[q])
    ensures forall x :: x in d ==> FromChronology(c, x)
    ensures forall g, m :: 0 <= g < |c| && m in c[g] && IsGcMeeting(m) ==>
      HasKey(d, PairKey(g, m.partner.idx))
  {
    var all := AllRecs(c, |c|);
    var d := Dedup(all);
    assert forall x :: x in d ==> x in all;
    assert forall g, m :: 0 <= g < |c| && m in c[g] && IsGcMeeting(m) ==>
      HasKey(d, PairKey(g, m.partner.idx)) by {
      forall g, m | 0 <= g < |c| && m in c[g] && IsGcMeeting(m)
        ensures HasKey(d, PairKey(g, m.partner.idx))
      {
        var x := RecOf(g, m);
        assert x in all;
        var i :| 0 <= i < |all| && all[i] == x;
        assert HasKey(d, RecKey(all[i]));
      }
    }
    d
  }

  /** `get_meeting_recommendations`: one record per unordered grandchild pair
      (the first met in dictionary order), best quality first, the first
      `max_recommendations` of them; every pair left out is no better than
      any pair recommended. */
  function MeetingRecommendations(c: seq<seq<Meeting>>, maxRecommendations: int): (r: seq<Recommendation>)
    ensures forall p, q :: 0 <= p < q < |r| ==> RecKey(r[p]) != RecKey(r[q])
    ensures forall p, q :: 0 <= p < q < |r| ==> r[p].quality >= r[q].quality
    ensures forall x :: x in r ==> FromChronology(c, x)
    ensures 0 <= maxRecommendations ==> |r| == Min(maxRecommendations, |PairRecords(c)|)
    ensures forall x, p :: x in PairRecords(c) && x !in r && 0 <= p < |r| ==> r[p].quality >= x.quality
  {
    TopRecords(PairRecords(c), maxRecommendations)
  }

  /** `sorted(d, key=quality, reverse=True)[:k]` */
  function TopRecords(d: seq<Recommendation>, k: int): (r: seq<Recommendation>)
    requires forall p, q :: 0 <= p < q < |d| ==> RecKey(d[p]) != RecKey(d[q])
    ensures forall p, q :: 0 <= p < q < |r| ==> RecKey(r[p]) != RecKey(r[q])
    ensures forall p, q :: 0 <= p < q < |r| ==> r[p].quality >= r[q].quality
    ensures forall x :: x in r ==> x in d
    ensures 0 <= k ==> |r| == Min(k, |d|)
    ensures forall x, p :: x in d && x !in r && 0 <= p < |r| ==> r[p].quality >= x.quality
  {
    TopPrefixFacts(d, k);
    SortedPrefixIsTop(d, k);
    PySliceTo(SortByDesc(d, RecQuality), k)
  }

  /** A prefix of the best-first order: distinct pairs, best first, drawn from d. */
  lemma TopPrefixFacts(d: seq<Recommendation>, k: int)
    requires forall p, q :: 0 <= p < q < |d| ==> RecKey(d[p]) != RecKey(d[q])
    ensures var r := PySliceTo(SortByDesc(d, RecQuality), k);
      && (forall p, q :: 0 <= p < q < |r| ==> RecKey(r[p]) != RecKey(r[q]))
      && (forall p, q :: 0 <= p < q < |r| ==> r[p].quality >= r[q].quality)
      && (forall x :: x in r ==> x in d)
      && (0 <= k ==> |r| == Min(k, |d|))
  {
    var sorted := SortByDesc(d, RecQuality);
    SortKeepsPairsDistinct(d);
    PySliceToPrefix(sorted, k);
    var r := PySliceTo(sorted, k);
    forall x | x in r
      ensures x in d
    {
      assert x in sorted;
      assert x in multiset(sorted);
    }
  }

  lemma SortKeepsPairsDistinct(d: seq<Recommendation>)
    requires forall p, q :: 0 <= p < q < |d| ==> RecKey(d[p]) != RecKey(d[q])
    ensures var s := SortByDesc(d, RecQuality);
      forall p, q :: 0 <= p < q < |s| ==> RecKey(s[p]) != RecKey(s[q])
  {
    SortBySources(d, RecQuality);
  }

  /** A prefix of the best-first order holds the best records. */
  lemma SortedPrefixIsTop(d: seq<Recommendation>, k: int)
    ensures var r := PySliceTo(SortByDesc(d, RecQuality), k);
      forall x, p :: x in d && x !in r && 0 <= p < |r| ==> r[p].quality >= x.quality
  {
    var sorted := SortByDesc(d, RecQuality);
    var r := PySliceTo(sorted, k);
    PySliceToPrefix(sorted, k);
    forall x, p | x in d && x !in r && 0 <= p < |r|
      ensures r[p].quality >= x.quality
    {
      assert x in multiset(sorted);
      var i :| 0 <= i < |sorted| && sorted[i] == x;
      assert i >= |r|;
      assert r[p] == sorted[p];
    }
  }

  function Min(a: int, b: int): int
  {
    if a < b then a else b
  }
}

=== FILE: optimal_dt.dfy ===
/** Writing the meeting times of the extracted pairs back into the
    grandchildren's dt vector: `extract_optimal_dt_from_pairs` and its
    older variant `extract_optimal_times_from_pairs`, which adds change
    statistics. */
module OptimalDt {
  import opened Common
  import opened Seqs
  import opened SporeTree
  import opened Meetings
  import opened Pairing

  /** The time written for `gc_j`: `meeting_info['time_partner']`. A meeting
      without one writes None, which numpy stores as NaN. */
  function PartnerTime(x: Pair): Cell
  {
    x.meeting.timePartner
  }

  /** What pair `x` writes to grandchild `g`, which it names: `gc_j` is
      written second, so it wins when both indices are `g`. */
  function TimeFor(x: Pair, g: nat): Cell
  {
    if x.j == g then PartnerTime(x) else Some(x.meeting.timeGc)
  }

  predicate Names(x: Pair, g: nat) { x.i == g || x.j == g }

  /** Pair `p` is the last pair that names `g`. */
  predicate LastNaming(ps: seq<Pair>, g: nat, p: nat)
  {
    p < |ps| && Names(ps[p], g) && forall q :: p < q < |ps| ==> !Names(ps[q], g)
  }

  /** Both indices of every pair lie in a vector of length `n`. */
  predicate InBounds(ps: seq<Pair>, n: nat)
  {
    forall p :: 0 <= p < |ps| ==> ps[p].i < n && ps[p].j < n
  }

  /** One `pair_mapping` entry. */
  datatype MappingEntry = MappingEntry(
    pairIdx: nat, partner: nat, optimalDt: Cell, originalDt: real,
    meetingDistance: real, meetingTime: real)

  /** The entry pair `p` writes for grandchild `g`, which it names. */
  function EntryFor(ps: seq<Pair>, orig: seq<real>, p: nat, g: nat): MappingEntry
    requires p < |ps| && g < |orig|
  {
    var x := ps[p];
    MappingEntry(p, if x.j == g then x.i else x.j, TimeFor(x, g), orig[g],
                 x.meeting.distance, MeetingTime(x.meeting))
  }

  /** `pair_mapping` after all of `ps` was written over `orig`: exactly the
      named grandchildren, each with the entry of its last naming pair. */
  ghost predicate MappedFrom(ps: seq<Pair>, orig: seq<real>, mapping: map<nat, MappingEntry>)
  {
    && mapping.Keys == Members(ps)
    && (forall p: nat, g: nat :: 0 <= g < |orig| && LastNaming(ps, g, p) ==>
          g in mapping && mapping[g] == EntryFor(ps, orig, p, g))
  }

  /** `dt` and `mapping` after the first `k` pairs were written over `orig`. */
  predicate WrittenUpTo(orig: seq<real>, ps: seq<Pair>, k: nat, dt: seq<Cell>, mapping: map<nat, MappingEntry>)
    requires k <= |ps|
  {
    |dt| == |orig|
    && mapping.Keys == Members(ps[..k])
    && Untouched(orig, ps[..k], dt)
    && LastWins(orig, ps, k, dt, mapping)
  }

  /** Grandchildren no pair names keep their original dt. */
  predicate Untouched(orig: seq<real>, qs: seq<Pair>, dt: seq<Cell>)
    requires |dt| == |orig|
  {
    forall g :: 0 <= g < |orig| && g !in Members(qs) ==> dt[g] == Some(orig[g])
  }

  /** Every named grandchild holds what its last naming pair among the first
      `k` wrote. */
  predicate LastWins(orig: seq<real>, ps: seq<Pair>, k: nat, dt: seq<Cell>, mapping: map<nat, MappingEntry>)
    requires k <= |ps| && |dt| == |orig|
  {
    forall p: nat, g: nat :: p < k && g < |orig| && LastNaming(ps[..k], g, p) ==>
      dt[g] == TimeFor(ps[p], g) && g in mapping && mapping[g] == EntryFor(ps, orig, p, g)
  }

  /** Writing pair `k`: its two entries are overwritten, `gc_j` last. */
  function WriteDt(dt: seq<Cell>, x: Pair): (r: seq<Cell>)
    requires x.i < |dt| && x.j < |dt|
  {
    dt[x.i := Some(x.meeting.timeGc)][x.j := PartnerTime(x)]
  }

  function WriteMapping(orig: seq<real>, ps: seq<Pair>, k: nat, mapping: map<nat, MappingEntry>): map<nat, MappingEntry>
    requires k < |ps| && ps[k].i < |orig| && ps[k].j < |orig|
  {
    mapping[ps[k].i := EntryFor(ps, orig, k, ps[k].i)][ps[k].j := EntryFor(ps, orig, k, ps[k].j)]
  }

  lemma WriteOne(orig: seq<real>, ps: seq<Pair>, k: nat, dt: seq<Cell>, mapping: map<nat, MappingEntry>)
    requires k < |ps| && InBounds(ps, |orig|)
    requires WrittenUpTo(orig, ps, k, dt, mapping)
    ensures WrittenUpTo(orig, ps, k + 1, WriteDt(dt, ps[k]), WriteMapping(orig, ps, k, mapping))
  {
    assert ps[k].i < |orig| && ps[k].j < |orig|;
    WriteStep(ps, k);
    WriteUntouched(orig, ps, k, dt);
    WriteLast(orig, ps, k, dt, mapping);
  }

  lemma WriteUntouched(orig: seq<real>, ps: seq<Pair>, k: nat, dt: seq<Cell>)
    requires k < |ps| && ps[k].i < |orig| && ps[k].j < |orig| && |dt| == |orig|
    requires Untouched(orig, ps[..k], dt)
    requires Members(ps[..k + 1]) == Members(ps[..k]) + {ps[k].i, ps[k].j}
    ensures Untouched(orig, ps[..k + 1], WriteDt(dt, ps[k]))
  {
  }

  lemma WriteLast(orig: seq<real>, ps: seq<Pair>, k: nat, dt: seq<Cell>, mapping: map<nat, MappingEntry>)
    requires k < |ps| && ps[k].i < |orig| && ps[k].j < |orig| && |dt| == |orig|
    requires LastWins(orig, ps, k, dt, mapping)
    requires forall p: nat, g: nat :: LastNaming(ps[..k + 1], g, p) <==>
      (p == k && Names(ps[k], g)) || (LastNaming(ps[..k], g, p) && !Names(ps[k], g))
    ensures LastWins(orig, ps, k + 1, WriteDt(dt, ps[k]), WriteMapping(orig, ps, k, mapping))
  {
    var x := ps[k];
    var dt', mapping' := WriteDt(dt, x), WriteMapping(orig, ps, k, mapping);
    forall p: nat, g: nat | p < k + 1 && g < |orig| && LastNaming(ps[..k + 1], g, p)
      ensures dt'[g] == TimeFor(ps[p], g) && g in mapping' && mapping'[g] == EntryFor(ps, orig, p, g)
    {
      if p == k && Names(x, g) {
      } else {
        assert LastNaming(ps[..k], g, p) && !Names(x, g);
      }
    }
  }

  /** The loop shared by both functions: every grandchild takes the time of
      the last pair naming it and keeps its original dt otherwise;
      `pair_mapping` holds exactly the named grandchildren, each with the
      entry of its last pair. An index past the vector raises IndexError. */
  method WriteBack(orig: seq<real>, ps: seq<Pair>) returns (r: Option<(seq<Cell>, map<nat, MappingEntry>)>)
    ensures r.None? <==> !InBounds(ps, |orig|)
    ensures r.Some? ==>
      var (dt, mapping) := r.value;
      |dt| == |orig|
      && mapping.Keys == Members(ps)
      && (forall g :: 0 <= g < |orig| && g !in Members(ps) ==> dt[g] == Some(orig[g]))
      && (forall p: nat, g: nat :: 0 <= g < |orig| && LastNaming(ps, g, p) ==>
            dt[g] == TimeFor(ps[p], g) && g in mapping && mapping[g] == EntryFor(ps, orig, p, g))
  {
    if !InBounds(ps, |orig|) {
      return None;
    }
    var dt: seq<Cell> := seq(|orig|, g requires 0 <= g < |orig| => Some(orig[g]));
    var mapping: map<nat, MappingEntry> := map[];
    assert ps[..0] == [];
    for k := 0 to |ps|
      invariant WrittenUpTo(orig, ps, k, dt, mapping)
    {
      WriteOne(orig, ps, k, dt, mapping);
      dt, mapping := WriteDt(dt, ps[k]), WriteMapping(orig, ps, k, mapping);
    }
    assert ps[..|ps|] == ps;
    return Some((dt, mapping));
  }

  /** How one more pair changes membership and the last naming pair. */
  lemma WriteStep(ps: seq<Pair>, k: nat)
    requires k < |ps|
    ensures Members(ps[..k + 1]) == Members(ps[..k]) + {ps[k].i, ps[k].j}
    ensures forall p: nat, g: nat :: LastNaming(ps[..k + 1], g, p) <==>
      (p == k && Names(ps[k], g)) || (LastNaming(ps[..k], g, p) && !Names(ps[k], g))
  {
    MembersStep(ps, k);
    LastNamingStep(ps, k);
  }

  /** One more pair adds exactly its two indices to the members. */
  lemma MembersStep(ps: seq<Pair>, k: nat)
    requires k < |ps|
    ensures Members(ps[..k + 1]) == Members(ps[..k]) + {ps[k].i, ps[k].j}
  {
    var a, b := ps[..k], ps[..k + 1];
    forall x | x in Members(b)
      ensures x in Members(a) + {ps[k].i, ps[k].j}
    {
      var p :| 0 <= p < |b| && (b[p].i == x || b[p].j == x);
      if p < k {
        assert a[p] == b[p];
      }
    }
    forall x | x in Members(a)
      ensures x in Members(b)
    {
      var p :| 0 <= p < |a| && (a[p].i == x || a[p].j == x);
      assert b[p] == a[p];
    }
    assert b[k] == ps[k];
  }

  /** One more pair becomes the last naming pair of its own indices and
      leaves every other index's last naming pair as it was. */
  lemma LastNamingStep(ps: seq<Pair>, k: nat)
    requires k < |ps|
    ensures forall p: nat, g: nat :: LastNaming(ps[..k + 1], g, p) <==>
      (p == k && Names(ps[k], g)) || (LastNaming(ps[..k], g, p) && !Names(ps[k], g))
  {
    var a, b := ps[..k], ps[..k + 1];
    assert b[k] == ps[k];
    forall p: nat, g: nat
      ensures LastNaming(b, g, p) <==> (p == k && Names(ps[k], g)) || (LastNaming(a, g, p) && !Names(ps[k], g))
    {
      if p < k {
        assert b[p] == a[p];
        if LastNaming(b, g, p) {
          forall q | p < q < |a|
            ensures !Names(a[q], g)
          {
            assert a[q] == b[q];
          }
        }
        if LastNaming(a, g, p) && !Names(ps[k], g) {
          forall q | p < q < |b|
            ensures !Names(b[q], g)
          {
            if q < k {
              assert a[q] == b[q];
            }
          }
        }
      }
    }
  }

  /** With disjoint pairs every paired grandchild takes its own pair's time,
      and `pair_mapping` is symmetric: each member of pair `p` is mapped to
      the other with the same pair index. */
  lemma DisjointPairsWriteOwnTimes(ps: seq<Pair>, orig: seq<real>, dt: seq<Cell>, mapping: map<nat, MappingEntry>)
    requires InBounds(ps, |orig|) && |dt| == |orig|
    requires forall p, q :: 0 <= p < q < |ps| ==>
      ps[p].i != ps[q].i && ps[p].i != ps[q].j && ps[p].j != ps[q].i && ps[p].j != ps[q].j
    requires forall p :: 0 <= p < |ps| ==> ps[p].i != ps[p].j
    requires forall p: nat, g: nat :: 0 <= g < |orig| && LastNaming(ps, g, p) ==>
      dt[g] == TimeFor(ps[p], g) && g in mapping && mapping[g] == EntryFor(ps, orig, p, g)
    ensures forall p :: 0 <= p < |ps| ==>
      dt[ps[p].i] == Some(ps[p].meeting.timeGc) && dt[ps[p].j] == PartnerTime(ps[p])
    ensures forall p :: 0 <= p < |ps| ==>
      ps[p].i in mapping && ps[p].j in mapping
      && mapping[ps[p].i].partner == ps[p].j && mapping[ps[p].j].partner == ps[p].i
      && mapping[ps[p].i].pairIdx == p && mapping[ps[p].j].pairIdx == p
  {
    forall p | 0 <= p < |ps|
      ensures dt[ps[p].i] == Some(ps[p].meeting.timeGc) && dt[ps[p].j] == PartnerTime(ps[p])
      ensures ps[p].i in mapping && ps[p].j in mapping
      ensures mapping[ps[p].i].partner == ps[p].j && mapping[ps[p].j].partner == ps[p].i
      ensures mapping[ps[p].i].pairIdx == p && mapping[ps[p].j].pairIdx == p
    {
      assert LastNaming(ps, ps[p].i, p);
      assert LastNaming(ps, ps[p].j, p);
    }
  }

  /** The signed dts of the children, unchanged. */
  function ChildDts(cs: seq<Child>): (d: seq<real>)
    ensures |d| == |cs| && forall k :: 0 <= k < |cs| ==> d[k] == cs[k].dt
  {
    seq(|cs|, k requires 0 <= k < |cs| => cs[k].dt)
  }

  function GrandchildDts(gcs: seq<Grandchild>): (d: seq<real>)
    ensures |d| == |gcs| && forall k :: 0 <= k < |gcs| ==> d[k] == gcs[k].dt
  {
    seq(|gcs|, k requires 0 <= k < |gcs| => gcs[k].dt)
  }

  /** The result of `extract_optimal_dt_from_pairs`. */
  datatype DtFromPairs = DtFromPairs(
    dtGrandchildren: seq<Cell>,
    dtChildren: seq<real>,
    pairMapping: map<nat, MappingEntry>,
    unpairedGrandchildren: seq<nat>,
    pairsCount: nat,
    pairedCount: nat)

  /** `extract_optimal_dt_from_pairs`; None stands for the IndexError a pair
      index past the grandchildren raises. */
  method ExtractOptimalDt(ps: seq<Pair>, t: Tree) returns (r: Option<DtFromPairs>)
    ensures r.None? <==> !InBounds(ps, |t.grandchildren|)
    ensures r.Some? ==>
      var d, n := r.value, |t.grandchildren|;
      d.dtChildren == ChildDts(t.children)
      && |d.dtGrandchildren| == n
      && (forall g :: 0 <= g < n && g !in Members(ps) ==> d.dtGrandchildren[g] == Some(t.grandchildren[g].dt))
      && (forall p: nat, g: nat :: 0 <= g < n && LastNaming(ps, g, p) ==> d.dtGrandchildren[g] == TimeFor(ps[p], g))
      && MappedFrom(ps, GrandchildDts(t.grandchildren), d.pairMapping)
      && (forall g: nat :: g in d.unpairedGrandchildren <==> g < n && g !in Members(ps))
      && (forall a, b :: 0 <= a < b < |d.unpairedGrandchildren| ==>
            d.unpairedGrandchildren[a] < d.unpairedGrandchildren[b])
      && d.pairsCount == |ps| && d.pairedCount == |Members(ps)|
      && d.pairedCount + |d.unpairedGrandchildren| == n
  {
    var orig := GrandchildDts(t.grandchildren);
    var w := WriteBack(orig, ps);
    if w.None? {
      return None;
    }
    var (dt, mapping) := w.value;
    var unpaired := Complement(|orig|, Members(ps));
    MembersInRange(ps, |orig|);
    ComplementSize(|orig|, Members(ps));
    r := Some(DtFromPairs(dt, ChildDts(t.children), mapping, unpaired, |ps|, |Members(ps)|));
  }

  /** Every member of an in-bounds pair list lies below `n`. */
  lemma MembersInRange(ps: seq<Pair>, n: nat)
    requires InBounds(ps, n)
    ensures forall g :: g in Members(ps) ==> g < n
  {
  }

  /** How many of 0..n-1 are in `used`. */
  function CountBelow(n: nat, used: set<nat>): nat
  {
    if n == 0 then 0 else CountBelow(n - 1, used) + (if n - 1 in used then 1 else 0)
  }

  lemma {:induction false} ComplementCounts(n: nat, used: set<nat>)
    ensures |Complement(n, used)| + CountBelow(n, used) == n
  {
    if n > 0 {
      ComplementCounts(n - 1, used);
    }
  }

  lemma {:induction false} CountBelowIsSize(n: nat, used: set<nat>)
    requires forall g :: g in used ==> g < n
    ensures CountBelow(n, used) == |used|
  {
    if n > 0 {
      var rest := used - {n - 1};
      CountBelowIsSize(n - 1, rest);
      CountBelowIgnores(n - 1, used, rest);
      if n - 1 in used {
        assert used == rest + {n - 1};
      } else {
        assert used == rest;
      }
    }
  }

  lemma {:induction false} CountBelowIgnores(n: nat, a: set<nat>, b: set<nat>)
    requires forall g :: g < n ==> (g in a <==> g in b)
    ensures CountBelow(n, a) == CountBelow(n, b)
  {
    if n > 0 {
      CountBelowIgnores(n - 1, a, b);
    }
  }

  /** The complement of an in-range set counts the rest of 0..n-1. */
  lemma ComplementSize(n: nat, used: set<nat>)
    requires forall g :: g in used ==> g < n
    ensures |Complement(n, used)| + |used| == n
  {
    ComplementCounts(n, used);
    CountBelowIsSize(n, used);
  }

  // ------------------------------------------- the older variant's statistics

  const ChangeTolerance: real := 0.0000000001

  /** `abs(optimal - original) > 1e-10`; NaN compares false. */
  predicate Changed(opt: Cell, orig: real)
  {
    opt.Some? && Abs(opt.value - orig) > ChangeTolerance
  }

  /** The sign of the dt flipped or became zero; NaN compares false. */
  predicate DirectionViolated(opt: Cell, orig: real)
  {
    opt.Some? && ((orig > 0.0 && opt.value <= 0.0) || (orig < 0.0 && opt.value >= 0.0))
  }

  function CountChanged(dt: seq<Cell>, orig: seq<real>, k: nat): (c: nat)
    requires k <= |dt| == |orig|
    ensures c <= k
  {
    if k == 0 then 0
    else CountChanged(dt, orig, k - 1) + (if Changed(dt[k - 1], orig[k - 1]) then 1 else 0)
  }

  function CountViolations(dt: seq<Cell>, orig: seq<real>, k: nat): (c: nat)
    requires k <= |dt| == |orig|
    ensures c <= k
  {
    if k == 0 then 0
    else CountViolations(dt, orig, k - 1) + (if DirectionViolated(dt[k - 1], orig[k - 1]) then 1 else 0)
  }

  /** The indices below k whose time changed. */
  ghost function ChangedSet(dt: seq<Cell>, orig: seq<real>, k: nat): set<nat>
    requires k <= |dt| == |orig|
  {
    set g: nat | g < k && Changed(dt[g], orig[g])
  }

  /** The indices below k whose time changed direction. */
  ghost function ViolatedSet(dt: seq<Cell>, orig: seq<real>, k: nat): set<nat>
    requires k <= |dt| == |orig|
  {
    set g: nat | g < k && DirectionViolated(dt[g], orig[g])
  }

  /** `changed_count` is the number of indices whose time changed. */
  lemma {:induction false} CountChangedIsSize(dt: seq<Cell>, orig: seq<real>, k: nat)
    requires k <= |dt| == |orig|
    ensures CountChanged(dt, orig, k) == |ChangedSet(dt, orig, k)|
  {
    if k > 0 {
      CountChangedIsSize(dt, orig, k - 1);
      var g := k - 1;
      assert ChangedSet(dt, orig, k)
        == ChangedSet(dt, orig, g) + (if Changed(dt[g], orig[g]) then {g} else {});
      assert g !in ChangedSet(dt, orig, g);
    }
  }

  /** `direction_violations` is the number of indices whose sign flipped or became zero. */
  lemma {:induction false} CountViolationsIsSize(dt: seq<Cell>, orig: seq<real>, k: nat)
    requires k <= |dt| == |orig|
    ensures CountViolations(dt, orig, k) == |ViolatedSet(dt, orig, k)|
  {
    if k > 0 {
      CountViolationsIsSize(dt, orig, k - 1);
      var g := k - 1;
      assert ViolatedSet(dt, orig, k)
        == ViolatedSet(dt, orig, g) + (if DirectionViolated(dt[g], orig[g]) then {g} else {});
      assert g !in ViolatedSet(dt, orig, g);
    }
  }

  /** Entry g changed, its original is not (almost) zero, and `ratio` is
      `|optimal| / |original|`. */
  predicate RatioOf(dt: seq<Cell>, orig: seq<real>, g: nat, ratio: real)
    requires g < |dt| == |orig|
  {
    Changed(dt[g], orig[g]) && Abs(orig[g]) > ChangeTolerance && ratio == Abs(dt[g].value) / Abs(orig[g])
  }

  /** `|optimal| / |original|` for the changed entries whose original is not
      (almost) zero, in index order. */
  function ChangeRatios(dt: seq<Cell>, orig: seq<real>, k: nat): (rs: seq<real>)
    requires k <= |dt| == |orig|
    ensures |rs| <= CountChanged(dt, orig, k) <= k
    ensures forall a :: 0 <= a < |rs| ==> rs[a] >= 0.0
  {
    if k == 0 then []
    else
      var rest := ChangeRatios(dt, orig, k - 1);
      var g := k - 1;
      if Changed(dt[g], orig[g]) && Abs(orig[g]) > ChangeTolerance
      then
        QuotientNonNegative(Abs(dt[g].value), Abs(orig[g]));
        rest + [Abs(dt[g].value) / Abs(orig[g])]
      else rest
  }

  /** The entry ratio `a` comes from: a changed entry with a non-zero
      original. */
  function RatioSource(dt: seq<Cell>, orig: seq<real>, k: nat, a: nat): (g: nat)
    requires k <= |dt| == |orig| && a < |ChangeRatios(dt, orig, k)|
    ensures g < k && RatioOf(dt, orig, g, ChangeRatios(dt, orig, k)[a])
  {
    var rest := ChangeRatios(dt, orig, k - 1);
    if a < |rest| then RatioSource(dt, orig, k - 1, a) else k - 1
  }

  /** An entry nobody wrote keeps its original value, so it neither counts
      as changed nor as a direction violation. */
  lemma {:induction false} UntouchedCountsNothing(dt: seq<Cell>, orig: seq<real>, k: nat)
    requires k <= |dt| == |orig|
    requires forall g :: 0 <= g < k ==> dt[g] == Some(orig[g])
    ensures CountChanged(dt, orig, k) == 0 && CountViolations(dt, orig, k) == 0
    ensures ChangeRatios(dt, orig, k) == []
  {
    if k > 0 {
      UntouchedCountsNothing(dt, orig, k - 1);
    }
  }

  datatype TimesStats = TimesStats(
    totalGrandchildren: nat, pairedCount: nat, unpairedCount: nat,
    changedCount: nat, directionViolations: nat,
    changeRatios: seq<real>, avgChangeRatio: real, minChangeRatio: real, maxChangeRatio: real)

  /** `np.mean`, `np.min` and `np.max` of the change ratios, all 1.0 for an
      empty list. */
  predicate SummarisesRatios(s: TimesStats)
  {
    var rs := s.changeRatios;
    && (|rs| == 0 ==> s.avgChangeRatio == s.minChangeRatio == s.maxChangeRatio == 1.0)
    && (|rs| > 0 ==> s.avgChangeRatio == Sum(rs) / (|rs| as real))
    && (|rs| > 0 ==> exists a :: 0 <= a < |rs| && s.minChangeRatio == rs[a])
    && (|rs| > 0 ==> exists a :: 0 <= a < |rs| && s.maxChangeRatio == rs[a])
    && (forall a :: 0 <= a < |rs| ==> s.minChangeRatio <= rs[a] <= s.maxChangeRatio)
    && s.minChangeRatio <= s.avgChangeRatio <= s.maxChangeRatio
  }

  /** The result of `extract_optimal_times_from_pairs`. */
  datatype OptimalTimes = OptimalTimes(
    dtChildren: seq<real>,
    dtGrandchildren: seq<Cell>,
    pairMapping: map<nat, MappingEntry>,
    unpairedGrandchildren: seq<nat>,
    stats: TimesStats)

  /** `extract_optimal_times_from_pairs`: None for an empty pair list and for
      any exception (here: a pair index past the grandchildren). */
  method ExtractOptimalTimes(ps: seq<Pair>, t: Tree) returns (r: Option<OptimalTimes>)
    ensures r.None? <==> |ps| == 0 || !InBounds(ps, |t.grandchildren|)
    ensures r.Some? ==>
      var o, n := r.value, |t.grandchildren|;
      var s := o.stats;
      o.dtChildren == ChildDts(t.children)
      && |o.dtGrandchildren| == n
      && (forall g :: 0 <= g < n && g !in Members(ps) ==> o.dtGrandchildren[g] == Some(t.grandchildren[g].dt))
      && (forall p: nat, g: nat :: 0 <= g < n && LastNaming(ps, g, p) ==> o.dtGrandchildren[g] == TimeFor(ps[p], g))
      && MappedFrom(ps, GrandchildDts(t.grandchildren), o.pairMapping)
      && (forall g: nat :: g in o.unpairedGrandchildren <==> g < n && g !in Members(ps))
      && (forall a, b :: 0 <= a < b < |o.unpairedGrandchildren| ==>
            o.unpairedGrandchildren[a] < o.unpairedGrandchildren[b])
      && StatsOf(s, o.dtGrandchildren, GrandchildDts(t.grandchildren), |Members(ps)|, |o.unpairedGrandchildren|)
      && s.pairedCount + s.unpairedCount == s.totalGrandchildren
  {
    if |ps| == 0 {
      return None;
    }
    var orig := GrandchildDts(t.grandchildren);
    var w := WriteBack(orig, ps);
    if w.None? {
      return None;
    }
    var (dt, mapping) := w.value;
    var n := |orig|;
    var unpaired := Complement(n, Members(ps));
    MembersInRange(ps, n);
    ComplementSize(n, Members(ps));
    var stats := ChangeStats(dt, orig, |Members(ps)|, |unpaired|);
    r := Some(OptimalTimes(ChildDts(t.children), dt, mapping, unpaired, stats));
  }

  /** `s` is the statistics block for optimal times `dt` over originals
      `orig`: the counts, the changed and direction-violating entries, and the
      change ratios with their summary. */
  ghost predicate StatsOf(s: TimesStats, dt: seq<Cell>, orig: seq<real>, paired: nat, unpaired: nat)
    requires |dt| == |orig|
  {
    && s.totalGrandchildren == |orig| && s.pairedCount == paired && s.unpairedCount == unpaired
    && s.changedCount == |ChangedSet(dt, orig, |orig|)| <= |orig|
    && s.directionViolations == |ViolatedSet(dt, orig, |orig|)| <= |orig|
    && s.changeRatios == ChangeRatios(dt, orig, |orig|)
    && SummarisesRatios(s)
  }

  /** The `statistics` block: counts of changed times and direction
      violations, and the change ratios with their mean, minimum and maximum
      (all 1.0 when there is no ratio). */
  method ChangeStats(dt: seq<Cell>, orig: seq<real>, paired: nat, unpaired: nat) returns (s: TimesStats)
    requires |dt| == |orig|
    ensures StatsOf(s, dt, orig, paired, unpaired)
  {
    var n := |orig|;
    var ratios := ChangeRatios(dt, orig, n);
    var avg, lo, hi := 1.0, 1.0, 1.0;
    if |ratios| > 0 {
      avg, lo, hi := Sum(ratios) / (|ratios| as real), MinOf(ratios), MaxOf(ratios);
      MeanBetween(ratios);
    }
    CountChangedIsSize(dt, orig, n);
    CountViolationsIsSize(dt, orig, n);
    s := TimesStats(n, paired, unpaired, CountChanged(dt, orig, n), CountViolations(dt, orig, n),
                    ratios, avg, lo, hi);
  }
}

=== FILE: optimize.dfy ===
/** Acceptance logic of the pair optimisers. The scipy minimisers are not
    modelled: each method's run is an arbitrary `Outcome` (it raised, or it
    returned a point, a value and a success flag), and the distance function
    the optimisers minimise is an arbitrary `dist`. What is modelled is
    everything the optimisers decide around those runs: signed time bounds,
    adaptive bounds, the distance ceiling, which candidate wins, and the
    post-hoc checks that turn a winner into a success or a tagged failure. */
module Optimize {
  import opened Common
  import opened Seqs
  import opened SporeTree

  /** A closed interval (lo, hi) of time steps. */
  datatype Interval = Interval(lo: real, hi: real)

  predicate Within(x: real, b: Interval)
  {
    b.lo <= x <= b.hi
  }

  /** Forward spores (dt > 0) search `b`; all others search the mirrored
      interval (-hi, -lo). */
  function SignedBounds(dt: real, b: Interval): Interval
  {
    if dt > 0.0 then b else Interval(-b.hi, -b.lo)
  }

  /** x moves in the time direction of `orig`, as the post-hoc check demands:
      positive for a forward spore, negative for a backward one. A spore with
      dt == 0 has no direction to keep. */
  predicate KeepsDirection(orig: real, x: real)
  {
    (orig > 0.0 ==> x > 0.0) && (orig < 0.0 ==> x < 0.0)
  }

  /** The signed search interval of a spore is its own time direction: with
      positive bounds every point of it keeps the spore's sign, and it is the
      mirror image of the forward interval. */
  lemma SignedBoundsKeepDirection(dt: real, b: Interval, x: real)
    requires 0.0 < b.lo
    requires Within(x, SignedBounds(dt, b))
    ensures KeepsDirection(dt, x)
    ensures dt > 0.0 ==> Within(x, b)
    ensures dt <= 0.0 ==> Within(-x, b)
  {
  }

  /** `x0 = (lo + hi) / 2`: the start point lies in a non-empty interval. */
  function StartPoint(b: Interval): (x: real)
    ensures b.lo <= b.hi ==> Within(x, b)
    ensures x - b.lo == b.hi - x
  {
    (b.lo + b.hi) / 2.0
  }

  /** `min()` or `max()` of an empty sequence raises ValueError. */
  datatype OptError = EmptyChildren

  function RootDistances(root: Vec2, cs: seq<Child>, norm: Norm): (d: seq<real>)
    ensures |d| == |cs| && forall k :: 0 <= k < |cs| ==> d[k] == norm(Sub(cs[k].position, root))
  {
    seq(|cs|, k requires 0 <= k < |cs| => norm(Sub(cs[k].position, root)))
  }

  function AbsDts(cs: seq<Child>): (d: seq<real>)
    ensures |d| == |cs| && forall k :: 0 <= k < |cs| ==> d[k] == Abs(cs[k].dt)
  {
    seq(|cs|, k requires 0 <= k < |cs| => Abs(cs[k].dt))
  }

  /** The distance ceiling: a tenth of the smallest root-child distance when
      a root is given, no ceiling without one. */
  function DistanceConstraint(root: Option<Vec2>, cs: seq<Child>, norm: Norm): (r: Result<Option<real>, OptError>)
    ensures root.None? ==> r == Ok(None)
    ensures root.Some? ==> (r.Err? <==> |cs| == 0)
    ensures root.Some? && r.Ok? ==>
      && r.value.Some?
      && (forall k :: 0 <= k < |cs| ==> 10.0 * r.value.value <= norm(Sub(cs[k].position, root.value)))
      && (exists k :: 0 <= k < |cs| && 10.0 * r.value.value == norm(Sub(cs[k].position, root.value)))
  {
    if root.None? then Ok(None)
    else if |cs| == 0 then Err(EmptyChildren)
    else Ok(Some(MinOf(RootDistances(root.value, cs, norm)) / 10.0))
  }

  /** `dt_bounds=None` becomes (0.001, 2 * max |child dt|); given bounds are kept. */
  function AdaptiveBounds(given: Option<Interval>, cs: seq<Child>): (r: Result<Interval, OptError>)
    ensures given.Some? ==> r == Ok(given.value)
    ensures given.None? ==> (r.Err? <==> |cs| == 0)
    ensures given.None? && r.Ok? ==>
      && r.value.lo == 0.001
      && (forall k :: 0 <= k < |cs| ==> 2.0 * Abs(cs[k].dt) <= r.value.hi)
      && (exists k :: 0 <= k < |cs| && r.value.hi == 2.0 * Abs(cs[k].dt))
  {
    if given.Some? then Ok(given.value)
    else if |cs| == 0 then Err(EmptyChildren)
    else Ok(Interval(0.001, 2.0 * MaxOf(AbsDts(cs))))
  }

  /** One minimiser run: it raised, or it returned (x_i, x_j), `fun` and `success`. */
  datatype Outcome = Raised | Returned(xi: real, xj: real, fun: real, success: bool)

  /** The winner of `for m in methods: if ok[m] and score[m] < best_distance:
      best = m`, starting from best_distance = inf, over the first n runs. */
  function FirstMinimum(ok: seq<bool>, score: seq<real>, n: nat): (best: Option<nat>)
    requires |ok| == |score| && n <= |ok|
    ensures best.None? <==> forall k :: 0 <= k < n ==> !ok[k]
    ensures best.Some? ==> best.value < n && ok[best.value]
    ensures best.Some? ==> forall k :: 0 <= k < n && ok[k] ==> score[best.value] <= score[k]
    ensures best.Some? ==> forall k :: 0 <= k < best.value && ok[k] ==> score[best.value] < score[k]
  {
    if n == 0 then None
    else
      var prev := FirstMinimum(ok, score, n - 1);
      if ok[n - 1] && (prev.None? || score[n - 1] < score[prev.value]) then Some(n - 1) else prev
  }

  /** The best-distance bound of the final `best_distance < 1e5` test: the
      distance function answers 1e6 when integration raises. */
  const Unreachable: real := 100000.0

  /** Why a pair optimisation did not succeed. */
  datatype PairFailure =
    | DtIViolation
    | DtJViolation
    | DirectionViolationI
    | DirectionViolationJ
    | NoValidSolution

  datatype PairResult =
    | PairSuccess(minDistance: real, dtI: real, dtJ: real, bestRun: nat,
                  constraint: Option<real>, passesConstraint: bool)
    | PairFailed(error: PairFailure, constraint: Option<real>)

  /** `min_distance` of a result: the winner's distance on success, inf when
      no candidate won, and absent (`None`) on the violation returns. */
  function MinDistance(r: PairResult): Option<Ext>
  {
    match r
    case PairSuccess(d, _, _, _, _, _) => Some(Finite(d))
    case PairFailed(NoValidSolution, _) => Some(Infinity)
    case PairFailed(_, _) => None
  }

  /** `passes_constraint`, defaulting to True where the key is absent. */
  function PassesConstraint(r: PairResult): bool
  {
    match r
    case PairSuccess(_, _, _, _, _, p) => p
    case PairFailed(NoValidSolution, _) => false
    case PairFailed(_, _) => true
  }

  /** The checks after a winner is chosen, in source order: bounds of i, of j,
      then the time direction of i and of j. */
  function CheckWinner(d: real, xi: real, xj: real, m: nat, bi: Interval, bj: Interval,
                       origI: real, origJ: real, constraint: Option<real>): (r: PairResult)
    ensures r.PairSuccess? <==>
      Within(xi, bi) && Within(xj, bj) && KeepsDirection(origI, xi) && KeepsDirection(origJ, xj)
    ensures r.PairFailed? ==> r.error != NoValidSolution && r.constraint == constraint
    ensures r.PairSuccess? ==> r == PairSuccess(d, xi, xj, m, constraint,
                                                constraint.None? || d <= constraint.value)
  {
    if !Within(xi, bi) then PairFailed(DtIViolation, constraint)
    else if !Within(xj, bj) then PairFailed(DtJViolation, constraint)
    else if !KeepsDirection(origI, xi) then PairFailed(DirectionViolationI, constraint)
    else if !KeepsDirection(origJ, xj) then PairFailed(DirectionViolationJ, constraint)
    else PairSuccess(d, xi, xj, m, constraint, constraint.None? || d <= constraint.value)
  }

  // ----- grandchild pair, the variant with a success requirement -----

  /** A run is a candidate if it succeeded, both times lie in their signed
      bounds, and the recomputed distance meets the ceiling. */
  function StrictOk(outs: seq<Outcome>, bi: Interval, bj: Interval, constraint: Option<real>,
                    dist: (real, real) -> real): (ok: seq<bool>)
    ensures |ok| == |outs|
    ensures forall k :: 0 <= k < |outs| ==> (ok[k] <==>
      outs[k].Returned? && outs[k].success && Within(outs[k].xi, bi) && Within(outs[k].xj, bj)
      && (constraint.None? || dist(outs[k].xi, outs[k].xj) <= constraint.value))
  {
    seq(|outs|, k requires 0 <= k < |outs| =>
      outs[k].Returned? && outs[k].success && Within(outs[k].xi, bi) && Within(outs[k].xj, bj)
      && (constraint.None? || dist(outs[k].xi, outs[k].xj) <= constraint.value))
  }

  function Funs(outs: seq<Outcome>): (f: seq<real>)
    ensures |f| == |outs|
    ensures forall k :: 0 <= k < |outs| ==> f[k] == (if outs[k].Returned? then outs[k].fun else 0.0)
  {
    seq(|outs|, k requires 0 <= k < |outs| => if outs[k].Returned? then outs[k].fun else 0.0)
  }

  /** `optimize_grandchild_pair_distance` with the ceiling already derived:
      the winner is the first run with the least `fun` among the candidates;
      it must be below 1e5 and pass the post-hoc checks. */
  function OptimizePairStrict(origI: real, origJ: real, dtBounds: Interval, constraint: Option<real>,
                              outs: seq<Outcome>, dist: (real, real) -> real): (r: PairResult)
    ensures r.constraint == constraint
    ensures r.PairSuccess? ==>
      r.bestRun < |outs| && outs[r.bestRun].Returned? && outs[r.bestRun].success
      && r.dtI == outs[r.bestRun].xi && r.dtJ == outs[r.bestRun].xj && r.minDistance == outs[r.bestRun].fun
      && r.minDistance < Unreachable
      && Within(r.dtI, SignedBounds(origI, dtBounds)) && Within(r.dtJ, SignedBounds(origJ, dtBounds))
      && KeepsDirection(origI, r.dtI) && KeepsDirection(origJ, r.dtJ)
      && r.passesConstraint == (constraint.None? || r.minDistance <= constraint.value)
    ensures r.PairSuccess? ==> forall k ::
      (0 <= k < |outs|
       && StrictOk(outs, SignedBounds(origI, dtBounds), SignedBounds(origJ, dtBounds), constraint, dist)[k])
      ==> r.minDistance <= outs[k].fun
    ensures r == PairFailed(NoValidSolution, constraint) <==>
      var ok := StrictOk(outs, SignedBounds(origI, dtBounds), SignedBounds(origJ, dtBounds), constraint, dist);
      (forall k :: 0 <= k < |outs| ==> !ok[k])
      || (exists k :: 0 <= k < |outs| && ok[k] && Unreachable <= outs[k].fun
                      && forall m :: 0 <= m < |outs| && ok[m] ==> outs[k].fun <= outs[m].fun)
  {
    var bi, bj := SignedBounds(origI, dtBounds), SignedBounds(origJ, dtBounds);
    var ok := StrictOk(outs, bi, bj, constraint, dist);
    var best := FirstMinimum(ok, Funs(outs), |outs|);
    WinnerOutOfReach(outs, ok, best);
    if best.None? then PairFailed(NoValidSolution, constraint)
    else
      var w := outs[best.value];
      if Unreachable <= w.fun then PairFailed(NoValidSolution, constraint)
      else CheckWinner(w.fun, w.xi, w.xj, best.value, bi, bj, origI, origJ, constraint)
  }

  /** The first minimum of the successful runs is their least `fun`; there
      is no winner within reach exactly when no run qualifies or the least
      qualifying `fun` is at least 1e5. */
  lemma WinnerOutOfReach(outs: seq<Outcome>, ok: seq<bool>, best: Option<nat>)
    requires |ok| == |outs| && best == FirstMinimum(ok, Funs(outs), |outs|)
    requires forall k :: 0 <= k < |outs| && ok[k] ==> outs[k].Returned?
    ensures best.Some? ==> forall m :: 0 <= m < |outs| && ok[m] ==> outs[best.value].fun <= outs[m].fun
    ensures (best.None? || Unreachable <= outs[best.value].fun) <==>
      (forall k :: 0 <= k < |outs| ==> !ok[k])
      || (exists k :: 0 <= k < |outs| && ok[k] && Unreachable <= outs[k].fun
                      && forall m :: 0 <= m < |outs| && ok[m] ==> outs[k].fun <= outs[m].fun)
  {
    if best.Some? {
      var b := best.value;
      forall m | 0 <= m < |outs| && ok[m]
        ensures outs[b].fun <= outs[m].fun
      {
        assert Funs(outs)[b] <= Funs(outs)[m];
      }
      if exists k :: 0 <= k < |outs| && ok[k] && Unreachable <= outs[k].fun
                     && forall m :: 0 <= m < |outs| && ok[m] ==> outs[k].fun <= outs[m].fun {
        var k :| 0 <= k < |outs| && ok[k] && Unreachable <= outs[k].fun
                 && forall m :: 0 <= m < |outs| && ok[m] ==> outs[k].fun <= outs[m].fun;
        assert outs[k].fun <= outs[b].fun;
      }
    }
  }

  /** A winner already lies in its bounds, so the bounds-violation returns
      of the strict variant can never be taken. */
  lemma StrictNeverViolatesBounds(origI: real, origJ: real, dtBounds: Interval, constraint: Option<real>,
                                  outs: seq<Outcome>, dist: (real, real) -> real)
    ensures OptimizePairStrict(origI, origJ, dtBounds, constraint, outs, dist).PairFailed? ==>
      OptimizePairStrict(origI, origJ, dtBounds, constraint, outs, dist).error
        !in {DtIViolation, DtJViolation}
  {
  }

  // ----- grandchild pair, the multi-method variant that ignores `success` -----

  /** The score a run is ranked by: the recomputed distance when there is a
      ceiling, otherwise the solver's `fun`. */
  function TestDistance(o: Outcome, constraint: Option<real>, dist: (real, real) -> real): real
    requires o.Returned?
  {
    if constraint.Some? then dist(o.xi, o.xj) else o.fun
  }

  function LenientOk(outs: seq<Outcome>, bi: Interval, bj: Interval, constraint: Option<real>,
                     dist: (real, real) -> real): (ok: seq<bool>)
    ensures |ok| == |outs|
    ensures forall k :: 0 <= k < |outs| ==> (ok[k] <==>
      outs[k].Returned? && Within(outs[k].xi, bi) && Within(outs[k].xj, bj)
      && (constraint.None? || dist(outs[k].xi, outs[k].xj) <= constraint.value))
  {
    seq(|outs|, k requires 0 <= k < |outs| =>
      outs[k].Returned? && Within(outs[k].xi, bi) && Within(outs[k].xj, bj)
      && (constraint.None? || dist(outs[k].xi, outs[k].xj) <= constraint.value))
  }

  function TestDistances(outs: seq<Outcome>, constraint: Option<real>, dist: (real, real) -> real): (f: seq<real>)
    ensures |f| == |outs|
    ensures forall k :: 0 <= k < |outs| && outs[k].Returned? ==> f[k] == TestDistance(outs[k], constraint, dist)
  {
    seq(|outs|, k requires 0 <= k < |outs| =>
      if outs[k].Returned? then TestDistance(outs[k], constraint, dist) else 0.0)
  }

  /** The multi-method optimiser with bounds and ceiling already derived: the
      winner is ranked by its test distance, and `success=False` runs are
      accepted when their point is good. */
  function OptimizePairLenient(origI: real, origJ: real, dtBounds: Interval, constraint: Option<real>,
                               outs: seq<Outcome>, dist: (real, real) -> real): (r: PairResult)
    ensures r.constraint == constraint
    ensures r.PairSuccess? ==>
      r.bestRun < |outs| && outs[r.bestRun].Returned?
      && r.dtI == outs[r.bestRun].xi && r.dtJ == outs[r.bestRun].xj
      && r.minDistance == TestDistance(outs[r.bestRun], constraint, dist) < Unreachable
      && Within(r.dtI, SignedBounds(origI, dtBounds)) && Within(r.dtJ, SignedBounds(origJ, dtBounds))
      && KeepsDirection(origI, r.dtI) && KeepsDirection(origJ, r.dtJ)
    ensures r.PairSuccess? && constraint.Some? ==> r.minDistance <= constraint.value && r.passesConstraint
    ensures r.PairSuccess? ==> forall k ::
      (0 <= k < |outs|
       && LenientOk(outs, SignedBounds(origI, dtBounds), SignedBounds(origJ, dtBounds), constraint, dist)[k])
      ==> r.minDistance <= TestDistance(outs[k], constraint, dist)
    ensures r == PairFailed(NoValidSolution, constraint) <==>
      var ok := LenientOk(outs, SignedBounds(origI, dtBounds), SignedBounds(origJ, dtBounds), constraint, dist);
      (forall k :: 0 <= k < |outs| ==> !ok[k])
      || (exists k :: 0 <= k < |outs| && ok[k] && Unreachable <= TestDistance(outs[k], constraint, dist)
                      && forall m :: 0 <= m < |outs| && ok[m] ==>
                           TestDistance(outs[k], constraint, dist) <= TestDistance(outs[m], constraint, dist))
  {
    var bi, bj := SignedBounds(origI, dtBounds), SignedBounds(origJ, dtBounds);
    var ok := LenientOk(outs, bi, bj, constraint, dist);
    var scores := TestDistances(outs, constraint, dist);
    var best := FirstMinimum(ok, scores, |outs|);
    LenientWinner(outs, bi, bj, constraint, dist);
    if best.None? then PairFailed(NoValidSolution, constraint)
    else
      var w := outs[best.value];
      var d := scores[best.value];
      if Unreachable <= d then PairFailed(NoValidSolution, constraint)
      else CheckWinner(d, w.xi, w.xj, best.value, bi, bj, origI, origJ, constraint)
  }

  /** The lenient winner is an accepted run whose test distance is at most
      every accepted run's; it is missing or reaches 1e5 exactly when nothing
      is accepted or some least accepted test distance reaches 1e5. */
  lemma LenientWinner(outs: seq<Outcome>, bi: Interval, bj: Interval, constraint: Option<real>,
                      dist: (real, real) -> real)
    ensures var ok := LenientOk(outs, bi, bj, constraint, dist);
      var best := FirstMinimum(ok, TestDistances(outs, constraint, dist), |outs|);
      && (best.Some? ==>
            best.value < |outs| && ok[best.value] && outs[best.value].Returned?
            && TestDistances(outs, constraint, dist)[best.value] == TestDistance(outs[best.value], constraint, dist)
            && forall k :: 0 <= k < |outs| && ok[k] ==>
                 TestDistance(outs[best.value], constraint, dist) <= TestDistance(outs[k], constraint, dist))
      && ((best.None? || Unreachable <= TestDistance(outs[best.value], constraint, dist)) <==>
            (forall k :: 0 <= k < |outs| ==> !ok[k])
            || (exists k :: 0 <= k < |outs| && ok[k] && Unreachable <= TestDistance(outs[k], constraint, dist)
                            && forall m :: 0 <= m < |outs| && ok[m] ==>
                                 TestDistance(outs[k], constraint, dist) <= TestDistance(outs[m], constraint, dist)))
  {
    var ok := LenientOk(outs, bi, bj, constraint, dist);
    var scores := TestDistances(outs, constraint, dist);
    var best := FirstMinimum(ok, scores, |outs|);
    LeastOutOfReach(ok, scores, best);
    assert forall k :: 0 <= k < |outs| && ok[k] ==> scores[k] == TestDistance(outs[k], constraint, dist);
  }

  /** The first minimum of the accepted scores is their least score; there is
      no winner within reach exactly when nothing is accepted or the least
      accepted score is at least 1e5. */
  lemma LeastOutOfReach(ok: seq<bool>, score: seq<real>, best: Option<nat>)
    requires |ok| == |score| && best == FirstMinimum(ok, score, |ok|)
    ensures (best.None? || Unreachable <= score[best.value]) <==>
      (forall k :: 0 <= k < |ok| ==> !ok[k])
      || (exists k :: 0 <= k < |ok| && ok[k] && Unreachable <= score[k]
                      && forall m :: 0 <= m < |ok| && ok[m] ==> score[k] <= score[m])
  {
    if best.Some? {
      var b := best.value;
      if exists k :: 0 <= k < |ok| && ok[k] && Unreachable <= score[k]
                     && forall m :: 0 <= m < |ok| && ok[m] ==> score[k] <= score[m] {
        var k :| 0 <= k < |ok| && ok[k] && Unreachable <= score[k]
                 && forall m :: 0 <= m < |ok| && ok[m] ==> score[k] <= score[m];
        assert score[k] <= score[b];
      }
    }
  }

  /** A run the solver marks unsuccessful, but whose point is in bounds and
      within the ceiling, is rejected by the strict variant and wins under the
      lenient one. */
  lemma LenientAcceptsUnsuccessfulRun()
    ensures OptimizePairStrict(1.0, 1.0, Interval(0.001, 0.1), Some(0.5),
                               [Returned(0.05, 0.05, 0.0, false)], (x, y) => 0.0).PairFailed?
    ensures OptimizePairLenient(1.0, 1.0, Interval(0.001, 0.1), Some(0.5),
                                [Returned(0.05, 0.05, 0.0, false)], (x, y) => 0.0)
            == PairSuccess(0.0, 0.05, 0.05, 0, Some(0.5), true)
  {
    var outs := [Returned(0.05, 0.05, 0.0, false)];
    var b := Interval(0.001, 0.1);
    assert !StrictOk(outs, b, b, Some(0.5), (x, y) => 0.0)[0];
    assert LenientOk(outs, b, b, Some(0.5), (x, y) => 0.0)[0];
  }

  /** With a ceiling, the lenient variant never reports a success that fails
      it, while the strict one can: it checks the ceiling on the recomputed
      distance but reports the solver's `fun`. */
  lemma StrictSuccessCanFailCeiling()
    ensures var r := OptimizePairStrict(1.0, 1.0, Interval(0.001, 0.1), Some(0.5),
                                        [Returned(0.05, 0.05, 0.9, true)], (x, y) => 0.1);
      r.PairSuccess? && !r.passesConstraint
  {
    var r := OptimizePairStrict(1.0, 1.0, Interval(0.001, 0.1), Some(0.5),
                                [Returned(0.05, 0.05, 0.9, true)], (x, y) => 0.1);
    assert StrictOk([Returned(0.05, 0.05, 0.9, true)], Interval(0.001, 0.1), Interval(0.001, 0.1),
                    Some(0.5), (x, y) => 0.1)[0];
  }

  // ----- grandchild-parent optimisers -----

  /** One bounded scalar minimisation: raised, or returned x, `fun`, `success`. */
  datatype ScalarOutcome = ScalarRaised | ScalarReturned(x: real, fun: real, success: bool)

  datatype ParentFailure = SolverFailed | SolverRaised | ResultOutOfBounds

  datatype ParentResult =
    | ParentSuccess(minDistance: real, dt: real, bounds: Interval)
    | ParentFailed(reason: ParentFailure, bounds: Interval)

  /** Every failure reports `min_distance = inf`. */
  function ParentMinDistance(r: ParentResult): Ext
  {
    if r.ParentSuccess? then Finite(r.minDistance) else Infinity
  }

  /** `optimize_grandchild_parent_distance` of the fixed-bounds module:
      success is exactly the solver's success flag; no bounds check. */
  function OptimizeParentTrusting(orig: real, dtBounds: Interval, o: ScalarOutcome): (r: ParentResult)
    ensures r.bounds == SignedBounds(orig, dtBounds)
    ensures r.ParentSuccess? <==> o.ScalarReturned? && o.success
    ensures r.ParentSuccess? ==> r.dt == o.x && r.minDistance == o.fun
    ensures r.ParentFailed? ==> ParentMinDistance(r) == Infinity
  {
    var b := SignedBounds(orig, dtBounds);
    match o
    case ScalarRaised => ParentFailed(SolverRaised, b)
    case ScalarReturned(x, f, ok) => if ok then ParentSuccess(f, x, b) else ParentFailed(SolverFailed, b)
  }

  /** The adaptive-bounds `optimize_grandchild_parent_distance`: bounds
      default to (0.001, 2 max |child dt|), and a successful run whose point
      left the signed bounds is rejected as `result_out_of_bounds`. */
  function OptimizeParentChecked(orig: real, given: Option<Interval>, cs: seq<Child>, o: ScalarOutcome)
    : (r: Result<ParentResult, OptError>)
    ensures r.Err? <==> given.None? && |cs| == 0
    ensures r.Ok? ==> r.value.bounds == SignedBounds(orig, AdaptiveBounds(given, cs).value)
    ensures r.Ok? ==> (r.value.ParentSuccess? <==>
      o.ScalarReturned? && o.success && Within(o.x, r.value.bounds))
    ensures r.Ok? ==> (r.value == ParentFailed(ResultOutOfBounds, r.value.bounds) <==>
      o.ScalarReturned? && o.success && !Within(o.x, r.value.bounds))
    ensures r.Ok? && r.value.ParentSuccess? ==> r.value.dt == o.x && r.value.minDistance == o.fun
  {
    match AdaptiveBounds(given, cs)
    case Err(e) => Err(e)
    case Ok(db) =>
      var b := SignedBounds(orig, db);
      match o
      case ScalarRaised => Ok(ParentFailed(SolverRaised, b))
      case ScalarReturned(x, f, ok) =>
        if !ok then Ok(ParentFailed(SolverFailed, b))
        else if Within(x, b) then Ok(ParentSuccess(f, x, b))
        else Ok(ParentFailed(ResultOutOfBounds, b))
  }

  /** Adaptive bounds are positive when some child has a non-zero step, so a
      checked success always moves the grandchild in its own time direction. */
  lemma CheckedSuccessKeepsDirection(orig: real, cs: seq<Child>, o: ScalarOutcome)
    requires |cs| > 0
    ensures var r := OptimizeParentChecked(orig, None, cs, o);
      r.Ok? && r.value.ParentSuccess? ==> KeepsDirection(orig, r.value.dt)
  {
    var r := OptimizeParentChecked(orig, None, cs, o);
    if r.Ok? && r.value.ParentSuccess? {
      SignedBoundsKeepDirection(orig, AdaptiveBounds(None, cs).value, r.value.dt);
    }
  }
}

=== FILE: pairing.dfy ===
/** The two greedy rules that turn a chronology into disjoint grandchild
    pairs, and the reports computed over the pairs they form.

    A chronology is the list of meeting lists of grandchildren 0..n-1: the
    Python dictionary's keys, visited in ascending order. */
module Pairing {
  import opened Common
  import opened Seqs
  import opened SporeTree
  import opened Meetings

  /** `(gc_i, gc_j, meeting)`: the key, its partner and the chosen meeting. */
  datatype Pair = Pair(i: nat, j: nat, meeting: Meeting)

  datatype Rule =
    | FirstInChronology   // the first grandchild meeting with an unused partner
    | UltraClose          // the best so far, cut short by a meeting closer than 1e-6

  const UltraCloseDistance: real := 0.000001

  /** A grandchild meeting whose partner is not in a pair yet. */
  predicate Available(m: Meeting, used: set<nat>)
  {
    m.partner.GcPartner? && m.partner.idx !in used
  }

  // ------------------------------------------------- first-in-chronology rule

  function FirstAvailableFrom(ms: seq<Meeting>, used: set<nat>, k: nat): (r: Option<nat>)
    requires k <= |ms|
    ensures r.Some? ==> k <= r.value < |ms| && Available(ms[r.value], used)
    ensures forall q :: k <= q < |ms| && (r.None? || q < r.value) ==> !Available(ms[q], used)
    decreases |ms| - k
  {
    if k == |ms| then None
    else if Available(ms[k], used) then Some(k)
    else FirstAvailableFrom(ms, used, k + 1)
  }

  /** The first grandchild meeting whose partner is unused; parent meetings
      are passed over. */
  function FirstAvailable(ms: seq<Meeting>, used: set<nat>): (r: Option<nat>)
    ensures r.Some? ==> r.value < |ms| && Available(ms[r.value], used)
    ensures forall q :: 0 <= q < |ms| && (r.None? || q < r.value) ==> !Available(ms[q], used)
  {
    FirstAvailableFrom(ms, used, 0)
  }

  // ---------------------------------------------------------- ultra-close rule

  /** A meeting that ends the scan: an available grandchild closer than 1e-6
      (taken at once) or any parent closer than 1e-6. */
  predicate Halts(m: Meeting, used: set<nat>)
  {
    m.distance < UltraCloseDistance && (Available(m, used) || m.partner.ParentPartner?)
  }

  /** `s` is where the scan stops: the first halting meeting, or the end. */
  predicate IsStop(ms: seq<Meeting>, used: set<nat>, s: nat)
  {
    s <= |ms| && (s < |ms| ==> Halts(ms[s], used)) && forall q :: 0 <= q < s ==> !Halts(ms[q], used)
  }

  /** `best` is the first available meeting of least distance in `ms[..k]`,
      and is None exactly when `ms[..k]` has no available meeting. */
  predicate BestBefore(ms: seq<Meeting>, used: set<nat>, k: nat, best: Option<nat>)
    requires k <= |ms|
  {
    match best
    case None => forall q :: 0 <= q < k ==> !Available(ms[q], used)
    case Some(b) =>
      b < k && Available(ms[b], used)
      && (forall q :: 0 <= q < k && Available(ms[q], used) ==> ms[b].distance <= ms[q].distance)
      && (forall q :: 0 <= q < b && Available(ms[q], used) ==> ms[b].distance < ms[q].distance)
  }

  function StopFrom(ms: seq<Meeting>, used: set<nat>, k: nat): (s: nat)
    requires k <= |ms|
    requires forall q :: 0 <= q < k ==> !Halts(ms[q], used)
    ensures IsStop(ms, used, s)
    decreases |ms| - k
  {
    if k == |ms| || Halts(ms[k], used) then k else StopFrom(ms, used, k + 1)
  }

  /** Every meeting list has a stop (and only one, by the definition). */
  function StopOf(ms: seq<Meeting>, used: set<nat>): (s: nat)
    ensures IsStop(ms, used, s)
  {
    StopFrom(ms, used, 0)
  }

  /** The scan from index `k` on, holding the best candidate of `ms[..k]`. */
  function UltraCloseFrom(ms: seq<Meeting>, used: set<nat>, k: nat, best: Option<nat>): (r: Option<nat>)
    requires k <= |ms| && BestBefore(ms, used, k, best)
    requires forall q :: 0 <= q < k ==> !Halts(ms[q], used)
    ensures r.Some? ==> r.value < |ms| && Available(ms[r.value], used)
    ensures forall s: nat :: IsStop(ms, used, s) ==>
      if s < |ms| && Available(ms[s], used) then r == Some(s) else BestBefore(ms, used, s, r)
    decreases |ms| - k
  {
    if k == |ms| then best
    else
      var m := ms[k];
      if Available(m, used) then
        if m.distance < UltraCloseDistance then Some(k)
        else
          var next := if best.None? || m.distance < ms[best.value].distance then Some(k) else best;
          UltraCloseFrom(ms, used, k + 1, next)
      else if m.partner.ParentPartner? && m.distance < UltraCloseDistance then best
      else UltraCloseFrom(ms, used, k + 1, best)
  }

  /** The ultra-close rule: an available grandchild closer than 1e-6 is taken
      at once; a parent closer than 1e-6 ends the scan; the choice is then the
      first available grandchild of least distance seen before the stop. */
  function UltraCloseSelect(ms: seq<Meeting>, used: set<nat>): (r: Option<nat>)
    ensures r.Some? ==> r.value < |ms| && Available(ms[r.value], used)
    ensures forall s: nat :: IsStop(ms, used, s) ==>
      if s < |ms| && Available(ms[s], used) then r == Some(s) else BestBefore(ms, used, s, r)
  {
    UltraCloseFrom(ms, used, 0, None)
  }

  function Select(rule: Rule, ms: seq<Meeting>, used: set<nat>): (r: Option<nat>)
    ensures r.Some? ==> r.value < |ms| && Available(ms[r.value], used)
  {
    match rule
    case FirstInChronology => FirstAvailable(ms, used)
    case UltraClose => UltraCloseSelect(ms, used)
  }

  /** A rule as the loop sees it: the index it picks in a list, given the
      grandchildren used so far. */
  type Selector = (seq<Meeting>, set<nat>) -> Option<nat>

  /** What a rule picks is an available grandchild meeting of the list. */
  ghost predicate PicksAvailable(sel: Selector)
  {
    forall ms: seq<Meeting>, used: set<nat> :: sel(ms, used).Some? ==>
      sel(ms, used).value < |ms| && Available(ms[sel(ms, used).value], used)
  }

  function SelectFn(rule: Rule): (sel: Selector)
    ensures PicksAvailable(sel)
    ensures forall ms, used :: sel(ms, used) == Select(rule, ms, used)
  {
    (ms, used) => Select(rule, ms, used)
  }

  // ---------------------------------------------------------------- extraction

  /** `used_grandchildren` when key `g` comes up: both members of every pair
      formed at a smaller key. */
  function UsedBefore(ps: seq<Pair>, g: nat): set<nat>
  {
    (set p | 0 <= p < |ps| && ps[p].i < g :: ps[p].i) + (set p | 0 <= p < |ps| && ps[p].i < g :: ps[p].j)
  }

  /** Every grandchild that ends up in a pair. */
  function Members(ps: seq<Pair>): set<nat>
  {
    (set p | 0 <= p < |ps| :: ps[p].i) + (set p | 0 <= p < |ps| :: ps[p].j)
  }

  /** Pair `p` is what its key chose: the key was unused, and the rule picked
      the meeting and the partner it names. */
  predicate ChosenAt(c: seq<seq<Meeting>>, sel: Selector, ps: seq<Pair>, p: nat)
    requires p < |ps| && ps[p].i < |c|
  {
    var g := ps[p].i;
    var used := UsedBefore(ps, g);
    var pick := sel(c[g], used);
    g !in used && pick.Some? && pick.value < |c[g]|
    && ps[p].meeting == c[g][pick.value] && ps[p].j == c[g][pick.value].partner.idx
  }

  /** Key `g` formed a pair, was already used, or the rule found nothing. */
  predicate KeyAccounted(c: seq<seq<Meeting>>, sel: Selector, ps: seq<Pair>, g: nat)
    requires g < |c|
  {
    (exists p :: 0 <= p < |ps| && ps[p].i == g)
    || g in UsedBefore(ps, g)
    || sel(c[g], UsedBefore(ps, g)).None?
  }

  /** `ps` is the trace of the greedy loop after keys 0..g-1. */
  predicate GreedyUpTo(c: seq<seq<Meeting>>, sel: Selector, ps: seq<Pair>, g: nat)
    requires g <= |c|
  {
    (forall p :: 0 <= p < |ps| ==> ps[p].i < g && ChosenAt(c, sel, ps, p))
    && (forall p, q :: 0 <= p < q < |ps| ==> ps[p].i < ps[q].i)
    && (forall h :: 0 <= h < g ==> KeyAccounted(c, sel, ps, h))
  }

  /** `ps` is the trace of the greedy loop over all keys under `sel`. */
  predicate GreedyMatching(c: seq<seq<Meeting>>, sel: Selector, ps: seq<Pair>)
  {
    GreedyUpTo(c, sel, ps, |c|)
  }

  lemma UsedBeforeAppend(ps: seq<Pair>, x: Pair, h: nat)
    ensures UsedBefore(ps + [x], h) == UsedBefore(ps, h) + (if x.i < h then {x.i, x.j} else {})
  {
    var qs := ps + [x];
    assert forall p :: 0 <= p < |ps| ==> qs[p] == ps[p];
    assert qs[|ps|] == x;
  }

  lemma UsedBeforeSaturates(ps: seq<Pair>, g: nat, h: nat)
    requires g <= h
    requires forall p :: 0 <= p < |ps| ==> ps[p].i < g
    ensures UsedBefore(ps, h) == UsedBefore(ps, g)
  {
  }

  /** A key that is used already, or finds nothing, adds no pair. */
  lemma GreedySkip(c: seq<seq<Meeting>>, sel: Selector, ps: seq<Pair>, g: nat)
    requires g < |c| && GreedyUpTo(c, sel, ps, g)
    requires g in UsedBefore(ps, g) || sel(c[g], UsedBefore(ps, g)).None?
    ensures GreedyUpTo(c, sel, ps, g + 1)
  {
    assert forall p :: 0 <= p < |ps| ==> ps[p].i < g + 1 && ChosenAt(c, sel, ps, p);
    assert KeyAccounted(c, sel, ps, g);
  }

  lemma TakeKeepsChoices(c: seq<seq<Meeting>>, sel: Selector, ps: seq<Pair>, g: nat, k: nat)
    requires g < |c| && GreedyUpTo(c, sel, ps, g)
    requires g !in UsedBefore(ps, g) && sel(c[g], UsedBefore(ps, g)) == Some(k) && k < |c[g]|
    ensures var next := ps + [Pair(g, c[g][k].partner.idx, c[g][k])];
      forall p :: 0 <= p < |next| ==> next[p].i < g + 1 && ChosenAt(c, sel, next, p)
  {
    var x := Pair(g, c[g][k].partner.idx, c[g][k]);
    var next := ps + [x];
    forall p | 0 <= p < |next|
      ensures next[p].i < g + 1 && ChosenAt(c, sel, next, p)
    {
      if p < |ps| {
        var h := ps[p].i;
        assert next[p] == ps[p];
        UsedBeforeAppend(ps, x, h);
        assert UsedBefore(next, h) == UsedBefore(ps, h);
        assert ChosenAt(c, sel, ps, p);
      } else {
        UsedBeforeAppend(ps, x, g);
        assert UsedBefore(next, g) == UsedBefore(ps, g);
        assert next[p] == x;
      }
    }
  }

  lemma TakeKeepsAccounts(c: seq<seq<Meeting>>, sel: Selector, ps: seq<Pair>, g: nat, k: nat)
    requires g < |c| && GreedyUpTo(c, sel, ps, g)
    requires k < |c[g]|
    ensures var next := ps + [Pair(g, c[g][k].partner.idx, c[g][k])];
      forall h :: 0 <= h < g + 1 ==> KeyAccounted(c, sel, next, h)
  {
    var x := Pair(g, c[g][k].partner.idx, c[g][k]);
    var next := ps + [x];
    forall h | 0 <= h < g + 1
      ensures KeyAccounted(c, sel, next, h)
    {
      if h == g {
        assert next[|ps|].i == h;
      } else {
        UsedBeforeAppend(ps, x, h);
        assert UsedBefore(next, h) == UsedBefore(ps, h);
        assert KeyAccounted(c, sel, ps, h);
        if p :| 0 <= p < |ps| && ps[p].i == h {
          assert next[p].i == h;
        }
      }
    }
  }

  /** A free key that finds a partner adds the pair. */
  lemma GreedyTake(c: seq<seq<Meeting>>, sel: Selector, ps: seq<Pair>, g: nat, k: nat)
    requires g < |c| && GreedyUpTo(c, sel, ps, g)
    requires g !in UsedBefore(ps, g) && sel(c[g], UsedBefore(ps, g)) == Some(k) && k < |c[g]|
    ensures GreedyUpTo(c, sel, ps + [Pair(g, c[g][k].partner.idx, c[g][k])], g + 1)
  {
    TakeKeepsChoices(c, sel, ps, g, k);
    TakeKeepsAccounts(c, sel, ps, g, k);
  }

  /** One step of the greedy loop that takes the pair (g, partner). */
  lemma TakeStep(c: seq<seq<Meeting>>, sel: Selector, ps: seq<Pair>, g: nat, k: nat)
    requires g < |c| && GreedyUpTo(c, sel, ps, g)
    requires g !in UsedBefore(ps, g) && sel(c[g], UsedBefore(ps, g)) == Some(k) && k < |c[g]|
    ensures var next := ps + [Pair(g, c[g][k].partner.idx, c[g][k])];
      GreedyUpTo(c, sel, next, g + 1)
      && UsedBefore(next, g + 1) == UsedBefore(ps, g) + {g, c[g][k].partner.idx}
  {
    var m := c[g][k];
    GreedyTake(c, sel, ps, g, k);
    UsedBeforeAppend(ps, Pair(g, m.partner.idx, m), g + 1);
    UsedBeforeSaturates(ps, g, g + 1);
  }

  /** One step of the greedy loop that adds nothing. */
  lemma SkipStep(c: seq<seq<Meeting>>, sel: Selector, ps: seq<Pair>, g: nat)
    requires g < |c| && GreedyUpTo(c, sel, ps, g)
    requires g in UsedBefore(ps, g) || sel(c[g], UsedBefore(ps, g)).None?
    ensures GreedyUpTo(c, sel, ps, g + 1) && UsedBefore(ps, g + 1) == UsedBefore(ps, g)
  {
    GreedySkip(c, sel, ps, g);
    UsedBeforeSaturates(ps, g, g + 1);
  }

  /** `extract_pairs_from_chronology`, under either rule. */
  method ExtractPairs(c: seq<seq<Meeting>>, rule: Rule) returns (ps: seq<Pair>)
    ensures GreedyMatching(c, SelectFn(rule), ps)
  {
    ps := [];
    var used: set<nat> := {};
    for g := 0 to |c|
      invariant GreedyUpTo(c, SelectFn(rule), ps, g)
      invariant used == UsedBefore(ps, g)
    {
      ps, used := GreedyStep(c, rule, ps, used, g);
    }
  }

  /** One pass of the loop body of `extract_pairs_from_chronology`: a free
      key takes the meeting the rule picks, any other key adds nothing. */
  method GreedyStep(c: seq<seq<Meeting>>, rule: Rule, ps: seq<Pair>, used: set<nat>, g: nat)
    returns (ps': seq<Pair>, used': set<nat>)
    requires g < |c| && GreedyUpTo(c, SelectFn(rule), ps, g) && used == UsedBefore(ps, g)
    ensures GreedyUpTo(c, SelectFn(rule), ps', g + 1) && used' == UsedBefore(ps', g + 1)
    ensures |ps'| == |ps| || |ps'| == |ps| + 1
  {
    var pick := if g in used then None else Select(rule, c[g], used);
    if pick.Some? {
      var m := c[g][pick.value];
      TakeStep(c, SelectFn(rule), ps, g, pick.value);
      ps', used' := ps + [Pair(g, m.partner.idx, m)], used + {g, m.partner.idx};
    } else {
      SkipStep(c, SelectFn(rule), ps, g);
      ps', used' := ps, used;
    }
  }

  /** ps and qs hold the same pairs at keys below g, at the same positions. */
  predicate SameBelow(ps: seq<Pair>, qs: seq<Pair>, g: nat)
  {
    (forall p :: 0 <= p < |ps| && ps[p].i < g ==> p < |qs| && qs[p] == ps[p])
    && (forall p :: 0 <= p < |qs| && qs[p].i < g ==> p < |ps| && ps[p] == qs[p])
  }

  lemma UsedBeforeAgree(ps: seq<Pair>, qs: seq<Pair>, g: nat)
    requires SameBelow(ps, qs, g)
    ensures UsedBefore(ps, g) == UsedBefore(qs, g)
  {
    forall x | x in UsedBefore(ps, g)
      ensures x in UsedBefore(qs, g)
    {
      var p :| 0 <= p < |ps| && ps[p].i < g && (ps[p].i == x || ps[p].j == x);
      assert qs[p] == ps[p];
    }
    forall x | x in UsedBefore(qs, g)
      ensures x in UsedBefore(ps, g)
    {
      var p :| 0 <= p < |qs| && qs[p].i < g && (qs[p].i == x || qs[p].j == x);
      assert ps[p] == qs[p];
    }
  }

  /** A trace has a pair at key g exactly when g is free and the rule picks. */
  lemma KeyTaken(c: seq<seq<Meeting>>, sel: Selector, ps: seq<Pair>, g: nat)
    requires g < |c| && GreedyMatching(c, sel, ps)
    ensures (exists p :: 0 <= p < |ps| && ps[p].i == g) <==>
      g !in UsedBefore(ps, g) && sel(c[g], UsedBefore(ps, g)).Some?
  {
    assert KeyAccounted(c, sel, ps, g);
    if p :| 0 <= p < |ps| && ps[p].i == g {
      assert ChosenAt(c, sel, ps, p);
    }
  }

  /** The keys of a trace strictly ascend. */
  predicate KeysAscend(ps: seq<Pair>)
  {
    forall p, q :: 0 <= p < q < |ps| ==> ps[p].i < ps[q].i
  }

  /** Where both traces have key g, they have it at the same position. */
  lemma SameKeyPosition(ps: seq<Pair>, qs: seq<Pair>, g: nat, p: nat, p': nat)
    requires KeysAscend(ps) && KeysAscend(qs) && SameBelow(ps, qs, g)
    requires p < |ps| && ps[p].i == g && p' < |qs| && qs[p'].i == g
    ensures p == p'
  {
  }

  /** Key g at position p in both traces: they agree below g + 1. */
  lemma SameBelowTaken(ps: seq<Pair>, qs: seq<Pair>, g: nat, p: nat)
    requires KeysAscend(ps) && KeysAscend(qs) && SameBelow(ps, qs, g)
    requires p < |ps| && p < |qs| && ps[p].i == g && ps[p] == qs[p]
    ensures SameBelow(ps, qs, g + 1)
  {
  }

  /** Two traces that agree below key g agree below g + 1. */
  lemma SameBelowStep(c: seq<seq<Meeting>>, sel: Selector, ps: seq<Pair>, qs: seq<Pair>, g: nat)
    requires g < |c| && GreedyMatching(c, sel, ps) && GreedyMatching(c, sel, qs)
    requires SameBelow(ps, qs, g)
    ensures SameBelow(ps, qs, g + 1)
  {
    UsedBeforeAgree(ps, qs, g);
    KeyTaken(c, sel, ps, g);
    KeyTaken(c, sel, qs, g);
    assert KeysAscend(ps) && KeysAscend(qs);
    if p :| 0 <= p < |ps| && ps[p].i == g {
      var p' :| 0 <= p' < |qs| && qs[p'].i == g;
      SameKeyPosition(ps, qs, g, p, p');
      assert ChosenAt(c, sel, ps, p) && ChosenAt(c, sel, qs, p);
      SameBelowTaken(ps, qs, g, p);
    }
  }

  lemma {:induction false} SameBelowUpTo(c: seq<seq<Meeting>>, sel: Selector, ps: seq<Pair>, qs: seq<Pair>, g: nat)
    requires g <= |c| && GreedyMatching(c, sel, ps) && GreedyMatching(c, sel, qs)
    ensures SameBelow(ps, qs, g)
  {
    if g > 0 {
      SameBelowUpTo(c, sel, ps, qs, g - 1);
      SameBelowStep(c, sel, ps, qs, g - 1);
    }
  }

  /** The greedy loop is deterministic: a chronology and a rule have exactly
      one trace. */
  lemma GreedyMatchingUnique(c: seq<seq<Meeting>>, sel: Selector, ps: seq<Pair>, qs: seq<Pair>)
    requires GreedyMatching(c, sel, ps) && GreedyMatching(c, sel, qs)
    ensures ps == qs
  {
    SameBelowUpTo(c, sel, ps, qs, |c|);
    if |qs| > 0 {
      assert qs[|qs| - 1].i < |c|;
    }
    if |ps| > 0 {
      assert ps[|ps| - 1].i < |c|;
    }
  }

  /** The pairs are disjoint: no grandchild is in two pairs. Each pair holds
      a grandchild meeting of its key naming its partner, and the two differ
      when no meeting names its own key. */
  lemma PairsAreDisjoint(c: seq<seq<Meeting>>, sel: Selector, ps: seq<Pair>)
    requires PicksAvailable(sel) && GreedyMatching(c, sel, ps)
    ensures forall p, q :: 0 <= p < q < |ps| ==>
      ps[p].i != ps[q].i && ps[p].i != ps[q].j && ps[p].j != ps[q].i && ps[p].j != ps[q].j
    ensures forall p :: 0 <= p < |ps| ==>
      ps[p].meeting in c[ps[p].i] && ps[p].meeting.partner == GcPartner(ps[p].j)
    ensures (forall g, k :: 0 <= g < |c| && 0 <= k < |c[g]| ==> c[g][k].partner != GcPartner(g)) ==>
      forall p :: 0 <= p < |ps| ==> ps[p].i != ps[p].j
  {
    forall p, q | 0 <= p < q < |ps|
      ensures ps[p].i != ps[q].i && ps[p].i != ps[q].j && ps[p].j != ps[q].i && ps[p].j != ps[q].j
    {
      assert ChosenAt(c, sel, ps, q);
      var used := UsedBefore(ps, ps[q].i);
      assert ps[p].i in used && ps[p].j in used;
    }
  }

  /** Under the first-in-chronology rule a grandchild is left out only when
      every grandchild it meets is already paired; so no two unpaired
      grandchildren meet. */
  lemma FirstRuleIsMaximal(c: seq<seq<Meeting>>, ps: seq<Pair>, g: nat, k: nat)
    requires GreedyMatching(c, SelectFn(FirstInChronology), ps)
    requires g < |c| && g !in Members(ps)
    requires k < |c[g]| && c[g][k].partner.GcPartner?
    ensures c[g][k].partner.idx in Members(ps)
  {
    var used := UsedBefore(ps, g);
    assert used <= Members(ps);
    assert KeyAccounted(c, SelectFn(FirstInChronology), ps, g);
    assert !(exists p :: 0 <= p < |ps| && ps[p].i == g);
    assert !Available(c[g][k], used);
  }

  /** A parent closer than 1e-6: under the ultra-close rule it ends the scan. */
  predicate CloseParent(m: Meeting)
  {
    m.partner.ParentPartner? && m.distance < UltraCloseDistance
  }

  /** When the ultra-close rule finds nothing, no grandchild meeting before
      the first parent closer than 1e-6 names an unused partner. */
  lemma UltraNoneBlocked(ms: seq<Meeting>, used: set<nat>, k: nat)
    requires UltraCloseSelect(ms, used).None?
    requires k < |ms| && ms[k].partner.GcPartner?
    requires forall q :: 0 <= q < k ==> !CloseParent(ms[q])
    ensures !Available(ms[k], used)
  {
    var s := StopOf(ms, used);
    assert BestBefore(ms, used, s, None);
    assert k < s;
  }

  /** Under the ultra-close rule a grandchild is left out only when every
      grandchild it meets before its first parent closer than 1e-6 is already
      paired. */
  lemma UltraRuleIsMaximal(c: seq<seq<Meeting>>, ps: seq<Pair>, g: nat, k: nat)
    requires GreedyMatching(c, SelectFn(UltraClose), ps)
    requires g < |c| && g !in Members(ps)
    requires k < |c[g]| && c[g][k].partner.GcPartner?
    requires forall q :: 0 <= q < k ==> !CloseParent(c[g][q])
    ensures c[g][k].partner.idx in Members(ps)
  {
    var used := UsedBefore(ps, g);
    assert used <= Members(ps);
    assert KeyAccounted(c, SelectFn(UltraClose), ps, g);
    assert !(exists p :: 0 <= p < |ps| && ps[p].i == g);
    UltraNoneBlocked(c[g], used, k);
  }

  // ------------------------------------------------------------ pair quality

  predicate UltraCloseD(d: real) { d < 0.000001 }
  predicate VeryCloseD(d: real) { d < 0.00001 }
  predicate CloseD(d: real) { d < 0.0001 }

  function PairDistances(ps: seq<Pair>): (d: seq<real>)
    ensures |d| == |ps| && forall p :: 0 <= p < |ps| ==> d[p] == ps[p].meeting.distance
  {
    seq(|ps|, p requires 0 <= p < |ps| => ps[p].meeting.distance)
  }

  function PairTimes(ps: seq<Pair>): (t: seq<real>)
    ensures |t| == |ps| && forall p :: 0 <= p < |ps| ==> t[p] == MeetingTime(ps[p].meeting)
  {
    seq(|ps|, p requires 0 <= p < |ps| => MeetingTime(ps[p].meeting))
  }

  /** `analyze_pairing_quality`; no pairs give only zero totals. */
  datatype PairingQuality =
    | NoPairs
    | PairingQuality(
        totalPairs: nat,
        avgDistance: real, minDistance: real, maxDistance: real,
        avgTime: real, minTime: real, maxTime: real,
        ultraClosePairs: nat, veryClosePairs: nat, closePairs: nat)

  /** The tallies of the 1e-6, 1e-5 and 1e-4 closeness classes are nested;
      the averages are the means, and the extremes are reached by some pair
      and bound every pair. */
  function AnalyzePairingQuality(ps: seq<Pair>): (q: PairingQuality)
    ensures q.NoPairs? <==> |ps| == 0
    ensures q.PairingQuality? ==>
      q.totalPairs == |ps|
      && q.ultraClosePairs <= q.veryClosePairs <= q.closePairs <= q.totalPairs
      && q.minDistance <= q.avgDistance <= q.maxDistance
      && q.minTime <= q.avgTime <= q.maxTime
      && (forall p :: 0 <= p < |ps| ==>
            q.minDistance <= ps[p].meeting.distance <= q.maxDistance
            && q.minTime <= MeetingTime(ps[p].meeting) <= q.maxTime)
    ensures q.PairingQuality? ==>
      q.ultraClosePairs == CountIf(PairDistances(ps), UltraCloseD)
      && q.veryClosePairs == CountIf(PairDistances(ps), VeryCloseD)
      && q.closePairs == CountIf(PairDistances(ps), CloseD)
    ensures q.PairingQuality? ==>
      q.avgDistance == Sum(PairDistances(ps)) / (|ps| as real)
      && q.avgTime == Sum(PairTimes(ps)) / (|ps| as real)
      && (exists p :: 0 <= p < |ps| && q.minDistance == ps[p].meeting.distance)
      && (exists p :: 0 <= p < |ps| && q.maxDistance == ps[p].meeting.distance)
      && (exists p :: 0 <= p < |ps| && q.minTime == MeetingTime(ps[p].meeting))
      && (exists p :: 0 <= p < |ps| && q.maxTime == MeetingTime(ps[p].meeting))
  {
    if |ps| == 0 then NoPairs
    else
      var d, t := PairDistances(ps), PairTimes(ps);
      MeanBetween(d);
      MeanBetween(t);
      CountIfMonotone(d, UltraCloseD, VeryCloseD);
      CountIfMonotone(d, VeryCloseD, CloseD);
      CountIfBound(d, CloseD);
      var n := |ps| as real;
      PairingQuality(
        |ps|,
        Sum(d) / n, MinOf(d), MaxOf(d),
        Sum(t) / n, MinOf(t), MaxOf(t),
        CountIf(d, UltraCloseD), CountIf(d, VeryCloseD), CountIf(d, CloseD))
  }

  // ------------------------------------------------------------ pair details

  /** The distance between children `a` and `b`. */
  function ChildDistance(cs: seq<Child>, norm: Vec2 -> real, a: nat, b: nat): real
    requires a < |cs| && b < |cs|
  {
    norm(Sub(cs[a].position, cs[b].position))
  }

  /** `_calculate_min_parent_distance`: infinite with fewer than two
      children, otherwise the least distance over all pairs of children. */
  method MinParentDistance(cs: seq<Child>, norm: Vec2 -> real) returns (r: Ext)
    ensures r.Infinity? <==> |cs| < 2
    ensures r.Finite? ==>
      (forall a, b :: 0 <= a < b < |cs| ==> r.r <= ChildDistance(cs, norm, a, b))
      && exists a, b :: 0 <= a < b < |cs| && r.r == ChildDistance(cs, norm, a, b)
  {
    if |cs| < 2 {
      return Infinity;
    }
    r := Infinity;
    for a := 0 to |cs|
      invariant a > 0 ==> r.Finite?
      invariant forall a', b :: 0 <= a' < a && a' < b < |cs| ==> AtMost(r, Finite(ChildDistance(cs, norm, a', b)))
      invariant r.Finite? ==> exists a', b :: 0 <= a' < b < |cs| && r.r == ChildDistance(cs, norm, a', b)
    {
      for b := a + 1 to |cs|
        invariant b > a + 1 ==> r.Finite?
        invariant forall a', b' :: 0 <= a' < a && a' < b' < |cs| ==> AtMost(r, Finite(ChildDistance(cs, norm, a', b')))
        invariant forall b' :: a < b' < b ==> AtMost(r, Finite(ChildDistance(cs, norm, a, b')))
        invariant r.Finite? ==> exists a', b' :: 0 <= a' < b' < |cs| && r.r == ChildDistance(cs, norm, a', b')
      {
        var d := ChildDistance(cs, norm, a, b);
        if Below(Finite(d), r) {
          r := Finite(d);
        }
      }
    }
  }

  datatype Direction = Forward | Backward

  /** `'forward' if dt > 0 else 'backward'` */
  function DirectionOf(dt: real): (d: Direction)
    ensures d == Forward <==> dt > 0.0
  {
    if dt > 0.0 then Forward else Backward
  }

  /** One entry of `get_pair_details`; `distance_ratio` is left out. */
  datatype PairDetail = PairDetail(
    pairIndex: nat, gcI: nat, gcJ: nat,
    directionI: Direction, directionJ: Direction,
    parentI: nat, parentJ: nat,
    meetingTime: real, distance: real,
    timeGcI: real, timeGcJ: Option<real>, whoWaits: Option<Waiter>,
    sameParent: bool, passesDistanceCheck: bool)

  /** A tenth of the least distance between parents. */
  function Threshold(minParent: Ext): (t: Ext)
    ensures t.Infinity? <==> minParent.Infinity?
    ensures t.Finite? ==> t.r * 10.0 == minParent.r
  {
    match minParent
    case Infinity => Infinity
    case Finite(v) => Finite(v / 10.0)
  }

  function DetailOf(gcs: seq<Grandchild>, minParent: Ext, k: nat, x: Pair): PairDetail
    requires x.i < |gcs| && x.j < |gcs|
  {
    var gi, gj := gcs[x.i], gcs[x.j];
    PairDetail(
      k, x.i, x.j, DirectionOf(gi.dt), DirectionOf(gj.dt), gi.parentIdx, gj.parentIdx,
      MeetingTime(x.meeting), x.meeting.distance,
      x.meeting.timeGc, x.meeting.timePartner, WhoWaits(x.meeting),
      gi.parentIdx == gj.parentIdx, Below(Finite(x.meeting.distance), Threshold(minParent)))
  }

  predicate InRange(gcs: seq<Grandchild>, x: Pair) { x.i < |gcs| && x.j < |gcs| }

  /** The details of `ps`, or None (IndexError) when a pair names a grandchild
      the tree does not have. */
  function DetailsFor(ps: seq<Pair>, gcs: seq<Grandchild>, minParent: Ext): (r: Option<seq<PairDetail>>)
    ensures r.None? <==> exists p :: 0 <= p < |ps| && !InRange(gcs, ps[p])
    ensures r.Some? ==> |r.value| == |ps| && forall p :: 0 <= p < |ps| ==>
      var d, x := r.value[p], ps[p];
      d.pairIndex == p && d.gcI == x.i && d.gcJ == x.j
      && (d.directionI == Forward <==> gcs[x.i].dt > 0.0)
      && (d.directionJ == Forward <==> gcs[x.j].dt > 0.0)
      && (d.sameParent <==> gcs[x.i].parentIdx == gcs[x.j].parentIdx)
      && d.meetingTime == MeetingTime(x.meeting) && d.distance == x.meeting.distance
      && (d.passesDistanceCheck <==> minParent.Infinity? || x.meeting.distance * 10.0 < minParent.r)
  {
    if exists p :: 0 <= p < |ps| && !InRange(gcs, ps[p]) then None
    else Some(seq(|ps|, p requires 0 <= p < |ps| => DetailOf(gcs, minParent, p, ps[p])))
  }

  /** `get_pair_details` (the version in `src/pairs_3`). */
  method GetPairDetails(ps: seq<Pair>, t: Tree, norm: Vec2 -> real) returns (r: Option<seq<PairDetail>>)
    ensures r.None? <==> exists p :: 0 <= p < |ps| && !InRange(t.grandchildren, ps[p])
    ensures r.Some? ==> |r.value| == |ps| && forall p :: 0 <= p < |ps| ==>
      (r.value[p].sameParent <==> t.grandchildren[ps[p].i].parentIdx == t.grandchildren[ps[p].j].parentIdx)
      && (r.value[p].passesDistanceCheck <==>
            |t.children| < 2
            || forall a, b :: 0 <= a < b < |t.children| ==>
                 ps[p].meeting.distance * 10.0 < ChildDistance(t.children, norm, a, b))
  {
    var minParent := MinParentDistance(t.children, norm);
    r := DetailsFor(ps, t.grandchildren, minParent);
  }

  // -------------------------------------------------------- pair statistics

  predicate SameParent(d: PairDetail) { d.sameParent }
  predicate DifferentParent(d: PairDetail) { !d.sameParent }
  predicate BothForward(d: PairDetail) { d.directionI == Forward && d.directionJ == Forward }
  predicate BothBackward(d: PairDetail) { d.directionI == Backward && d.directionJ == Backward }
  predicate NotBothForward(d: PairDetail) { !BothForward(d) }
  predicate Mixed(d: PairDetail) { !BothForward(d) && !BothBackward(d) }

  function DetailDistances(ds: seq<PairDetail>): (s: seq<real>)
    ensures |s| == |ds| && forall p :: 0 <= p < |ds| ==> s[p] == ds[p].distance
  {
    seq(|ds|, p requires 0 <= p < |ds| => ds[p].distance)
  }

  function DetailTimes(ds: seq<PairDetail>): (s: seq<real>)
    ensures |s| == |ds| && forall p :: 0 <= p < |ds| ==> s[p] == ds[p].meetingTime
  {
    seq(|ds|, p requires 0 <= p < |ds| => ds[p].meetingTime)
  }

  /** `analyze_pair_statistics`; no details give `{'total_pairs': 0}`. */
  datatype PairStatistics =
    | NoPairStatistics
    | PairStatistics(
        totalPairs: nat, sameParentPairs: nat, differentParentPairs: nat,
        forwardForwardPairs: nat, backwardBackwardPairs: nat, forwardBackwardPairs: nat,
        avgMeetingTime: real, minMeetingTime: real, maxMeetingTime: real,
        avgDistance: real, minDistance: real, maxDistance: real)

  /** Every pair falls in exactly one parent bucket and one direction bucket
      (forward-backward takes every mixed pair); the averages are the means,
      and the extremes are reached by some pair and bound every pair. */
  function AnalyzePairStatistics(ds: seq<PairDetail>): (s: PairStatistics)
    ensures s.NoPairStatistics? <==> |ds| == 0
    ensures s.PairStatistics? ==>
      s.totalPairs == |ds|
      && s.sameParentPairs == CountIf(ds, SameParent)
      && s.forwardForwardPairs == CountIf(ds, BothForward)
      && s.backwardBackwardPairs == CountIf(ds, BothBackward)
      && s.sameParentPairs + s.differentParentPairs == s.totalPairs
      && s.forwardForwardPairs + s.backwardBackwardPairs + s.forwardBackwardPairs == s.totalPairs
      && s.minMeetingTime <= s.avgMeetingTime <= s.maxMeetingTime
      && s.minDistance <= s.avgDistance <= s.maxDistance
      && (forall p :: 0 <= p < |ds| ==>
            s.minDistance <= ds[p].distance <= s.maxDistance
            && s.minMeetingTime <= ds[p].meetingTime <= s.maxMeetingTime)
    ensures s.PairStatistics? ==>
      s.avgDistance == Sum(DetailDistances(ds)) / (|ds| as real)
      && s.avgMeetingTime == Sum(DetailTimes(ds)) / (|ds| as real)
      && (exists p :: 0 <= p < |ds| && s.minDistance == ds[p].distance)
      && (exists p :: 0 <= p < |ds| && s.maxDistance == ds[p].distance)
      && (exists p :: 0 <= p < |ds| && s.minMeetingTime == ds[p].meetingTime)
      && (exists p :: 0 <= p < |ds| && s.maxMeetingTime == ds[p].meetingTime)
  {
    if |ds| == 0 then NoPairStatistics
    else
      var d, t := DetailDistances(ds), DetailTimes(ds);
      MeanBetween(d);
      MeanBetween(t);
      CountIfSplit(ds, SameParent, DifferentParent);
      CountIfSplit(ds, BothForward, NotBothForward);
      CountIfUnion(ds, BothBackward, Mixed, NotBothForward);
      var n := |ds| as real;
      PairStatistics(
        |ds|, CountIf(ds, SameParent), CountIf(ds, DifferentParent),
        CountIf(ds, BothForward), CountIf(ds, BothBackward), CountIf(ds, Mixed),
        Sum(t) / n, MinOf(t), MaxOf(t),
        Sum(d) / n, MinOf(d), MaxOf(d))
  }
}

=== FILE: pipeline.dfy ===
/** `find_optimal_pairs` of the old pipeline. The stages, in order:
    - the input guards;
    - closing rates;
    - converging pairs;
    - optimisation of every converging pair, with adaptive dt bounds and a
      distance ceiling;
    - NaN tables filled from the optimisations that succeeded (read back
      through the pair names);
    - the chronology by meeting time;
    - the ultra-close greedy pairing.
    A stage that finds nothing, or raises, ends the run with `None`. */
module OldPipeline {
  import opened Common
  import opened Seqs
  import opened SporeTree
  import opened Convergence
  import opened Converging
  import opened Optimize
  import opened Tables
  import opened BuildTables
  import opened Meetings
  import opened Chronology
  import opened Pairing

  /** The distance ceiling and the adaptive dt bounds of stage 3. The
      pipeline derives them once, and the pair optimiser derives them again,
      from the same children. */
  datatype Limits = Limits(constraint: real, bounds: Interval)

  /** Stage 3's preamble. `min()` and `max()` of the empty list of children
      raise, so the run ends there when there are no children. */
  function StageLimits(root: Vec2, cs: seq<Child>, norm: Norm): (r: Option<Limits>)
    ensures r.None? <==> |cs| == 0
    ensures r.Some? ==>
      && (forall k :: 0 <= k < |cs| ==> 10.0 * r.value.constraint <= norm(Sub(cs[k].position, root)))
      && (exists k :: 0 <= k < |cs| && 10.0 * r.value.constraint == norm(Sub(cs[k].position, root)))
      && r.value.bounds.lo == 0.001
      && (forall k :: 0 <= k < |cs| ==> 2.0 * Abs(cs[k].dt) <= r.value.bounds.hi)
      && (exists k :: 0 <= k < |cs| && r.value.bounds.hi == 2.0 * Abs(cs[k].dt))
  {
    match (DistanceConstraint(Some(root), cs, norm), AdaptiveBounds(None, cs))
    case (Ok(Some(d)), Ok(b)) => Some(Limits(d, b))
    case _ => None
  }

  /** `optimize_grandchild_pair_distance(i, j, ..., dt_bounds=None,
      root_position=root)` of src/pairs: the multi-method optimiser that
      ignores the solver's `success` flag. With the ceiling always present,
      every success passes it. */
  function GcResult(gcs: seq<Grandchild>, lim: Limits, solver: (nat, nat) -> seq<Outcome>,
                    dist: (nat, nat) -> (real, real) -> real, a: nat, b: nat): (r: PairResult)
    requires a < |gcs| && b < |gcs|
    ensures Passing(r) <==> r.PairSuccess?
    ensures r.PairSuccess? ==> r.minDistance == dist(a, b)(r.dtI, r.dtJ) <= lim.constraint
  {
    OptimizePairLenient(gcs[a].dt, gcs[b].dt, lim.bounds, Some(lim.constraint), solver(a, b), dist(a, b))
  }

  /** `r['success'] and r.get('passes_constraint', True)`. */
  predicate Passing(r: PairResult)
  {
    r.PairSuccess? && PassesConstraint(r)
  }

  /** `optimize_grandchild_parent_distance(g, q, ..., dt_bounds=None)`. */
  function ParentResultOf(gcs: seq<Grandchild>, cs: seq<Child>, solver: (nat, nat) -> ScalarOutcome,
                          g: nat, q: nat): Result<ParentResult, OptError>
    requires g < |gcs|
  {
    OptimizeParentChecked(gcs[g].dt, None, cs, solver(g, q))
  }

  /** `r['success']` of a grandchild-parent result. */
  predicate ParentSucceeded(r: Result<ParentResult, OptError>)
  {
    r.Ok? && r.value.ParentSuccess?
  }

  /** What the run records for grandchild pair (a, c), a < c: the pair
      closes faster than 1e-6, and its optimisation succeeds within the
      ceiling. The record holds the optimised distance and times. */
  function OldGcMeet(p: Pendulum, norm: Norm, gcs: seq<Grandchild>, lim: Limits,
                     solver: (nat, nat) -> seq<Outcome>, dist: (nat, nat) -> (real, real) -> real)
    : (nat, nat) -> Option<GcMeet>
  {
    (a: nat, c: nat) =>
      if a < c < |gcs| && GcRate(p, norm, gcs, a, c) < ConvergingRate
         && Passing(GcResult(gcs, lim, solver, dist, a, c))
      then
        var res := GcResult(gcs, lim, solver, dist, a, c);
        Some(GcMeet(a, c, res.minDistance, res.dtI, res.dtJ))
      else None
  }

  /** What the run records for grandchild g and parent q. The conditions:
      - q is not g's own parent;
      - g closes on the static parent q faster than 1e-6;
      - the bounded scalar optimisation succeeds. */
  function OldParentMeet(p: Pendulum, norm: Norm, gcs: seq<Grandchild>, cs: seq<Child>,
                         solver: (nat, nat) -> ScalarOutcome): (nat, nat) -> Option<ParentMeet>
  {
    (g: nat, q: nat) =>
      if g < |gcs| && q < |cs| && q != gcs[g].parentIdx
         && ParentRate(p, norm, gcs[g], cs[q].position, Vec2(0.0, 0.0)) < ConvergingRate
         && ParentSucceeded(ParentResultOf(gcs, cs, solver, g, q))
      then
        var res := ParentResultOf(gcs, cs, solver, g, q).value;
        Some(ParentMeet(g, q, res.minDistance, res.dt))
      else None
  }

  /** Nothing was recorded for any pair. */
  ghost predicate NothingRecorded(n: nat, cols: nat, gm: (nat, nat) -> Option<GcMeet>,
                                  pm: (nat, nat) -> Option<ParentMeet>)
  {
    (forall a, c :: 0 <= a < c < n ==> gm(a, c).None?)
    && (forall g, q :: 0 <= g < n && 0 <= q < cols ==> pm(g, q).None?)
  }

  /** c is the chronology the records produce. Grandchild g's list holds
      exactly its recorded meetings. The list is ordered by meeting time,
      and ties keep scan order. */
  ghost predicate TimeChronology(c: seq<seq<Meeting>>, n: nat, cols: nat, gcs: seq<Grandchild>,
                                 gm: (nat, nat) -> Option<GcMeet>, pm: (nat, nat) -> Option<ParentMeet>)
    requires n == |gcs|
  {
    && |c| == n
    && (forall g, m :: 0 <= g < n ==> (m in c[g] <==> Expected(n, cols, gcs, gm, pm, g, m)))
    && (forall g, i, j :: 0 <= g < n && 0 <= i < j < |c[g]| ==> TimeFirst(n, c[g][i], c[g][j]))
  }

  // ----- stage 4: the tables, indices read back from the pair names -----

  /** The grandchild loop of stage 4. For each result it:
      - parses the two indices back out of the pair's name;
      - records a successful result that passes the ceiling;
      - counts the cells it fills.
      The count equals stage 3's `gc_gc_constraint_pass`. */
  method RecordGcResults(n: nat, pairs: seq<ConvergingPair>, results: seq<PairResult>,
                         meet: (nat, nat) -> Option<GcMeet>)
    returns (ms: seq<GcMeet>, filled: nat)
    requires |results| == |pairs|
    requires forall k :: 0 <= k < |pairs| ==> pairs[k].a < pairs[k].b < n
    requires MeetsItsPair(meet)
    requires forall k :: 0 <= k < |pairs| ==>
      meet(pairs[k].a, pairs[k].b) ==
        (if Passing(results[k])
         then Some(GcMeet(pairs[k].a, pairs[k].b, results[k].minDistance, results[k].dtI, results[k].dtJ))
         else None)
    ensures ms == GcMeetsOf(n, pairs, meet)
    ensures filled == |ms| == CountIf(results, Passing)
  {
    ms, filled := [], 0;
    for k := 0 to |pairs|
      invariant ms == GcMeetsOf(n, pairs[..k], meet)
      invariant filled == |ms| == CountIf(results[..k], Passing)
    {
      var name := GcPairName(pairs[k].a, pairs[k].b);
      PairNameRoundTrip(pairs[k].a, pairs[k].b);
      var ij := ParsePairName(name).value;
      var res := results[k];
      RecordGcStep(n, pairs, results, meet, k);
      if res.PairSuccess? && PassesConstraint(res) {
        ms := ms + [GcMeet(ij.0, ij.1, res.minDistance, res.dtI, res.dtJ)];
        filled := filled + 1;
      }
    }
    assert pairs[..|pairs|] == pairs;
    assert results[..|results|] == results;
  }

  /** One step of the grandchild loop: result k extends the records by its
      pair's meeting, and the count by one, exactly when it passes. */
  lemma RecordGcStep(n: nat, pairs: seq<ConvergingPair>, results: seq<PairResult>,
                     meet: (nat, nat) -> Option<GcMeet>, k: nat)
    requires |results| == |pairs| && k < |pairs|
    requires forall l :: 0 <= l < |pairs| ==> pairs[l].a < pairs[l].b < n
    requires MeetsItsPair(meet)
    requires meet(pairs[k].a, pairs[k].b) ==
      (if Passing(results[k])
       then Some(GcMeet(pairs[k].a, pairs[k].b, results[k].minDistance, results[k].dtI, results[k].dtJ))
       else None)
    ensures var r := results[k];
      GcMeetsOf(n, pairs[..k + 1], meet) == GcMeetsOf(n, pairs[..k], meet)
        + (if Passing(r) then [GcMeet(pairs[k].a, pairs[k].b, r.minDistance, r.dtI, r.dtJ)] else [])
    ensures CountIf(results[..k + 1], Passing) == CountIf(results[..k], Passing) + (if Passing(results[k]) then 1 else 0)
  {
    GcMeetsOfStep(n, pairs, meet, k);
    assert results[..k + 1] == results[..k] + [results[k]];
    CountIfSnoc(results[..k], results[k], Passing);
  }

  /** One step of the grandchild-parent loop. */
  lemma RecordParentStep(n: nat, cols: nat, pairs: seq<ConvergingPair>,
                         results: seq<Result<ParentResult, OptError>>,
                         meet: (nat, nat) -> Option<ParentMeet>, k: nat)
    requires |results| == |pairs| && k < |pairs|
    requires forall l :: 0 <= l < |pairs| ==> pairs[l].a < n && pairs[l].b < cols
    requires ParentMeetsItsPair(meet)
    requires meet(pairs[k].a, pairs[k].b) ==
      (if ParentSucceeded(results[k])
       then Some(ParentMeet(pairs[k].a, pairs[k].b, results[k].value.minDistance, results[k].value.dt))
       else None)
    ensures var r := results[k];
      ParentMeetsOf(n, cols, pairs[..k + 1], meet) == ParentMeetsOf(n, cols, pairs[..k], meet)
        + (if ParentSucceeded(r) then [ParentMeet(pairs[k].a, pairs[k].b, r.value.minDistance, r.value.dt)] else [])
    ensures CountIf(results[..k + 1], ParentSucceeded) ==
      CountIf(results[..k], ParentSucceeded) + (if ParentSucceeded(results[k]) then 1 else 0)
  {
    ParentMeetsOfStep(n, cols, pairs, meet, k);
    assert results[..k + 1] == results[..k] + [results[k]];
    CountIfSnoc(results[..k], results[k], ParentSucceeded);
  }

  /** The grandchild-parent loop of stage 4. It records every successful
      result at the indices parsed from its name. The count equals stage
      3's `gc_parent_success`. */
  method RecordParentResults(n: nat, cols: nat, pairs: seq<ConvergingPair>,
                             results: seq<Result<ParentResult, OptError>>,
                             meet: (nat, nat) -> Option<ParentMeet>)
    returns (ms: seq<ParentMeet>, filled: nat)
    requires |results| == |pairs|
    requires forall k :: 0 <= k < |pairs| ==> pairs[k].a < n && pairs[k].b < cols
    requires ParentMeetsItsPair(meet)
    requires forall k :: 0 <= k < |pairs| ==>
      meet(pairs[k].a, pairs[k].b) ==
        (if ParentSucceeded(results[k])
         then Some(ParentMeet(pairs[k].a, pairs[k].b, results[k].value.minDistance, results[k].value.dt))
         else None)
    ensures ms == ParentMeetsOf(n, cols, pairs, meet)
    ensures filled == |ms| == CountIf(results, ParentSucceeded)
  {
    ms, filled := [], 0;
    for k := 0 to |pairs|
      invariant ms == ParentMeetsOf(n, cols, pairs[..k], meet)
      invariant filled == |ms| == CountIf(results[..k], ParentSucceeded)
    {
      var name := ParentPairName(pairs[k].a, pairs[k].b);
      PairNameRoundTrip(pairs[k].a, pairs[k].b);
      var gq := ParsePairName(name).value;
      var res := results[k];
      RecordParentStep(n, cols, pairs, results, meet, k);
      if res.Ok? && res.value.ParentSuccess? {
        ms := ms + [ParentMeet(gq.0, gq.1, res.value.minDistance, res.value.dt)];
        filled := filled + 1;
      }
    }
    assert pairs[..|pairs|] == pairs;
    assert results[..|results|] == results;
  }

  /** Stage 3's grandchild results, one per converging pair. */
  function GcResults(gcs: seq<Grandchild>, lim: Limits, solver: (nat, nat) -> seq<Outcome>,
                     dist: (nat, nat) -> (real, real) -> real, pairs: seq<ConvergingPair>)
    : (rs: seq<PairResult>)
    requires forall k :: 0 <= k < |pairs| ==> pairs[k].a < |gcs| && pairs[k].b < |gcs|
    ensures |rs| == |pairs|
    ensures forall k :: 0 <= k < |pairs| ==> rs[k] == GcResult(gcs, lim, solver, dist, pairs[k].a, pairs[k].b)
  {
    seq(|pairs|, k requires 0 <= k < |pairs| => GcResult(gcs, lim, solver, dist, pairs[k].a, pairs[k].b))
  }

  /** Stage 3's grandchild-parent results, one per converging pair. */
  function ParentResults(gcs: seq<Grandchild>, cs: seq<Child>, solver: (nat, nat) -> ScalarOutcome,
                         pairs: seq<ConvergingPair>): (rs: seq<Result<ParentResult, OptError>>)
    requires forall k :: 0 <= k < |pairs| ==> pairs[k].a < |gcs|
    ensures |rs| == |pairs|
    ensures forall k :: 0 <= k < |pairs| ==> rs[k] == ParentResultOf(gcs, cs, solver, pairs[k].a, pairs[k].b)
  {
    seq(|pairs|, k requires 0 <= k < |pairs| => ParentResultOf(gcs, cs, solver, pairs[k].a, pairs[k].b))
  }

  /** The closing rates and the converging pairs of stages 1 and 2, as the
      table fill needs them. */
  ghost predicate GcRatesAndPairs(p: Pendulum, norm: Norm, gcs: seq<Grandchild>,
                                  rates: seq<seq<real>>, pairs: seq<ConvergingPair>)
  {
    && IsTable(rates, |gcs|, |gcs|)
    && (forall a, c :: 0 <= a < c < |gcs| ==> rates[a][c] == GcRate(p, norm, gcs, a, c))
    && (forall k :: 0 <= k < |pairs| ==> pairs[k].a < pairs[k].b < |gcs|)
    && (forall a, c :: 0 <= a < c < |gcs| ==> (HasPair(pairs, a, c) <==> rates[a][c] < ConvergingRate))
  }

  lemma GcMeetsItsPair(p: Pendulum, norm: Norm, gcs: seq<Grandchild>, lim: Limits,
                       solver: (nat, nat) -> seq<Outcome>, dist: (nat, nat) -> (real, real) -> real)
    ensures MeetsItsPair(OldGcMeet(p, norm, gcs, lim, solver, dist))
  {
  }

  lemma ParentMeetIsItsPair(p: Pendulum, norm: Norm, gcs: seq<Grandchild>, cs: seq<Child>,
                            solver: (nat, nat) -> ScalarOutcome)
    ensures ParentMeetsItsPair(OldParentMeet(p, norm, gcs, cs, solver))
  {
  }

  /** A converging pair is recorded exactly when its result passes. */
  lemma GcRecordsAtPairs(p: Pendulum, norm: Norm, gcs: seq<Grandchild>, lim: Limits,
                         solver: (nat, nat) -> seq<Outcome>, dist: (nat, nat) -> (real, real) -> real,
                         rates: seq<seq<real>>, pairs: seq<ConvergingPair>)
    requires GcRatesAndPairs(p, norm, gcs, rates, pairs)
    ensures forall k :: 0 <= k < |pairs| ==>
      var rs := GcResults(gcs, lim, solver, dist, pairs);
      OldGcMeet(p, norm, gcs, lim, solver, dist)(pairs[k].a, pairs[k].b) ==
        (if Passing(rs[k])
         then Some(GcMeet(pairs[k].a, pairs[k].b, rs[k].minDistance, rs[k].dtI, rs[k].dtJ))
         else None)
  {
    forall k | 0 <= k < |pairs|
      ensures OldGcMeet(p, norm, gcs, lim, solver, dist)(pairs[k].a, pairs[k].b) ==
        var rs := GcResults(gcs, lim, solver, dist, pairs);
        (if Passing(rs[k])
         then Some(GcMeet(pairs[k].a, pairs[k].b, rs[k].minDistance, rs[k].dtI, rs[k].dtJ))
         else None)
    {
      assert HasPair(pairs, pairs[k].a, pairs[k].b);
    }
  }

  /** A converging grandchild-parent pair is recorded exactly when its result succeeds. */
  lemma ParentRecordsAtPairs(p: Pendulum, norm: Norm, gcs: seq<Grandchild>, cs: seq<Child>,
                             solver: (nat, nat) -> ScalarOutcome, rates: seq<seq<Cell>>, pairs: seq<ConvergingPair>)
    requires ParentRatesAndPairs(p, norm, gcs, cs, StaticVelocities(|cs|), rates, pairs)
    ensures forall k :: 0 <= k < |pairs| ==>
      var rs := ParentResults(gcs, cs, solver, pairs);
      OldParentMeet(p, norm, gcs, cs, solver)(pairs[k].a, pairs[k].b) ==
        (if ParentSucceeded(rs[k])
         then Some(ParentMeet(pairs[k].a, pairs[k].b, rs[k].value.minDistance, rs[k].value.dt))
         else None)
  {
    forall k | 0 <= k < |pairs|
      ensures OldParentMeet(p, norm, gcs, cs, solver)(pairs[k].a, pairs[k].b) ==
        var rs := ParentResults(gcs, cs, solver, pairs);
        (if ParentSucceeded(rs[k])
         then Some(ParentMeet(pairs[k].a, pairs[k].b, rs[k].value.minDistance, rs[k].value.dt))
         else None)
    {
      assert HasPair(pairs, pairs[k].a, pairs[k].b);
      assert StaticVelocities(|cs|)[pairs[k].b] == Vec2(0.0, 0.0);
    }
  }

  /** The grandchild tables filled from the converging pairs hold exactly the
      run's records, and are consistent. */
  lemma OldGcTables(p: Pendulum, norm: Norm, gcs: seq<Grandchild>, lim: Limits,
                    solver: (nat, nat) -> seq<Outcome>, dist: (nat, nat) -> (real, real) -> real,
                    rates: seq<seq<real>>, pairs: seq<ConvergingPair>)
    requires GcRatesAndPairs(p, norm, gcs, rates, pairs)
    ensures MeetsItsPair(OldGcMeet(p, norm, gcs, lim, solver, dist))
    ensures GcTablesRecord(FillGc(|gcs|, GcMeetsOf(|gcs|, pairs, OldGcMeet(p, norm, gcs, lim, solver, dist))),
                           |gcs|, OldGcMeet(p, norm, gcs, lim, solver, dist))
  {
    var gm := OldGcMeet(p, norm, gcs, lim, solver, dist);
    GcMeetsItsPair(p, norm, gcs, lim, solver, dist);
    forall a, c | 0 <= a < c < |gcs|
      ensures gm(a, c) == (if HasPair(pairs, a, c) then gm(a, c) else None)
    {
    }
    FillRecords(|gcs|, pairs, gm, gm);
  }

  /** The grandchild-parent tables filled from the converging pairs hold
      exactly the run's records. */
  lemma OldParentTables(p: Pendulum, norm: Norm, gcs: seq<Grandchild>, cs: seq<Child>,
                        solver: (nat, nat) -> ScalarOutcome, rates: seq<seq<Cell>>, pairs: seq<ConvergingPair>)
    requires ParentRatesAndPairs(p, norm, gcs, cs, StaticVelocities(|cs|), rates, pairs)
    ensures ParentMeetsItsPair(OldParentMeet(p, norm, gcs, cs, solver))
    ensures ParentTablesRecord(
      FillParent(|gcs|, |cs|, ParentMeetsOf(|gcs|, |cs|, pairs, OldParentMeet(p, norm, gcs, cs, solver))),
      |gcs|, |cs|, OldParentMeet(p, norm, gcs, cs, solver))
  {
    var pm := OldParentMeet(p, norm, gcs, cs, solver);
    ParentMeetIsItsPair(p, norm, gcs, cs, solver);
    ParentFillFromPairs(|gcs|, |cs|, pairs, pm);
    var t := FillParent(|gcs|, |cs|, ParentMeetsOf(|gcs|, |cs|, pairs, pm));
    forall g, q | 0 <= g < |gcs| && 0 <= q < |cs|
      ensures t.distance[g][q].Some? <==> pm(g, q).Some?
    {
      if pm(g, q).Some? {
        assert StaticVelocities(|cs|)[q] == Vec2(0.0, 0.0);
      }
    }
  }

  // ----- stages 1 and 2 -----

  /** Closing rates and converging pairs for both kinds of pair. */
  method ConvergingPairs(p: Pendulum, norm: Norm, gcs: seq<Grandchild>, cs: seq<Child>)
    returns (gcRates: seq<seq<real>>, gcPairs: seq<ConvergingPair>,
             parentRates: seq<seq<Cell>>, parentPairs: seq<ConvergingPair>)
    ensures GcRatesAndPairs(p, norm, gcs, gcRates, gcPairs)
    ensures ParentRatesAndPairs(p, norm, gcs, cs, StaticVelocities(|cs|), parentRates, parentPairs)
  {
    gcRates := GrandchildRateTable(p, norm, gcs);
    parentRates := ParentRateTable(p, norm, gcs, ChildPositionsOf(cs), StaticVelocities(|cs|));
    gcPairs := FindConvergingGcPairs(gcRates);
    parentPairs := FindConvergingParentPairs(parentRates, |cs|);
  }

  // ----- the pipeline -----

  /** The answer a successful run returns. The pairs are non-empty. There
      is a chronology of the records that they are the ultra-close greedy
      matching of. */
  ghost predicate OldAnswer(n: nat, cols: nat, gcs: seq<Grandchild>, gm: (nat, nat) -> Option<GcMeet>,
                            pm: (nat, nat) -> Option<ParentMeet>, ps: seq<Pair>)
    requires n == |gcs|
  {
    |ps| > 0
    && exists c :: TimeChronology(c, n, cols, gcs, gm, pm) && GreedyMatching(c, SelectFn(UltraClose), ps)
  }

  /** A meeting in the chronology has a record behind it. */
  lemma MeetingHasRecord(c: seq<seq<Meeting>>, n: nat, cols: nat, gcs: seq<Grandchild>,
                         gm: (nat, nat) -> Option<GcMeet>, pm: (nat, nat) -> Option<ParentMeet>, g: nat)
    requires n == |gcs| && TimeChronology(c, n, cols, gcs, gm, pm)
    requires g < n && |c[g]| > 0
    ensures !NothingRecorded(n, cols, gm, pm)
  {
    var m := c[g][0];
    assert Expected(n, cols, gcs, gm, pm, g, m);
    match m.partner
    case GcPartner(o) =>
      var k := PairKey(g, o);
      assert 0 <= k.0 < k.1 < n && gm(k.0, k.1).Some?;
    case ParentPartner(q) =>
      assert 0 <= q < cols && pm(g, q).Some?;
  }

  /** The records have one chronology: its lists hold exactly the recorded
      meetings, and the time order with scan-order ties fixes their order. */
  lemma TimeChronologyUnique(c: seq<seq<Meeting>>, d: seq<seq<Meeting>>, n: nat, cols: nat,
                             gcs: seq<Grandchild>, gm: (nat, nat) -> Option<GcMeet>,
                             pm: (nat, nat) -> Option<ParentMeet>)
    requires n == |gcs|
    requires TimeChronology(c, n, cols, gcs, gm, pm) && TimeChronology(d, n, cols, gcs, gm, pm)
    ensures c == d
  {
    forall g | 0 <= g < n
      ensures c[g] == d[g]
    {
      StrictlySortedUnique(c[g], d[g], (a, b) => TimeFirst(n, a, b));
    }
  }

  /** The records' chronology has a non-empty ultra-close greedy matching. */
  ghost predicate MatchingNonEmpty(n: nat, cols: nat, gcs: seq<Grandchild>,
                                   gm: (nat, nat) -> Option<GcMeet>, pm: (nat, nat) -> Option<ParentMeet>)
    requires n == |gcs|
  {
    exists c, ps :: TimeChronology(c, n, cols, gcs, gm, pm) && GreedyMatching(c, SelectFn(UltraClose), ps)
                    && |ps| > 0
  }

  /** The matching of any chronology of the records decides MatchingNonEmpty,
      since both the chronology and the matching are unique. */
  lemma MatchingDetermined(c: seq<seq<Meeting>>, ps: seq<Pair>, n: nat, cols: nat, gcs: seq<Grandchild>,
                           gm: (nat, nat) -> Option<GcMeet>, pm: (nat, nat) -> Option<ParentMeet>)
    requires n == |gcs| && TimeChronology(c, n, cols, gcs, gm, pm)
    requires GreedyMatching(c, SelectFn(UltraClose), ps)
    ensures MatchingNonEmpty(n, cols, gcs, gm, pm) <==> |ps| > 0
  {
    if MatchingNonEmpty(n, cols, gcs, gm, pm) {
      var d: seq<seq<Meeting>>, qs: seq<Pair> :| TimeChronology(d, n, cols, gcs, gm, pm) && GreedyMatching(d, SelectFn(UltraClose), qs)
                   && |qs| > 0;
      TimeChronologyUnique(c, d, n, cols, gcs, gm, pm);
      GreedyMatchingUnique(c, SelectFn(UltraClose), ps, qs);
    }
  }

  /** A grandchild meeting of g with o is mirrored by one of o with g. */
  lemma MirrorMeeting(c: seq<seq<Meeting>>, n: nat, cols: nat, gcs: seq<Grandchild>,
                      gm: (nat, nat) -> Option<GcMeet>, pm: (nat, nat) -> Option<ParentMeet>, g: nat, m: Meeting)
    requires n == |gcs| && TimeChronology(c, n, cols, gcs, gm, pm)
    requires g < n && m in c[g] && m.partner.GcPartner?
    ensures m.partner.idx < n && m.partner.idx != g
    ensures Meeting(GcPartner(g), m.distance, m.timePartner.value, Some(m.timeGc)) in c[m.partner.idx]
  {
    var o := m.partner.idx;
    assert Expected(n, cols, gcs, gm, pm, g, m);
    assert PairKey(o, g) == PairKey(g, o);
    assert Expected(n, cols, gcs, gm, pm, o, Meeting(GcPartner(g), m.distance, m.timePartner.value, Some(m.timeGc)));
  }

  /** A non-empty matching needs a grandchild meeting seen from both sides. */
  lemma MatchingNeedsTwoGcMeetings(c: seq<seq<Meeting>>, n: nat, cols: nat, gcs: seq<Grandchild>,
                                   gm: (nat, nat) -> Option<GcMeet>, pm: (nat, nat) -> Option<ParentMeet>)
    requires n == |gcs| && TimeChronology(c, n, cols, gcs, gm, pm)
    requires MatchingNonEmpty(n, cols, gcs, gm, pm)
    ensures CountMeetings(c, IsGcMeeting) >= 2
  {
    var d: seq<seq<Meeting>>, ps: seq<Pair> :| TimeChronology(d, n, cols, gcs, gm, pm) && GreedyMatching(d, SelectFn(UltraClose), ps)
                 && |ps| > 0;
    TimeChronologyUnique(c, d, n, cols, gcs, gm, pm);
    var g := ps[0].i;
    assert g < |c| && ChosenAt(c, SelectFn(UltraClose), ps, 0);
    var k := SelectFn(UltraClose)(c[g], UsedBefore(ps, g)).value;
    var m := c[g][k];
    assert m in c[g] && IsGcMeeting(m);
    MirrorMeeting(c, n, cols, gcs, gm, pm, g, m);
    var o := m.partner.idx;
    var m' := Meeting(GcPartner(g), m.distance, m.timePartner.value, Some(m.timeGc));
    assert m' in c[o] && IsGcMeeting(m');
    CountIfPositive(c[g], IsGcMeeting);
    CountIfPositive(c[o], IsGcMeeting);
    CountMeetingsTwoLists(c, IsGcMeeting, g, o);
  }

  /** Without records every list is empty, so no pair can form. */
  lemma NothingRecordedNoMatching(n: nat, cols: nat, gcs: seq<Grandchild>,
                                  gm: (nat, nat) -> Option<GcMeet>, pm: (nat, nat) -> Option<ParentMeet>)
    requires n == |gcs| && NothingRecorded(n, cols, gm, pm)
    ensures !MatchingNonEmpty(n, cols, gcs, gm, pm)
  {
    if MatchingNonEmpty(n, cols, gcs, gm, pm) {
      var c: seq<seq<Meeting>>, ps: seq<Pair> :| TimeChronology(c, n, cols, gcs, gm, pm) && GreedyMatching(c, SelectFn(UltraClose), ps)
                   && |ps| > 0;
      assert ps[0].i < |c| && ChosenAt(c, SelectFn(UltraClose), ps, 0);
      MeetingHasRecord(c, n, cols, gcs, gm, pm, ps[0].i);
    }
  }

  /** Stages 5 and 6 on the filled tables. The run continues only when:
      - the chronology holds a grandchild meeting (counted once per pair)
        or a parent meeting;
      - the greedy pass finds a pair. */
  method ChronologyAndPairs(gt: GcTables, pt: ParentTables, n: nat, cols: nat, gcs: seq<Grandchild>,
                            gm: (nat, nat) -> Option<GcMeet>, pm: (nat, nat) -> Option<ParentMeet>)
    returns (r: Option<seq<Pair>>)
    requires GcTablesRecord(gt, n, gm) && ParentTablesRecord(pt, n, cols, pm) && n == |gcs|
    ensures r.Some? ==> OldAnswer(n, cols, gcs, gm, pm, r.value)
    ensures NothingRecorded(n, cols, gm, pm) ==> r.None?
    ensures r.Some? <==> MatchingNonEmpty(n, cols, gcs, gm, pm)
  {
    ChronologyFromRecords(gt, pt, n, cols, gcs, gm, pm);
    var c := ChronologyByTime(gt, pt, n, cols, gcs);
    assert TimeChronology(c, n, cols, gcs, gm, pm);
    var uniqueGcMeetings := CountMeetings(c, IsGcMeeting) / 2;
    var parentMeetings := CountMeetings(c, IsParentMeeting);
    if uniqueGcMeetings == 0 && parentMeetings == 0 {
      if MatchingNonEmpty(n, cols, gcs, gm, pm) {
        MatchingNeedsTwoGcMeetings(c, n, cols, gcs, gm, pm);
      }
      return None;
    }
    var ps := ExtractPairs(c, UltraClose);
    MatchingDetermined(c, ps, n, cols, gcs, gm, pm);
    if |ps| == 0 {
      return None;
    }
    assert ps[0].i < |c| && ChosenAt(c, SelectFn(UltraClose), ps, 0);
    MeetingHasRecord(c, n, cols, gcs, gm, pm, ps[0].i);
    r := Some(ps);
  }

  /** Stage 4's grandchild tables: filled from the results of the
      converging pairs, they hold exactly the run's records. The number of
      filled pairs is stage 3's `gc_gc_constraint_pass`. */
  method FillGcTables(p: Pendulum, norm: Norm, gcs: seq<Grandchild>, lim: Limits,
                      solver: (nat, nat) -> seq<Outcome>, dist: (nat, nat) -> (real, real) -> real,
                      rates: seq<seq<real>>, pairs: seq<ConvergingPair>)
    returns (gt: GcTables, filled: nat)
    requires GcRatesAndPairs(p, norm, gcs, rates, pairs)
    ensures GcTablesRecord(gt, |gcs|, OldGcMeet(p, norm, gcs, lim, solver, dist))
    ensures filled == CountIf(GcResults(gcs, lim, solver, dist, pairs), Passing)
  {
    var gm := OldGcMeet(p, norm, gcs, lim, solver, dist);
    OldGcTables(p, norm, gcs, lim, solver, dist, rates, pairs);
    GcRecordsAtPairs(p, norm, gcs, lim, solver, dist, rates, pairs);
    var ms;
    ms, filled := RecordGcResults(|gcs|, pairs, GcResults(gcs, lim, solver, dist, pairs), gm);
    gt := FillGc(|gcs|, ms);
  }

  /** Stage 4's grandchild-parent tables: they hold exactly the run's
      records. The number of filled cells is stage 3's `gc_parent_success`. */
  method FillParentTables(p: Pendulum, norm: Norm, gcs: seq<Grandchild>, cs: seq<Child>,
                          solver: (nat, nat) -> ScalarOutcome, rates: seq<seq<Cell>>, pairs: seq<ConvergingPair>)
    returns (pt: ParentTables, filled: nat)
    requires ParentRatesAndPairs(p, norm, gcs, cs, StaticVelocities(|cs|), rates, pairs)
    ensures ParentTablesRecord(pt, |gcs|, |cs|, OldParentMeet(p, norm, gcs, cs, solver))
    ensures filled == CountIf(ParentResults(gcs, cs, solver, pairs), ParentSucceeded)
  {
    var pm := OldParentMeet(p, norm, gcs, cs, solver);
    OldParentTables(p, norm, gcs, cs, solver, rates, pairs);
    ParentRecordsAtPairs(p, norm, gcs, cs, solver, rates, pairs);
    var ms;
    ms, filled := RecordParentResults(|gcs|, |cs|, pairs, ParentResults(gcs, cs, solver, pairs), pm);
    pt := FillParent(|gcs|, |cs|, ms);
  }

  /** A recorded grandchild pair is a converging pair whose result passes. */
  lemma GcRecordHasPassingResult(p: Pendulum, norm: Norm, gcs: seq<Grandchild>, lim: Limits,
                                 solver: (nat, nat) -> seq<Outcome>, dist: (nat, nat) -> (real, real) -> real,
                                 rates: seq<seq<real>>, pairs: seq<ConvergingPair>, a: nat, c: nat)
    requires GcRatesAndPairs(p, norm, gcs, rates, pairs)
    requires a < c < |gcs| && OldGcMeet(p, norm, gcs, lim, solver, dist)(a, c).Some?
    ensures exists k :: 0 <= k < |pairs| && Passing(GcResults(gcs, lim, solver, dist, pairs)[k])
  {
    assert HasPair(pairs, a, c);
    var k :| 0 <= k < |pairs| && pairs[k].a == a && pairs[k].b == c;
    assert GcResults(gcs, lim, solver, dist, pairs)[k] == GcResult(gcs, lim, solver, dist, a, c);
  }

  /** Some grandchild pair passed exactly when a grandchild pair was recorded. */
  lemma GcPassedIffRecorded(p: Pendulum, norm: Norm, gcs: seq<Grandchild>, lim: Limits,
                            solver: (nat, nat) -> seq<Outcome>, dist: (nat, nat) -> (real, real) -> real,
                            rates: seq<seq<real>>, pairs: seq<ConvergingPair>)
    requires GcRatesAndPairs(p, norm, gcs, rates, pairs)
    ensures CountIf(GcResults(gcs, lim, solver, dist, pairs), Passing) > 0 <==>
      exists a, c :: 0 <= a < c < |gcs| && OldGcMeet(p, norm, gcs, lim, solver, dist)(a, c).Some?
  {
    var gm := OldGcMeet(p, norm, gcs, lim, solver, dist);
    var rs := GcResults(gcs, lim, solver, dist, pairs);
    CountIfPositive(rs, Passing);
    if CountIf(rs, Passing) > 0 {
      var k :| 0 <= k < |rs| && Passing(rs[k]);
      GcRecordsAtPairs(p, norm, gcs, lim, solver, dist, rates, pairs);
      assert gm(pairs[k].a, pairs[k].b).Some?;
    }
    if a, c :| 0 <= a < c < |gcs| && gm(a, c).Some? {
      GcRecordHasPassingResult(p, norm, gcs, lim, solver, dist, rates, pairs, a, c);
    }
  }

  /** Some grandchild-parent pair succeeded exactly when one was recorded. */
  lemma ParentSucceededIffRecorded(p: Pendulum, norm: Norm, gcs: seq<Grandchild>, cs: seq<Child>,
                                   solver: (nat, nat) -> ScalarOutcome, rates: seq<seq<Cell>>,
                                   pairs: seq<ConvergingPair>)
    requires ParentRatesAndPairs(p, norm, gcs, cs, StaticVelocities(|cs|), rates, pairs)
    ensures CountIf(ParentResults(gcs, cs, solver, pairs), ParentSucceeded) > 0 <==>
      exists g, q :: 0 <= g < |gcs| && 0 <= q < |cs| && OldParentMeet(p, norm, gcs, cs, solver)(g, q).Some?
  {
    var pm := OldParentMeet(p, norm, gcs, cs, solver);
    var rs := ParentResults(gcs, cs, solver, pairs);
    CountIfPositive(rs, ParentSucceeded);
    if CountIf(rs, ParentSucceeded) > 0 {
      var k :| 0 <= k < |rs| && ParentSucceeded(rs[k]);
      ParentResultIsRecorded(p, norm, gcs, cs, solver, rates, pairs, k);
    }
    if g, q :| 0 <= g < |gcs| && 0 <= q < |cs| && pm(g, q).Some? {
      ParentRecordHasSuccess(p, norm, gcs, cs, solver, rates, pairs, g, q);
    }
  }

  /** A successful grandchild-parent result is recorded at its pair. */
  lemma ParentResultIsRecorded(p: Pendulum, norm: Norm, gcs: seq<Grandchild>, cs: seq<Child>,
                               solver: (nat, nat) -> ScalarOutcome, rates: seq<seq<Cell>>,
                               pairs: seq<ConvergingPair>, k: nat)
    requires ParentRatesAndPairs(p, norm, gcs, cs, StaticVelocities(|cs|), rates, pairs)
    requires k < |pairs| && ParentSucceeded(ParentResults(gcs, cs, solver, pairs)[k])
    ensures pairs[k].a < |gcs| && pairs[k].b < |cs|
    ensures OldParentMeet(p, norm, gcs, cs, solver)(pairs[k].a, pairs[k].b).Some?
  {
    ParentRecordsAtPairs(p, norm, gcs, cs, solver, rates, pairs);
  }

  /** A recorded grandchild-parent pair is a converging pair whose result succeeded. */
  lemma ParentRecordHasSuccess(p: Pendulum, norm: Norm, gcs: seq<Grandchild>, cs: seq<Child>,
                               solver: (nat, nat) -> ScalarOutcome, rates: seq<seq<Cell>>,
                               pairs: seq<ConvergingPair>, g: nat, q: nat)
    requires ParentRatesAndPairs(p, norm, gcs, cs, StaticVelocities(|cs|), rates, pairs)
    requires g < |gcs| && q < |cs| && OldParentMeet(p, norm, gcs, cs, solver)(g, q).Some?
    ensures exists k :: 0 <= k < |pairs| && ParentSucceeded(ParentResults(gcs, cs, solver, pairs)[k])
  {
    assert StaticVelocities(|cs|)[q] == Vec2(0.0, 0.0);
    assert HasPair(pairs, g, q);
    var k :| 0 <= k < |pairs| && pairs[k].a == g && pairs[k].b == q;
    assert ParentResults(gcs, cs, solver, pairs)[k] == ParentResultOf(gcs, cs, solver, g, q);
  }

  /** Stages 3 and 4 after the preamble. The run goes on only when some
      optimisation succeeded (within the ceiling, for a grandchild pair), and
      then only when the tables have a filled cell. The filled tables hold
      exactly the run's records. */
  method OptimiseAndFill(p: Pendulum, norm: Norm, gcs: seq<Grandchild>, cs: seq<Child>, lim: Limits,
                         gcSolver: (nat, nat) -> seq<Outcome>, dist: (nat, nat) -> (real, real) -> real,
                         parentSolver: (nat, nat) -> ScalarOutcome,
                         gcRates: seq<seq<real>>, gcPairs: seq<ConvergingPair>,
                         parentRates: seq<seq<Cell>>, parentPairs: seq<ConvergingPair>)
    returns (r: Option<(GcTables, ParentTables)>)
    requires GcRatesAndPairs(p, norm, gcs, gcRates, gcPairs)
    requires ParentRatesAndPairs(p, norm, gcs, cs, StaticVelocities(|cs|), parentRates, parentPairs)
    ensures r.Some? ==>
      && GcTablesRecord(r.value.0, |gcs|, OldGcMeet(p, norm, gcs, lim, gcSolver, dist))
      && ParentTablesRecord(r.value.1, |gcs|, |cs|, OldParentMeet(p, norm, gcs, cs, parentSolver))
    ensures r.Some? <==> !NothingRecorded(|gcs|, |cs|, OldGcMeet(p, norm, gcs, lim, gcSolver, dist),
                                          OldParentMeet(p, norm, gcs, cs, parentSolver))
  {
    GcPassedIffRecorded(p, norm, gcs, lim, gcSolver, dist, gcRates, gcPairs);
    ParentSucceededIffRecorded(p, norm, gcs, cs, parentSolver, parentRates, parentPairs);
    // stage 3: the optimisations
    var gcPass := CountIf(GcResults(gcs, lim, gcSolver, dist, gcPairs), Passing);
    var parentSuccess := CountIf(ParentResults(gcs, cs, parentSolver, parentPairs), ParentSucceeded);
    if gcPass == 0 && parentSuccess == 0 {
      return None;
    }
    // stage 4: the tables
    var gt, filledGc := FillGcTables(p, norm, gcs, lim, gcSolver, dist, gcRates, gcPairs);
    var pt, filledParent := FillParentTables(p, norm, gcs, cs, parentSolver, parentRates, parentPairs);
    if filledGc == 0 && filledParent == 0 {
      return None;
    }
    r := Some((gt, pt));
  }

  /** `find_optimal_pairs(tree)` of the old pipeline. */
  method FindOptimalPairsOld(p: Pendulum, norm: Norm, t: Tree,
                             gcSolver: (nat, nat) -> seq<Outcome>, dist: (nat, nat) -> (real, real) -> real,
                             parentSolver: (nat, nat) -> ScalarOutcome)
    returns (r: Option<seq<Pair>>)
    ensures !t.childrenCreated || !t.grandchildrenCreated || |t.grandchildren| == 0 || |t.children| == 0
            ==> r.None?
    ensures |t.children| > 0 ==>
      var gcs, n, cols := t.grandchildren, |t.grandchildren|, |t.children|;
      var lim := StageLimits(t.root, t.children, norm).value;
      var gm := OldGcMeet(p, norm, gcs, lim, gcSolver, dist);
      var pm := OldParentMeet(p, norm, gcs, t.children, parentSolver);
      && (NothingRecorded(n, cols, gm, pm) ==> r.None?)
      && (r.Some? ==> OldAnswer(n, cols, gcs, gm, pm, r.value))
      && (r.Some? <==> t.childrenCreated && t.grandchildrenCreated && n > 0
                       && MatchingNonEmpty(n, cols, gcs, gm, pm))
  {
    // input guards
    if !t.childrenCreated || !t.grandchildrenCreated || |t.grandchildren| == 0 {
      return None;
    }
    var gcs, cs := t.grandchildren, t.children;
    // stages 1 and 2: closing rates and converging pairs
    var gcRates, gcPairs, parentRates, parentPairs := ConvergingPairs(p, norm, gcs, cs);
    if |gcPairs| == 0 && |parentPairs| == 0 {
      if |cs| > 0 {
        var lim := StageLimits(t.root, cs, norm).value;
        GcPassedIffRecorded(p, norm, gcs, lim, gcSolver, dist, gcRates, gcPairs);
        ParentSucceededIffRecorded(p, norm, gcs, cs, parentSolver, parentRates, parentPairs);
        NothingRecordedNoMatching(|gcs|, |cs|, gcs, OldGcMeet(p, norm, gcs, lim, gcSolver, dist),
                                  OldParentMeet(p, norm, gcs, cs, parentSolver));
      }
      return None;
    }
    // stage 3's preamble: the ceiling and the adaptive bounds
    var limits := StageLimits(t.root, cs, norm);
    if limits.None? {
      return None;
    }
    var tables := OptimiseAndFill(p, norm, gcs, cs, limits.value, gcSolver, dist, parentSolver,
                                  gcRates, gcPairs, parentRates, parentPairs);
    if tables.None? {
      NothingRecordedNoMatching(|gcs|, |cs|, gcs, OldGcMeet(p, norm, gcs, limits.value, gcSolver, dist),
                                OldParentMeet(p, norm, gcs, cs, parentSolver));
      return None;
    }
    // stages 5 and 6
    r := ChronologyAndPairs(tables.value.0, tables.value.1, |gcs|, |cs|, gcs,
                            OldGcMeet(p, norm, gcs, limits.value, gcSolver, dist),
                            OldParentMeet(p, norm, gcs, cs, parentSolver));
  }
}

=== FILE: seqs.dfy ===
/** Sequence operations the source borrows from Python and numpy:
    sums, counts, `np.roll`, reordering by an index list and `s[:k]`. */
module Seqs {

  function Sum(s: seq<real>): real
  {
    if |s| == 0 then 0.0 else s[0] + Sum(s[1..])
  }

  lemma {:induction false} SumConcat(a: seq<real>, b: seq<real>)
    ensures Sum(a + b) == Sum(a) + Sum(b)
  {
    if |a| == 0 {
      assert a + b == b;
    } else {
      assert (a + b)[1..] == a[1..] + b;
      SumConcat(a[1..], b);
    }
  }

  lemma {:induction false} SumNonNegative(s: seq<real>)
    requires forall i :: 0 <= i < |s| ==> s[i] >= 0.0
    ensures Sum(s) >= 0.0
  {
    if |s| > 0 {
      SumNonNegative(s[1..]);
    }
  }

  /** A sum of non-negative terms is zero exactly when every term is. */
  lemma {:induction false} SumZeroIff(s: seq<real>)
    requires forall i :: 0 <= i < |s| ==> s[i] >= 0.0
    ensures Sum(s) == 0.0 <==> forall i :: 0 <= i < |s| ==> s[i] == 0.0
  {
    if |s| > 0 {
      SumZeroIff(s[1..]);
      SumNonNegative(s[1..]);
      assert forall i :: 1 <= i < |s| ==> s[i] == s[1..][i - 1];
    }
  }

  /** Number of elements satisfying `p`. */
  function CountIf<T>(s: seq<T>, p: T -> bool): nat
  {
    if |s| == 0 then 0 else (if p(s[0]) then 1 else 0) + CountIf(s[1..], p)
  }

  lemma {:induction false} CountIfBound<T>(s: seq<T>, p: T -> bool)
    ensures CountIf(s, p) <= |s|
  {
    if |s| > 0 {
      CountIfBound(s[1..], p);
    }
  }

  /** If `p` implies `q` element-wise, fewer elements satisfy `p`. */
  lemma {:induction false} CountIfMonotone<T>(s: seq<T>, p: T -> bool, q: T -> bool)
    requires forall i :: 0 <= i < |s| ==> (p(s[i]) ==> q(s[i]))
    ensures CountIf(s, p) <= CountIf(s, q)
  {
    if |s| > 0 {
      CountIfMonotone(s[1..], p, q);
    }
  }

  /** `r` holds exactly where one of the exclusive `p` and `q` holds. */
  lemma {:induction false} CountIfUnion<T>(s: seq<T>, p: T -> bool, q: T -> bool, r: T -> bool)
    requires forall i :: 0 <= i < |s| ==> (r(s[i]) <==> p(s[i]) || q(s[i])) && !(p(s[i]) && q(s[i]))
    ensures CountIf(s, p) + CountIf(s, q) == CountIf(s, r)
  {
    if |s| > 0 {
      CountIfUnion(s[1..], p, q, r);
    }
  }

  /** The count is the length exactly when every element satisfies `p`. */
  lemma {:induction false} CountIfAll<T>(s: seq<T>, p: T -> bool)
    ensures CountIf(s, p) == |s| <==> forall i :: 0 <= i < |s| ==> p(s[i])
  {
    if |s| > 0 {
      CountIfAll(s[1..], p);
      CountIfBound(s[1..], p);
      assert forall i :: 1 <= i < |s| ==> s[i] == s[1..][i - 1];
    }
  }

  /** Counting a loop's elements one at a time: appending x adds one when x counts. */
  lemma {:induction false} CountIfSnoc<T>(s: seq<T>, x: T, p: T -> bool)
    ensures CountIf(s + [x], p) == CountIf(s, p) + (if p(x) then 1 else 0)
  {
    if |s| > 0 {
      assert (s + [x])[1..] == s[1..] + [x];
      CountIfSnoc(s[1..], x, p);
    }
  }

  /** Some element counts exactly when the count is positive. */
  lemma {:induction false} CountIfPositive<T>(s: seq<T>, p: T -> bool)
    ensures CountIf(s, p) > 0 <==> exists k :: 0 <= k < |s| && p(s[k])
  {
    if |s| > 0 {
      CountIfPositive(s[1..], p);
      assert forall k :: 1 <= k < |s| ==> s[k] == s[1..][k - 1];
      if CountIf(s[1..], p) > 0 {
        var k :| 0 <= k < |s[1..]| && p(s[1..][k]);
        assert p(s[k + 1]);
      }
    }
  }

  /** A non-empty list whose elements all occur in xs needs a non-empty xs. */
  lemma MembersNeedElements<T>(ys: seq<T>, xs: seq<T>)
    requires forall x :: x in ys ==> x in xs
    ensures |ys| > 0 ==> |xs| > 0
  {
    if |ys| > 0 {
      assert ys[0] in xs;
    }
  }

  /** Two lists with the same elements, each strictly increasing under an
      asymmetric relation, start with the same element. */
  lemma SortedHeadsEqual<T>(xs: seq<T>, ys: seq<T>, lt: (T, T) -> bool)
    requires |xs| > 0
    requires forall x :: x in xs <==> x in ys
    requires forall i, j :: 0 <= i < j < |xs| ==> lt(xs[i], xs[j])
    requires forall i, j :: 0 <= i < j < |ys| ==> lt(ys[i], ys[j])
    requires forall a, b :: a in xs && b in xs ==> !(lt(a, b) && lt(b, a))
    ensures |ys| > 0 && xs[0] == ys[0]
  {
    assert xs[0] in ys;
    var k :| 0 <= k < |ys| && ys[k] == xs[0];
    assert ys[0] in xs;
    var j :| 0 <= j < |xs| && xs[j] == ys[0];
    if j > 0 && k > 0 {
      assert false;
    }
  }

  /** Dropping an equal first element from two strictly increasing lists with
      the same elements leaves tails with the same elements. */
  lemma SortedTailsSameElements<T>(xs: seq<T>, ys: seq<T>, lt: (T, T) -> bool)
    requires |xs| > 0 && |ys| > 0 && xs[0] == ys[0]
    requires forall x :: x in xs <==> x in ys
    requires forall i, j :: 0 <= i < j < |xs| ==> lt(xs[i], xs[j])
    requires forall i, j :: 0 <= i < j < |ys| ==> lt(ys[i], ys[j])
    requires forall a, b :: a in xs && b in xs ==> !(lt(a, b) && lt(b, a))
    ensures forall x :: x in xs[1..] <==> x in ys[1..]
  {
    forall x
      ensures x in xs[1..] <==> x in ys[1..]
    {
      if x in xs[1..] {
        var i :| 1 <= i < |xs| && xs[i] == x;
        assert x != xs[0] by {
          assert lt(xs[0], xs[i]);
        }
        assert x in xs;
        var l :| 0 <= l < |ys| && ys[l] == x;
        assert ys[l] in ys[1..];
      }
      if x in ys[1..] {
        var i :| 1 <= i < |ys| && ys[i] == x;
        assert x != ys[0] by {
          assert lt(ys[0], ys[i]);
          assert ys[0] in xs;
        }
        assert x in ys;
        var l :| 0 <= l < |xs| && xs[l] == x;
        assert xs[l] in xs[1..];
      }
    }
  }

  /** Two lists with the same elements, each strictly increasing under an
      asymmetric relation, are the same list. */
  lemma {:induction false} StrictlySortedUnique<T>(xs: seq<T>, ys: seq<T>, lt: (T, T) -> bool)
    requires forall x :: x in xs <==> x in ys
    requires forall i, j :: 0 <= i < j < |xs| ==> lt(xs[i], xs[j])
    requires forall i, j :: 0 <= i < j < |ys| ==> lt(ys[i], ys[j])
    requires forall a, b :: a in xs && b in xs ==> !(lt(a, b) && lt(b, a))
    ensures xs == ys
  {
    if |xs| > 0 {
      SortedHeadsEqual(xs, ys, lt);
      SortedTailsSameElements(xs, ys, lt);
      var xt, yt := xs[1..], ys[1..];
      assert forall i, j :: 0 <= i < j < |xt| ==> lt(xt[i], xt[j]) by {
        forall i, j | 0 <= i < j < |xt|
          ensures lt(xt[i], xt[j])
        {
          assert xt[i] == xs[i + 1] && xt[j] == xs[j + 1];
        }
      }
      assert forall i, j :: 0 <= i < j < |yt| ==> lt(yt[i], yt[j]) by {
        forall i, j | 0 <= i < j < |yt|
          ensures lt(yt[i], yt[j])
        {
          assert yt[i] == ys[i + 1] && yt[j] == ys[j + 1];
        }
      }
      StrictlySortedUnique(xt, yt, lt);
      assert xs == [xs[0]] + xt && ys == [ys[0]] + yt;
    } else {
      MembersNeedElements(ys, xs);
    }
  }

  /** Every element satisfies exactly one of `p` and `q`: the two counts add up. */
  lemma {:induction false} CountIfSplit<T>(s: seq<T>, p: T -> bool, q: T -> bool)
    requires forall i :: 0 <= i < |s| ==> (p(s[i]) <==> !q(s[i]))
    ensures CountIf(s, p) + CountIf(s, q) == |s|
  {
    if |s| > 0 {
      CountIfSplit(s[1..], p, q);
    }
  }

  /** `np.roll(s, -k)`: element i of the result is s[(i + k) mod |s|]. */
  function RollLeft<T>(s: seq<T>, k: nat): (r: seq<T>)
    requires k <= |s|
    ensures |r| == |s|
    ensures forall i :: 0 <= i < |s| ==> r[i] == s[if i + k < |s| then i + k else i + k - |s|]
    ensures multiset(r) == multiset(s)
  {
    assert s == s[..k] + s[k..];
    s[k..] + s[..k]
  }

  /** `np.roll(s, 1)`: the last element moves to the front. */
  function RollRight1<T>(s: seq<T>): (r: seq<T>)
    requires |s| > 0
    ensures |r| == |s| && r[0] == s[|s| - 1]
    ensures forall i :: 1 <= i < |s| ==> r[i] == s[i - 1]
    ensures multiset(r) == multiset(s)
  {
    assert s == s[..|s| - 1] + [s[|s| - 1]];
    [s[|s| - 1]] + s[..|s| - 1]
  }

  /** Rolling left by k and then right by one is a single left roll by k - 1 (mod n). */
  lemma RollRightAfterLeft<T>(s: seq<T>, k: nat)
    requires k < |s|
    ensures RollRight1(RollLeft(s, k)) == RollLeft(s, if k == 0 then |s| - 1 else k - 1)
  {
    var n := |s|;
    var a := RollLeft(s, k);
    var r := RollRight1(a);
    var e := RollLeft(s, if k == 0 then n - 1 else k - 1);
    forall i | 0 <= i < n
      ensures r[i] == e[i]
    {
      if i > 0 {
        assert r[i] == a[i - 1];
      }
    }
    assert |r| == |e|;
  }

  /** a is a cyclic rotation of b. */
  ghost predicate IsRotation<T>(a: seq<T>, b: seq<T>)
  {
    exists k :: 0 <= k <= |b| && a == RollLeft(b, k)
  }

  /** The records of `xs` in the order given by the index list `o`. */
  function Permute<T>(xs: seq<T>, o: seq<nat>): (r: seq<T>)
    requires forall p :: 0 <= p < |o| ==> o[p] < |xs|
    ensures |r| == |o|
    ensures forall p :: 0 <= p < |o| ==> r[p] == xs[o[p]]
  {
    seq(|o|, p requires 0 <= p < |o| => xs[o[p]])
  }

  /** Python's `s[:k]` for any integer k (a negative k drops |k| elements from the end). */
  function PySliceTo<T>(s: seq<T>, k: int): seq<T>
  {
    if k >= 0 then s[..if k < |s| then k else |s|]
    else s[..if |s| + k > 0 then |s| + k else 0]
  }

  /** `s[:k]` is a prefix of s, of length min(k, |s|) for k >= 0. */
  lemma PySliceToPrefix<T>(s: seq<T>, k: int)
    ensures var r := PySliceTo(s, k);
      && |r| <= |s| && r == s[..|r|]
      && (0 <= k ==> |r| == (if k < |s| then k else |s|))
      && (k < 0 ==> |r| == (if |s| + k > 0 then |s| + k else 0))
  {
  }

  /** Python's `s[k:]` for k >= 0. */
  function PySliceFrom<T>(s: seq<T>, k: nat): (r: seq<T>)
    ensures |s| <= k ==> r == []
    ensures k < |s| ==> |r| == |s| - k && forall i :: 0 <= i < |r| ==> r[i] == s[k + i]
  {
    if k < |s| then s[k..] else []
  }

  /** Python's `s[:k]` and `s[k:]` put back together give s. */
  lemma PySliceSplit<T>(s: seq<T>, k: nat)
    ensures PySliceTo(s, k) + PySliceFrom(s, k) == s
  {
  }

  /** [i for i in range(n) if i not in used] */
  function Complement(n: nat, used: set<nat>): (r: seq<nat>)
    ensures forall i: nat :: i in r <==> i < n && i !in used
    ensures forall p :: 0 <= p < |r| ==> r[p] < n
    ensures forall p, q :: 0 <= p < q < |r| ==> r[p] < r[q]
  {
    if n == 0 then []
    else Complement(n - 1, used) + (if n - 1 in used then [] else [n - 1])
  }

  /** `min(s)` and `max(s)` of a non-empty list. */
  function MinOf(s: seq<real>): (m: real)
    requires |s| > 0
    ensures forall k :: 0 <= k < |s| ==> m <= s[k]
    ensures exists k :: 0 <= k < |s| && m == s[k]
  {
    if |s| == 1 then s[0]
    else
      var rest := MinOf(s[1..]);
      assert forall k :: 1 <= k < |s| ==> s[k] == s[1..][k - 1];
      if s[0] <= rest then s[0] else rest
  }

  function MaxOf(s: seq<real>): (m: real)
    requires |s| > 0
    ensures forall k :: 0 <= k < |s| ==> s[k] <= m
    ensures exists k :: 0 <= k < |s| && m == s[k]
  {
    if |s| == 1 then s[0]
    else
      var rest := MaxOf(s[1..]);
      assert forall k :: 1 <= k < |s| ==> s[k] == s[1..][k - 1];
      if rest <= s[0] then s[0] else rest
  }

  /** A lower bound of every element bounds the sum from below. */
  lemma {:induction false} SumAtLeast(s: seq<real>, lo: real)
    requires forall k :: 0 <= k < |s| ==> lo <= s[k]
    ensures lo * (|s| as real) <= Sum(s)
  {
    if |s| > 0 {
      SumAtLeast(s[1..], lo);
      var n := |s[1..]| as real;
      assert |s| as real == n + 1.0;
      assert lo * (n + 1.0) == lo * n + lo;
    }
  }

  /** An upper bound of every element bounds the sum from above. */
  lemma {:induction false} SumAtMost(s: seq<real>, hi: real)
    requires forall k :: 0 <= k < |s| ==> s[k] <= hi
    ensures Sum(s) <= hi * (|s| as real)
  {
    if |s| > 0 {
      SumAtMost(s[1..], hi);
      var n := |s[1..]| as real;
      assert |s| as real == n + 1.0;
      assert hi * (n + 1.0) == hi * n + hi;
    }
  }

  lemma DivideBounds(lo: real, x: real, hi: real, n: real)
    requires n > 0.0 && lo * n <= x <= hi * n
    ensures lo <= x / n <= hi
  {
  }

  lemma QuotientNonNegative(x: real, n: real)
    requires x >= 0.0 && n > 0.0
    ensures x / n >= 0.0
  {
  }

  /** The mean of a non-empty list lies within any bounds of its elements. */
  lemma MeanWithin(s: seq<real>, lo: real, hi: real)
    requires |s| > 0
    requires forall k :: 0 <= k < |s| ==> lo <= s[k] <= hi
    ensures lo <= Sum(s) / (|s| as real) <= hi
  {
    var n := |s| as real;
    SumAtLeast(s, lo);
    SumAtMost(s, hi);
    DivideBounds(lo, Sum(s), hi, n);
  }

  /** The mean of a non-empty list lies between its minimum and maximum. */
  lemma MeanBetween(s: seq<real>)
    requires |s| > 0
    ensures MinOf(s) <= Sum(s) / (|s| as real) <= MaxOf(s)
  {
    MeanWithin(s, MinOf(s), MaxOf(s));
  }
}

=== FILE: sorting.dfy ===
/** Python's `sorted`/`list.sort` with a key: a STABLE sort. It is modelled as a
    sort of the indices 0..n-1 by a sequence of real keys. A stable ascending
    sort orders indices by the pair (key, index) lexicographically, and
    `reverse=True` keeps equal keys in their original order too, so it orders
    by (-key, index). */
module Sorting {
  import opened Seqs

  predicate InRange(o: seq<nat>, n: nat)
  {
    forall p :: 0 <= p < |o| ==> o[p] < n
  }

  /** Index a precedes index b in a stable ascending sort by `keys`. */
  predicate Before(keys: seq<real>, a: nat, b: nat)
    requires a < |keys| && b < |keys|
  {
    keys[a] < keys[b] || (keys[a] == keys[b] && a < b)
  }

  /** Index a precedes index b in a stable descending sort by `keys`. */
  predicate BeforeDesc(keys: seq<real>, a: nat, b: nat)
    requires a < |keys| && b < |keys|
  {
    keys[a] > keys[b] || (keys[a] == keys[b] && a < b)
  }

  predicate Ordered(keys: seq<real>, o: seq<nat>)
    requires InRange(o, |keys|)
  {
    forall p, q :: 0 <= p < q < |o| ==> Before(keys, o[p], o[q])
  }

  predicate OrderedDesc(keys: seq<real>, o: seq<nat>)
    requires InRange(o, |keys|)
  {
    forall p, q :: 0 <= p < q < |o| ==> BeforeDesc(keys, o[p], o[q])
  }

  /** o lists each of 0..n-1 (and nothing else); with `Ordered` each exactly once. */
  predicate Covers(o: seq<nat>, n: nat)
  {
    |o| == n && InRange(o, n) && forall i: nat :: i < n ==> i in o
  }

  /** The result of a stable ascending sort of n = |keys| records. */
  predicate IsStableOrder(keys: seq<real>, o: seq<nat>)
  {
    Covers(o, |keys|) && Ordered(keys, o)
  }

  /** The result of a stable descending (`reverse=True`) sort. */
  predicate IsStableOrderDesc(keys: seq<real>, o: seq<nat>)
  {
    Covers(o, |keys|) && OrderedDesc(keys, o)
  }

  /** Insert index i, larger than every index already placed, after all
      indices whose key is <= keys[i]. */
  function Insert(keys: seq<real>, o: seq<nat>, i: nat): (r: seq<nat>)
    requires i < |keys| && InRange(o, |keys|) && Ordered(keys, o)
    requires forall p :: 0 <= p < |o| ==> o[p] < i
    ensures |r| == |o| + 1 && InRange(r, |keys|) && Ordered(keys, r)
    ensures forall j :: j in r <==> j in o || j == i
    ensures forall p :: 0 <= p < |r| ==> r[p] <= i
  {
    if |o| == 0 then [i]
    else if keys[i] < keys[o[0]] then [i] + o
    else
      var rest := Insert(keys, o[1..], i);
      assert forall q :: 0 <= q < |rest| ==> Before(keys, o[0], rest[q]) by {
        forall q | 0 <= q < |rest|
          ensures Before(keys, o[0], rest[q])
        {
          assert rest[q] in rest;
          if rest[q] != i {
            var pp :| 0 <= pp < |o[1..]| && o[1..][pp] == rest[q];
            assert o[pp + 1] == rest[q];
          }
        }
      }
      [o[0]] + rest
  }

  /** Stable ascending sort of the first n indices. */
  function SortPrefix(keys: seq<real>, n: nat): (o: seq<nat>)
    requires n <= |keys|
    ensures |o| == n && InRange(o, n) && Ordered(keys, o)
    ensures forall j: nat :: j < n ==> j in o
  {
    if n == 0 then [] else Insert(keys, SortPrefix(keys, n - 1), n - 1)
  }

  /** `sorted(range(n), key=keys.__getitem__)` */
  function StableSort(keys: seq<real>): (o: seq<nat>)
    ensures IsStableOrder(keys, o)
  {
    SortPrefix(keys, |keys|)
  }

  function Negate(keys: seq<real>): (r: seq<real>)
    ensures |r| == |keys| && forall i :: 0 <= i < |keys| ==> r[i] == -keys[i]
  {
    seq(|keys|, i requires 0 <= i < |keys| => -keys[i])
  }

  /** `sorted(range(n), key=keys.__getitem__, reverse=True)` */
  function StableSortDesc(keys: seq<real>): (o: seq<nat>)
    ensures IsStableOrderDesc(keys, o)
  {
    var o := StableSort(Negate(keys));
    assert forall p, q :: 0 <= p < q < |o| ==> Before(Negate(keys), o[p], o[q]);
    o
  }

  /** A stable sort has one result: the (key, index) order fixes it. */
  lemma StableOrderUnique(keys: seq<real>, o1: seq<nat>, o2: seq<nat>)
    requires IsStableOrder(keys, o1) && IsStableOrder(keys, o2)
    ensures o1 == o2
  {
    var lt := (a: nat, b: nat) => a < |keys| && b < |keys| && Before(keys, a, b);
    assert forall x :: x in o1 <==> x in o2;
    StrictlySortedUnique(o1, o2, lt);
  }

  /** A stable order lists every index exactly once. */
  lemma StableOrderDistinct(keys: seq<real>, o: seq<nat>)
    requires InRange(o, |keys|) && Ordered(keys, o)
    ensures forall p, q :: 0 <= p < q < |o| ==> o[p] != o[q]
  {
  }

  /** Along a stable order the keys never decrease. */
  lemma StableOrderSorted(keys: seq<real>, o: seq<nat>)
    requires InRange(o, |keys|) && Ordered(keys, o)
    ensures forall p, q :: 0 <= p < q < |o| ==> keys[o[p]] <= keys[o[q]]
  {
  }

  // ----- sorting records by a key -----

  lemma PermuteCons<T>(xs: seq<T>, a: nat, o: seq<nat>)
    requires a < |xs| && InRange(o, |xs|)
    ensures Permute(xs, [a] + o) == [xs[a]] + Permute(xs, o)
  {
  }

  /** The tail of an ordered index list is ordered. */
  lemma OrderedTail(keys: seq<real>, o: seq<nat>)
    requires |o| > 0 && InRange(o, |keys|) && Ordered(keys, o)
    ensures InRange(o[1..], |keys|) && Ordered(keys, o[1..])
  {
    forall p, q | 0 <= p < q < |o[1..]|
      ensures Before(keys, o[1..][p], o[1..][q])
    {
      assert o[1..][p] == o[p + 1] && o[1..][q] == o[q + 1];
    }
  }

  /** Putting the same index in front of two index lists keeps the multiset
      difference of the records they read. */
  lemma PermuteConsStep<T>(xs: seq<T>, a: nat, r: seq<nat>, o: seq<nat>, y: T)
    requires a < |xs| && InRange(r, |xs|) && InRange(o, |xs|)
    requires multiset(Permute(xs, r)) == multiset(Permute(xs, o)) + multiset{y}
    ensures multiset(Permute(xs, [a] + r)) == multiset(Permute(xs, [a] + o)) + multiset{y}
  {
    PermuteCons(xs, a, r);
    PermuteCons(xs, a, o);
  }

  /** Inserting index i adds exactly the record xs[i]. */
  lemma {:induction false} PermuteInsert<T>(xs: seq<T>, keys: seq<real>, o: seq<nat>, i: nat)
    requires |keys| == |xs|
    requires i < |keys| && InRange(o, |keys|) && Ordered(keys, o)
    requires forall p :: 0 <= p < |o| ==> o[p] < i
    ensures multiset(Permute(xs, Insert(keys, o, i))) == multiset(Permute(xs, o)) + multiset{xs[i]}
  {
    if |o| == 0 || keys[i] < keys[o[0]] {
      PermuteInsertFront(xs, keys, o, i);
    } else {
      InsertBehind(keys, o, i);
      var rest := Insert(keys, o[1..], i);
      PermuteInsert(xs, keys, o[1..], i);
      PermuteConsStep(xs, o[0], rest, o[1..], xs[i]);
      assert [o[0]] + o[1..] == o;
    }
  }

  /** When index i goes first, the records gain xs[i] in front. */
  lemma PermuteInsertFront<T>(xs: seq<T>, keys: seq<real>, o: seq<nat>, i: nat)
    requires |keys| == |xs|
    requires i < |keys| && InRange(o, |keys|) && Ordered(keys, o)
    requires forall p :: 0 <= p < |o| ==> o[p] < i
    requires |o| == 0 || keys[i] < keys[o[0]]
    ensures multiset(Permute(xs, Insert(keys, o, i))) == multiset(Permute(xs, o)) + multiset{xs[i]}
  {
    assert Insert(keys, o, i) == [i] + o;
    PermuteCons(xs, i, o);
  }

  /** When index i does not go first, it is inserted into the tail. */
  lemma InsertBehind(keys: seq<real>, o: seq<nat>, i: nat)
    requires i < |keys| && InRange(o, |keys|) && Ordered(keys, o)
    requires forall p :: 0 <= p < |o| ==> o[p] < i
    requires |o| > 0 && keys[i] >= keys[o[0]]
    ensures InRange(o[1..], |keys|) && Ordered(keys, o[1..])
    ensures forall p :: 0 <= p < |o[1..]| ==> o[1..][p] < i
    ensures Insert(keys, o, i) == [o[0]] + Insert(keys, o[1..], i)
  {
    OrderedTail(keys, o);
  }

  /** Sorting the first n indices and reading the records back gives the
      first n records, each as often as it occurs. */
  lemma {:induction false} PermuteSortPrefix<T>(xs: seq<T>, keys: seq<real>, n: nat)
    requires |keys| == |xs| && n <= |keys|
    ensures multiset(Permute(xs, SortPrefix(keys, n))) == multiset(xs[..n])
  {
    if n == 0 {
      assert Permute(xs, []) == [];
    } else {
      var o := SortPrefix(keys, n - 1);
      assert SortPrefix(keys, n) == Insert(keys, o, n - 1);
      PermuteSortPrefix(xs, keys, n - 1);
      PermuteInsert(xs, keys, o, n - 1);
      PrefixSnoc(xs, n);
    }
  }

  /** The first n records are the first n - 1 and record n - 1. */
  lemma PrefixSnoc<T>(xs: seq<T>, n: nat)
    requires 0 < n <= |xs|
    ensures multiset(xs[..n]) == multiset(xs[..n - 1]) + multiset{xs[n - 1]}
  {
    assert xs[..n] == xs[..n - 1] + [xs[n - 1]];
  }

  /** `[key(x) for x in xs]` */
  function KeysOf<T>(xs: seq<T>, key: T -> real): (k: seq<real>)
    ensures |k| == |xs| && forall i :: 0 <= i < |xs| ==> k[i] == key(xs[i])
  {
    seq(|xs|, i requires 0 <= i < |xs| => key(xs[i]))
  }

  /** `sorted(xs, key=key)`: a permutation of xs with non-decreasing keys. */
  function SortBy<T>(xs: seq<T>, key: T -> real): (r: seq<T>)
    ensures |r| == |xs| && multiset(r) == multiset(xs)
    ensures forall p, q :: 0 <= p < q < |r| ==> key(r[p]) <= key(r[q])
  {
    var keys := KeysOf(xs, key);
    var o := StableSort(keys);
    PermuteSortPrefix(xs, keys, |xs|);
    assert xs[..|xs|] == xs;
    StableOrderSorted(keys, o);
    Permute(xs, o)
  }

  /** `sorted(xs, key=key, reverse=True)`: a permutation of xs with
      non-increasing keys. */
  function SortByDesc<T>(xs: seq<T>, key: T -> real): (r: seq<T>)
    ensures |r| == |xs| && multiset(r) == multiset(xs)
    ensures forall p, q :: 0 <= p < q < |r| ==> key(r[p]) >= key(r[q])
  {
    var keys := KeysOf(xs, key);
    var o := StableSortDesc(keys);
    PermuteSortPrefix(xs, Negate(keys), |xs|);
    assert xs[..|xs|] == xs;
    assert forall p, q :: 0 <= p < q < |o| ==> BeforeDesc(keys, o[p], o[q]);
    Permute(xs, o)
  }

  /** Both sorts are stable: records with equal keys keep their relative
      order, i.e. they come from increasing positions of xs. */
  lemma SortByStable<T>(xs: seq<T>, key: T -> real)
    ensures var r := SortBy(xs, key);
      forall p, q :: 0 <= p < q < |r| && key(r[p]) == key(r[q]) ==>
        exists i, j :: 0 <= i < j < |xs| && xs[i] == r[p] && xs[j] == r[q]
    ensures var r := SortByDesc(xs, key);
      forall p, q :: 0 <= p < q < |r| && key(r[p]) == key(r[q]) ==>
        exists i, j :: 0 <= i < j < |xs| && xs[i] == r[p] && xs[j] == r[q]
  {
    var keys := KeysOf(xs, key);
    var o := StableSort(keys);
    var r := SortBy(xs, key);
    forall p, q | 0 <= p < q < |r| && key(r[p]) == key(r[q])
      ensures exists i, j :: 0 <= i < j < |xs| && xs[i] == r[p] && xs[j] == r[q]
    {
      assert Before(keys, o[p], o[q]);
      assert xs[o[p]] == r[p] && xs[o[q]] == r[q];
    }
    var od := StableSortDesc(keys);
    var rd := SortByDesc(xs, key);
    forall p, q | 0 <= p < q < |rd| && key(rd[p]) == key(rd[q])
      ensures exists i, j :: 0 <= i < j < |xs| && xs[i] == rd[p] && xs[j] == rd[q]
    {
      assert BeforeDesc(keys, od[p], od[q]);
      assert xs[od[p]] == rd[p] && xs[od[q]] == rd[q];
    }
  }

  /** Both sorts keep exactly the records of xs. */
  lemma SortByMembers<T>(xs: seq<T>, key: T -> real)
    ensures forall m :: m in SortBy(xs, key) <==> m in xs
    ensures forall m :: m in SortByDesc(xs, key) <==> m in xs
  {
    var r, rd := SortBy(xs, key), SortByDesc(xs, key);
    forall m
      ensures (m in r <==> m in xs) && (m in rd <==> m in xs)
    {
      assert m in r <==> m in multiset(r);
      assert m in rd <==> m in multiset(rd);
      assert m in xs <==> m in multiset(xs);
    }
  }

  /** When xs is strictly ascending in `rank`, the ascending sort orders by
      key and breaks ties by rank. */
  lemma SortByTieOrder<T>(xs: seq<T>, key: T -> real, rank: T -> int)
    requires forall i, j :: 0 <= i < j < |xs| ==> rank(xs[i]) < rank(xs[j])
    ensures var r := SortBy(xs, key);
      forall p, q :: 0 <= p < q < |r| ==>
        key(r[p]) < key(r[q]) || (key(r[p]) == key(r[q]) && rank(r[p]) < rank(r[q]))
  {
    var keys := KeysOf(xs, key);
    var o := StableSort(keys);
    var r := SortBy(xs, key);
    forall p, q | 0 <= p < q < |r|
      ensures key(r[p]) < key(r[q]) || (key(r[p]) == key(r[q]) && rank(r[p]) < rank(r[q]))
    {
      assert Before(keys, o[p], o[q]);
      assert xs[o[p]] == r[p] && xs[o[q]] == r[q];
    }
  }

  /** When xs is strictly ascending in `rank`, the descending sort orders by
      key and breaks ties by rank. */
  lemma SortByDescTieOrder<T>(xs: seq<T>, key: T -> real, rank: T -> int)
    requires forall i, j :: 0 <= i < j < |xs| ==> rank(xs[i]) < rank(xs[j])
    ensures var r := SortByDesc(xs, key);
      forall p, q :: 0 <= p < q < |r| ==>
        key(r[p]) > key(r[q]) || (key(r[p]) == key(r[q]) && rank(r[p]) < rank(r[q]))
  {
    var keys := KeysOf(xs, key);
    var o := StableSortDesc(keys);
    var r := SortByDesc(xs, key);
    forall p, q | 0 <= p < q < |r|
      ensures key(r[p]) > key(r[q]) || (key(r[p]) == key(r[q]) && rank(r[p]) < rank(r[q]))
    {
      assert BeforeDesc(keys, o[p], o[q]);
      assert xs[o[p]] == r[p] && xs[o[q]] == r[q];
    }
  }

  /** Both sorts take every record from its own position of xs: two
      positions of the result come from two different positions of xs. */
  lemma SortBySources<T>(xs: seq<T>, key: T -> real)
    ensures var r := SortBy(xs, key);
      forall p, q :: 0 <= p < q < |r| ==>
        exists i, j :: 0 <= i < |xs| && 0 <= j < |xs| && i != j && xs[i] == r[p] && xs[j] == r[q]
    ensures var r := SortByDesc(xs, key);
      forall p, q :: 0 <= p < q < |r| ==>
        exists i, j :: 0 <= i < |xs| && 0 <= j < |xs| && i != j && xs[i] == r[p] && xs[j] == r[q]
  {
    var keys := KeysOf(xs, key);
    var o := StableSort(keys);
    var r := SortBy(xs, key);
    forall p, q | 0 <= p < q < |r|
      ensures exists i, j :: 0 <= i < |xs| && 0 <= j < |xs| && i != j && xs[i] == r[p] && xs[j] == r[q]
    {
      assert Before(keys, o[p], o[q]);
      assert xs[o[p]] == r[p] && xs[o[q]] == r[q];
    }
    var od := StableSortDesc(keys);
    var rd := SortByDesc(xs, key);
    forall p, q | 0 <= p < q < |rd|
      ensures exists i, j :: 0 <= i < |xs| && 0 <= j < |xs| && i != j && xs[i] == rd[p] && xs[j] == rd[q]
    {
      assert BeforeDesc(keys, od[p], od[q]);
      assert xs[od[p]] == rd[p] && xs[od[q]] == rd[q];
    }
  }
}

=== FILE: spawns.dfy ===
/** What the area optimiser keeps of a tree: each spore's control and time
    direction, captured once, so that positions can be recomputed from a dt
    vector [4 child magnitudes, 8 grandchild magnitudes] by stepping root ->
    child -> grandchild. Shared by the area evaluators and the distance
    constraints. */
module Spawns {
  import opened Common
  import opened SporeTree

  /** `children_info[i]`: the child's control and `np.sign(dt)`. */
  datatype ChildInfo = ChildInfo(control: real, sign: real)

  /** `grandchildren_info`: parent index, control and `np.sign(dt)`. */
  datatype GcInfo = GcInfo(parentIdx: nat, control: real, sign: real)

  function ChildInfoOf(c: Child): ChildInfo
  {
    ChildInfo(c.control, SignR(c.dt))
  }

  function GcInfoOf(g: Grandchild): GcInfo
  {
    GcInfo(g.parentIdx, g.control, SignR(g.dt))
  }

  /** The children snapshot, in list order. */
  function ChildInfos(cs: seq<Child>): (r: seq<ChildInfo>)
    ensures |r| == |cs| && forall i :: 0 <= i < |cs| ==> r[i] == ChildInfoOf(cs[i])
  {
    seq(|cs|, i requires 0 <= i < |cs| => ChildInfoOf(cs[i]))
  }

  /** The grandchildren snapshot as a list (the area evaluator's form). */
  function GcInfos(gs: seq<Grandchild>): (r: seq<GcInfo>)
    ensures |r| == |gs| && forall i :: 0 <= i < |gs| ==> r[i] == GcInfoOf(gs[i])
  {
    seq(|gs|, i requires 0 <= i < |gs| => GcInfoOf(gs[i]))
  }

  /** The grandchildren snapshot as a dictionary keyed by `global_idx` (the
      constraints' form). A repeated key keeps the later grandchild. */
  function GcInfoMap(gs: seq<Grandchild>): (m: map<nat, GcInfo>)
    ensures forall g :: g in m <==> exists k :: 0 <= k < |gs| && gs[k].globalIdx == g
    ensures forall k :: 0 <= k < |gs| && LastWithKey(gs, k) ==> m[gs[k].globalIdx] == GcInfoOf(gs[k])
  {
    if |gs| == 0 then map[]
    else
      var tail := gs[1..];
      var rest := GcInfoMap(tail);
      assert forall k :: 1 <= k < |gs| ==> gs[k] == tail[k - 1];
      assert forall k :: 1 <= k < |gs| && LastWithKey(gs, k) ==> LastWithKey(tail, k - 1);
      assert LastWithKey(gs, 0) ==> gs[0].globalIdx !in rest;
      if gs[0].globalIdx in rest then rest else rest[gs[0].globalIdx := GcInfoOf(gs[0])]
  }

  /** No grandchild after position k shares its `global_idx`. */
  predicate LastWithKey(gs: seq<Grandchild>, k: nat)
    requires k < |gs|
  {
    forall l :: k < l < |gs| ==> gs[l].globalIdx != gs[k].globalIdx
  }

  /** For laid-out grandchildren the dictionary is the list. */
  lemma LaidOutInfoMap(gs: seq<Grandchild>)
    requires GrandchildrenLaidOut(gs)
    ensures forall g: nat :: g in GcInfoMap(gs) <==> g < |gs|
    ensures forall g :: 0 <= g < |gs| ==> GcInfoMap(gs)[g] == GcInfoOf(gs[g])
  {
    var m := GcInfoMap(gs);
    forall g | 0 <= g < |gs|
      ensures g in m && m[g] == GcInfoOf(gs[g])
    {
      assert gs[g].globalIdx == g;
      assert LastWithKey(gs, g);
    }
  }

  /** A child's position after `dt_signed = |dt| * sign` from the root. */
  function ChildAt(p: Pendulum, root: Vec2, c: ChildInfo, magnitude: real): Vec2
  {
    p.step(root, c.control, magnitude * c.sign)
  }

  /** A grandchild's position after `|dt| * sign` from its parent's position. */
  function GrandchildAt(p: Pendulum, parent: Vec2, g: GcInfo, magnitude: real): Vec2
  {
    p.step(parent, g.control, magnitude * g.sign)
  }

  /** Every position of the tree is where its spore's dt takes it from its
      parent: what `create_children`, `create_grandchildren` and
      `update_positions` leave behind. */
  predicate Consistent(p: Pendulum, t: Tree)
  {
    t.childrenCreated && t.grandchildrenCreated
    && |t.children| == 4 && |t.grandchildren| == 8 && GrandchildrenLaidOut(t.grandchildren)
    && (forall i :: 0 <= i < 4 ==>
          t.children[i].position == p.step(t.root, t.children[i].control, t.children[i].dt))
    && (forall j :: 0 <= j < 8 ==>
          t.grandchildren[j].position ==
            p.step(t.children[j / 2].position, t.grandchildren[j].control, t.grandchildren[j].dt))
  }

  lemma BuildIsConsistent(p: Pendulum, t: Tree, dtc: seq<real>, dtg: seq<real>)
    requires Valid(t) && |dtc| == 4 && |dtg| == 8
    ensures Consistent(p, BuildWith(p, t, dtc, dtg).value)
  {
  }

  lemma UpdateIsConsistent(p: Pendulum, t: Tree, dtc: seq<real>, dtg: seq<real>, recomputeMeans: bool)
    requires Valid(t) && UpdatePositions(p, t, dtc, dtg, recomputeMeans).Ok?
    ensures Consistent(p, UpdatePositions(p, t, dtc, dtg, recomputeMeans).value)
  {
  }

  /** The tree's own dt vector as the optimiser sees it:
      `np.hstack([|child dt|, |grandchild dt|])`. */
  function TreeDtVector(t: Tree): (v: seq<real>)
    ensures |v| == |t.children| + |t.grandchildren|
    ensures forall i :: 0 <= i < |t.children| ==> v[i] == Abs(t.children[i].dt)
    ensures forall j :: 0 <= j < |t.grandchildren| ==> v[|t.children| + j] == Abs(t.grandchildren[j].dt)
  {
    seq(|t.children|, i requires 0 <= i < |t.children| => Abs(t.children[i].dt))
    + seq(|t.grandchildren|, j requires 0 <= j < |t.grandchildren| => Abs(t.grandchildren[j].dt))
  }

  /** Stepping with a spore's own magnitude and recorded sign lands where
      the spore is. */
  lemma MagnitudeTimesSign(dt: real)
    ensures Abs(dt) * SignR(dt) == dt
  {
    SignTimesAbs(dt);
  }
}

=== FILE: spore_tree.dfy ===
/** `SporeTree`: a root state, four children and eight grandchildren of a
    controlled pendulum, the grandchildren's angular order around the root,
    and the midpoints of the pairs that order forms.

    The Python object is mutable; here every operation returns a new `Tree`.
    `sorted` holds the sorted grandchildren as indices. Right after a sort the
    Python list holds the same dictionaries as `grandchildren`, so an update in
    place is visible through it. `create_grandchildren` builds new
    dictionaries and leaves the sorted list alone; from then on the list holds
    the old ones. `detached` keeps those old grandchildren, and `sorted`
    indexes into them, until the next sort. */
module SporeTree {
  import opened Common
  import opened Seqs
  import opened Sorting
  import opened TreeConfig

  datatype Child = Child(position: Vec2, control: real, dt: real, childIdx: nat)

  /** `dtAbs` is the magnitude the grandchild was built or updated with. */
  datatype Grandchild = Grandchild(
    position: Vec2, control: real, dt: real, dtAbs: real,
    parentIdx: nat, localIdx: nat, globalIdx: nat)

  datatype Tree = Tree(
    config: Config,
    root: Vec2,
    children: seq<Child>,
    grandchildren: seq<Grandchild>,
    sorted: seq<nat>,
    detached: Option<seq<Grandchild>>,
    candidateMap: map<nat, seq<nat>>,
    meanPoints: Option<seq<Vec2>>,
    childrenCreated: bool,
    grandchildrenCreated: bool,
    grandchildrenSorted: bool)

  /** `[c['position'] for c in children]` */
  function ChildPositionsOf(cs: seq<Child>): (r: seq<Vec2>)
    ensures |r| == |cs| && forall i :: 0 <= i < |cs| ==> r[i] == cs[i].position
  {
    seq(|cs|, i requires 0 <= i < |cs| => cs[i].position)
  }

  /** `[g['position'] for g in grandchildren]` */
  function GrandchildPositionsOf(gs: seq<Grandchild>): (r: seq<Vec2>)
    ensures |r| == |gs| && forall j :: 0 <= j < |gs| ==> r[j] == gs[j].position
  {
    seq(|gs|, j requires 0 <= j < |gs| => gs[j].position)
  }

  /** The exceptions the tree raises. */
  datatype TreeError =
    | InvalidConfig(reason: ConfigError)   // ValueError from validate
    | ChildrenMissing                      // RuntimeError
    | GrandchildrenMissing                 // RuntimeError
    | SortMissing                          // RuntimeError in calculate_mean_points
    | SortAsserted                         // AssertionError in update_positions
    | WrongLength                          // AssertionError on an array length
    | SameParentPair(pair: nat)            // AssertionError of the pairing check
    | MissingPair(pair: nat)               // `assert False`: too few grandchildren
    | IndexOutOfRange                      // IndexError on a short dt array

  /** Grandchild j is local child j % 2 of child j / 2, at list position j. */
  predicate GrandchildrenLaidOut(gcs: seq<Grandchild>)
  {
    forall j :: 0 <= j < |gcs| ==>
      gcs[j].globalIdx == j && gcs[j].parentIdx == j / 2 && gcs[j].localIdx == j % 2
  }

  /** What every reachable tree satisfies; each operation below keeps it. */
  predicate Valid(t: Tree)
  {
    |t.config.initialPosition| == 2
    && (t.childrenCreated ==> |t.children| == 4)
    && (t.grandchildrenCreated ==>
          t.childrenCreated && |t.grandchildren| == 8 && GrandchildrenLaidOut(t.grandchildren))
    && (t.grandchildrenSorted ==> t.grandchildrenCreated && Covers(t.sorted, 8))
    && (t.meanPoints.Some? ==> |t.meanPoints.value| == 4)
    && (t.detached.Some? ==> t.grandchildrenSorted && |t.detached.value| == 8)
  }

  /** The grandchildren the sorted list refers to: the current ones, or the
      old ones once they were re-created after the sort. */
  function SortedSource(t: Tree): (gs: seq<Grandchild>)
    requires Valid(t) && t.grandchildrenSorted
    ensures |gs| == 8
    ensures t.detached.None? ==> gs == t.grandchildren
  {
    if t.detached.Some? then t.detached.value else t.grandchildren
  }

  // ---------------------------------------------------------------- children

  /** Children 0..3 are forw_max, back_max, forw_min, back_min. */
  function ChildControl(p: Pendulum, i: nat): real
  {
    if i < 2 then p.uMax else p.uMin
  }

  function ChildSign(i: nat): real
  {
    if i % 2 == 0 then 1.0 else -1.0
  }

  /** The four children for magnitudes `dtc`: child i runs from the root under
      its control for dtc[i], forward in time for even i and backward for odd i. */
  function MakeChildren(p: Pendulum, root: Vec2, dtc: seq<real>): (cs: seq<Child>)
    requires |dtc| == 4
    ensures |cs| == 4
    ensures forall i :: 0 <= i < 4 ==>
      cs[i].childIdx == i
      && cs[i].control == (if i < 2 then p.uMax else p.uMin)
      && Abs(cs[i].dt) == Abs(dtc[i])
      && Sign(cs[i].dt) == (if i % 2 == 0 then Sign(dtc[i]) else -Sign(dtc[i]))
      && cs[i].position == p.step(root, cs[i].control, cs[i].dt)
  {
    var cs := seq(4, i requires 0 <= i < 4 =>
      Child(p.step(root, ChildControl(p, i), dtc[i] * ChildSign(i)),
            ChildControl(p, i), dtc[i] * ChildSign(i), i));
    assert forall i :: 0 <= i < 4 ==>
      Abs(cs[i].dt) == Abs(dtc[i]) && Sign(cs[i].dt) == (if i % 2 == 0 then Sign(dtc[i]) else -Sign(dtc[i])) by {
      forall i | 0 <= i < 4
        ensures Abs(cs[i].dt) == Abs(dtc[i])
        ensures Sign(cs[i].dt) == (if i % 2 == 0 then Sign(dtc[i]) else -Sign(dtc[i]))
      {
        SignedCopy(dtc[i], i % 2 == 0);
      }
    }
    cs
  }

  /** `x` times 1 or -1 keeps the magnitude and keeps or flips the sign. */
  lemma SignedCopy(x: real, forward: bool)
    ensures var y := x * (if forward then 1.0 else -1.0);
      Abs(y) == Abs(x) && Sign(y) == (if forward then Sign(x) else -Sign(x))
  {
    if !forward {
      assert x * -1.0 == -x;
    }
  }

  function RootOf(c: Config): Vec2
    requires |c.initialPosition| == 2
  {
    Vec2(c.initialPosition[0], c.initialPosition[1])
  }

  /** `create_children`: `None` means dt_base for every child; an explicit
      array must have exactly four entries. Children are rebuilt even when
      they already exist. */
  function CreateChildren(p: Pendulum, t: Tree, dtc: Option<seq<real>>): (r: Result<Tree, TreeError>)
    requires Valid(t)
    ensures r.Err? <==> dtc.Some? && |dtc.value| != 4
    ensures r.Err? ==> r.error == WrongLength
    ensures r.Ok? ==>
      Valid(r.value) && r.value.childrenCreated
      && r.value.children == MakeChildren(p, t.root, if dtc.None? then [t.config.dtBase, t.config.dtBase, t.config.dtBase, t.config.dtBase] else dtc.value)
      && r.value == t.(children := r.value.children, childrenCreated := true)
  {
    if dtc.Some? && |dtc.value| != 4 then Err(WrongLength)
    else
      var d := if dtc.None? then [t.config.dtBase, t.config.dtBase, t.config.dtBase, t.config.dtBase] else dtc.value;
      Ok(t.(children := MakeChildren(p, t.root, d), childrenCreated := true))
  }

  // ----------------------------------------------------------- grandchildren

  /** Auto mode: each child contributes |dt| * factor twice. */
  function AutoGrandchildDts(cs: seq<Child>, factor: real): (d: seq<real>)
    ensures |d| == 2 * |cs|
    ensures forall j :: 0 <= j < |d| ==> d[j] == Abs(cs[j / 2].dt) * factor
  {
    seq(2 * |cs|, j requires 0 <= j < 2 * |cs| => Abs(cs[j / 2].dt) * factor)
  }

  /** Grandchild j comes from child j / 2 under the negated child control,
      running forward for dtg[j] when j is even and backward when j is odd. */
  function MakeGrandchildren(p: Pendulum, cs: seq<Child>, dtg: seq<real>): (gs: seq<Grandchild>)
    requires |dtg| == 2 * |cs|
    ensures |gs| == |dtg| && GrandchildrenLaidOut(gs)
    ensures forall j :: 0 <= j < |gs| ==>
      gs[j].control == -cs[j / 2].control
      && gs[j].dtAbs == dtg[j]
      && gs[j].dt == (if j % 2 == 0 then dtg[j] else -dtg[j])
      && gs[j].position == p.step(cs[j / 2].position, gs[j].control, gs[j].dt)
  {
    seq(|dtg|, j requires 0 <= j < |dtg| =>
      var d := if j % 2 == 0 then dtg[j] else -dtg[j];
      Grandchild(p.step(cs[j / 2].position, -cs[j / 2].control, d), -cs[j / 2].control,
                 d, dtg[j], j / 2, j % 2, j))
  }

  /** Global indices of the grandchildren q.. whose parent is not `parent`, in list order. */
  function OtherParents(gcs: seq<Grandchild>, parent: nat, q: nat): (r: seq<nat>)
    ensures forall j :: q <= j < |gcs| && gcs[j].parentIdx != parent ==> gcs[j].globalIdx in r
    ensures forall p :: 0 <= p < |r| ==>
      exists j :: q <= j < |gcs| && gcs[j].parentIdx != parent && gcs[j].globalIdx == r[p]
    decreases |gcs| - q
  {
    if q >= |gcs| then []
    else
      var head := if gcs[q].parentIdx != parent then [gcs[q].globalIdx] else [];
      var rest := OtherParents(gcs, parent, q + 1);
      var r := head + rest;
      assert forall p :: 0 <= p < |rest| ==> r[|head| + p] == rest[p];
      assert forall p :: 0 <= p < |r| ==>
        exists j :: q <= j < |gcs| && gcs[j].parentIdx != parent && gcs[j].globalIdx == r[p] by {
        forall p | 0 <= p < |r|
          ensures exists j :: q <= j < |gcs| && gcs[j].parentIdx != parent && gcs[j].globalIdx == r[p]
        {
          if p < |head| {
            assert gcs[q].globalIdx == r[p];
          } else {
            var j :| q + 1 <= j < |gcs| && gcs[j].parentIdx != parent && gcs[j].globalIdx == rest[p - |head|];
            assert gcs[j].globalIdx == r[p];
          }
        }
      }
      assert forall j :: q <= j < |gcs| && gcs[j].parentIdx != parent ==> gcs[j].globalIdx in r by {
        forall j | q <= j < |gcs| && gcs[j].parentIdx != parent
          ensures gcs[j].globalIdx in r
        {
          if j == q {
            assert r[0] == gcs[q].globalIdx;
          } else {
            assert gcs[j].globalIdx in rest;
          }
        }
      }
      r
  }

  /** `_create_pairing_candidate_map`: each grandchild's key maps to the global
      indices of the grandchildren of other parents. The source sorts each list;
      for laid-out grandchildren it is already ascending (`CandidatesAscending`). */
  function CandidateMap(gcs: seq<Grandchild>): map<nat, seq<nat>>
  {
    map j | 0 <= j < |gcs| :: OtherParents(gcs, gcs[j].parentIdx, 0)
  }

  /** `create_grandchildren`: needs the children; `None` is auto mode, and an
      explicit array must have exactly eight entries. Builds the candidate map. */
  function CreateGrandchildren(p: Pendulum, t: Tree, dtg: Option<seq<real>>): (r: Result<Tree, TreeError>)
    requires Valid(t)
    ensures r.Err? <==> !t.childrenCreated || (dtg.Some? && |dtg.value| != 8)
    ensures r.Err? ==> r.error == (if !t.childrenCreated then ChildrenMissing else WrongLength)
    ensures r.Ok? ==>
      Valid(r.value) && r.value.grandchildrenCreated
      && r.value.grandchildren ==
           MakeGrandchildren(p, t.children,
             if dtg.None? then AutoGrandchildDts(t.children, t.config.dtGrandchildrenFactor) else dtg.value)
      && r.value.candidateMap == CandidateMap(r.value.grandchildren)
      && r.value.detached == (if t.grandchildrenSorted && t.detached.None? then Some(t.grandchildren) else t.detached)
      && r.value == t.(grandchildren := r.value.grandchildren, candidateMap := r.value.candidateMap,
                       detached := r.value.detached, grandchildrenCreated := true)
  {
    if !t.childrenCreated then Err(ChildrenMissing)
    else if dtg.Some? && |dtg.value| != 8 then Err(WrongLength)
    else
      var d := if dtg.None? then AutoGrandchildDts(t.children, t.config.dtGrandchildrenFactor) else dtg.value;
      var gs := MakeGrandchildren(p, t.children, d);
      var kept := if t.grandchildrenSorted && t.detached.None? then Some(t.grandchildren) else t.detached;
      Ok(t.(grandchildren := gs, candidateMap := CandidateMap(gs), detached := kept, grandchildrenCreated := true))
  }

  // --------------------------------------------------------- sort and pair

  /** The `arctan2` key of every grandchild, taken of its offset from the root. */
  function AngleKeys(gcs: seq<Grandchild>, root: Vec2, angle: Vec2 -> real): (keys: seq<real>)
    ensures |keys| == |gcs|
    ensures forall j :: 0 <= j < |gcs| ==> keys[j] == angle(Sub(gcs[j].position, root))
  {
    seq(|gcs|, j requires 0 <= j < |gcs| => angle(Sub(gcs[j].position, root)))
  }

  /** The first position of `o` holding a grandchild of parent 0, scanning from q; 0 if none. */
  function FirstOfParentZero(gcs: seq<Grandchild>, o: seq<nat>, q: nat): (k: nat)
    requires InRange(o, |gcs|) && q <= |o|
    ensures k == 0 || q <= k < |o|
    ensures (exists p :: q <= p < |o| && gcs[o[p]].parentIdx == 0) ==>
      q <= k < |o| && gcs[o[k]].parentIdx == 0
      && forall p :: q <= p < k ==> gcs[o[p]].parentIdx != 0
    ensures (forall p :: q <= p < |o| ==> gcs[o[p]].parentIdx != 0) ==> k == 0
    decreases |o| - q
  {
    if q == |o| then 0
    else if gcs[o[q]].parentIdx == 0 then q
    else FirstOfParentZero(gcs, o, q + 1)
  }

  /** Roll the first parent-0 grandchild to the front, and roll right by one
      more when the second entry also has parent 0. */
  function PairOrder(gcs: seq<Grandchild>, o: seq<nat>): (r: seq<nat>)
    requires InRange(o, |gcs|)
    ensures |r| == |o| && InRange(r, |gcs|) && multiset(r) == multiset(o)
  {
    var k := FirstOfParentZero(gcs, o, 0);
    var o1 := RollLeft(o, k);
    if |o1| >= 2 && gcs[o1[1]].parentIdx == 0 then RollRight1(o1) else o1
  }

  /** The pairing check over pairs q..3 of `order`: `None` when each pair
      (2q, 2q+1) exists and joins grandchildren of different parents,
      otherwise the error of the first pair that fails. */
  function CheckPairs(gcs: seq<Grandchild>, order: seq<nat>, q: nat): (r: Option<TreeError>)
    requires InRange(order, |gcs|)
    ensures r.None? <==>
      forall k :: q <= k < 4 ==> 2 * k + 1 < |order| && gcs[order[2 * k]].parentIdx != gcs[order[2 * k + 1]].parentIdx
    ensures r.Some? ==> exists k :: q <= k < 4 && (r.value == MissingPair(k) || r.value == SameParentPair(k))
    decreases 4 - q
  {
    if q >= 4 then None
    else if 2 * q + 1 >= |order| then Some(MissingPair(q))
    else if gcs[order[2 * q]].parentIdx == gcs[order[2 * q + 1]].parentIdx then Some(SameParentPair(q))
    else CheckPairs(gcs, order, q + 1)
  }

  /** Pairs (0,1), (2,3), (4,5), (6,7) of `order` join grandchildren of different parents. */
  predicate PairsFromDifferentParents(gcs: seq<Grandchild>, order: seq<nat>)
    requires InRange(order, |gcs|)
  {
    |order| >= 8 && forall k :: 0 <= k < 4 ==> gcs[order[2 * k]].parentIdx != gcs[order[2 * k + 1]].parentIdx
  }

  /** The order `sort_and_pair_grandchildren` settles on: the angle-descending
      stable sort, rotated by `PairOrder`. */
  function SortedOrder(t: Tree, angle: Vec2 -> real): (o: seq<nat>)
    ensures InRange(o, |t.grandchildren|) && |o| == |t.grandchildren|
  {
    PairOrder(t.grandchildren, StableSortDesc(AngleKeys(t.grandchildren, t.root, angle)))
  }

  /** `sort_and_pair_grandchildren`: needs the grandchildren; stores the order
      and sets the sorted flag only when every pair passes the check. */
  function SortAndPair(t: Tree, angle: Vec2 -> real): (r: Result<Tree, TreeError>)
    requires Valid(t)
    ensures r == Err(GrandchildrenMissing) <==> !t.grandchildrenCreated
    ensures r.Ok? <==>
      t.grandchildrenCreated && PairsFromDifferentParents(t.grandchildren, SortedOrder(t, angle))
    ensures r.Ok? ==>
      Valid(r.value) && r.value.grandchildrenSorted
      && r.value == t.(sorted := SortedOrder(t, angle), detached := None, grandchildrenSorted := true)
      && PairsFromDifferentParents(r.value.grandchildren, r.value.sorted)
  {
    if !t.grandchildrenCreated then Err(GrandchildrenMissing)
    else
      var o := SortedOrder(t, angle);
      var check := CheckPairs(t.grandchildren, o, 0);
      CheckPairsAtStart(t.grandchildren, o);
      if check.Some? then Err(check.value)
      else
        SortedOrderCovers(t, angle);
        Ok(t.(sorted := o, detached := None, grandchildrenSorted := true))
  }

  /** The check from the first pair passes exactly for orders whose four
      pairs join different parents, and it only reports pair errors. */
  lemma CheckPairsAtStart(gcs: seq<Grandchild>, o: seq<nat>)
    requires InRange(o, |gcs|)
    ensures CheckPairs(gcs, o, 0).None? <==> PairsFromDifferentParents(gcs, o)
    ensures CheckPairs(gcs, o, 0).Some? ==> CheckPairs(gcs, o, 0).value != GrandchildrenMissing
  {
    if CheckPairs(gcs, o, 0).None? {
      assert 2 * 3 + 1 < |o|;
    }
  }

  /** Both rolls together are a single cyclic rotation, so the order keeps
      every index and only changes where the cycle starts. */
  lemma PairOrderIsRotation(gcs: seq<Grandchild>, o: seq<nat>)
    requires InRange(o, |gcs|)
    ensures IsRotation(PairOrder(gcs, o), o)
  {
    var k := FirstOfParentZero(gcs, o, 0);
    var o1 := RollLeft(o, k);
    if |o1| >= 2 && gcs[o1[1]].parentIdx == 0 {
      RollRightAfterLeft(o, k);
      var k' := if k == 0 then |o| - 1 else k - 1;
      assert PairOrder(gcs, o) == RollLeft(o, k');
    } else {
      assert PairOrder(gcs, o) == RollLeft(o, k);
    }
  }

  lemma SortedOrderCovers(t: Tree, angle: Vec2 -> real)
    requires Valid(t) && t.grandchildrenCreated
    ensures Covers(SortedOrder(t, angle), 8)
  {
    var desc := StableSortDesc(AngleKeys(t.grandchildren, t.root, angle));
    var o := SortedOrder(t, angle);
    forall i: nat | i < 8
      ensures i in o
    {
      assert i in desc;
      assert i in multiset(desc);
    }
  }

  /** After sort-and-pair the order is a cyclic rotation of the angle-descending
      stable sort of the grandchildren. */
  lemma SortAndPairRotatesAngleOrder(t: Tree, angle: Vec2 -> real)
    requires Valid(t)
    requires SortAndPair(t, angle).Ok?
    ensures var keys := AngleKeys(t.grandchildren, t.root, angle);
      IsRotation(SortAndPair(t, angle).value.sorted, StableSortDesc(keys))
      && IsStableOrderDesc(keys, StableSortDesc(keys))
  {
    PairOrderIsRotation(t.grandchildren, StableSortDesc(AngleKeys(t.grandchildren, t.root, angle)));
  }

  /** The rotation puts a grandchild of parent 0 first; when the extra roll
      fires, the two parent-0 grandchildren that led sit second and third. */
  lemma PairOrderAnchorsParentZero(gcs: seq<Grandchild>, o: seq<nat>, p0: nat)
    requires InRange(o, |gcs|) && |o| >= 3 && p0 < |o| && gcs[o[p0]].parentIdx == 0
    ensures var r := PairOrder(gcs, o);
      gcs[r[0]].parentIdx == 0 || (gcs[r[1]].parentIdx == 0 && gcs[r[2]].parentIdx == 0)
  {
    var k := FirstOfParentZero(gcs, o, 0);
    var o1 := RollLeft(o, k);
    assert gcs[o1[0]].parentIdx == 0;
    if gcs[o1[1]].parentIdx == 0 {
      assert RollRight1(o1)[1] == o1[0] && RollRight1(o1)[2] == o1[1];
    }
  }

  /** After sort-and-pair a grandchild of parent 0 leads the order, or, when
      the extra roll fired, follows the entry that closes the cycle. */
  lemma SortAndPairAnchorsParentZero(t: Tree, angle: Vec2 -> real)
    requires Valid(t)
    requires SortAndPair(t, angle).Ok?
    ensures var s := SortAndPair(t, angle).value.sorted;
      t.grandchildren[s[0]].parentIdx == 0
      || (t.grandchildren[s[1]].parentIdx == 0 && t.grandchildren[s[2]].parentIdx == 0)
  {
    var gcs := t.grandchildren;
    var desc := StableSortDesc(AngleKeys(gcs, t.root, angle));
    SortedOrderCovers(t, angle);
    assert 0 in desc;
    var p0 :| 0 <= p0 < |desc| && desc[p0] == 0;
    PairOrderAnchorsParentZero(gcs, desc, p0);
  }

  // ----------------------------------------------------------- mean points

  /** The midpoint of each sorted pair (2k, 2k+1), k = 0..3. */
  function PairMidpoints(gcs: seq<Grandchild>, order: seq<nat>): (m: seq<Vec2>)
    requires |order| >= 8 && InRange(order, |gcs|)
    ensures |m| == 4
    ensures forall k :: 0 <= k < 4 ==>
      Scale(2.0, m[k]) == Add(gcs[order[2 * k]].position, gcs[order[2 * k + 1]].position)
  {
    seq(4, k requires 0 <= k < 4 =>
      Midpoint(gcs[order[2 * k]].position, gcs[order[2 * k + 1]].position))
  }

  /** `calculate_mean_points`: needs the sort and exactly eight sorted entries. */
  function CalculateMeanPoints(t: Tree): (r: Result<Tree, TreeError>)
    requires Valid(t)
    ensures r.Err? <==> !t.grandchildrenSorted
    ensures r.Err? ==> r.error == SortMissing
    ensures r.Ok? ==>
      Valid(r.value)
      && r.value == t.(meanPoints := Some(PairMidpoints(SortedSource(t), t.sorted)))
  {
    if !t.grandchildrenSorted then Err(SortMissing)
    else if |t.sorted| != 8 then Err(WrongLength)
    else Ok(t.(meanPoints := Some(PairMidpoints(SortedSource(t), t.sorted))))
  }

  // -------------------------------------------------------------- update

  /** The sign rule of update_positions: `1 if dt > 0 else -1`. */
  function KeepDirection(oldDt: real, magnitude: real): (d: real)
    ensures Abs(d) == Abs(magnitude)
    ensures oldDt > 0.0 && magnitude > 0.0 ==> d > 0.0
    ensures oldDt <= 0.0 && magnitude > 0.0 ==> d < 0.0
  {
    if oldDt > 0.0 then magnitude else -magnitude
  }

  function UpdatedChildren(p: Pendulum, root: Vec2, cs: seq<Child>, dtc: seq<real>): (r: seq<Child>)
    requires |cs| == 4 && |dtc| >= 4
    ensures |r| == 4
    ensures forall i :: 0 <= i < 4 ==>
      r[i] == cs[i].(dt := KeepDirection(cs[i].dt, dtc[i]),
                     position := p.step(root, cs[i].control, KeepDirection(cs[i].dt, dtc[i])))
  {
    seq(4, i requires 0 <= i < 4 =>
      var d := KeepDirection(cs[i].dt, dtc[i]);
      cs[i].(dt := d, position := p.step(root, cs[i].control, d)))
  }

  function UpdatedGrandchildren(p: Pendulum, cs: seq<Child>, gs: seq<Grandchild>, dtg: seq<real>): (r: seq<Grandchild>)
    requires |gs| == 8 && GrandchildrenLaidOut(gs) && |cs| == 4 && |dtg| >= 8
    ensures |r| == 8 && GrandchildrenLaidOut(r)
    ensures forall j :: 0 <= j < 8 ==>
      r[j] == gs[j].(dt := KeepDirection(gs[j].dt, dtg[j]), dtAbs := Abs(dtg[j]),
                     position := p.step(cs[j / 2].position, gs[j].control, KeepDirection(gs[j].dt, dtg[j])))
  {
    seq(8, j requires 0 <= j < 8 =>
      var d := KeepDirection(gs[j].dt, dtg[gs[j].globalIdx]);
      gs[j].(dt := d, dtAbs := Abs(d), position := p.step(cs[gs[j].parentIdx].position, gs[j].control, d)))
  }

  /** `update_positions`: needs the sort; recomputes every position from the
      new magnitudes, keeping each spore's time direction, and refreshes the
      pair midpoints through the unchanged sorted order. */
  function UpdatePositions(p: Pendulum, t: Tree, dtc: seq<real>, dtg: seq<real>, recomputeMeans: bool): (r: Result<Tree, TreeError>)
    requires Valid(t)
    ensures r.Err? <==> !t.grandchildrenSorted || |dtc| < 4 || |dtg| < 8
    ensures r.Err? && !t.grandchildrenSorted ==> r.error == SortAsserted
    ensures r.Ok? ==>
      Valid(r.value) && r.value.grandchildrenSorted
      && r.value.children == UpdatedChildren(p, t.root, t.children, dtc)
      && r.value.grandchildren == UpdatedGrandchildren(p, r.value.children, t.grandchildren, dtg)
      && r.value.meanPoints == (if recomputeMeans then Some(PairMidpoints(SortedSource(r.value), t.sorted)) else t.meanPoints)
      && r.value == t.(children := r.value.children, grandchildren := r.value.grandchildren,
                       meanPoints := r.value.meanPoints)
  {
    if !t.grandchildrenSorted then Err(SortAsserted)
    else if |dtc| < 4 || |dtg| < 8 then Err(IndexOutOfRange)
    else
      var cs := UpdatedChildren(p, t.root, t.children, dtc);
      var gs := UpdatedGrandchildren(p, cs, t.grandchildren, dtg);
      Ok(t.(children := cs, grandchildren := gs,
            meanPoints := if recomputeMeans then Some(PairMidpoints(if t.detached.Some? then t.detached.value else gs, t.sorted))
                          else t.meanPoints))
  }

  // --------------------------------------------------------------- reset

  /** `reset`: clears the spores and the flags. The candidate map and the mean
      points are left as they were. */
  function Reset(t: Tree): (r: Tree)
    requires Valid(t)
    ensures Valid(r)
    ensures !r.childrenCreated && !r.grandchildrenCreated && !r.grandchildrenSorted
    ensures r.children == [] && r.grandchildren == [] && r.sorted == []
    ensures r.candidateMap == t.candidateMap && r.meanPoints == t.meanPoints
  {
    t.(children := [], grandchildren := [], sorted := [], detached := None,
       childrenCreated := false, grandchildrenCreated := false, grandchildrenSorted := false)
  }

  /** A tree as `__init__` leaves it before any automatic creation: the
      configuration validated, the root at the initial position. */
  function EmptyTree(c: Config): (r: Result<Tree, TreeError>)
    ensures r.Ok? <==> Validate(c).None?
    ensures r.Err? ==> r.error == InvalidConfig(Validate(c).value)
    ensures r.Ok? ==>
      Valid(r.value) && r.value.root == Vec2(c.initialPosition[0], c.initialPosition[1])
      && !r.value.childrenCreated && !r.value.grandchildrenCreated && !r.value.grandchildrenSorted
  {
    match Validate(c)
    case Some(e) => Err(InvalidConfig(e))
    case None => Ok(Tree(c, RootOf(c), [], [], [], None, map[], None, false, false, false))
  }

  /** `__init__` after validation: with both arrays given they must have 4 and 8
      entries and build the tree; otherwise `auto_create` builds it from
      dt_base (children) and dt_base * factor (grandchildren). */
  function NewTree(p: Pendulum, c: Config, dtc: Option<seq<real>>, dtg: Option<seq<real>>,
                   autoCreate: bool): (r: Result<Tree, TreeError>)
    ensures Validate(c).Some? ==> r == Err(InvalidConfig(Validate(c).value))
    ensures r.Ok? ==> Valid(r.value) && r.value.config == c && !r.value.grandchildrenSorted
    ensures r.Ok? && ((dtc.Some? && dtg.Some?) || autoCreate) ==>
      r.value.childrenCreated && r.value.grandchildrenCreated
    ensures Validate(c).None? && dtc.Some? && dtg.Some? ==>
      (r.Ok? <==> |dtc.value| == 4 && |dtg.value| == 8)
  {
    match EmptyTree(c)
    case Err(e) => Err(e)
    case Ok(t) =>
      if dtc.Some? && dtg.Some? then
        if |dtc.value| != 4 || |dtg.value| != 8 then Err(WrongLength)
        else BuildWith(p, t, dtc.value, dtg.value)
      else if autoCreate then
        var b := c.dtBase;
        var g := b * c.dtGrandchildrenFactor;
        BuildWith(p, t, [b, b, b, b], [g, g, g, g, g, g, g, g])
      else Ok(t)
  }

  /** `create_children` then `create_grandchildren` with explicit arrays. */
  function BuildWith(p: Pendulum, t: Tree, dtc: seq<real>, dtg: seq<real>): (r: Result<Tree, TreeError>)
    requires Valid(t) && |dtc| == 4 && |dtg| == 8
    ensures r.Ok? && Valid(r.value) && r.value.childrenCreated && r.value.grandchildrenCreated
    ensures r.value.children == MakeChildren(p, t.root, dtc)
    ensures r.value.grandchildren == MakeGrandchildren(p, r.value.children, dtg)
    ensures r.value.grandchildrenSorted == t.grandchildrenSorted && r.value.root == t.root
    ensures r.value.sorted == t.sorted
    ensures r.value.detached == (if t.grandchildrenSorted && t.detached.None? then Some(t.grandchildren) else t.detached)
  {
    match CreateChildren(p, t, Some(dtc))
    case Err(e) => assert false; Err(e)
    case Ok(t1) => CreateGrandchildren(p, t1, Some(dtg))
  }

  // ----------------------------------------------------------- properties

  /** For laid-out grandchildren, the candidates from pair h on number the
      entries left, less the two siblings of `parent` if they lie ahead. */
  lemma {:induction false} OtherParentsCount(gcs: seq<Grandchild>, parent: nat, h: nat)
    requires GrandchildrenLaidOut(gcs) && |gcs| % 2 == 0 && 2 * h <= |gcs|
    ensures |OtherParents(gcs, parent, 2 * h)| ==
      (|gcs| - 2 * h) - (if h <= parent && 2 * parent < |gcs| then 2 else 0)
    decreases |gcs| - 2 * h
  {
    if 2 * h < |gcs| {
      OtherParentsCount(gcs, parent, h + 1);
      var r2 := OtherParents(gcs, parent, 2 * h + 2);
      var r1 := OtherParents(gcs, parent, 2 * h + 1);
      assert gcs[2 * h].parentIdx == h && gcs[2 * h + 1].parentIdx == h;
      assert |r1| == (if h != parent then 1 else 0) + |r2|;
      assert |OtherParents(gcs, parent, 2 * h)| == (if h != parent then 1 else 0) + |r1|;
    }
  }

  /** For laid-out grandchildren the candidate list starting at q is strictly
      increasing and starts at q or later. */
  lemma {:induction false} OtherParentsAscending(gcs: seq<Grandchild>, parent: nat, q: nat)
    requires GrandchildrenLaidOut(gcs)
    ensures forall a :: 0 <= a < |OtherParents(gcs, parent, q)| ==> OtherParents(gcs, parent, q)[a] >= q
    ensures forall a, b :: 0 <= a < b < |OtherParents(gcs, parent, q)| ==>
      OtherParents(gcs, parent, q)[a] < OtherParents(gcs, parent, q)[b]
    decreases |gcs| - q
  {
    if q < |gcs| {
      OtherParentsAscending(gcs, parent, q + 1);
    }
  }

  /** For laid-out grandchildren every candidate is a grandchild of another parent. */
  lemma OtherParentsMember(gcs: seq<Grandchild>, parent: nat, x: nat)
    requires GrandchildrenLaidOut(gcs) && x in OtherParents(gcs, parent, 0)
    ensures x < |gcs| && x / 2 != parent
  {
    var c := OtherParents(gcs, parent, 0);
    var p :| 0 <= p < |c| && c[p] == x;
    var j :| 0 <= j < |gcs| && gcs[j].parentIdx != parent && gcs[j].globalIdx == c[p];
  }

  /** One candidate list of a built tree: the six grandchildren of the other
      three parents in ascending order, so neither the key itself nor its sibling. */
  lemma CandidateListShape(gcs: seq<Grandchild>, k: nat)
    requires |gcs| == 8 && GrandchildrenLaidOut(gcs) && k < 8
    ensures var c := OtherParents(gcs, gcs[k].parentIdx, 0);
      |c| == 6
      && (forall x :: x in c <==> 0 <= x < 8 && x / 2 != k / 2)
      && (forall a, b :: 0 <= a < b < |c| ==> c[a] < c[b])
  {
    var c := OtherParents(gcs, k / 2, 0);
    OtherParentsCount(gcs, k / 2, 0);
    OtherParentsAscending(gcs, k / 2, 0);
    forall x | x in c
      ensures 0 <= x < 8 && x / 2 != k / 2
    {
      OtherParentsMember(gcs, k / 2, x);
    }
    forall x: int | 0 <= x < 8 && x / 2 != k / 2
      ensures x in c
    {
      assert gcs[x].parentIdx != k / 2;
    }
  }

  /** The candidate map of a built tree has one key per grandchild and each
      list is `CandidateListShape`. */
  lemma CandidateMapShape(gcs: seq<Grandchild>)
    requires |gcs| == 8 && GrandchildrenLaidOut(gcs)
    ensures forall k :: k in CandidateMap(gcs) <==> 0 <= k < 8
    ensures forall k :: 0 <= k < 8 ==>
      var c := CandidateMap(gcs)[k];
      |c| == 6
      && (forall x :: x in c <==> 0 <= x < 8 && x / 2 != k / 2)
      && (forall a, b :: 0 <= a < b < |c| ==> c[a] < c[b])
  {
    forall k | 0 <= k < 8
      ensures var c := CandidateMap(gcs)[k];
        |c| == 6
        && (forall x :: x in c <==> 0 <= x < 8 && x / 2 != k / 2)
        && (forall a, b :: 0 <= a < b < |c| ==> c[a] < c[b])
    {
      CandidateListShape(gcs, k);
    }
  }

  /** With positive magnitudes `update_positions` keeps every spore's time
      direction (a zero dt turns backward), its control and its place in the
      tree, sets |dt| to the new magnitude, and leaves the order alone. */
  lemma UpdateKeepsTimeDirection(p: Pendulum, t: Tree, dtc: seq<real>, dtg: seq<real>, recomputeMeans: bool)
    requires Valid(t) && UpdatePositions(p, t, dtc, dtg, recomputeMeans).Ok?
    requires forall i :: 0 <= i < 4 ==> dtc[i] > 0.0
    requires forall j :: 0 <= j < 8 ==> dtg[j] > 0.0
    ensures var u := UpdatePositions(p, t, dtc, dtg, recomputeMeans).value;
      u.sorted == t.sorted && u.candidateMap == t.candidateMap && u.root == t.root
      && (forall i :: 0 <= i < 4 ==>
            (u.children[i].dt > 0.0 <==> t.children[i].dt > 0.0)
            && Abs(u.children[i].dt) == dtc[i]
            && u.children[i].control == t.children[i].control
            && u.children[i].childIdx == t.children[i].childIdx)
      && (forall j :: 0 <= j < 8 ==>
            (u.grandchildren[j].dt > 0.0 <==> t.grandchildren[j].dt > 0.0)
            && Abs(u.grandchildren[j].dt) == dtg[j] && u.grandchildren[j].dtAbs == dtg[j]
            && u.grandchildren[j].control == t.grandchildren[j].control
            && u.grandchildren[j].parentIdx == t.grandchildren[j].parentIdx
            && u.grandchildren[j].localIdx == t.grandchildren[j].localIdx)
  {
  }

  /** Re-creating the grandchildren of a sorted tree leaves the sorted list on
      the old ones: the mean points are then the old pairs' midpoints, and an
      update moves only the new grandchildren, so its mean points stay put. */
  lemma RecreatedGrandchildrenFreezeMeans(p: Pendulum, t: Tree, dtg: Option<seq<real>>,
                                          dtc2: seq<real>, dtg2: seq<real>)
    requires Valid(t) && t.grandchildrenSorted && t.detached.None?
    requires CreateGrandchildren(p, t, dtg).Ok?
    requires |dtc2| >= 4 && |dtg2| >= 8
    ensures var u := CreateGrandchildren(p, t, dtg).value;
      && CalculateMeanPoints(u) == Ok(u.(meanPoints := Some(PairMidpoints(t.grandchildren, t.sorted))))
      && UpdatePositions(p, u, dtc2, dtg2, true).Ok?
      && UpdatePositions(p, u, dtc2, dtg2, true).value.meanPoints == Some(PairMidpoints(t.grandchildren, t.sorted))
  {
  }

  /** Updating a freshly built tree with positive magnitudes gives the same
      spores as building it with those magnitudes: the fixed sign table and the
      kept signs agree. This is what lets the evaluator build once and update after. */
  lemma UpdateMatchesRebuild(p: Pendulum, root: Vec2, dtc0: seq<real>, dtg0: seq<real>,
                             dtc: seq<real>, dtg: seq<real>)
    requires |dtc0| == 4 && |dtc| == 4 && |dtg0| == 8 && |dtg| == 8
    requires forall i :: 0 <= i < 4 ==> dtc0[i] > 0.0 && dtc[i] > 0.0
    requires forall j :: 0 <= j < 8 ==> dtg0[j] > 0.0 && dtg[j] > 0.0
    ensures var cs := UpdatedChildren(p, root, MakeChildren(p, root, dtc0), dtc);
      cs == MakeChildren(p, root, dtc)
      && UpdatedGrandchildren(p, cs, MakeGrandchildren(p, MakeChildren(p, root, dtc0), dtg0), dtg)
         == MakeGrandchildren(p, cs, dtg)
  {
    var c0 := MakeChildren(p, root, dtc0);
    var cs := UpdatedChildren(p, root, c0, dtc);
    var c1 := MakeChildren(p, root, dtc);
    forall i | 0 <= i < 4
      ensures cs[i] == c1[i]
    {
      assert c0[i].dt == dtc0[i] * ChildSign(i);
      assert c1[i].dt == dtc[i] * ChildSign(i);
    }
    assert cs == c1;
    var g0 := MakeGrandchildren(p, c0, dtg0);
    var gu := UpdatedGrandchildren(p, cs, g0, dtg);
    var g1 := MakeGrandchildren(p, cs, dtg);
    forall j | 0 <= j < 8
      ensures gu[j] == g1[j]
    {
      assert c0[j / 2].control == cs[j / 2].control;
    }
  }

  /** The two automatic paths agree: auto-mode grandchild magnitudes of children
      built from dt_base are the grandchild part of the default dt vector. */
  lemma AutoModeMatchesDefaultVector(p: Pendulum, root: Vec2, c: Config)
    requires c.dtBase > 0.0
    ensures var b := c.dtBase;
      AutoGrandchildDts(MakeChildren(p, root, [b, b, b, b]), c.dtGrandchildrenFactor) == DefaultDtVector(c)[4..]
      && MakeChildren(p, root, [b, b, b, b]) == MakeChildren(p, root, DefaultDtVector(c)[..4])
  {
    var b := c.dtBase;
    var cs := MakeChildren(p, root, [b, b, b, b]);
    var d := AutoGrandchildDts(cs, c.dtGrandchildrenFactor);
    forall j | 0 <= j < 8
      ensures d[j] == DefaultDtVector(c)[4..][j]
    {
      assert Abs(cs[j / 2].dt) == b;
    }
    assert DefaultDtVector(c)[..4] == [b, b, b, b];
  }
}

=== FILE: sqdist.dfy ===
/** `pairwise_sqdist` of the soft matching: the squared Euclidean distances
    between the rows of an N x d array, computed through the Gram matrix
    G = X X^T as G[i][i] + G[j][j] - 2 G[i][j] and clamped at zero. */
module SqDist {
  import opened Common
  import opened Geometry

  /** An N x d array: every row has `d` entries. */
  predicate Rectangular(xs: seq<seq<real>>, d: nat)
  {
    forall i :: 0 <= i < |xs| ==> |xs[i]| == d
  }

  /** `pairwise_sqdist(X)`. */
  function PairwiseSqDist(xs: seq<seq<real>>, d: nat): (r: seq<seq<real>>)
    requires Rectangular(xs, d)
    ensures |r| == |xs| && forall i :: 0 <= i < |xs| ==> |r[i]| == |xs|
    ensures forall i, j :: 0 <= i < |xs| && 0 <= j < |xs| ==> r[i][j] >= 0.0
  {
    seq(|xs|, i requires 0 <= i < |xs| =>
      seq(|xs|, j requires 0 <= j < |xs| =>
        MaxR(DotSeq(xs[i], xs[i]) + DotSeq(xs[j], xs[j]) - 2.0 * DotSeq(xs[i], xs[j]), 0.0)))
  }

  /** The reference definition: the sum of squared coordinate differences. */
  function SquaredDistance(a: seq<real>, b: seq<real>): (s: real)
    requires |a| == |b|
  {
    if |a| == 0 then 0.0 else (a[0] - b[0]) * (a[0] - b[0]) + SquaredDistance(a[1..], b[1..])
  }

  lemma {:induction false} DotSymmetric(a: seq<real>, b: seq<real>)
    requires |a| == |b|
    ensures DotSeq(a, b) == DotSeq(b, a)
  {
    if |a| > 0 {
      DotSymmetric(a[1..], b[1..]);
    }
  }

  /** The Gram-matrix expansion of the squared distance. */
  lemma {:induction false} GramExpansion(a: seq<real>, b: seq<real>)
    requires |a| == |b|
    ensures DotSeq(a, a) + DotSeq(b, b) - 2.0 * DotSeq(a, b) == SquaredDistance(a, b)
  {
    if |a| > 0 {
      GramExpansion(a[1..], b[1..]);
      assert (a[0] - b[0]) * (a[0] - b[0]) == a[0] * a[0] + b[0] * b[0] - 2.0 * (a[0] * b[0]);
    }
  }

  /** A squared distance is never negative, and it is zero exactly for equal rows. */
  lemma {:induction false} SquaredDistanceZeroIff(a: seq<real>, b: seq<real>)
    requires |a| == |b|
    ensures SquaredDistance(a, b) >= 0.0
    ensures SquaredDistance(a, b) == 0.0 <==> a == b
  {
    if |a| > 0 {
      SquaredDistanceZeroIff(a[1..], b[1..]);
      var e := a[0] - b[0];
      SquarePositive(e);
      assert SquaredDistance(a, b) == e * e + SquaredDistance(a[1..], b[1..]);
      if SquaredDistance(a, b) == 0.0 {
        assert e * e == 0.0 && SquaredDistance(a[1..], b[1..]) == 0.0;
        assert a == [a[0]] + a[1..] && b == [b[0]] + b[1..];
      }
      if a == b {
        assert a[1..] == b[1..];
      }
    }
  }

  lemma SquarePositive(e: real)
    ensures e * e >= 0.0
    ensures e * e == 0.0 <==> e == 0.0
  {
    if e != 0.0 {
      assert (e * e) / e == e;
    }
    if e < 0.0 {
      assert e * e == (-e) * (-e);
    }
  }

  /** In exact arithmetic the clamp never bites: entry (i, j) is the squared
      Euclidean distance between rows i and j, and it is zero exactly when
      the rows coincide. */
  lemma EntryIsSquaredDistance(xs: seq<seq<real>>, d: nat, i: nat, j: nat)
    requires Rectangular(xs, d) && i < |xs| && j < |xs|
    ensures PairwiseSqDist(xs, d)[i][j] == SquaredDistance(xs[i], xs[j])
    ensures PairwiseSqDist(xs, d)[i][j] == 0.0 <==> xs[i] == xs[j]
  {
    GramExpansion(xs[i], xs[j]);
    SquaredDistanceZeroIff(xs[i], xs[j]);
  }

  /** The result is symmetric with a zero diagonal. */
  lemma SymmetricZeroDiagonal(xs: seq<seq<real>>, d: nat, i: nat, j: nat)
    requires Rectangular(xs, d) && i < |xs| && j < |xs|
    ensures PairwiseSqDist(xs, d)[i][j] == PairwiseSqDist(xs, d)[j][i]
    ensures PairwiseSqDist(xs, d)[i][i] == 0.0
  {
    DotSymmetric(xs[i], xs[j]);
  }
}

=== FILE: tables.dfy ===
/** The NaN-initialised distance and time tables the pipelines fill from
    successful optimisations. A grandchild pair (i, j) writes the distance to
    both [i][j] and [j][i], and its two times crosswise into the two time
    tables; a grandchild-parent pair writes one cell of each of its tables. */
module Tables {
  import opened Common
  import opened Convergence
  import opened Converging

  /** A successful grandchild-pair optimisation to record. */
  datatype GcMeet = GcMeet(i: nat, j: nat, distance: real, dtI: real, dtJ: real)

  /** A successful grandchild-parent optimisation to record. */
  datatype ParentMeet = ParentMeet(gc: nat, parent: nat, distance: real, dt: real)

  /** `distance_table`, `time_table_i`, `time_table_j`; `None` is NaN. */
  datatype GcTables = GcTables(distance: seq<seq<Cell>>, timeI: seq<seq<Cell>>, timeJ: seq<seq<Cell>>)

  datatype ParentTables = ParentTables(distance: seq<seq<Cell>>, time: seq<seq<Cell>>)

  predicate GcShaped(t: GcTables, n: nat)
  {
    IsTable(t.distance, n, n) && IsTable(t.timeI, n, n) && IsTable(t.timeJ, n, n)
  }

  predicate ParentShaped(t: ParentTables, n: nat, cols: nat)
  {
    IsTable(t.distance, n, cols) && IsTable(t.time, n, cols)
  }

  /** Meeting m writes cell [a][b] of the grandchild tables. */
  predicate Touches(m: GcMeet, a: nat, b: nat)
  {
    (m.i == a && m.j == b) || (m.i == b && m.j == a)
  }

  /** The last of the meetings that writes cell [a][b]: its values are the
      ones left in the tables. */
  function LastGcMeet(ms: seq<GcMeet>, a: nat, b: nat): (k: Option<nat>)
    ensures k.None? <==> forall l :: 0 <= l < |ms| ==> !Touches(ms[l], a, b)
    ensures k.Some? ==>
      && k.value < |ms| && Touches(ms[k.value], a, b)
      && forall l :: k.value < l < |ms| ==> !Touches(ms[l], a, b)
  {
    if |ms| == 0 then None
    else if Touches(ms[|ms| - 1], a, b) then Some(|ms| - 1)
    else LastGcMeet(ms[..|ms| - 1], a, b)
  }

  /** Time of the row spore in cell [a][b] written by m: `dt_i` in [i][j],
      `dt_j` in the mirrored [j][i]. */
  function RowTime(m: GcMeet, a: nat, b: nat): real
  {
    if a == m.j && b == m.i then m.dtJ else m.dtI
  }

  /** Time of the column spore in cell [a][b] written by m. */
  function ColumnTime(m: GcMeet, a: nat, b: nat): real
  {
    if a == m.j && b == m.i then m.dtI else m.dtJ
  }

  /** Cell [a][b] of all three tables, as the meetings leave it. */
  predicate GcCell(t: GcTables, ms: seq<GcMeet>, a: nat, b: nat)
    requires a < |t.distance| && a < |t.timeI| && a < |t.timeJ|
    requires b < |t.distance[a]| && b < |t.timeI[a]| && b < |t.timeJ[a]|
  {
    match LastGcMeet(ms, a, b)
    case None => t.distance[a][b].None? && t.timeI[a][b].None? && t.timeJ[a][b].None?
    case Some(k) =>
      t.distance[a][b] == Some(ms[k].distance)
      && t.timeI[a][b] == Some(RowTime(ms[k], a, b))
      && t.timeJ[a][b] == Some(ColumnTime(ms[k], a, b))
  }

  /** One successful pair: `distance[i, j] = distance[j, i] = d`,
      `time_i[i, j] = dt_i`, `time_j[i, j] = dt_j`, `time_i[j, i] = dt_j`,
      `time_j[j, i] = dt_i`, in that order. */
  function WriteGc(t: GcTables, n: nat, m: GcMeet): (r: GcTables)
    requires GcShaped(t, n) && m.i < n && m.j < n
    ensures GcShaped(r, n)
  {
    GcTables(
      Put(Put(t.distance, m.i, m.j, Some(m.distance)), m.j, m.i, Some(m.distance)),
      Put(Put(t.timeI, m.i, m.j, Some(m.dtI)), m.j, m.i, Some(m.dtJ)),
      Put(Put(t.timeJ, m.i, m.j, Some(m.dtJ)), m.j, m.i, Some(m.dtI)))
  }

  /** The grandchild tables after recording `ms` in order into all-NaN tables. */
  function FillGc(n: nat, ms: seq<GcMeet>): (t: GcTables)
    requires forall k :: 0 <= k < |ms| ==> ms[k].i < n && ms[k].j < n
    ensures GcShaped(t, n)
    ensures forall a, b :: 0 <= a < n && 0 <= b < n ==> GcCell(t, ms, a, b)
  {
    if |ms| == 0 then GcTables(Filled(n, n, None), Filled(n, n, None), Filled(n, n, None))
    else
      var init, m := ms[..|ms| - 1], ms[|ms| - 1];
      var prev := FillGc(n, init);
      WriteGcCells(prev, n, init, m);
      assert init + [m] == ms;
      WriteGc(prev, n, m)
  }

  /** Writing meeting m into tables that hold the meetings `init`. */
  lemma WriteGcCells(prev: GcTables, n: nat, init: seq<GcMeet>, m: GcMeet)
    requires m.i < n && m.j < n && GcShaped(prev, n)
    requires forall a, b :: 0 <= a < n && 0 <= b < n ==> GcCell(prev, init, a, b)
    ensures forall a, b :: 0 <= a < n && 0 <= b < n ==> GcCell(WriteGc(prev, n, m), init + [m], a, b)
  {
    var ms := init + [m];
    assert ms[..|ms| - 1] == init;
    var t := WriteGc(prev, n, m);
    forall a, b | 0 <= a < n && 0 <= b < n
      ensures GcCell(t, ms, a, b)
    {
      assert GcCell(prev, init, a, b);
      if !Touches(m, a, b) {
        assert LastGcMeet(ms, a, b) == LastGcMeet(init, a, b);
      }
    }
  }

  /** With every recorded pair made of two different grandchildren (as the
      upper-triangle filter guarantees), the distance table is symmetric, the
      two time tables are each other's transpose, and the diagonal stays NaN. */
  lemma CellsSymmetric(t: GcTables, n: nat, ms: seq<GcMeet>, a: nat, b: nat)
    requires forall k :: 0 <= k < |ms| ==> ms[k].i != ms[k].j
    requires GcShaped(t, n) && a < n && b < n
    requires GcCell(t, ms, a, b) && GcCell(t, ms, b, a)
    ensures t.distance[a][b] == t.distance[b][a] && t.timeI[a][b] == t.timeJ[b][a]
  {
    LastMeetSymmetric(ms, a, b);
  }

  /** Tables holding the meetings `ms`, each of two different grandchildren,
      are consistent. */
  lemma CellsConsistent(t: GcTables, n: nat, ms: seq<GcMeet>)
    requires forall k :: 0 <= k < |ms| ==> ms[k].i != ms[k].j
    requires GcShaped(t, n)
    requires forall a, b :: 0 <= a < n && 0 <= b < n ==> GcCell(t, ms, a, b)
    ensures GcTablesConsistent(t, n)
  {
    forall a, c | 0 <= a < n && 0 <= c < n
      ensures t.distance[a][c] == t.distance[c][a] && t.timeI[a][c] == t.timeJ[c][a]
    {
      CellsSymmetric(t, n, ms, a, c);
    }
    forall a | 0 <= a < n
      ensures t.distance[a][a].None?
    {
      assert GcCell(t, ms, a, a);
      assert forall l :: 0 <= l < |ms| ==> !Touches(ms[l], a, a);
    }
  }

  lemma {:induction false} LastMeetSymmetric(ms: seq<GcMeet>, a: nat, b: nat)
    ensures LastGcMeet(ms, a, b) == LastGcMeet(ms, b, a)
  {
    if |ms| > 0 {
      LastMeetSymmetric(ms[..|ms| - 1], a, b);
    }
  }

  // ----- grandchild-parent tables -----

  function LastParentMeet(ms: seq<ParentMeet>, g: nat, p: nat): (k: Option<nat>)
    ensures k.None? <==> forall l :: 0 <= l < |ms| ==> !(ms[l].gc == g && ms[l].parent == p)
    ensures k.Some? ==>
      && k.value < |ms| && ms[k.value].gc == g && ms[k.value].parent == p
      && forall l :: k.value < l < |ms| ==> !(ms[l].gc == g && ms[l].parent == p)
  {
    if |ms| == 0 then None
    else if ms[|ms| - 1].gc == g && ms[|ms| - 1].parent == p then Some(|ms| - 1)
    else LastParentMeet(ms[..|ms| - 1], g, p)
  }

  predicate ParentCellIs(t: ParentTables, ms: seq<ParentMeet>, g: nat, p: nat)
    requires g < |t.distance| && g < |t.time| && p < |t.distance[g]| && p < |t.time[g]|
  {
    match LastParentMeet(ms, g, p)
    case None => t.distance[g][p].None? && t.time[g][p].None?
    case Some(k) => t.distance[g][p] == Some(ms[k].distance) && t.time[g][p] == Some(ms[k].dt)
  }

  /** The grandchild-parent tables after recording `ms` into all-NaN tables. */
  function FillParent(n: nat, cols: nat, ms: seq<ParentMeet>): (t: ParentTables)
    requires forall k :: 0 <= k < |ms| ==> ms[k].gc < n && ms[k].parent < cols
    ensures ParentShaped(t, n, cols)
    ensures forall g, p :: 0 <= g < n && 0 <= p < cols ==> ParentCellIs(t, ms, g, p)
  {
    if |ms| == 0 then ParentTables(Filled(n, cols, None), Filled(n, cols, None))
    else
      var init, m := ms[..|ms| - 1], ms[|ms| - 1];
      var prev := FillParent(n, cols, init);
      WriteParentCells(prev, n, cols, init, m);
      assert init + [m] == ms;
      WriteParent(prev, m)
  }

  /** One successful pair: `distance[g, p] = d`, `time[g, p] = dt`. */
  function WriteParent(t: ParentTables, m: ParentMeet): (r: ParentTables)
    requires m.gc < |t.distance| && m.parent < |t.distance[m.gc]|
    requires m.gc < |t.time| && m.parent < |t.time[m.gc]|
  {
    ParentTables(Put(t.distance, m.gc, m.parent, Some(m.distance)), Put(t.time, m.gc, m.parent, Some(m.dt)))
  }

  /** Writing meeting m into tables that hold the meetings `init`. */
  lemma WriteParentCells(prev: ParentTables, n: nat, cols: nat, init: seq<ParentMeet>, m: ParentMeet)
    requires m.gc < n && m.parent < cols && ParentShaped(prev, n, cols)
    requires forall g, p :: 0 <= g < n && 0 <= p < cols ==> ParentCellIs(prev, init, g, p)
    ensures ParentShaped(WriteParent(prev, m), n, cols)
    ensures forall g, p :: 0 <= g < n && 0 <= p < cols ==> ParentCellIs(WriteParent(prev, m), init + [m], g, p)
  {
    var ms := init + [m];
    assert ms[..|ms| - 1] == init;
    var t := WriteParent(prev, m);
    forall g, p | 0 <= g < n && 0 <= p < cols
      ensures ParentCellIs(t, ms, g, p)
    {
      assert ParentCellIs(prev, init, g, p);
    }
  }

  // ----- filling from the converging pairs -----

  /** `meet(i, j)` is the record a successful optimisation of pair (i, j)
      leaves, or `None` when the pair is not recorded. */
  ghost predicate MeetsItsPair(meet: (nat, nat) -> Option<GcMeet>)
  {
    forall x, y :: meet(x, y).Some? ==> meet(x, y).value.i == x && meet(x, y).value.j == y
  }

  /** The recorded meetings of the converging pairs, in pair order. */
  function GcMeetsOf(n: nat, pairs: seq<ConvergingPair>, meet: (nat, nat) -> Option<GcMeet>)
    : (ms: seq<GcMeet>)
    requires forall k :: 0 <= k < |pairs| ==> pairs[k].a < pairs[k].b < n
    requires MeetsItsPair(meet)
    ensures forall l :: 0 <= l < |ms| ==> ms[l].i < ms[l].j < n
    ensures forall l :: 0 <= l < |ms| ==>
      exists k :: 0 <= k < |pairs| && meet(pairs[k].a, pairs[k].b) == Some(ms[l])
    ensures forall k :: 0 <= k < |pairs| && meet(pairs[k].a, pairs[k].b).Some? ==>
      meet(pairs[k].a, pairs[k].b).value in ms
  {
    if |pairs| == 0 then []
    else
      var last := pairs[|pairs| - 1];
      var rest := GcMeetsOf(n, pairs[..|pairs| - 1], meet);
      var m := meet(last.a, last.b);
      var ms := rest + (if m.Some? then [m.value] else []);
      assert forall l :: 0 <= l < |ms| ==>
        exists k :: 0 <= k < |pairs| && meet(pairs[k].a, pairs[k].b) == Some(ms[l]) by {
        forall l | 0 <= l < |ms|
          ensures exists k :: 0 <= k < |pairs| && meet(pairs[k].a, pairs[k].b) == Some(ms[l])
        {
          if l < |rest| {
            var k :| 0 <= k < |pairs| - 1 && meet(pairs[..|pairs| - 1][k].a, pairs[..|pairs| - 1][k].b) == Some(rest[l]);
            assert pairs[k] == pairs[..|pairs| - 1][k];
          } else {
            assert meet(pairs[|pairs| - 1].a, pairs[|pairs| - 1].b) == Some(ms[l]);
          }
        }
      }
      assert forall k :: 0 <= k < |pairs| && meet(pairs[k].a, pairs[k].b).Some? ==>
        meet(pairs[k].a, pairs[k].b).value in ms by {
        forall k | 0 <= k < |pairs| && meet(pairs[k].a, pairs[k].b).Some?
          ensures meet(pairs[k].a, pairs[k].b).value in ms
        {
          if k < |pairs| - 1 {
            assert pairs[k] == pairs[..|pairs| - 1][k];
          }
        }
      }
      ms
  }

  /** Pair (a, b) occurs in `rest + [last]` when it occurs in `rest` or is `last`. */
  lemma HasPairSnoc(rest: seq<ConvergingPair>, last: ConvergingPair, a: nat, b: nat)
    ensures HasPair(rest + [last], a, b) <==> HasPair(rest, a, b) || (last.a == a && last.b == b)
  {
    var ps := rest + [last];
    if HasPair(rest, a, b) {
      var k :| 0 <= k < |rest| && rest[k].a == a && rest[k].b == b;
      assert ps[k] == rest[k];
    }
    if last.a == a && last.b == b {
      assert ps[|rest|] == last;
    }
    if HasPair(ps, a, b) && !(last.a == a && last.b == b) {
      var k :| 0 <= k < |ps| && ps[k].a == a && ps[k].b == b;
      assert rest[k] == ps[k];
    }
  }

  /** Above the diagonal, the last recorded meeting that writes [a][b] is
      pair (a, b)'s record, and there is one exactly when (a, b) converges
      and was recorded. */
  lemma {:induction false} LastGcMeetOfPairs(n: nat, pairs: seq<ConvergingPair>,
                                             meet: (nat, nat) -> Option<GcMeet>, a: nat, b: nat)
    requires forall k :: 0 <= k < |pairs| ==> pairs[k].a < pairs[k].b < n
    requires MeetsItsPair(meet)
    requires a < b < n
    ensures var ms := GcMeetsOf(n, pairs, meet);
      var k := LastGcMeet(ms, a, b);
      && (k.Some? <==> HasPair(pairs, a, b) && meet(a, b).Some?)
      && (k.Some? ==> Some(ms[k.value]) == meet(a, b))
  {
    if |pairs| > 0 {
      var k := |pairs| - 1;
      var rest, last := pairs[..k], pairs[k];
      assert pairs[..k + 1] == pairs == rest + [last];
      LastGcMeetOfPairs(n, rest, meet, a, b);
      HasPairSnoc(rest, last, a, b);
      GcMeetsOfStep(n, pairs, meet, k);
      var m := meet(last.a, last.b);
      LastGcMeetSnoc(GcMeetsOf(n, rest, meet), if m.Some? then [m.value] else [], a, b);
      if m.Some? {
        assert Touches(m.value, a, b) <==> last.a == a && last.b == b;
      }
    }
  }

  /** Appending at most one meeting: it is the last at its own cells, every
      other cell keeps its last writer, and earlier indices are unchanged. */
  lemma LastGcMeetSnoc(ms: seq<GcMeet>, extra: seq<GcMeet>, a: nat, b: nat)
    requires |extra| <= 1
    ensures LastGcMeet(ms + extra, a, b) ==
      if |extra| == 1 && Touches(extra[0], a, b) then Some(|ms|) else LastGcMeet(ms, a, b)
    ensures forall l :: 0 <= l < |ms| ==> (ms + extra)[l] == ms[l]
  {
    if |extra| == 1 {
      assert (ms + extra)[..|ms|] == ms;
    } else {
      assert ms + extra == ms;
    }
  }


  /** Cell [a][b] above the diagonal of the filled grandchild tables holds
      pair (a, b)'s record exactly when (a, b) converges and was recorded. */
  lemma GcCellFromPairs(n: nat, pairs: seq<ConvergingPair>, meet: (nat, nat) -> Option<GcMeet>,
                        a: nat, b: nat)
    requires forall k :: 0 <= k < |pairs| ==> pairs[k].a < pairs[k].b < n
    requires MeetsItsPair(meet)
    requires a < b < n
    ensures var t := FillGc(n, GcMeetsOf(n, pairs, meet));
      && (t.distance[a][b].Some? <==> HasPair(pairs, a, b) && meet(a, b).Some?)
      && (t.distance[a][b].Some? ==>
            && t.distance[a][b] == Some(meet(a, b).value.distance)
            && t.timeI[a][b] == Some(meet(a, b).value.dtI)
            && t.timeJ[a][b] == Some(meet(a, b).value.dtJ))
  {
    var ms := GcMeetsOf(n, pairs, meet);
    var t := FillGc(n, ms);
    assert GcCell(t, ms, a, b);
    LastGcMeetOfPairs(n, pairs, meet, a, b);
    var last := LastGcMeet(ms, a, b);
    if last.Some? {
      var m := ms[last.value];
      assert Some(m) == meet(a, b);
      assert RowTime(m, a, b) == m.dtI && ColumnTime(m, a, b) == m.dtJ;
    }
  }

  /** What a successful grandchild-parent optimisation of (g, p) records. */
  ghost predicate ParentMeetsItsPair(meet: (nat, nat) -> Option<ParentMeet>)
  {
    forall x, y :: meet(x, y).Some? ==> meet(x, y).value.gc == x && meet(x, y).value.parent == y
  }

  /** Extending the pair list by one pair extends its record list by that pair's meeting, if any. */
  lemma GcMeetsOfStep(n: nat, pairs: seq<ConvergingPair>, meet: (nat, nat) -> Option<GcMeet>, k: nat)
    requires forall l :: 0 <= l < |pairs| ==> pairs[l].a < pairs[l].b < n
    requires MeetsItsPair(meet) && k < |pairs|
    ensures var m := meet(pairs[k].a, pairs[k].b);
      GcMeetsOf(n, pairs[..k + 1], meet) == GcMeetsOf(n, pairs[..k], meet) + (if m.Some? then [m.value] else [])
  {
    assert pairs[..k + 1][..k] == pairs[..k];
  }

  function ParentMeetsOf(n: nat, cols: nat, pairs: seq<ConvergingPair>, meet: (nat, nat) -> Option<ParentMeet>)
    : (ms: seq<ParentMeet>)
    requires forall k :: 0 <= k < |pairs| ==> pairs[k].a < n && pairs[k].b < cols
    requires ParentMeetsItsPair(meet)
    ensures forall l :: 0 <= l < |ms| ==> ms[l].gc < n && ms[l].parent < cols
    ensures forall l :: 0 <= l < |ms| ==>
      exists k :: 0 <= k < |pairs| && meet(pairs[k].a, pairs[k].b) == Some(ms[l])
    ensures forall k :: 0 <= k < |pairs| && meet(pairs[k].a, pairs[k].b).Some? ==>
      meet(pairs[k].a, pairs[k].b).value in ms
  {
    if |pairs| == 0 then []
    else
      var last := pairs[|pairs| - 1];
      var rest := ParentMeetsOf(n, cols, pairs[..|pairs| - 1], meet);
      var m := meet(last.a, last.b);
      var ms := rest + (if m.Some? then [m.value] else []);
      assert forall l :: 0 <= l < |ms| ==>
        exists k :: 0 <= k < |pairs| && meet(pairs[k].a, pairs[k].b) == Some(ms[l]) by {
        forall l | 0 <= l < |ms|
          ensures exists k :: 0 <= k < |pairs| && meet(pairs[k].a, pairs[k].b) == Some(ms[l])
        {
          if l < |rest| {
            var k :| 0 <= k < |pairs| - 1 && meet(pairs[..|pairs| - 1][k].a, pairs[..|pairs| - 1][k].b) == Some(rest[l]);
            assert pairs[k] == pairs[..|pairs| - 1][k];
          } else {
            assert meet(pairs[|pairs| - 1].a, pairs[|pairs| - 1].b) == Some(ms[l]);
          }
        }
      }
      assert forall k :: 0 <= k < |pairs| && meet(pairs[k].a, pairs[k].b).Some? ==>
        meet(pairs[k].a, pairs[k].b).value in ms by {
        forall k | 0 <= k < |pairs| && meet(pairs[k].a, pairs[k].b).Some?
          ensures meet(pairs[k].a, pairs[k].b).value in ms
        {
          if k < |pairs| - 1 {
            assert pairs[k] == pairs[..|pairs| - 1][k];
          }
        }
      }
      ms
  }
  lemma ParentMeetsOfStep(n: nat, cols: nat, pairs: seq<ConvergingPair>,
                          meet: (nat, nat) -> Option<ParentMeet>, k: nat)
    requires forall l :: 0 <= l < |pairs| ==> pairs[l].a < n && pairs[l].b < cols
    requires ParentMeetsItsPair(meet) && k < |pairs|
    ensures var m := meet(pairs[k].a, pairs[k].b);
      ParentMeetsOf(n, cols, pairs[..k + 1], meet) == ParentMeetsOf(n, cols, pairs[..k], meet) + (if m.Some? then [m.value] else [])
  {
    assert pairs[..k + 1][..k] == pairs[..k];
  }


  /** The last recorded meeting at (g, p) is (g, p)'s record, and there is
      one exactly when (g, p) converges and was recorded. */
  lemma {:induction false} LastParentMeetOfPairs(n: nat, cols: nat, pairs: seq<ConvergingPair>,
                                                 meet: (nat, nat) -> Option<ParentMeet>, g: nat, p: nat)
    requires forall k :: 0 <= k < |pairs| ==> pairs[k].a < n && pairs[k].b < cols
    requires ParentMeetsItsPair(meet)
    ensures var ms := ParentMeetsOf(n, cols, pairs, meet);
      var k := LastParentMeet(ms, g, p);
      && (k.Some? <==> HasPair(pairs, g, p) && meet(g, p).Some?)
      && (k.Some? ==> Some(ms[k.value]) == meet(g, p))
  {
    if |pairs| > 0 {
      var k := |pairs| - 1;
      var rest, last := pairs[..k], pairs[k];
      assert pairs[..k + 1] == pairs == rest + [last];
      LastParentMeetOfPairs(n, cols, rest, meet, g, p);
      HasPairSnoc(rest, last, g, p);
      ParentMeetsOfStep(n, cols, pairs, meet, k);
      var m := meet(last.a, last.b);
      var msRest := ParentMeetsOf(n, cols, rest, meet);
      if m.Some? {
        LastParentMeetSnoc(msRest, m.value, g, p);
        assert (msRest + [m.value])[..|msRest|] == msRest;
      } else {
        assert msRest + [] == msRest;
      }
    }
  }

  /** Appending a meeting makes it the last one at its own cell. */
  lemma LastParentMeetSnoc(ms: seq<ParentMeet>, x: ParentMeet, g: nat, p: nat)
    ensures LastParentMeet(ms + [x], g, p) ==
      if x.gc == g && x.parent == p then Some(|ms|) else LastParentMeet(ms, g, p)
  {
    assert (ms + [x])[..|ms|] == ms;
  }

  /** Cell [g][p] of the filled grandchild-parent tables holds (g, p)'s record
      exactly when (g, p) converges and was recorded, and is NaN otherwise. */
  lemma ParentCellFromPairs(n: nat, cols: nat, pairs: seq<ConvergingPair>,
                            meet: (nat, nat) -> Option<ParentMeet>, g: nat, p: nat)
    requires forall k :: 0 <= k < |pairs| ==> pairs[k].a < n && pairs[k].b < cols
    requires ParentMeetsItsPair(meet)
    requires g < n && p < cols
    ensures var t := FillParent(n, cols, ParentMeetsOf(n, cols, pairs, meet));
      && (t.distance[g][p].Some? <==> HasPair(pairs, g, p) && meet(g, p).Some?)
      && (t.distance[g][p].Some? ==>
            t.distance[g][p] == Some(meet(g, p).value.distance) && t.time[g][p] == Some(meet(g, p).value.dt))
  {
    var ms := ParentMeetsOf(n, cols, pairs, meet);
    var t := FillParent(n, cols, ms);
    assert ParentCellIs(t, ms, g, p);
    LastParentMeetOfPairs(n, cols, pairs, meet, g, p);
  }

  /** The grandchild tables filled from the converging pairs: every cell
      above the diagonal. */
  lemma GcFillFromPairs(n: nat, pairs: seq<ConvergingPair>, meet: (nat, nat) -> Option<GcMeet>)
    requires forall k :: 0 <= k < |pairs| ==> pairs[k].a < pairs[k].b < n
    requires MeetsItsPair(meet)
    ensures var t := FillGc(n, GcMeetsOf(n, pairs, meet));
      && (forall a, c :: 0 <= a < c < n ==>
            (t.distance[a][c].Some? <==> HasPair(pairs, a, c) && meet(a, c).Some?))
      && (forall a, c :: 0 <= a < c < n && t.distance[a][c].Some? ==>
            && t.distance[a][c] == Some(meet(a, c).value.distance)
            && t.timeI[a][c] == Some(meet(a, c).value.dtI)
            && t.timeJ[a][c] == Some(meet(a, c).value.dtJ))
  {
    forall a, c | 0 <= a < c < n
      ensures var t := FillGc(n, GcMeetsOf(n, pairs, meet));
        && (t.distance[a][c].Some? <==> HasPair(pairs, a, c) && meet(a, c).Some?)
        && (t.distance[a][c].Some? ==>
              && t.distance[a][c] == Some(meet(a, c).value.distance)
              && t.timeI[a][c] == Some(meet(a, c).value.dtI)
              && t.timeJ[a][c] == Some(meet(a, c).value.dtJ))
    {
      GcCellFromPairs(n, pairs, meet, a, c);
    }
  }

  /** Symmetric distances, transposed times, and a NaN diagonal. */
  predicate GcTablesConsistent(t: GcTables, n: nat)
    requires GcShaped(t, n)
  {
    && (forall a, c :: 0 <= a < n && 0 <= c < n ==>
          t.distance[a][c] == t.distance[c][a] && t.timeI[a][c] == t.timeJ[c][a])
    && (forall a :: 0 <= a < n ==> t.distance[a][a].None?)
  }

  /** The grandchild tables filled from pairs of two different grandchildren
      are consistent. */
  lemma GcFillSymmetric(n: nat, ms: seq<GcMeet>)
    requires forall k :: 0 <= k < |ms| ==> ms[k].i < n && ms[k].j < n && ms[k].i != ms[k].j
    ensures GcTablesConsistent(FillGc(n, ms), n)
  {
    CellsConsistent(FillGc(n, ms), n, ms);
  }

  /** The grandchild-parent tables filled from the converging pairs, every cell at once. */
  lemma ParentFillFromPairs(n: nat, cols: nat, pairs: seq<ConvergingPair>, meet: (nat, nat) -> Option<ParentMeet>)
    requires forall k :: 0 <= k < |pairs| ==> pairs[k].a < n && pairs[k].b < cols
    requires ParentMeetsItsPair(meet)
    ensures var t := FillParent(n, cols, ParentMeetsOf(n, cols, pairs, meet));
      && (forall g, q :: 0 <= g < n && 0 <= q < cols ==>
            (t.distance[g][q].Some? <==> HasPair(pairs, g, q) && meet(g, q).Some?))
      && (forall g, q :: 0 <= g < n && 0 <= q < cols && t.distance[g][q].Some? ==>
            t.distance[g][q] == Some(meet(g, q).value.distance) && t.time[g][q] == Some(meet(g, q).value.dt))
  {
    forall g, q | 0 <= g < n && 0 <= q < cols
      ensures var t := FillParent(n, cols, ParentMeetsOf(n, cols, pairs, meet));
        && (t.distance[g][q].Some? <==> HasPair(pairs, g, q) && meet(g, q).Some?)
        && (t.distance[g][q].Some? ==>
              t.distance[g][q] == Some(meet(g, q).value.distance) && t.time[g][q] == Some(meet(g, q).value.dt))
    {
      ParentCellFromPairs(n, cols, pairs, meet, g, q);
    }
  }
}

=== FILE: topology.dfy ===
/** `tree_topology`: the tree's fixed structure built once, then a fast
    recomputation of the eight grandchild positions in pairing order from a
    12-entry dt vector, and the pair metrics of those positions. */
module Topology {
  import opened Common
  import opened Seqs
  import opened Sorting
  import opened SporeTree
  import opened Geometry

  datatype ChildConfig = ChildConfig(control: real, dtSign: real)

  datatype GrandchildConfig = GrandchildConfig(parentIdx: nat, localIdx: nat, control: real, dtSign: real)

  datatype TreeTopology = TreeTopology(
    initialPosition: Vec2,
    childConfigs: seq<ChildConfig>,
    grandchildConfigs: seq<GrandchildConfig>,
    uMin: real,
    uMax: real)

  /** `create_tree_topology`: children forward_max, backward_max, forward_min,
      backward_min; two grandchildren per child under the negated control, the
      first forward and the second backward. */
  function CreateTreeTopology(root: Vec2, p: Pendulum): (t: TreeTopology)
    ensures t.initialPosition == root && t.uMin == p.uMin && t.uMax == p.uMax
    ensures |t.childConfigs| == 4 && |t.grandchildConfigs| == 8
    ensures forall i :: 0 <= i < 4 ==>
      t.childConfigs[i].control == (if i < 2 then p.uMax else p.uMin)
      && t.childConfigs[i].dtSign == (if i % 2 == 0 then 1.0 else -1.0)
    ensures forall j :: 0 <= j < 8 ==>
      t.grandchildConfigs[j].parentIdx == j / 2 && t.grandchildConfigs[j].localIdx == j % 2
      && t.grandchildConfigs[j].control == -t.childConfigs[j / 2].control
      && t.grandchildConfigs[j].dtSign == (if j % 2 == 0 then 1.0 else -1.0)
  {
    var cc := seq(4, i requires 0 <= i < 4 => ChildConfig(ChildControl(p, i), ChildSign(i)));
    TreeTopology(root, cc,
      seq(8, j requires 0 <= j < 8 => GrandchildConfig(j / 2, j % 2, -cc[j / 2].control, ChildSign(j))),
      p.uMin, p.uMax)
  }

  /** The topology's tables are the ones `SporeTree` builds with: a grandchild
      built by `MakeGrandchildren` has the control and time direction its
      config names. */
  lemma TopologyMatchesSporeTree(root: Vec2, p: Pendulum, dtc: seq<real>, dtg: seq<real>)
    requires |dtc| == 4 && |dtg| == 8
    requires forall i :: 0 <= i < 4 ==> dtc[i] > 0.0
    requires forall j :: 0 <= j < 8 ==> dtg[j] > 0.0
    ensures var t := CreateTreeTopology(root, p);
      var cs := MakeChildren(p, root, dtc);
      var gs := MakeGrandchildren(p, cs, dtg);
      (forall i :: 0 <= i < 4 ==>
         cs[i].control == t.childConfigs[i].control && cs[i].dt == dtc[i] * t.childConfigs[i].dtSign)
      && (forall j :: 0 <= j < 8 ==>
         gs[j].parentIdx == t.grandchildConfigs[j].parentIdx
         && gs[j].control == t.grandchildConfigs[j].control
         && gs[j].dt == dtg[j] * t.grandchildConfigs[j].dtSign)
  {
    var t := CreateTreeTopology(root, p);
    var cs := MakeChildren(p, root, dtc);
    forall i | 0 <= i < 4
      ensures cs[i].dt == dtc[i] * t.childConfigs[i].dtSign
    {
      assert cs[i].dt == dtc[i] * ChildSign(i);
    }
  }

  /** The `arctan2` key of each child, taken of its offset from the root. */
  function ChildAngleKeys(cs: seq<Child>, root: Vec2, angle: Vec2 -> real): (keys: seq<real>)
    ensures |keys| == |cs|
    ensures forall i :: 0 <= i < |cs| ==> keys[i] == angle(Sub(cs[i].position, root))
  {
    seq(|cs|, i requires 0 <= i < |cs| => angle(Sub(cs[i].position, root)))
  }

  /** The pendulum with the control bounds the topology captured. */
  function WithBounds(t: TreeTopology, p: Pendulum): Pendulum
  {
    p.(uMin := t.uMin, uMax := t.uMax)
  }

  /** Steps 1-3: children from dt[0:4] by the child table, sorted ascending by
      angle and renumbered 0..3 in that order, then two grandchildren per sorted
      child with magnitudes dt[4:12] taken in the sorted order. */
  function TopologyGrandchildren(t: TreeTopology, p: Pendulum, angle: Vec2 -> real, dt: seq<real>): (gs: seq<Grandchild>)
    requires |dt| >= 12
    ensures |gs| == 8 && GrandchildrenLaidOut(gs)
    ensures var q := WithBounds(t, p);
      var cs := MakeChildren(q, t.initialPosition, dt[0..4]);
      forall o :: IsStableOrder(ChildAngleKeys(cs, t.initialPosition, angle), o) ==>
        forall j :: 0 <= j < 8 ==>
          && gs[j].control == -cs[o[j / 2]].control
          && gs[j].dtAbs == dt[4 + j]
          && gs[j].dt == (if j % 2 == 0 then dt[4 + j] else -dt[4 + j])
          && gs[j].position == q.step(cs[o[j / 2]].position, gs[j].control, gs[j].dt)
  {
    var q := WithBounds(t, p);
    var cs := MakeChildren(q, t.initialPosition, dt[0..4]);
    var order := StableSort(ChildAngleKeys(cs, t.initialPosition, angle));
    forall o | IsStableOrder(ChildAngleKeys(cs, t.initialPosition, angle), o)
      ensures o == order
    {
      StableOrderUnique(ChildAngleKeys(cs, t.initialPosition, angle), o, order);
    }
    MakeGrandchildren(q, Permute(cs, order), dt[4..12])
  }

  /** Steps 4-5: the angle-descending stable sort, rolled right by one when its
      first two entries share a parent. */
  function TopologyOrder(gs: seq<Grandchild>, root: Vec2, angle: Vec2 -> real): (o: seq<nat>)
    ensures |o| == |gs| && InRange(o, |gs|)
    ensures IsRotation(o, StableSortDesc(AngleKeys(gs, root, angle)))
    ensures var desc := StableSortDesc(AngleKeys(gs, root, angle));
      if |desc| >= 2 && gs[desc[0]].parentIdx == gs[desc[1]].parentIdx
      then o[0] == desc[|desc| - 1] && forall k :: 0 <= k < |desc| - 1 ==> o[k + 1] == desc[k]
      else o == desc
  {
    var desc := StableSortDesc(AngleKeys(gs, root, angle));
    if |desc| >= 2 && gs[desc[0]].parentIdx == gs[desc[1]].parentIdx then
      RollRightAfterLeft(desc, 0);
      assert RollLeft(desc, 0) == desc;
      RollRight1(desc)
    else
      assert RollLeft(desc, 0) == desc;
      desc
  }

  /** The positions of `gs` listed in `order`. */
  function PositionsInOrder(gs: seq<Grandchild>, order: seq<nat>): (ps: seq<Vec2>)
    requires InRange(order, |gs|)
    ensures |ps| == |order| && forall i :: 0 <= i < |order| ==> ps[i] == gs[order[i]].position
  {
    seq(|order|, i requires 0 <= i < |order| => gs[order[i]].position)
  }

  /** `calculate_grandchildren_positions`: `None` when dt has fewer than 12
      entries (an IndexError). */
  function CalculateGrandchildrenPositions(t: TreeTopology, p: Pendulum, angle: Vec2 -> real, dt: seq<real>): (r: Option<seq<Vec2>>)
    ensures r.Some? <==> |dt| >= 12
    ensures r.Some? ==>
      var gs := TopologyGrandchildren(t, p, angle, dt);
      |r.value| == 8 && r.value == PositionsInOrder(gs, TopologyOrder(gs, t.initialPosition, angle))
  {
    if |dt| < 12 then None
    else
      var gs := TopologyGrandchildren(t, p, angle, dt);
      Some(PositionsInOrder(gs, TopologyOrder(gs, t.initialPosition, angle)))
  }

  /** The roll makes the first pair come from two different parents: each
      parent has exactly two grandchildren, so when the first two entries are
      siblings the last entry is not their sibling. Pairs 1-3 are not checked. */
  lemma TopologyFirstPairDistinct(gs: seq<Grandchild>, root: Vec2, angle: Vec2 -> real)
    requires |gs| == 8 && GrandchildrenLaidOut(gs)
    ensures var o := TopologyOrder(gs, root, angle);
      gs[o[0]].parentIdx != gs[o[1]].parentIdx
  {
    var keys := AngleKeys(gs, root, angle);
    var desc := StableSortDesc(keys);
    assert forall a, b :: 0 <= a < b < 8 ==> BeforeDesc(keys, desc[a], desc[b]);
    assert desc[0] != desc[1] && desc[7] != desc[0] && desc[7] != desc[1];
    if gs[desc[0]].parentIdx == gs[desc[1]].parentIdx {
      var par := desc[0] / 2;
      assert desc[1] / 2 == par;
      assert desc[7] / 2 != par;
      assert RollRight1(desc)[0] == desc[7] && RollRight1(desc)[1] == desc[0];
    }
  }

  datatype Metrics = Metrics(pairDistances: seq<real>, meanPoints: seq<Vec2>, area: real)

  /** `calculate_metrics`: pair k is positions (2k, 2k+1); `None` when fewer than
      eight positions are given (an IndexError). */
  function CalculateMetrics(ps: seq<Vec2>, norm: Norm): (r: Option<Metrics>)
    ensures r.Some? <==> |ps| >= 8
    ensures r.Some? ==>
      |r.value.pairDistances| == 4 && |r.value.meanPoints| == 4
      && (forall k :: 0 <= k < 4 ==>
            r.value.pairDistances[k] == norm(Sub(ps[2 * k], ps[2 * k + 1]))
            && Scale(2.0, r.value.meanPoints[k]) == Add(ps[2 * k], ps[2 * k + 1]))
      && r.value.area >= 0.0
      && r.value.area == 0.5 * Abs(Sum(CrossTerms(r.value.meanPoints)))
  {
    if |ps| < 8 then None
    else
      var means := seq(4, k requires 0 <= k < 4 => Midpoint(ps[2 * k], ps[2 * k + 1]));
      ShoelaceIsCrossSum(means);
      Some(Metrics(seq(4, k requires 0 <= k < 4 => norm(Sub(ps[2 * k], ps[2 * k + 1]))),
                   means, ShoelaceArea(means)))
  }

  /** On the same grandchildren and order, the topology's mean points and area
      are the tree's pair midpoints and their shoelace area. */
  lemma MetricsMatchTree(gs: seq<Grandchild>, order: seq<nat>, norm: Norm)
    requires |order| >= 8 && InRange(order, |gs|)
    ensures var m := CalculateMetrics(PositionsInOrder(gs, order), norm);
      m.Some? && m.value.meanPoints == PairMidpoints(gs, order)
      && m.value.area == ShoelaceArea(PairMidpoints(gs, order))
  {
  }
}

=== FILE: tree_area.dfy ===
/** The area objective of the area optimiser: the summed areas of the
    triangles root -> parent child -> grandchild, computed either from a
    tree's stored positions (`get_tree_area`) or from a dt vector by an
    evaluator that re-steps the pendulum from a snapshot of the tree
    (`TreeAreaEvaluator`). */
module TreeArea {
  import opened Common
  import opened Seqs
  import opened SporeTree
  import opened Geometry
  import opened Spawns

  // ------------------------------------------------------------ the kernel

  /** Every grandchild position has a parent index naming a child position.
      The compiled kernel does not check array bounds, so its callers must
      guarantee this. */
  predicate ParentsInRange(cps: seq<Vec2>, gps: seq<Vec2>, parents: seq<nat>)
  {
    |gps| <= |parents| && forall i :: 0 <= i < |gps| ==> parents[i] < |cps|
  }

  /** The triangle of grandchild i: root, its parent, itself. */
  function Triangles(root: Vec2, cps: seq<Vec2>, gps: seq<Vec2>, parents: seq<nat>): (t: seq<real>)
    requires ParentsInRange(cps, gps, parents)
    ensures |t| == |gps|
    ensures forall i :: 0 <= i < |gps| ==> t[i] == TriangleArea(root, cps[parents[i]], gps[i])
  {
    seq(|gps|, i requires 0 <= i < |gps| => TriangleArea(root, cps[parents[i]], gps[i]))
  }

  /** The total area: never negative, and zero exactly when every
      root/parent/grandchild triangle is degenerate. */
  function TotalArea(root: Vec2, cps: seq<Vec2>, gps: seq<Vec2>, parents: seq<nat>): (a: real)
    requires ParentsInRange(cps, gps, parents)
    ensures a >= 0.0
    ensures a == 0.0 <==> forall i :: 0 <= i < |gps| ==> TriangleArea(root, cps[parents[i]], gps[i]) == 0.0
  {
    var t := Triangles(root, cps, gps, parents);
    SumNonNegative(t);
    SumZeroIff(t);
    Sum(t)
  }

  /** `_calculate_total_area_numba`: the loop accumulates the triangles in
      grandchild order. */
  method TotalAreaKernel(root: Vec2, cps: seq<Vec2>, gps: seq<Vec2>, parents: seq<nat>) returns (total: real)
    requires ParentsInRange(cps, gps, parents)
    ensures total == TotalArea(root, cps, gps, parents)
  {
    ghost var t := Triangles(root, cps, gps, parents);
    total := 0.0;
    for i := 0 to |gps|
      invariant total == Sum(t[..i])
    {
      var area := TriangleArea(root, cps[parents[i]], gps[i]);
      SumConcat(t[..i], [area]);
      assert t[..i + 1] == t[..i] + [area];
      total := total + area;
    }
    assert t[..|gps|] == t;
  }

  // ---------------------------------------------------- get_tree_area

  /** `np.repeat(np.arange(n), 2)`: [0, 0, 1, 1, ..., n-1, n-1]. */
  function RepeatTwice(n: nat): (r: seq<nat>)
    ensures |r| == 2 * n && forall j :: 0 <= j < 2 * n ==> r[j] == j / 2
  {
    seq(2 * n, j requires 0 <= j < 2 * n => j / 2)
  }

  /** `get_tree_area`: 0.0 unless both generations exist; otherwise the total
      over the stored positions, taking grandchild j's parent to be child j / 2. */
  function GetTreeArea(t: Tree): (r: real)
    requires Valid(t)
    ensures r >= 0.0
    ensures !t.childrenCreated || !t.grandchildrenCreated ==> r == 0.0
    ensures t.childrenCreated && t.grandchildrenCreated ==>
      (r == 0.0 <==> forall j :: 0 <= j < 8 ==>
         TriangleArea(t.root, t.children[j / 2].position, t.grandchildren[j].position) == 0.0)
  {
    if !t.childrenCreated || !t.grandchildrenCreated then 0.0
    else TotalArea(t.root, ChildPositionsOf(t.children), GrandchildPositionsOf(t.grandchildren),
                   RepeatTwice(|t.children|))
  }

  // ---------------------------------------------------- TreeAreaEvaluator

  /** The evaluator keeps the pendulum, the root and the snapshot; it never
      looks at the tree again. */
  datatype AreaEvaluator = AreaEvaluator(
    pendulum: Pendulum, root: Vec2, children: seq<ChildInfo>, grandchildren: seq<GcInfo>)

  /** The two ValueErrors of the constructor. */
  datatype AreaError = ChildrenNotCreated | GrandchildrenNotCreated

  /** `TreeAreaEvaluator.__init__`: refuses a tree without children or
      grandchildren, then captures every spore's control and time direction. */
  function NewAreaEvaluator(p: Pendulum, t: Tree): (r: Result<AreaEvaluator, AreaError>)
    ensures r.Err? <==> !t.childrenCreated || !t.grandchildrenCreated
    ensures r.Err? ==> r.error == (if !t.childrenCreated then ChildrenNotCreated else GrandchildrenNotCreated)
    ensures r.Ok? ==>
      r.value.pendulum == p && r.value.root == t.root
      && |r.value.children| == |t.children| && |r.value.grandchildren| == |t.grandchildren|
      && (forall i :: 0 <= i < |t.children| ==>
            r.value.children[i].sign == SignR(t.children[i].dt)
            && r.value.children[i].control == t.children[i].control)
      && (forall j :: 0 <= j < |t.grandchildren| ==>
            r.value.grandchildren[j].sign == SignR(t.grandchildren[j].dt)
            && r.value.grandchildren[j].control == t.grandchildren[j].control
            && r.value.grandchildren[j].parentIdx == t.grandchildren[j].parentIdx)
  {
    if !t.childrenCreated then Err(ChildrenNotCreated)
    else if !t.grandchildrenCreated then Err(GrandchildrenNotCreated)
    else Ok(AreaEvaluator(p, t.root, ChildInfos(t.children), GcInfos(t.grandchildren)))
  }

  /** `self.parent_indices`. */
  function ParentIndices(e: AreaEvaluator): (r: seq<nat>)
    ensures |r| == |e.grandchildren| && forall j :: 0 <= j < |r| ==> r[j] == e.grandchildren[j].parentIdx
  {
    seq(|e.grandchildren|, j requires 0 <= j < |e.grandchildren| => e.grandchildren[j].parentIdx)
  }

  /** The snapshot fits a 12-entry vector: no more than 4 children and 8
      grandchildren, every parent index naming a child. Otherwise indexing
      raises and `area` answers 0.0. */
  predicate Fits(e: AreaEvaluator)
  {
    |e.children| <= 4 && |e.grandchildren| <= 8
    && forall j :: 0 <= j < |e.grandchildren| ==> e.grandchildren[j].parentIdx < |e.children|
  }

  function ChildPositions(e: AreaEvaluator, dtc: seq<real>): (r: seq<Vec2>)
    requires |e.children| <= |dtc|
    ensures |r| == |e.children|
    ensures forall i :: 0 <= i < |r| ==> r[i] == ChildAt(e.pendulum, e.root, e.children[i], Abs(dtc[i]))
  {
    seq(|e.children|, i requires 0 <= i < |e.children| => ChildAt(e.pendulum, e.root, e.children[i], Abs(dtc[i])))
  }

  function GrandchildPositions(e: AreaEvaluator, cps: seq<Vec2>, dtg: seq<real>): (r: seq<Vec2>)
    requires |e.grandchildren| <= |dtg|
    requires forall j :: 0 <= j < |e.grandchildren| ==> e.grandchildren[j].parentIdx < |cps|
    ensures |r| == |e.grandchildren|
    ensures forall j :: 0 <= j < |r| ==>
      r[j] == GrandchildAt(e.pendulum, cps[e.grandchildren[j].parentIdx], e.grandchildren[j], Abs(dtg[j]))
  {
    seq(|e.grandchildren|, j requires 0 <= j < |e.grandchildren| =>
      GrandchildAt(e.pendulum, cps[e.grandchildren[j].parentIdx], e.grandchildren[j], Abs(dtg[j])))
  }

  /** `TreeAreaEvaluator.area`: a vector whose length is not 12, or a snapshot
      that does not fit it, gives 0.0; otherwise the magnitudes |dt| are
      stepped with the recorded signs and the triangles summed. */
  function Area(e: AreaEvaluator, v: seq<real>): (r: real)
    ensures r >= 0.0
    ensures |v| != 12 || !Fits(e) ==> r == 0.0
  {
    if |v| != 12 || !Fits(e) then 0.0
    else
      var cps := ChildPositions(e, v[..4]);
      TotalArea(e.root, cps, GrandchildPositions(e, cps, v[4..]), ParentIndices(e))
  }

  /** `np.abs` of a vector. */
  function AbsAll(v: seq<real>): (r: seq<real>)
    ensures |r| == |v| && forall i :: 0 <= i < |v| ==> r[i] == Abs(v[i])
  {
    seq(|v|, i requires 0 <= i < |v| => Abs(v[i]))
  }

  /** Only magnitudes matter: the evaluator takes |dt| before stepping. */
  lemma AreaIgnoresSigns(e: AreaEvaluator, v: seq<real>)
    ensures Area(e, v) == Area(e, AbsAll(v))
  {
    var w := AbsAll(v);
    if |v| == 12 && Fits(e) {
      var c1, c2 := ChildPositions(e, v[..4]), ChildPositions(e, w[..4]);
      assert c1 == c2;
      var g1, g2 := GrandchildPositions(e, c1, v[4..]), GrandchildPositions(e, c2, w[4..]);
      forall j | 0 <= j < |g1|
        ensures g1[j] == g2[j]
      {
        assert v[4..][j] == v[4 + j] && w[4..][j] == w[4 + j];
      }
      assert g1 == g2;
    }
  }

  /** At a consistent tree's own dt vector the evaluator reproduces the tree's
      positions, so it agrees with `get_tree_area`: the equality
      `test_area_calculation` checks. */
  lemma EvaluatorMatchesTreeArea(p: Pendulum, t: Tree)
    requires Valid(t) && Consistent(p, t)
    ensures NewAreaEvaluator(p, t).Ok?
    ensures Area(NewAreaEvaluator(p, t).value, TreeDtVector(t)) == GetTreeArea(t)
  {
    var e := NewAreaEvaluator(p, t).value;
    EvaluatorChildPositions(p, t);
    EvaluatorGrandchildPositions(p, t);
    assert ParentIndices(e) == RepeatTwice(4);
  }

  /** Re-stepping the children of a consistent tree at their own magnitudes
      lands on their stored positions. */
  lemma EvaluatorChildPositions(p: Pendulum, t: Tree)
    requires Valid(t) && Consistent(p, t)
    ensures NewAreaEvaluator(p, t).Ok? && Fits(NewAreaEvaluator(p, t).value)
    ensures ChildPositions(NewAreaEvaluator(p, t).value, TreeDtVector(t)[..4]) == ChildPositionsOf(t.children)
  {
    var e := NewAreaEvaluator(p, t).value;
    var v := TreeDtVector(t);
    assert Fits(e);
    var cps := ChildPositions(e, v[..4]);
    forall i | 0 <= i < 4
      ensures cps[i] == t.children[i].position
    {
      MagnitudeTimesSign(t.children[i].dt);
    }
  }

  /** Re-stepping the grandchildren of a consistent tree from their parents'
      stored positions at their own magnitudes lands on their stored positions. */
  lemma EvaluatorGrandchildPositions(p: Pendulum, t: Tree)
    requires Valid(t) && Consistent(p, t)
    ensures NewAreaEvaluator(p, t).Ok? && Fits(NewAreaEvaluator(p, t).value)
    ensures |NewAreaEvaluator(p, t).value.children| == 4
    ensures GrandchildPositions(NewAreaEvaluator(p, t).value, ChildPositionsOf(t.children), TreeDtVector(t)[4..])
      == GrandchildPositionsOf(t.grandchildren)
  {
    var e := NewAreaEvaluator(p, t).value;
    var v := TreeDtVector(t);
    assert Fits(e);
    var gps := GrandchildPositions(e, ChildPositionsOf(t.children), v[4..]);
    forall j | 0 <= j < 8
      ensures gps[j] == t.grandchildren[j].position
    {
      var g := t.grandchildren[j];
      assert e.grandchildren[j] == GcInfo(j / 2, g.control, SignR(g.dt));
      assert v[4..][j] == v[4 + j] == Abs(g.dt);
      MagnitudeTimesSign(g.dt);
      assert gps[j] == p.step(t.children[j / 2].position, g.control, g.dt);
    }
  }

  /** The result of `test_area_calculation`; `relativeError` is
      float('inf') when the reference area is not positive. */
  datatype AreaTest = AreaTest(
    success: bool, evaluatorArea: real, referenceArea: real, difference: real, relativeError: Ext)

  const AreaTolerance: real := 0.0000000001

  /** `test_area_calculation`: compares the evaluator at the tree's own
      magnitudes with `get_tree_area`. */
  function TestAreaCalculation(e: AreaEvaluator, t: Tree): (r: AreaTest)
    requires Valid(t)
    ensures r.evaluatorArea == Area(e, TreeDtVector(t)) && r.referenceArea == GetTreeArea(t)
    ensures r.difference >= 0.0
    ensures r.difference == r.evaluatorArea - r.referenceArea || r.difference == r.referenceArea - r.evaluatorArea
    ensures r.success <==> r.difference < AreaTolerance
    ensures r.relativeError.Infinity? <==> r.referenceArea == 0.0
  {
    var a := Area(e, TreeDtVector(t));
    var b := GetTreeArea(t);
    var d := Abs(a - b);
    AreaTest(d < AreaTolerance, a, b, d, if b > 0.0 then Finite(d / b) else Infinity)
  }

  /** An evaluator built from a consistent tree passes its own test. */
  lemma ConsistentTreePassesAreaTest(p: Pendulum, t: Tree)
    requires Valid(t) && Consistent(p, t)
    ensures NewAreaEvaluator(p, t).Ok?
    ensures TestAreaCalculation(NewAreaEvaluator(p, t).value, t).success
    ensures TestAreaCalculation(NewAreaEvaluator(p, t).value, t).difference == 0.0
  {
    EvaluatorMatchesTreeArea(p, t);
  }

  /** The snapshot is taken once: updating the tree with positive magnitudes
      (which keeps every non-zero time direction) leaves it as it was. */
  lemma SnapshotSurvivesUpdate(p: Pendulum, t: Tree, dtc: seq<real>, dtg: seq<real>, recomputeMeans: bool)
    requires Valid(t) && UpdatePositions(p, t, dtc, dtg, recomputeMeans).Ok?
    requires forall i :: 0 <= i < 4 ==> dtc[i] > 0.0 && t.children[i].dt != 0.0
    requires forall j :: 0 <= j < 8 ==> dtg[j] > 0.0 && t.grandchildren[j].dt != 0.0
    ensures NewAreaEvaluator(p, UpdatePositions(p, t, dtc, dtg, recomputeMeans).value) == NewAreaEvaluator(p, t)
  {
    var u := UpdatePositions(p, t, dtc, dtg, recomputeMeans).value;
    UpdateKeepsTimeDirection(p, t, dtc, dtg, recomputeMeans);
    assert ChildInfos(u.children) == ChildInfos(t.children);
    assert GcInfos(u.grandchildren) == GcInfos(t.grandchildren);
  }
}
